=== FILE: README.md ===
# Edge AI suites: verified models of the aggregator, metrics and captioning cores

This project models, in Dafny, the core logic of four parts of the Edge AI
Suites repository and proves properties of that logic.

- **Patient-monitoring aggregator** (health and life sciences suite):
  - the sliding time window that keeps recent vital samples per device and metric;
  - the processor that reduces a window to `{avg, min, max}` for heart rate and SpO2, or to the latest value for any other metric;
  - the consumer that feeds vitals through both;
  - the server-sent-events hub that fans envelopes out to subscribers by workload;
  - the gRPC servicers that stream vitals and publish 3D poses.
- **Metrics service** of the same suite: it reads the last line of the CPU, NPU and memory logs and builds time series from them. The power series comes from the PCM energy counters, with counter resets reported as zero.
- **Live video captioning backend** (metro suite):
  - run naming and sanitising, run start and stop, and the run registry;
  - request validation with its RTSP URL checks;
  - pipeline and model discovery;
  - the MQTT subscriber's topic handling and callback dispatch;
  - the metrics WebSocket relay between one collector and many dashboards.
- **Live video captioning browser code**:
  - the pipeline list (de-duplicated, with the last listing winning, and sorted non-detection first);
  - the API client's fallbacks and error messages;
  - the page's form handling and run teardown;
  - run-card naming and badges;
  - settings persistence, the theme and the charts' sixty-point windows;
  - the multiplexed caption stream with its agent-mode alert classes;
  - the metrics collector's batch processing and reconnect limit.
- **Smart-classroom header bar** (education suite):
  - the recording timer text and the error-message helper;
  - the notification priority chain and the two button-disabling rules;
  - the camera request list for video analytics, and how the analytics answer switches the video view on or off.

Each source file is one module. Three modules are shared:
- `Wrappers`: `Option` and `Result`;
- `Json`: a JSON value, with Python and JavaScript truthiness;
- `Text`: character classes, stripping, splitting, search and decimal rendering.

The source's mutable objects are immutable datatypes, and each operation is a function from the old state to the new one. The following are parameters:
- clocks (`time.time()`, `Date.now()`);
- uuid hex strings;
- JSON parsing and serialisation, and float parsing;
- `urlparse` and `ipaddress.ip_address`;
- datetime parsing;
- whether local storage works.

Integers are unbounded and floating-point numbers are `real`.

## Model

| member | source | states |
|---|---|---|
| TimeWindow.NewBuffer | health-and-life-sciences-ai-suite/services/aggregator-service/aggregator/buffers.py:6-8 | a new buffer keeps the given window and holds no key |
| TimeWindow.Evict | health-and-life-sciences-ai-suite/services/aggregator-service/aggregator/buffers.py:14-17 | eviction keeps a suffix of the samples, every dropped sample was expired, and the front of what is kept is not expired |
| TimeWindow.EvictUnique | health-and-life-sciences-ai-suite/services/aggregator-service/aggregator/buffers.py:16-17 | the suffix eviction keeps is the only one whose dropped prefix is all expired and whose front is fresh |
| TimeWindow.Add | health-and-life-sciences-ai-suite/services/aggregator-service/aggregator/buffers.py:10-17 | the key's samples become a suffix of the old samples plus the new one, the front is not expired at `now`, every other key and the window are unchanged |
| TimeWindow.AddKeepsFreshSample | health-and-life-sciences-ai-suite/services/aggregator-service/aggregator/buffers.py:10-17 | a sample that is not expired when added stays in the window as its newest sample |
| TimeWindow.AddWithoutEviction | health-and-life-sciences-ai-suite/services/aggregator-service/aggregator/buffers.py:10-17 | when the oldest sample is fresh, `add` only appends |
| TimeWindow.StaleSampleCanSurvive | health-and-life-sciences-ai-suite/services/aggregator-service/aggregator/buffers.py:16 | with out-of-order timestamps an expired sample can stay behind a fresh front sample |
| TimeWindow.EvictSortedIsRetained | health-and-life-sciences-ai-suite/services/aggregator-service/aggregator/buffers.py:14-17 | for sorted timestamps, eviction keeps exactly the samples that are not expired |
| TimeWindow.RetainedTwice | health-and-life-sciences-ai-suite/services/aggregator-service/aggregator/buffers.py:14-17 | filtering at an earlier clock reading and then at a later one equals filtering at the later one |
| TimeWindow.RetainedIsSubsequence | health-and-life-sciences-ai-suite/services/aggregator-service/aggregator/buffers.py:14-17 | the kept samples stay sorted, come from the input and are not older than its first sample |
| TimeWindow.AddEach | health-and-life-sciences-ai-suite/services/aggregator-service/aggregator/buffers.py:10-12 | adding a run of samples to one key leaves every other key and the window unchanged |
| TimeWindow.WindowCorrectness | health-and-life-sciences-ai-suite/services/aggregator-service/aggregator/buffers.py:10-20 | for in-order timestamps and clock readings, `get` after a run of adds returns exactly the added samples not expired at the last add, in insertion order |
| VitalProcessor.Min | health-and-life-sciences-ai-suite/microservices/aggregator-service/aggregator/processor.py:16 | `min` is one of the values and no value is smaller |
| VitalProcessor.Max | health-and-life-sciences-ai-suite/microservices/aggregator-service/aggregator/processor.py:17 | `max` is one of the values and no value is greater |
| VitalProcessor.MeanBetweenMinAndMax | health-and-life-sciences-ai-suite/microservices/aggregator-service/aggregator/processor.py:15-17 | the mean lies between the minimum and the maximum |
| VitalProcessor.MeanWithinBounds | health-and-life-sciences-ai-suite/microservices/aggregator-service/aggregator/processor.py:15 | any bounds on all values also bound their mean |
| VitalProcessor.Process | health-and-life-sciences-ai-suite/microservices/aggregator-service/aggregator/processor.py:5-24 | no samples give `None`; `HR`/`SPO2` give `min` and `max` equal to the least and greatest value, attained and bounding every value, with `avg` between them; any other metric gives the last sample's value; device and metric are copied |
| VitalProcessor.ProcessAverageIsMean | health-and-life-sciences-ai-suite/microservices/aggregator-service/aggregator/processor.py:14 | the `avg` of an `HR`/`SPO2` aggregate is the arithmetic mean (sum over count) of the window's values |
| VitalProcessor.ProcessDescribesLast | health-and-life-sciences-ai-suite/microservices/aggregator-service/aggregator/processor.py:11-24 | a non-empty window always aggregates, and the newest value is reported or lies within `min`..`max` |
| VitalProcessor.ProcessIgnoresTimestamps | health-and-life-sciences-ai-suite/microservices/aggregator-service/aggregator/processor.py:9 | two windows with the same values aggregate the same, whatever their timestamps |
| VitalProcessor.MeanTimesCountIsTotal | health-and-life-sciences-ai-suite/microservices/aggregator-service/aggregator/processor.py:15 | the mean times the number of values is their sum |
| VitalProcessor.ConstantWindow | health-and-life-sciences-ai-suite/microservices/aggregator-service/aggregator/processor.py:11-18 | a window of equal readings `c` aggregates to avg, min and max all `c` |
| VitalProcessor.HeartRateExample | health-and-life-sciences-ai-suite/microservices/aggregator-service/aggregator/processor.py:11-18 | heart rates 70, 72, 68 give avg 70, min 68, max 72 |
| VitalProcessor.LatestValueExample | health-and-life-sciences-ai-suite/microservices/aggregator-service/aggregator/processor.py:20-24 | a non-continuous metric with readings 1, 5, 3 reports 3 |
| VitalConsumer.NewConsumer | health-and-life-sciences-ai-suite/microservices/aggregator-service/aggregator/consumer.py:6-8 | a new consumer has the given window and an empty window for every key |
| VitalConsumer.DefaultConsumer | health-and-life-sciences-ai-suite/microservices/aggregator-service/aggregator/consumer.py:6 | the default window is five seconds |
| VitalConsumer.TimestampSeconds | health-and-life-sciences-ai-suite/microservices/aggregator-service/aggregator/consumer.py:12 | the stored timestamp times 1000 is the vital's millisecond timestamp |
| VitalConsumer.Filed | health-and-life-sciences-ai-suite/microservices/aggregator-service/aggregator/consumer.py:11-13 | filing a vital touches only its `(device_id, metric)` key |
| VitalConsumer.Consume | health-and-life-sciences-ai-suite/microservices/aggregator-service/aggregator/consumer.py:10-18 | the buffer gains the vital under its key, the printed aggregate is the processor's over that key's post-add window, and nothing is returned |
| VitalConsumer.FreshVitalIsAggregated | health-and-life-sciences-ai-suite/microservices/aggregator-service/aggregator/consumer.py:10-18 | a vital inside the window always yields an aggregate for its device and metric that reports or covers its value |
| VitalConsumer.ConsumeWithoutEviction | health-and-life-sciences-ai-suite/microservices/aggregator-service/aggregator/consumer.py:11-13 | while the key's oldest sample is fresh, consuming appends the vital's sample in seconds |
| VitalConsumer.ConsumeIsolatesKeys | health-and-life-sciences-ai-suite/microservices/aggregator-service/aggregator/consumer.py:11 | consuming a vital leaves every other key's window unchanged |
| VitalConsumer.ConsumeReturnsNothing | health-and-life-sciences-ai-suite/microservices/aggregator-service/aggregator/consumer.py:17-18 | even a fresh vital that was aggregated is not handed back to the caller |
| VitalConsumer.ConsumeAggregate | health-and-life-sciences-ai-suite/microservices/aggregator-service/aggregator/consumer.py:10-18 | the corrected consumer returns the same aggregate it prints and leaves the same state |
| SseManager.EmptyHub | health-and-life-sciences-ai-suite/services/aggregator-service/aggregator/ws_broadcaster.py:13-15 | a new hub has no subscribers and satisfies both invariants |
| SseManager.Interest | health-and-life-sciences-ai-suite/services/aggregator-service/aggregator/ws_broadcaster.py:24-29 | no set or an empty set gives the four default workloads; any other set is kept as given; the result is never empty |
| SseManager.Connect | health-and-life-sciences-ai-suite/services/aggregator-service/aggregator/ws_broadcaster.py:18-30 | the returned handle was not registered before and now holds an empty queue with the recorded interests; every other subscriber is unchanged |
| SseManager.Disconnect | health-and-life-sciences-ai-suite/services/aggregator-service/aggregator/ws_broadcaster.py:32-34 | the handle is removed; an unknown handle leaves the hub unchanged |
| SseManager.DisconnectIdempotent | health-and-life-sciences-ai-suite/services/aggregator-service/aggregator/ws_broadcaster.py:32-34 | disconnecting twice equals disconnecting once |
| SseManager.UpdateSubscription | health-and-life-sciences-ai-suite/services/aggregator-service/aggregator/ws_broadcaster.py:36-39 | a registered queue's interests are replaced and nothing else changes; an unknown handle leaves the hub unchanged |
| SseManager.RoutingTag | health-and-life-sciences-ai-suite/services/aggregator-service/aggregator/ws_broadcaster.py:43 | a truthy `workload` decides the tag (its string, or no tag when it is not a string); otherwise the `workload_type` string is the tag, and without one there is none |
| SseManager.Offer | health-and-life-sciences-ai-suite/services/aggregator-service/aggregator/ws_broadcaster.py:48-53 | a subscriber's queue gains the payload exactly when it wants the tag and is not full; otherwise it is unchanged |
| SseManager.Broadcast | health-and-life-sciences-ai-suite/services/aggregator-service/aggregator/ws_broadcaster.py:41-53 | the handles are unchanged, and each subscriber is offered the same serialised message under the message's routing tag |
| SseManager.Receive | health-and-life-sciences-ai-suite/services/aggregator-service/aggregator/server.py:60-65 | a non-empty registered queue gives its oldest payload and loses exactly it; otherwise nothing is taken and the hub is unchanged |
| SseManager.ConnectPreservesBounded | health-and-life-sciences-ai-suite/services/aggregator-service/aggregator/ws_broadcaster.py:27-29 | connecting keeps every queue within its capacity |
| SseManager.BroadcastPreservesInvariants | health-and-life-sciences-ai-suite/services/aggregator-service/aggregator/ws_broadcaster.py:46-53 | broadcasting keeps handles issued by the counter and queues within capacity |
| SseManager.ReceivePreservesInvariants | health-and-life-sciences-ai-suite/services/aggregator-service/aggregator/server.py:61 | taking a payload keeps both invariants |
| SseManager.BroadcastSkipsOthers | health-and-life-sciences-ai-suite/services/aggregator-service/aggregator/ws_broadcaster.py:48-53 | an uninterested or full subscriber is left exactly as it was |
| SseManager.BackpressureIsolation | health-and-life-sciences-ai-suite/services/aggregator-service/aggregator/ws_broadcaster.py:47-53 | a full queue drops the message while another interested queue with room still receives it |
| SseManager.UnboundedReceivesAllWanted | health-and-life-sciences-ai-suite/services/aggregator-service/aggregator/ws_broadcaster.py:27-50 | an unbounded queue always receives a message it wants |
| SseManager.BroadcastIsFifo | health-and-life-sciences-ai-suite/services/aggregator-service/aggregator/ws_broadcaster.py:50 | two messages broadcast in turn are received in the same order |
| SseManager.ConnectWithoutWorkloadsHearsAll | health-and-life-sciences-ai-suite/services/aggregator-service/aggregator/ws_broadcaster.py:24-25 | a client that names no workloads hears every default workload |
| SseManager.UpdateToEmptySilences | health-and-life-sciences-ai-suite/services/aggregator-service/aggregator/ws_broadcaster.py:36-39 | unlike `connect`, updating to the empty set makes every broadcast skip the client |
| AggregatorServer.WorkloadTypeSetting | health-and-life-sciences-ai-suite/services/aggregator-service/aggregator/server.py:27 | an unset variable gives `mdpnp`; a set one is used as is |
| AggregatorServer.CleanedParts | health-and-life-sciences-ai-suite/services/aggregator-service/aggregator/server.py:47 | every kept entry is non-empty, comma-free and stripped |
| AggregatorServer.ParseWorkloads | health-and-life-sciences-ai-suite/services/aggregator-service/aggregator/server.py:46-49 | the result is `None` exactly for an absent or empty query; otherwise every entry is clean |
| AggregatorServer.ParseWorkloadsOfJoin | health-and-life-sciences-ai-suite/services/aggregator-service/aggregator/server.py:46-47 | a comma-joined list of clean names parses back to exactly the set of those names |
| AggregatorServer.CleanedPartsOfClean | health-and-life-sciences-ai-suite/services/aggregator-service/aggregator/server.py:47 | clean entries survive cleaning and nothing else appears |
| AggregatorServer.BlankQuerySubscribesToAll | health-and-life-sciences-ai-suite/services/aggregator-service/aggregator/server.py:46-51 | a query made only of commas and blanks subscribes the client to every default workload |
| AggregatorServer.StreamEvents | health-and-life-sciences-ai-suite/services/aggregator-service/aggregator/server.py:46-51 | the connection registers a fresh unbounded queue whose interests come from the parsed query |
| AggregatorServer.SubscriberFor | health-and-life-sciences-ai-suite/services/aggregator-service/aggregator/server.py:46-51 | a comma-joined list of clean names gives a fresh queue interested in exactly those names |
| AggregatorServer.SseFrame | health-and-life-sciences-ai-suite/services/aggregator-service/aggregator/server.py:65 | the frame is `data: `, the payload unchanged, then a blank line |
| AggregatorServer.EventType | health-and-life-sciences-ai-suite/services/aggregator-service/aggregator/server.py:82 | `waveform` exactly when the vital has waveform samples, otherwise `numeric` |
| AggregatorServer.AggregateJson | health-and-life-sciences-ai-suite/microservices/aggregator-service/aggregator/processor.py:12-24 | the aggregate dictionary is truthy and carries the device and metric |
| AggregatorServer.Envelope | health-and-life-sciences-ai-suite/services/aggregator-service/aggregator/server.py:95-100 | the envelope has exactly the four keys; it routes by its workload type and carries the event type, the timestamp and the payload |
| AggregatorServer.Returned | health-and-life-sciences-ai-suite/services/aggregator-service/aggregator/server.py:93 | as written the consumer hands back nothing; the corrected consumer hands back the aggregate it printed |
| AggregatorServer.VitalEnvelope | health-and-life-sciences-ai-suite/services/aggregator-service/aggregator/server.py:94-100 | an envelope exists exactly when there is an aggregate; it routes by the workload type and carries the vital's event type, its millisecond timestamp unchanged and the aggregate |
| AggregatorServer.VitalEnvelopeDescribesVital | health-and-life-sciences-ai-suite/services/aggregator-service/aggregator/server.py:94-100 | the envelope of a consumed vital carries that vital's timestamp, event type, device and metric |
| AggregatorServer.StreamVitalsWith | health-and-life-sciences-ai-suite/services/aggregator-service/aggregator/server.py:79-106 | without a running loop nothing is scheduled; only a closed loop raises; every scheduled envelope routes by the workload type; as written nothing is ever scheduled |
| AggregatorServer.StreamVitals | health-and-life-sciences-ai-suite/services/aggregator-service/aggregator/server.py:79-106 | at most one envelope per vital, each routed by the service's workload type |
| AggregatorServer.ConsumeAll | health-and-life-sciences-ai-suite/services/aggregator-service/aggregator/server.py:80-93 | the consumer after the loop's successive consume calls keeps its window, and a key no vital is filed under keeps its samples |
| AggregatorServer.StreamVitalsAsWritten | health-and-life-sciences-ai-suite/services/aggregator-service/aggregator/server.py:93-105 | as written the stream schedules nothing and never raises |
| AggregatorServer.FreshVitalsAllScheduled | health-and-life-sciences-ai-suite/services/aggregator-service/aggregator/server.py:79-106 | with a running loop every fresh vital yields exactly one envelope and nothing raises |
| AggregatorServer.FreshVitalsInOrder | health-and-life-sciences-ai-suite/services/aggregator-service/aggregator/server.py:80-105 | the `i`-th envelope is built from the `i`-th vital and the aggregate over the window after the earlier vitals |
| AggregatorServer.AsWrittenNeverBroadcasts | health-and-life-sciences-ai-suite/services/aggregator-service/aggregator/server.py:93-94 | a fresh vital on a running loop is aggregated and printed, yet the stream as written schedules no envelope for it |
| AggregatorServer.AsWrittenSchedulesNothing | health-and-life-sciences-ai-suite/services/aggregator-service/aggregator/server.py:93-94 | as written no stream of vitals schedules any broadcast |
| AggregatorServer.Deliver | health-and-life-sciences-ai-suite/services/aggregator-service/aggregator/server.py:102-105 | running the scheduled broadcasts keeps the set of handles |
| AggregatorServer.DeliverToInterested | health-and-life-sciences-ai-suite/services/aggregator-service/aggregator/ws_broadcaster.py:41-50 | an unbounded queue interested in a tag receives every message with that tag, serialised, in order |
| AggregatorServer.DeliverSkipsUninterested | health-and-life-sciences-ai-suite/services/aggregator-service/aggregator/ws_broadcaster.py:47-48 | a queue not interested in a tag receives none of its messages |
| AggregatorServer.PoseMessage | health-and-life-sciences-ai-suite/services/aggregator-service/aggregator/server.py:137-145 | a pose envelope routes by `3d-pose` and has event type `pose3d` |
| AggregatorServer.PublishPose | health-and-life-sciences-ai-suite/services/aggregator-service/aggregator/server.py:116-158 | the ack is true exactly when the loop is not closed; a false ack goes with status `INTERNAL`; the pose envelope is scheduled exactly when the loop is running |
| AggregatorServer.Joints2DRoundTrip | health-and-life-sciences-ai-suite/services/aggregator-service/aggregator/server.py:120-123 | the `{x, y}` dicts read back to the 2-D joints |
| AggregatorServer.Joints3DRoundTrip | health-and-life-sciences-ai-suite/services/aggregator-service/aggregator/server.py:124-127 | the `{x, y, z}` dicts read back to the 3-D joints |
| AggregatorServer.NumbersRoundTrip | health-and-life-sciences-ai-suite/services/aggregator-service/aggregator/server.py:133 | the confidence list reads back to the confidences |
| AggregatorServer.PersonRoundTrip | health-and-life-sciences-ai-suite/services/aggregator-service/aggregator/server.py:128-135 | a person's dict reads back to the person |
| AggregatorServer.PeopleRoundTrip | health-and-life-sciences-ai-suite/services/aggregator-service/aggregator/server.py:118-135 | the people list reads back to the people, in order |
| AggregatorServer.PoseMessageRoundTrip | health-and-life-sciences-ai-suite/services/aggregator-service/aggregator/server.py:118-145 | the pose envelope loses nothing: the whole frame reads back from it |
| MetricsService.NonBlankStripped | health-and-life-sciences-ai-suite/services/metrics-service/app.py:25-26 | every kept line is non-empty and is the stripped form of some line of the file |
| MetricsService.ReadLastNonemptyLine | health-and-life-sciences-ai-suite/services/metrics-service/app.py:23-31 | a returned line is never empty |
| MetricsService.LastNonemptyLineIsLast | health-and-life-sciences-ai-suite/services/metrics-service/app.py:23-31 | there is no line exactly when the file is missing or blank throughout; otherwise the line is the stripped form of a line after which every line is blank |
| MetricsService.Clamp | health-and-life-sciences-ai-suite/services/metrics-service/app.py:42 | the result lies within the bounds and equals the input when that already does |
| MetricsService.UsageFromIdle | health-and-life-sciences-ai-suite/services/metrics-service/app.py:40-42 | the usage is a percentage; it is `100 - idle` for an idle within 0..100, 0 above and 100 below |
| MetricsService.CpuReadingOf | health-and-life-sciences-ai-suite/services/metrics-service/app.py:38-45 | the raw line is always kept; a usage is reported exactly when the last token parses, and it is the clamped `100 - idle` |
| MetricsService.ParseCpuUsage | health-and-life-sciences-ai-suite/services/metrics-service/app.py:34-45 | no reading exactly when there is no non-blank line; otherwise the reading of the last one, its usage a percentage |
| MetricsService.CpuSampleOf | health-and-life-sciences-ai-suite/services/metrics-service/app.py:141-148 | a line gives a sample exactly when it has two or more tokens and the last parses; the sample is the clamped usage |
| MetricsService.CpuSamples | health-and-life-sciences-ai-suite/services/metrics-service/app.py:139-148 | every CPU series sample is a percentage |
| MetricsService.Stamped | health-and-life-sciences-ai-suite/services/metrics-service/app.py:153-158 | one point per sample, in order, one second apart and ending at offset 0 |
| MetricsService.BuildCpuSeries | health-and-life-sciences-ai-suite/services/metrics-service/app.py:125-161 | a missing log gives no points, and every point is a percentage |
| MetricsService.CpuSeriesEndsWithLatest | health-and-life-sciences-ai-suite/services/metrics-service/app.py:125-161 | when the last line is a usable sample, the series ends at offset 0 with the usage `parse_cpu_usage` reports |
| MetricsService.LastSampleOfLastLine | health-and-life-sciences-ai-suite/services/metrics-service/app.py:139-148 | a usable last line contributes the last sample |
| MetricsService.CpuSamplesInFileOrder | health-and-life-sciences-ai-suite/services/metrics-service/app.py:139-148 | the samples of two pieces of a log are the samples of the first followed by those of the second |
| MetricsService.ParseNpuUsage | health-and-life-sciences-ai-suite/services/metrics-service/app.py:48-64 | a missing file or one with at most one line gives nothing; a reading splits the last line at its first comma into timestamp and usage |
| MetricsService.NpuSampleOf | health-and-life-sciences-ai-suite/services/metrics-service/app.py:179-183 | a row is kept exactly when it has a comma and the part after it parses; the timestamp is the comma-free part before it |
| MetricsService.BuildNpuSeries | health-and-life-sciences-ai-suite/services/metrics-service/app.py:164-188 | a missing file or a header alone gives no rows; otherwise every row after the header that parses, in order |
| MetricsService.NpuHeaderIgnored | health-and-life-sciences-ai-suite/services/metrics-service/app.py:177-178 | the header line never becomes a series row, whatever it holds |
| MetricsService.UsagePercent | health-and-life-sciences-ai-suite/services/metrics-service/app.py:223 | the percentage times the total is `used * 100` when the total is positive, else 0 |
| MetricsService.MemReadingOf | health-and-life-sciences-ai-suite/services/metrics-service/app.py:100-114 | the raw line is always kept; a reading exists exactly when there are three or more tokens and the total parses, and it carries that total |
| MetricsService.ParseMemoryUsage | health-and-life-sciences-ai-suite/services/metrics-service/app.py:83-114 | a missing log gives nothing; otherwise nothing exactly when there is no `Mem:` line, else the reading of the last one |
| MetricsService.MemoryUsesLastMemLine | health-and-life-sciences-ai-suite/services/metrics-service/app.py:91-95 | the line read is a `Mem:` line after which no line is one |
| MetricsService.MemSampleOf | health-and-life-sciences-ai-suite/services/metrics-service/app.py:214-235 | a `Mem:` line gives a sample exactly when it has four or more tokens whose second to fourth parse; total, used and free are those KiB values in GiB, and the percentage is used over total |
| MetricsService.BuildMemorySeries | health-and-life-sciences-ai-suite/services/metrics-service/app.py:191-255 | a missing log gives no points; otherwise the stamped samples of the `Mem:` lines |
| MetricsService.MemorySeriesEndsWithLatest | health-and-life-sciences-ai-suite/services/metrics-service/app.py:191-255 | when the last `Mem:` line is a usable sample, the series ends at offset 0 with the percentage `parse_memory_usage` reports |
| MetricsService.StampedLast | health-and-life-sciences-ai-suite/services/metrics-service/app.py:240-244 | the last stamped point is the last sample, at offset 0 |
| MetricsService.SampleAgreesWithReading | health-and-life-sciences-ai-suite/services/metrics-service/app.py:214-235 | a line that gives a series sample gives a reading with the same percentage |
| MetricsService.FindColumn | health-and-life-sciences-ai-suite/services/metrics-service/app.py:297-302 | a found column is the first whose lower-cased label matches; none found means no label matches |
| MetricsService.EnergyIndices | health-and-life-sciences-ai-suite/services/metrics-service/app.py:312-316 | ascending indices of columns whose label holds `energy` and `joule` in any case |
| MetricsService.EnergyIndicesComplete | health-and-life-sciences-ai-suite/services/metrics-service/app.py:312-316 | a column is an energy column exactly when its index is listed |
| MetricsService.Energies | health-and-life-sciences-ai-suite/services/metrics-service/app.py:353-370 | the energies of a row, one per energy column, or nothing when some column fails to parse |
| MetricsService.Watts | health-and-life-sciences-ai-suite/services/metrics-service/app.py:378-384 | power is never negative; it is the energy delta over the time delta when the counter did not go back, else 0 |
| MetricsService.PowerValues | health-and-life-sciences-ai-suite/services/metrics-service/app.py:377-384 | one power per counter, each from the counter's previous and current energy |
| MetricsService.PowerStep | health-and-life-sciences-ai-suite/services/metrics-service/app.py:358-393 | a step keeps one energy per column and moves the previous timestamp to this row's; an emitted row has one non-negative power per column |
| MetricsService.PowerLoop | health-and-life-sciences-ai-suite/services/metrics-service/app.py:358-393 | at most one output row per data row, each with one non-negative power per energy column |
| MetricsService.BuildPowerSeries | health-and-life-sciences-ai-suite/services/metrics-service/app.py:267-396 | a missing file or fewer than two data rows gives no rows; every row has one non-negative power per energy column |
| MetricsService.UsableRows | health-and-life-sciences-ai-suite/services/metrics-service/app.py:323-329 | the kept rows come from the input and hold every column read |
| MetricsService.UnparsableTimeSkipsRow | health-and-life-sciences-ai-suite/services/metrics-service/app.py:360-363 | a row without a timestamp emits nothing, forgets the previous timestamp and keeps the previous energies |
| MetricsService.SteadyRowsAllEmit | health-and-life-sciences-ai-suite/services/metrics-service/app.py:358-393 | when every row has a later timestamp and parsable energies, every row emits a row stamped with its time, the first powered against the previous energies |
| MetricsService.SteadyRowsStamped | health-and-life-sciences-ai-suite/services/metrics-service/app.py:358-393 | the same log emits one row per data row, stamped with that row's time |
| MetricsService.BadRowSkipped | health-and-life-sciences-ai-suite/services/metrics-service/app.py:365-375 | a row whose time does not advance or whose energies do not parse emits nothing, takes the previous timestamp and keeps the previous energies |
| MetricsService.EmitStep | health-and-life-sciences-ai-suite/services/metrics-service/app.py:377-393 | a row with a later time and parsable energies emits its powers and becomes the previous row |
| MetricsService.CounterResetReportsZero | health-and-life-sciences-ai-suite/services/metrics-service/app.py:381-384 | a counter that went back reports 0 W for that column |
| MetricsService.BuildGpuSeries | health-and-life-sciences-ai-suite/services/metrics-service/app.py:258-264 | the GPU series is empty |
| MetricsService.BuildMetricsPayload | health-and-life-sciences-ai-suite/services/metrics-service/app.py:399-419 | each series comes from its own file only: a missing file gives an empty series; the GPU series is empty and CPU values are percentages |
| RunNames.KeepRunNameChars | metro-ai-suite/live-video-analysis/live-video-captioning/app/backend/routes/runs.py:36 | only run-name characters remain, and a name made only of them is kept whole |
| RunNames.Sanitize | metro-ai-suite/live-video-analysis/live-video-captioning/app/backend/routes/runs.py:35-36 | a sanitised name holds only `[a-zA-Z0-9_-]` and no whitespace |
| RunNames.SanitizeIdempotent | metro-ai-suite/live-video-analysis/live-video-captioning/app/backend/routes/runs.py:35-36 | sanitising a sanitised name changes nothing |
| RunNames.SanitizeKeepsCleanName | metro-ai-suite/live-video-analysis/live-video-captioning/app/backend/routes/runs.py:35-36 | a name made only of run-name characters is kept exactly |
| RunNames.SanitizeJoinsWords | metro-ai-suite/live-video-analysis/live-video-captioning/app/backend/routes/runs.py:35 | two clean words separated by any whitespace run are joined by one `_` |
| RunNames.CollapseNoSpace | metro-ai-suite/live-video-analysis/live-video-captioning/app/backend/routes/runs.py:35 | a string without whitespace has nothing to collapse |
| RunNames.Candidate | metro-ai-suite/live-video-analysis/live-video-captioning/app/backend/routes/runs.py:43 | the `k`-th alternative is longer than the base and starts with it |
| RunNames.CandidateInjective | metro-ai-suite/live-video-analysis/live-video-captioning/app/backend/routes/runs.py:43 | different suffixes give different alternatives |
| RunNames.CandidatesCount | metro-ai-suite/live-video-analysis/live-video-captioning/app/backend/routes/runs.py:41-44 | `n` suffixes give `n` different alternatives |
| RunNames.TakenBound | metro-ai-suite/live-video-analysis/live-video-captioning/app/backend/routes/runs.py:42-44 | if the first `n` alternatives are all taken, at least `n` names are taken, so the loop ends |
| RunNames.FirstFreeFrom | metro-ai-suite/live-video-analysis/live-video-captioning/app/backend/routes/runs.py:41-44 | the counter stops at a free alternative with every earlier one taken |
| RunNames.FirstFreeIndex | metro-ai-suite/live-video-analysis/live-video-captioning/app/backend/routes/runs.py:41-44 | the smallest `k >= 1` whose alternative is free |
| RunNames.UniqueName | metro-ai-suite/live-video-analysis/live-video-captioning/app/backend/routes/runs.py:40-44 | the name is never taken; it is the base when that is free, else the alternative with the smallest free suffix |
| RunNames.FirstFreeIsUnique | metro-ai-suite/live-video-analysis/live-video-captioning/app/backend/routes/runs.py:41-44 | the chosen suffix is the only one that is free with every smaller one taken |
| RunNames.UniqueNameKeepsChars | metro-ai-suite/live-video-analysis/live-video-captioning/app/backend/routes/runs.py:36-43 | de-duplicating a clean base keeps it clean |
| Runs.OrElse | metro-ai-suite/live-video-analysis/live-video-captioning/app/backend/routes/runs.py:57-72 | Python `a or b`: `a` unless it is empty |
| Runs.RunNameFor | metro-ai-suite/live-video-analysis/live-video-captioning/app/backend/routes/runs.py:32-44 | a custom name exists exactly when a name was given and sanitises to something non-empty; it is then the unique form and not in the registry |
| Runs.PeerId | metro-ai-suite/live-video-analysis/live-video-captioning/app/backend/routes/runs.py:52 | the peer id is `stream-` and at most ten characters |
| Runs.PipelineIdOf | metro-ai-suite/live-video-analysis/live-video-captioning/app/backend/routes/runs.py:82 | the id holds no quote and has no surrounding whitespace |
| Runs.StartRequest | metro-ai-suite/live-video-analysis/live-video-captioning/app/backend/routes/runs.py:57-79 | the request carries the peer id, the source URL and the topic `prefix/run_id`; a blank prompt falls back to the default |
| Runs.StartRun | metro-ai-suite/live-video-analysis/live-video-captioning/app/backend/routes/runs.py:28-108 | a failure leaves the registry unchanged; it fails exactly when the server call fails or the pipeline id is empty; on success the record is stored under its run id with that pipeline id |
| Runs.Respond | metro-ai-suite/live-video-analysis/live-video-captioning/app/backend/routes/runs.py:81-90 | a failed call or an empty pipeline id (502) leaves the registry as it was; otherwise the run is recorded |
| Runs.Record | metro-ai-suite/live-video-analysis/live-video-captioning/app/backend/routes/runs.py:92-108 | the registry gains exactly the new record, with the pipeline id, peer id, topic prefix, URL and token limit of the request |
| Runs.GetRun | metro-ai-suite/live-video-analysis/live-video-captioning/app/backend/routes/runs.py:202-208 | a known run is returned as stored; any other id gives 404 |
| Runs.StopRun | metro-ai-suite/live-video-analysis/live-video-captioning/app/backend/routes/runs.py:211-228 | an unknown run gives 404 and no call; a known run gets a DELETE to its pipeline URL and is removed when the call answers or raises an `HTTPException`, and kept, with a 500, when another exception escapes |
| Runs.StartedRunMatchesRequest | metro-ai-suite/live-video-analysis/live-video-captioning/app/backend/routes/runs.py:52-106 | the record and the request agree on peer id, topic, source URL and token limit |
| Runs.RunIdKept | metro-ai-suite/live-video-analysis/live-video-captioning/app/backend/routes/runs.py:47-94 | the run id is the custom name or at most ten characters, so the record keeps it |
| Runs.NamedRunIsFresh | metro-ai-suite/live-video-analysis/live-video-captioning/app/backend/routes/runs.py:40-44 | a custom-named run never replaces an existing run and grows the registry by one |
| Runs.NamedRunTopicRoundTrip | metro-ai-suite/live-video-analysis/live-video-captioning/app/backend/routes/runs.py:75 | the subscriber reads a named run's id back from the topic the pipeline publishes on |
| Runs.AnonymousRunUsesHexId | metro-ai-suite/live-video-analysis/live-video-captioning/app/backend/routes/runs.py:47-94 | without a usable custom name the run id is ten characters of the hex id |
| Runs.StopIgnoresServer | metro-ai-suite/live-video-analysis/live-video-captioning/app/backend/routes/runs.py:219-227 | as long as the call answers or raises an `HTTPException`, the stop outcome does not depend on what the server does |
| Runs.EscapedDeleteKeepsRun | metro-ai-suite/live-video-analysis/live-video-captioning/app/backend/routes/runs.py:221-227 | an exception other than `HTTPException` from the DELETE leaves the run registered and findable |
| Runs.StartThenGetThenStop | metro-ai-suite/live-video-analysis/live-video-captioning/app/backend/routes/runs.py:107-227 | a started run can be looked up, and after a stop it cannot exactly when the DELETE did not escape with another exception |
| Runs.DuplicateNamesSharePeerId | metro-ai-suite/live-video-analysis/live-video-captioning/app/backend/routes/runs.py:43-52 | a de-duplicated name from a base of ten or more characters shares the base's peer id |
| Runs.BlankModelNamesDisagree | metro-ai-suite/live-video-analysis/live-video-captioning/app/backend/routes/runs.py:68-92 | with a blank model name the request and the record name different fallback models |
| Runs.ChangesFor | metro-ai-suite/live-video-analysis/live-video-captioning/app/backend/routes/runs.py:141-152 | one change per run of the set, each of the requested kind, no run twice |
| Runs.SyncSubscriptions | metro-ai-suite/live-video-analysis/live-video-captioning/app/backend/routes/runs.py:138-152 | after one round the subscribed set is the active set; exactly the new runs are subscribed and the stopped runs unsubscribed, each once |
| RunRequest.TrailingDotNeverMatches | metro-ai-suite/live-video-analysis/live-video-captioning/app/backend/models/requests.py:59-64 | a host name ending in a dot never matches the host-name grammar |
| RunRequest.DottedLabelsMatch | metro-ai-suite/live-video-analysis/live-video-captioning/app/backend/models/requests.py:59 | two valid labels joined by a dot match the grammar |
| RunRequest.LabelHasNoDot | metro-ai-suite/live-video-analysis/live-video-captioning/app/backend/models/requests.py:59 | a single label holds no dot |
| RunRequest.ValidateRtspUrl | metro-ai-suite/live-video-analysis/live-video-captioning/app/backend/models/requests.py:29-71 | a URL is accepted, unchanged, exactly when its scheme is rtsp or rtsps, it has a host name, and that host is an IP address or a dotted name of labels not ending in a dot; a wrong scheme is always the scheme error |
| RunRequest.TrailingDotRejectedByGrammar | metro-ai-suite/live-video-analysis/live-video-captioning/app/backend/models/requests.py:59-64 | the trailing-dot error is unreachable because the grammar check rejects those names first |
| RunRequest.IpHostAccepted | metro-ai-suite/live-video-analysis/live-video-captioning/app/backend/models/requests.py:45-49 | an rtsp URL whose host is an IP address is accepted whatever its form |
| RunRequest.Validate | metro-ai-suite/live-video-analysis/live-video-captioning/app/backend/models/requests.py:19-27 | a request is accepted exactly when the URL is given, non-empty and valid, no required field is null, and the token count and threshold are in range when given; an accepted request keeps every given value, takes the declared defaults for absent fields, and turns a null optional field into none |
| RunRequest.TokenBoundsExact | metro-ai-suite/live-video-analysis/live-video-captioning/app/backend/models/requests.py:25 | with every other field valid, the request is accepted exactly when maxNewTokens lies in 1..4096 |
| Discovery.IsDetection | metro-ai-suite/live-video-analysis/live-video-captioning/app/backend/services/discovery.py:44-59 | a pipeline is detection exactly when its parameter properties are an object with a key whose lower-case form starts with detection_; a non-object parameters value raises |
| Discovery.ExplicitKeysAreDetection | metro-ai-suite/live-video-analysis/live-video-captioning/app/backend/services/discovery.py:49-55 | detection_model_name or detection_threshold among the properties marks a detection pipeline |
| Discovery.LowerKeepsPrefix | metro-ai-suite/live-video-analysis/live-video-captioning/app/backend/services/discovery.py:56 | an already lower-case detection_ key still matches after lower-casing |
| Discovery.NoPropertiesIsNotDetection | metro-ai-suite/live-video-analysis/live-video-captioning/app/backend/services/discovery.py:46-59 | an item without parameters or without properties is non-detection |
| Discovery.ItemName | metro-ai-suite/live-video-analysis/live-video-captioning/app/backend/services/discovery.py:107-116 | an item is named by the first of version, name and id that is a string, and has no name when none is |
| Discovery.ItemsOf | metro-ai-suite/live-video-analysis/live-video-captioning/app/backend/services/discovery.py:82-90 | a list answer is the item list; an object answer takes a truthy pipelines, else a truthy items, else no items, and is unusable when the value taken is not a list; a scalar answer gives no items |
| Discovery.NamesAreNonDetection | metro-ai-suite/live-video-analysis/live-video-captioning/app/backend/services/discovery.py:103-125 | a list of plain names yields the same names, all non-detection, in order |
| Discovery.DiscoverPipelines | metro-ai-suite/live-video-analysis/live-video-captioning/app/backend/services/discovery.py:63-145 | the result is never empty, holds no detection pipeline when detection is disabled, and is the default pipeline when the server cannot be read; DiscoverPipelinesSpec gives the result for every answer |
| Discovery.DiscoverPipelinesSpec | metro-ai-suite/live-video-analysis/live-video-captioning/app/backend/services/discovery.py:78-145 | for every decoded answer: the default pipeline when the item list is unusable or some item raises; otherwise each item's own entry in order, detection entries dropped when disabled, and the default pipeline only when nothing survives |
| Discovery.EntriesPerItem | metro-ai-suite/live-video-analysis/live-video-captioning/app/backend/services/discovery.py:101-125 | the item loop raises exactly when some named item has non-object parameters, and otherwise lists each item's own entry in order: a string as a non-detection pipeline, a named object classified by its properties, anything else skipped |
| Discovery.FilterKeepsNonDetection | metro-ai-suite/live-video-analysis/live-video-captioning/app/backend/services/discovery.py:128-129 | with detection disabled, exactly the non-detection entries survive, in their order |
| Discovery.NameListIsKept | metro-ai-suite/live-video-analysis/live-video-captioning/app/backend/services/discovery.py:83-138 | a server that lists plain names yields exactly those names as non-detection pipelines |
| Discovery.KeptWhole | metro-ai-suite/live-video-analysis/live-video-captioning/app/backend/services/discovery.py:128-129 | filtering out detection pipelines keeps a list that has none |
| Discovery.BadParametersFallsBack | metro-ai-suite/live-video-analysis/live-video-captioning/app/backend/services/discovery.py:140-145 | one named item whose parameters are not an object makes the whole discovery fall back to the default pipeline |
| Discovery.EntriesFailurePersists | metro-ai-suite/live-video-analysis/live-video-captioning/app/backend/services/discovery.py:101-140 | once an item raises, no later items can rescue the loop |
| Discovery.Suffix | metro-ai-suite/live-video-analysis/live-video-captioning/app/backend/services/discovery.py:20 | a file suffix is empty or a dot-led ending of the name |
| Discovery.DiscoverModels | metro-ai-suite/live-video-analysis/live-video-captioning/app/backend/services/discovery.py:8-22 | a missing models root gives no models; otherwise the `k`-th model is the name of the `k`-th entry, in listing order, that is a visible directory or a visible .xml/.bin/.json file |
| Discovery.DiscoverModelsExact | metro-ai-suite/live-video-analysis/live-video-captioning/app/backend/services/discovery.py:13-21 | every visible directory or accepted model file is listed, and every listed name is one |
| Discovery.DiscoverDetectionModels | metro-ai-suite/live-video-analysis/live-video-captioning/app/backend/services/discovery.py:25-41 | a name is listed exactly when it is a visible directory `d` of the listing with directories `d/public` and `d/public/d` |
| Discovery.Entries | metro-ai-suite/live-video-analysis/live-video-captioning/app/backend/services/discovery.py:101-125 | the item loop yields at most one entry per item; EntriesPerItem gives the entries themselves |
| MqttSubscriber.TopicForRun | metro-ai-suite/live-video-analysis/live-video-captioning/app/backend/services/mqtt_subscriber.py:46-48 | the topic starts with the prefix and ends with the run id |
| MqttSubscriber.RunIdFromTopic | metro-ai-suite/live-video-analysis/live-video-captioning/app/backend/services/mqtt_subscriber.py:180-181 | a topic without `/` is its own run id |
| MqttSubscriber.RunIdFromTopicRoundTrip | metro-ai-suite/live-video-analysis/live-video-captioning/app/backend/services/mqtt_subscriber.py:180-181 | a run id without `/` is read back from its topic, whatever the prefix |
| MqttSubscriber.TopicForRunInjective | metro-ai-suite/live-video-analysis/live-video-captioning/app/backend/services/mqtt_subscriber.py:46-48 | different run ids without `/` have different topics |
| MqttSubscriber.SubscribeToRun | metro-ai-suite/live-video-analysis/live-video-captioning/app/backend/services/mqtt_subscriber.py:126-143 | the callback is appended to the topic's list; the broker is asked only on first registration while connected |
| MqttSubscriber.UnsubscribeFromRun | metro-ai-suite/live-video-analysis/live-video-captioning/app/backend/services/mqtt_subscriber.py:145-153 | every callback of the run's topic is dropped; an unknown run changes nothing; the broker is asked exactly when the topic was registered and the client is connected |
| MqttSubscriber.SubscribeThenUnsubscribe | metro-ai-suite/live-video-analysis/live-video-captioning/app/backend/services/mqtt_subscriber.py:126-153 | subscribing and then unsubscribing leaves no callback for the topic |
| MqttSubscriber.OnConnect | metro-ai-suite/live-video-analysis/live-video-captioning/app/backend/services/mqtt_subscriber.py:50-62 | connected exactly for return code 0, which resets the reconnect delay; any other code only clears the connected flag |
| MqttSubscriber.ResubscribedTopics | metro-ai-suite/live-video-analysis/live-video-captioning/app/backend/services/mqtt_subscriber.py:56-58 | a successful connection re-subscribes every registered topic, a failed one none |
| MqttSubscriber.ReconnectRestoresSubscriptions | metro-ai-suite/live-video-analysis/live-video-captioning/app/backend/services/mqtt_subscriber.py:50-67 | after a disconnect and a successful reconnect every registered topic is subscribed again |
| MqttSubscriber.OnDisconnect | metro-ai-suite/live-video-analysis/live-video-captioning/app/backend/services/mqtt_subscriber.py:64-67 | only the connected flag drops |
| MqttSubscriber.Connect | metro-ai-suite/live-video-analysis/live-video-captioning/app/backend/services/mqtt_subscriber.py:84-94 | a second call while a client exists changes nothing |
| MqttSubscriber.Disconnect | metro-ai-suite/live-video-analysis/live-video-captioning/app/backend/services/mqtt_subscriber.py:117-123 | the client and the connected flag go, the registry stays; without a client nothing changes |
| MqttSubscriber.NoClientNoCommands | metro-ai-suite/live-video-analysis/live-video-captioning/app/backend/services/mqtt_subscriber.py:138-151 | without a client no registry change reaches the broker |
| MqttSubscriber.PayloadData | metro-ai-suite/live-video-analysis/live-video-captioning/app/backend/services/mqtt_subscriber.py:164-176 | undecodable text becomes `{"raw": payload}`; an object with `metadata` is unwrapped to it; anything else is passed as decoded |
| MqttSubscriber.UndecodableKeepsRawText | metro-ai-suite/live-video-analysis/live-video-captioning/app/backend/services/mqtt_subscriber.py:165-168 | callbacks see the raw text of a payload that is not JSON |
| MqttSubscriber.Dispatch | metro-ai-suite/live-video-analysis/live-video-captioning/app/backend/services/mqtt_subscriber.py:162-189 | every registered callback is called once, in order, with the topic's run id, the data and the arrival time; the failed calls are exactly those that raised |
| MetricsRelay.CollectorConnect | metro-ai-suite/live-video-analysis/live-video-captioning/app/backend/routes/metrics.py:82-93 | a second collector is refused with close code 1008 and the relay state is left exactly as it was; the first collector takes the empty slot |
| MetricsRelay.CollectorRelease | metro-ai-suite/live-video-analysis/live-video-captioning/app/backend/routes/metrics.py:140-144 | the collector slot is freed only when it still holds the socket that is ending; clients are never touched |
| MetricsRelay.RejectedCollectorKeepsSlot | metro-ai-suite/live-video-analysis/live-video-captioning/app/backend/routes/metrics.py:82-144 | a refused collector that goes away does not evict the collector already connected |
| MetricsRelay.AcceptedCollectorFreesSlot | metro-ai-suite/live-video-analysis/live-video-captioning/app/backend/routes/metrics.py:82-144 | after the accepted collector ends, the next collector is accepted |
| MetricsRelay.Wrap | metro-ai-suite/live-video-analysis/live-video-captioning/app/backend/routes/metrics.py:102-110 | every batch reaches clients as an object with a metrics field: lists become that field, objects with metrics pass through, other objects become a one-element list |
| MetricsRelay.WrapIdempotent | metro-ai-suite/live-video-analysis/live-video-captioning/app/backend/routes/metrics.py:102-110 | wrapping an already wrapped batch changes nothing |
| MetricsRelay.ListBatchUnchanged | metro-ai-suite/live-video-analysis/live-video-captioning/app/backend/routes/metrics.py:102-104 | a list from the collector is delivered unchanged as the metrics field |
| MetricsRelay.Broadcast | metro-ai-suite/live-video-analysis/live-video-captioning/app/backend/routes/metrics.py:112-134 | each batch is sent wrapped to exactly the clients whose send succeeds; exactly the failed clients are dropped; the collector slot is unchanged |
| MetricsRelay.BroadcastWithoutFailures | metro-ai-suite/live-video-analysis/live-video-captioning/app/backend/routes/metrics.py:112-134 | with no failed send every client gets the batch and the relay state is unchanged |
| MetricsRelay.ClientConnect | metro-ai-suite/live-video-analysis/live-video-captioning/app/backend/routes/metrics.py:180-181 | a dashboard client joins the client set and nothing else changes |
| MetricsRelay.ClientDisconnect | metro-ai-suite/live-video-analysis/live-video-captioning/app/backend/routes/metrics.py:204-206 | a closing client leaves the set; an unknown socket is a no-op |
| MetricsRelay.ConnectThenDisconnect | metro-ai-suite/live-video-analysis/live-video-captioning/app/backend/routes/metrics.py:180-206 | a new client that connects and disconnects leaves the relay as it was |
| MetricsRelay.MetricsStatus | metro-ai-suite/live-video-analysis/live-video-captioning/app/backend/routes/metrics.py:223-232 | the status reports a collector exactly when the slot is held and counts the connected clients |
| MetricsRelay.StatusCountsClients | metro-ai-suite/live-video-analysis/live-video-captioning/app/backend/routes/metrics.py:180-232 | a new client raises the reported count by one and leaves the collector flag alone |
| PipelineList.KindOf | metro-ai-suite/live-video-analysis/live-video-captioning/app/ui/js/app.js:144 | a pipeline is detection exactly when its type is the string detection |
| PipelineList.Encode | metro-ai-suite/live-video-analysis/live-video-captioning/app/ui/js/app.js:144-145 | the object form of an entry carries its name and a type that reads back as its kind |
| PipelineList.LastNamed | metro-ai-suite/live-video-analysis/live-video-captioning/app/ui/js/services/api.js:56-57 | the last entry of a name is one of the entries with that name, and none exists exactly when no entry has it |
| PipelineList.Upsert | metro-ai-suite/live-video-analysis/live-video-captioning/app/ui/js/services/api.js:57 | setting one entry grows the list by at most one |
| PipelineList.UpsertSpec | metro-ai-suite/live-video-analysis/live-video-captioning/app/ui/js/services/api.js:56-57 | setting an entry keeps names distinct: it replaces its namesake and every other entry stays |
| PipelineList.UpsertNew | metro-ai-suite/live-video-analysis/live-video-captioning/app/ui/js/services/api.js:57 | an entry of a new name is appended at the end |
| PipelineList.Dedup | metro-ai-suite/live-video-analysis/live-video-captioning/app/ui/js/services/api.js:55-58 | de-duplication never lengthens the list |
| PipelineList.DedupSpec | metro-ai-suite/live-video-analysis/live-video-captioning/app/ui/js/services/api.js:55-58 | the de-duplicated list has distinct names and holds exactly the last entry of each name |
| PipelineList.DedupKeepsNames | metro-ai-suite/live-video-analysis/live-video-captioning/app/ui/js/services/api.js:55-58 | a name occurs in the de-duplicated list exactly when it occurs in the input |
| PipelineList.DedupDistinct | metro-ai-suite/live-video-analysis/live-video-captioning/app/ui/js/services/api.js:55-58 | a list with distinct names is its own de-duplication, in the same order |
| PipelineList.BeforeAsymmetric | metro-ai-suite/live-video-analysis/live-video-captioning/app/ui/js/services/api.js:58-63 | the comparator never puts two entries each before the other |
| PipelineList.BeforeTotal | metro-ai-suite/live-video-analysis/live-video-captioning/app/ui/js/services/api.js:58-63 | any two entries of different names are ordered one way or the other |
| PipelineList.BeforeTransitive | metro-ai-suite/live-video-analysis/live-video-captioning/app/ui/js/services/api.js:58-63 | the comparator is transitive |
| PipelineList.Insert | metro-ai-suite/live-video-analysis/live-video-captioning/app/ui/js/services/api.js:58-63 | insertion adds exactly the new entry and keeps all others |
| PipelineList.InsertSorted | metro-ai-suite/live-video-analysis/live-video-captioning/app/ui/js/services/api.js:58-63 | inserting an entry of a new name into a sorted list keeps it sorted |
| PipelineList.InsertDistinct | metro-ai-suite/live-video-analysis/live-video-captioning/app/ui/js/services/api.js:58-63 | inserting an entry of a new name keeps names distinct |
| PipelineList.Sort | metro-ai-suite/live-video-analysis/live-video-captioning/app/ui/js/services/api.js:58-63 | sorting is a permutation of its input |
| PipelineList.SortSpec | metro-ai-suite/live-video-analysis/live-video-captioning/app/ui/js/services/api.js:58-63 | sorting entries with distinct names gives a strictly ordered list with distinct names |
| PipelineList.SortedEverywhere | metro-ai-suite/live-video-analysis/live-video-captioning/app/ui/js/services/api.js:58-63 | in a sorted list every earlier entry comes before every later one |
| PipelineList.NonDetectionFirst | metro-ai-suite/live-video-analysis/live-video-captioning/app/ui/js/services/api.js:58-63 | in a sorted list no detection pipeline precedes a non-detection one, and names ascend within a kind |
| PipelineList.SortSorted | metro-ai-suite/live-video-analysis/live-video-captioning/app/ui/js/services/api.js:58-63 | sorting an already sorted list changes nothing |
| PipelineList.Normalise | metro-ai-suite/live-video-analysis/live-video-captioning/app/ui/js/app.js:141-152 | the normalised list is sorted with distinct names and is a permutation of the de-duplicated input |
| PipelineList.NormaliseIdempotent | metro-ai-suite/live-video-analysis/live-video-captioning/app/ui/js/app.js:141-152 | normalising a normalised list changes nothing |
| PipelineList.NormaliseMembers | metro-ai-suite/live-video-analysis/live-video-captioning/app/ui/js/app.js:141-152 | an entry is in the normalised list exactly when it is the last of its name in the input |
| ApiService.ModelsOr | metro-ai-suite/live-video-analysis/live-video-captioning/app/ui/js/services/api.js:15-17 | the model list is the answer's models field whenever it is truthy, whatever its type, and otherwise the one-element default list; the result is always truthy |
| ApiService.FetchModels | metro-ai-suite/live-video-analysis/live-video-captioning/app/ui/js/services/api.js:10-19 | a failed request gives the default caption model alone |
| ApiService.FetchDetectionModels | metro-ai-suite/live-video-analysis/live-video-captioning/app/ui/js/services/api.js:21-30 | a failed request gives the default detection model alone |
| ApiService.EmptyModelListPassedOn | metro-ai-suite/live-video-analysis/live-video-captioning/app/ui/js/services/api.js:15 | an empty models list is truthy and is passed on as empty rather than replaced by the default |
| ApiService.NormaliseItem | metro-ai-suite/live-video-analysis/live-video-captioning/app/ui/js/services/api.js:42-52 | a string is a non-detection pipeline; an object keeps its string pipeline_name and takes its kind from pipeline_type; an item is dropped exactly when it is neither |
| ApiService.PipelineItems | metro-ai-suite/live-video-analysis/live-video-captioning/app/ui/js/services/api.js:38 | an array pipelines field is taken as the item list |
| ApiService.FetchPipelines | metro-ai-suite/live-video-analysis/live-video-captioning/app/ui/js/services/api.js:32-74 | the result is never empty, sorted non-detection first, with distinct names; a failed request gives the default pipeline alone |
| ApiService.FetchPipelinesMembers | metro-ai-suite/live-video-analysis/live-video-captioning/app/ui/js/services/api.js:41-69 | a pipeline is listed exactly when it is the last listing of its name among the usable items |
| ApiService.RepeatedNameLastTypeWins | metro-ai-suite/live-video-analysis/live-video-captioning/app/ui/js/services/api.js:55-57 | a name listed twice keeps only the type of its last listing |
| ApiService.ValidationField | metro-ai-suite/live-video-analysis/live-video-captioning/app/ui/js/services/api.js:97-99 | the field is the last element of a non-empty loc, unknown field without a truthy loc, and a null entry throws |
| ApiService.ValidationEntries | metro-ai-suite/live-video-analysis/live-video-captioning/app/ui/js/services/api.js:97-100 | the `i`-th entry is the formatted `i`-th validation error, and formatting fails exactly when some entry is null |
| ApiService.StartErrorMessage | metro-ai-suite/live-video-analysis/live-video-captioning/app/ui/js/services/api.js:91-114 | a 422 with a detail list gives the joined validation entries (failing only when one is null); otherwise a truthy message, then a truthy detail.message, then a string detail, then the status text |
| ApiService.ValidationBeatsMessage | metro-ai-suite/live-video-analysis/live-video-captioning/app/ui/js/services/api.js:95-102 | a 422 validation failure reports field and message and ignores any message field of the body |
| ApiService.DetailStringShown | metro-ai-suite/live-video-analysis/live-video-captioning/app/ui/js/services/api.js:110-112 | a string detail is shown when the body has no message |
| ApiService.StatusTextLast | metro-ai-suite/live-video-analysis/live-video-captioning/app/ui/js/services/api.js:92 | a body with none of the recognised fields yields the status text |
| ApiService.StopRun | metro-ai-suite/live-video-analysis/live-video-captioning/app/ui/js/services/api.js:120-130 | the run counts as stopped exactly on a 2xx JSON answer, whose body is returned, and as gone exactly on 404 or 502; another failure reports message, then detail.message, then the status text, and a body that cannot be read rejects |
| ApiService.BodyOf | metro-ai-suite/live-video-analysis/live-video-captioning/app/ui/js/services/api.js:89 | the intended body: the decoded JSON, or an object whose only key is message, holding the response text |
| ApiService.BodyOfAsWritten | metro-ai-suite/live-video-analysis/live-video-captioning/app/ui/js/services/api.js:89 | as written, a body that is not JSON cannot be read a second time, so the fallback rejects instead of giving a message object |
| ApiService.BodiesAgree | metro-ai-suite/live-video-analysis/live-video-captioning/app/ui/js/services/api.js:89 | where the body as written can be read it equals the intended one; where it cannot, the intended one carries the text |
| ApiService.StartRun | metro-ai-suite/live-video-analysis/live-video-captioning/app/ui/js/services/api.js:82-118 | a start succeeds exactly on a 2xx answer with a readable body, which it returns; otherwise it fails with StartErrorMessage's text, or with the runtime's error when the body cannot be read |
| ApiService.AsWrittenNonJsonBodyRejects | metro-ai-suite/live-video-analysis/live-video-captioning/app/ui/js/services/api.js:89 | as written, a failed start or stop whose body is not JSON rejects with the runtime's error, whatever text the server sent |
| ApiService.NonJsonErrorShowsText | metro-ai-suite/live-video-analysis/live-video-captioning/app/ui/js/services/api.js:126-127 | read as intended, a failed start or stop whose body is non-empty text that is not JSON reports that text |
| ApiService.ValidationEntry | metro-ai-suite/live-video-analysis/live-video-captioning/app/ui/js/services/api.js:97-99 | formatting a validation error throws exactly when the error is null |
| AppState.SetModelOptions | metro-ai-suite/live-video-analysis/live-video-captioning/app/ui/js/app.js:102-130 | the select offers the given list when it is a non-empty array and the default alone otherwise; the default is selected exactly when it is offered, else the first option |
| AppState.EmptyModelListSelectsDefault | metro-ai-suite/live-video-analysis/live-video-captioning/app/ui/js/app.js:106-115 | an empty models answer passes the fetch but the select still offers and selects the default model |
| AppState.FailedModelFetchSelectsDefault | metro-ai-suite/live-video-analysis/live-video-captioning/app/ui/js/app.js:171-195 | a failed model request leaves the default caption and detection models selected |
| AppState.SetPipelineOptions | metro-ai-suite/live-video-analysis/live-video-captioning/app/ui/js/app.js:132-169 | the pipeline options are sorted non-detection first with distinct names, and the first option is selected whenever there is one |
| AppState.NoListShowsDefault | metro-ai-suite/live-video-analysis/live-video-captioning/app/ui/js/app.js:137-139 | anything but a non-empty array shows the default pipeline alone, selected |
| AppState.NamesOnlyGiveNoOptions | metro-ai-suite/live-video-analysis/live-video-captioning/app/ui/js/app.js:143-204 | a list of plain names, as passed after a failed fetch, leaves the pipeline select empty with nothing selected |
| AppState.FetchedListShownAsIs | metro-ai-suite/live-video-analysis/live-video-captioning/app/ui/js/app.js:199-200 | the list the fetch returns is shown unchanged with its first entry selected |
| AppState.OptionLabel | metro-ai-suite/live-video-analysis/live-video-captioning/app/ui/js/app.js:157-159 | an option shows the pipeline name, with the Detection mark appended exactly for detection pipelines |
| AppState.ShowDetectionFields | metro-ai-suite/live-video-analysis/live-video-captioning/app/ui/js/app.js:41-72 | the detection fields never show while the global flag is off |
| AppState.DetectionFieldsFollowType | metro-ai-suite/live-video-analysis/live-video-captioning/app/ui/js/app.js:41-72 | with the flag on, the detection fields show for exactly the detection pipelines, provided no name itself contains the Detection mark |
| AppState.MaxTokens | metro-ai-suite/live-video-analysis/live-video-captioning/app/ui/js/app.js:332-334 | the token count is the parsed value when positive and 70 otherwise, so never below one |
| AppState.Threshold | metro-ai-suite/live-video-analysis/live-video-captioning/app/ui/js/app.js:338-347 | a threshold is sent exactly for detection pipelines, always in [0,1], and is the parsed value whenever that is in range |
| AppState.DetectionModel | metro-ai-suite/live-video-analysis/live-video-captioning/app/ui/js/app.js:337-342 | the detection model is the trimmed chosen name for a detection pipeline with a non-blank choice, and null otherwise |
| AppState.StartPipeline | metro-ai-suite/live-video-analysis/live-video-captioning/app/ui/js/app.js:325-364 | nothing is sent exactly when the trimmed URL is blank; otherwise the trimmed URL, the prompt, model and pipeline trimmed or defaulted, the token count, threshold and detection model by their own rules, and a custom run name made unique among the page's runs |
| AppState.BackendAcceptsPageRequest | metro-ai-suite/live-video-analysis/live-video-captioning/app/backend/models/requests.py:19-71 | the backend accepts what the page sends exactly when the token count is at most 4096 and the URL passes its validator |
| AppState.BackendAcceptsBody | metro-ai-suite/live-video-analysis/live-video-captioning/app/backend/models/requests.py:19-27 | a body with a URL, a positive token count and an in-range threshold fails validation only on the token ceiling or the URL |
| AppState.NonDetectionSendsNulls | metro-ai-suite/live-video-analysis/live-video-captioning/app/ui/js/app.js:342-347 | without a detection pipeline both detection fields are sent as null |
| AppState.TearDownRun | metro-ai-suite/live-video-analysis/live-video-captioning/app/ui/js/app.js:210-223 | the run leaves the page's registry and the selection is cleared exactly when it was this run |
| AppState.TearDownKeepsOtherSelection | metro-ai-suite/live-video-analysis/live-video-captioning/app/ui/js/app.js:215-216 | tearing down another run keeps the selected run selected and registered |
| AppState.StopReaction | metro-ai-suite/live-video-analysis/live-video-captioning/app/ui/js/app.js:225-251 | an unknown run is ignored; a stopped run with a non-null body, or a missing one, is torn down; a failed stop, or a null body whose `result.notFound` throws, goes to the error handler with its message |
| AppState.StopFailedReaction | metro-ai-suite/live-video-analysis/live-video-captioning/app/ui/js/app.js:237-249 | after an error the run is torn down exactly when the lower-cased message mentions 404, not found or 502, and kept for a retry otherwise |
| AppState.NullStopBodyKeepsRun | metro-ai-suite/live-video-analysis/live-video-captioning/app/ui/js/app.js:231-249 | a stop answered with JSON null keeps the run whenever the runtime's error names none of 404, not found and 502 |
| AppState.SelectedPipelineType | metro-ai-suite/live-video-analysis/live-video-captioning/app/ui/js/app.js:74-82 | non-detection without a select or a selection; otherwise the selected option's type tag when it names a type, and undefined when it does not |
| AppState.SelectAfter | metro-ai-suite/live-video-analysis/live-video-captioning/app/ui/js/app.js:154-166 | the select holds one tagged option per entry, with the first selected when there is one |
| AppState.SelectedTypeAfterOptions | metro-ai-suite/live-video-analysis/live-video-captioning/app/ui/js/app.js:132-166 | straight after the options are set, the pipeline is treated as detection exactly when the first sorted entry is a detection pipeline |
| AppState.UnknownTagIsNonDetection | metro-ai-suite/live-video-analysis/live-video-captioning/app/ui/js/app.js:80-82 | an option whose tag names no type yields undefined, which the start request treats as non-detection |
| AppState.SelectItem | metro-ai-suite/live-video-analysis/live-video-captioning/app/ui/js/app.js:143-145 | only objects with a string pipeline_name become options, keeping that name; plain strings are skipped |
| AppState.OrDefault | metro-ai-suite/live-video-analysis/live-video-captioning/app/ui/js/app.js:329-331 | a field is sent trimmed when not blank and as its default otherwise |
| AppState.ToRaw | metro-ai-suite/live-video-analysis/live-video-captioning/app/ui/js/app.js:361-364 | the backend receives the page's URL and token count as given |
| RunCard.DisplayName | metro-ai-suite/live-video-analysis/live-video-captioning/app/ui/js/components/run-card.js:5-9 | a falsy run id comes back as it was; any other id is shown with every underscore turned into a space and nothing else changed |
| RunCard.DisplayNameRoundTrip | metro-ai-suite/live-video-analysis/live-video-captioning/app/ui/js/components/run-card.js:5-9 | a run id without spaces is recovered from its display form by turning spaces back into underscores |
| RunCard.PrepareRunName | metro-ai-suite/live-video-analysis/live-video-captioning/app/ui/js/components/run-card.js:196-202 | a prepared name is non-empty, has only letters, digits, underscores and hyphens and no space; a missing or blank name gives none |
| RunCard.PrepareIdempotent | metro-ai-suite/live-video-analysis/live-video-captioning/app/ui/js/components/run-card.js:196-202 | preparing an already prepared name changes nothing |
| RunCard.PrepareMatchesBackend | metro-ai-suite/live-video-analysis/live-video-captioning/app/ui/js/components/run-card.js:196-202 | the browser prepares a name exactly when the backend would take it as a custom run name, and both start from the same sanitised base |
| RunCard.UniqueRunName | metro-ai-suite/live-video-analysis/live-video-captioning/app/ui/js/components/run-card.js:204-214 | a falsy base gives none; otherwise the first of base, base_1, base_2, ... not among the existing run ids, the same rule the backend uses |
| RunCard.DeviceType | metro-ai-suite/live-video-analysis/live-video-captioning/app/ui/js/components/run-card.js:31 | the badge is GPU exactly when the lower-cased pipeline name mentions gpu, else CPU |
| RunCard.GpuSuffixGivesGpu | metro-ai-suite/live-video-analysis/live-video-captioning/app/ui/js/components/run-card.js:31 | a pipeline name ending in gpu in any letter case gets the GPU badge |
| RunCard.NoPipelineIsCpu | metro-ai-suite/live-video-analysis/live-video-captioning/app/ui/js/components/run-card.js:31 | a run without a pipeline name gets the CPU badge |
| Settings.Snapshot | metro-ai-suite/live-video-analysis/live-video-captioning/app/ui/js/utils/settings.js:9-16 | the saved form holds each field's current value, empty when the element is missing or blank, and a token count that is never empty (70 by default) |
| Settings.Encode | metro-ai-suite/live-video-analysis/live-video-captioning/app/ui/js/utils/settings.js:9-17 | the stored object carries every saved field under its own key, as a string |
| Settings.SaveSettings | metro-ai-suite/live-video-analysis/live-video-captioning/app/ui/js/utils/settings.js:7-21 | with storage available the stored text is the serialised snapshot; without it whatever was stored stays |
| Settings.LoadSettings | metro-ai-suite/live-video-analysis/live-video-captioning/app/ui/js/utils/settings.js:23-31 | nothing or an empty string stored loads nothing; otherwise the parse of the stored text, null when it fails |
| Settings.SaveThenLoad | metro-ai-suite/live-video-analysis/live-video-captioning/app/ui/js/utils/settings.js:7-31 | loading right after saving gives back the saved object, given a serialiser and parser that invert each other |
| Settings.RestoreInput | metro-ai-suite/live-video-analysis/live-video-captioning/app/ui/js/utils/settings.js:54-59 | an existing input takes a truthy saved value and is otherwise left alone |
| Settings.RestoreSettings | metro-ai-suite/live-video-analysis/live-video-captioning/app/ui/js/utils/settings.js:33-61 | the URL changes exactly when a saved URL differs from the configured default, the prompt exactly when it differs from the configured and the built-in default, token count and run name when truthy; selects are untouched; no settings change nothing |
| Settings.RestoreSelect | metro-ai-suite/live-video-analysis/live-video-captioning/app/ui/js/utils/settings.js:67-78 | a select keeps its options and takes the saved value only when it is truthy and one of them |
| Settings.RestoreSelectValues | metro-ai-suite/live-video-analysis/live-video-captioning/app/ui/js/utils/settings.js:63-79 | only the model and pipeline selects change, each by the saved value when offered; no settings change nothing |
| Settings.ReloadRestoresForm | metro-ai-suite/live-video-analysis/live-video-captioning/app/ui/js/utils/settings.js:7-79 | after a save and a reload the token count, a non-empty run name and any saved model or pipeline still offered come back |
| Settings.ConfiguredUrlWins | metro-ai-suite/live-video-analysis/live-video-captioning/app/ui/js/utils/settings.js:39-45 | a saved URL equal to the configured default is not restored |
| Settings.BuiltInPromptNotRestored | metro-ai-suite/live-video-analysis/live-video-captioning/app/ui/js/utils/settings.js:47-53 | a saved built-in prompt is never restored, whatever the configured default |
| Settings.ValueOr | metro-ai-suite/live-video-analysis/live-video-captioning/app/ui/js/utils/settings.js:10-15 | a field's value is kept when present and non-empty and the fallback is used otherwise |
| Settings.SelectValue | metro-ai-suite/live-video-analysis/live-video-captioning/app/ui/js/utils/settings.js:12-13 | a select offers its current value exactly when it exists |
| Settings.PromptDefault | metro-ai-suite/live-video-analysis/live-video-captioning/app/ui/js/utils/settings.js:48 | the prompt default is the configured one when set and the built-in prompt otherwise |
| Settings.Field | metro-ai-suite/live-video-analysis/live-video-captioning/app/ui/js/utils/settings.js:34-35 | fields are read only from truthy loaded settings |
| Charts.ChartKey | metro-ai-suite/live-video-analysis/live-video-captioning/app/ui/js/utils/charts.js:35 | an id without Chart is its own key; otherwise the key is the id with its first Chart cut out |
| Charts.ChartKeyRemovesFirst | metro-ai-suite/live-video-analysis/live-video-captioning/app/ui/js/utils/charts.js:35 | wherever Chart first occurs in the id, the key is the text before it followed by the text after it |
| Charts.SuffixKey | metro-ai-suite/live-video-analysis/live-video-captioning/app/ui/js/utils/charts.js:35 | a canvas id made of a name followed by Chart is registered under that name |
| Charts.Create | metro-ai-suite/live-video-analysis/live-video-captioning/app/ui/js/utils/charts.js:7-37 | without a canvas the registry is unchanged; with one the key maps to an empty series and no other chart changes |
| Charts.PushBounded | metro-ai-suite/live-video-analysis/live-video-captioning/app/ui/js/utils/charts.js:42-48 | the new point ends the series, the earlier points are kept except the oldest once the series exceeds 60 |
| Charts.Push | metro-ai-suite/live-video-analysis/live-video-captioning/app/ui/js/utils/charts.js:39-50 | a sample for an unknown key is dropped; otherwise only that chart's labels and data grow by one, bounded at 60 |
| Charts.PushKeepsWellFormed | metro-ai-suite/live-video-analysis/live-video-captioning/app/ui/js/utils/charts.js:42-48 | a push keeps a series within 60 points with labels aligned to data, and the new value is the last point |
| Charts.PushAll | metro-ai-suite/live-video-analysis/live-video-captioning/app/ui/js/utils/charts.js:42-48 | pushing any number of samples keeps a series within 60 points |
| Charts.PushAllIsWindow | metro-ai-suite/live-video-analysis/live-video-captioning/app/ui/js/utils/charts.js:42-48 | after any run of pushes the series is the last 60 values of the old series followed by the new ones |
| Charts.NewChartShowsLastSamples | metro-ai-suite/live-video-analysis/live-video-captioning/app/ui/js/utils/charts.js:42-48 | a new chart shows the last 60 samples pushed into it, in order |
| Theme.Normalise | metro-ai-suite/live-video-analysis/live-video-captioning/app/ui/js/utils/theme.js:17 | a requested theme is light exactly when it is the string light; anything else is dark |
| Theme.NameNormalises | metro-ai-suite/live-video-analysis/live-video-captioning/app/ui/js/utils/theme.js:17 | naming a mode and normalising the name gives the mode back |
| Theme.DetectInitial | metro-ai-suite/live-video-analysis/live-video-captioning/app/ui/js/utils/theme.js:7-14 | a stored light or dark wins; otherwise the theme is dark exactly when the system prefers dark |
| Theme.Offered | metro-ai-suite/live-video-analysis/live-video-captioning/app/ui/js/utils/theme.js:20 | the two toggle labels offer the dark and the light mode |
| Theme.Apply | metro-ai-suite/live-video-analysis/live-video-captioning/app/ui/js/utils/theme.js:16-25 | the page shows the normalised theme, the toggle offers the other mode, and the theme is stored when storage works |
| Theme.AppliedThemeIsRestored | metro-ai-suite/live-video-analysis/live-video-captioning/app/ui/js/utils/theme.js:7-25 | a theme applied with working storage is the one detected on the next load |
| Theme.Toggle | metro-ai-suite/live-video-analysis/live-video-captioning/app/ui/js/utils/theme.js:27-30 | toggling shows the opposite of the current mode and stores it when storage works |
| Theme.ToggleTwice | metro-ai-suite/live-video-analysis/live-video-captioning/app/ui/js/utils/theme.js:27-30 | two toggles show the starting mode again |
| Theme.ToggleTwiceNormalised | metro-ai-suite/live-video-analysis/live-video-captioning/app/ui/js/utils/theme.js:27-30 | two toggles restore a light or dark attribute exactly |
| Theme.ChartColorsOf | metro-ai-suite/live-video-analysis/live-video-captioning/app/ui/js/utils/theme.js:32-38 | the chart colours are the light palette exactly in light mode and the dark palette exactly in dark mode |
| Theme.ColorsDependOnlyOnMode | metro-ai-suite/live-video-analysis/live-video-captioning/app/ui/js/utils/theme.js:32-38 | two pages in the same mode get the same chart colours |
| Theme.ToggleChangesColors | metro-ai-suite/live-video-analysis/live-video-captioning/app/ui/js/utils/theme.js:27-38 | every toggle changes the chart colours |
| Theme.Current | metro-ai-suite/live-video-analysis/live-video-captioning/app/ui/js/utils/theme.js:28 | the page is in light mode exactly when its theme attribute is light; anything else counts as dark |
| MetadataStream.Init | metro-ai-suite/live-video-analysis/live-video-captioning/app/ui/js/services/metadata-stream.js:9-16 | a stream already open is left as it is; otherwise one stream opens with the given mode |
| MetadataStream.Close | metro-ai-suite/live-video-analysis/live-video-captioning/app/ui/js/services/metadata-stream.js:155-161 | closing drops the stream and keeps every registered card and caption time |
| MetadataStream.SecondInitKeepsConfig | metro-ai-suite/live-video-analysis/live-video-captioning/app/ui/js/services/metadata-stream.js:11-13 | a second initialisation changes nothing, so the first configuration stays in force |
| MetadataStream.Register | metro-ai-suite/live-video-analysis/live-video-captioning/app/ui/js/services/metadata-stream.js:138-140 | registering adds or replaces this run's card and leaves every other card, the stream and the caption times alone |
| MetadataStream.Unregister | metro-ai-suite/live-video-analysis/live-video-captioning/app/ui/js/services/metadata-stream.js:142-145 | unregistering removes this run's card and caption time and nothing else |
| MetadataStream.CaptionOf | metro-ai-suite/live-video-analysis/live-video-captioning/app/ui/js/services/metadata-stream.js:48-49 | the caption is an object's truthy result, a string as it is, or the serialisation of anything else; a null data throws |
| MetadataStream.Classify | metro-ai-suite/live-video-analysis/live-video-captioning/app/ui/js/services/metadata-stream.js:56-88 | a lower-cased caption with yes is an alert, one with no but not yes is safe, any other is neutral |
| MetadataStream.UpdateCard | metro-ai-suite/live-video-analysis/live-video-captioning/app/ui/js/services/metadata-stream.js:47-111 | the caption is written first; in agent mode a string caption sets the alert and safe classes by its verdict; the caption time is recorded and the lag reset exactly when nothing throws first, including a timestamp or chip value that `toFixed` cannot format |
| MetadataStream.NullTimestampNotRecorded | metro-ai-suite/live-video-analysis/live-video-captioning/app/ui/js/services/metadata-stream.js:94-109 | a null timestamp_seconds shows and classifies the caption but records no time and leaves the lag chip as it was |
| MetadataStream.OnMessage | metro-ai-suite/live-video-analysis/live-video-captioning/app/ui/js/services/metadata-stream.js:22-117 | a message changes only the card and caption time of the registered run it names; an unusable message changes nothing |
| MetadataStream.FilteredMessagesChangeNothing | metro-ai-suite/live-video-analysis/live-video-captioning/app/ui/js/services/metadata-stream.js:29-45 | messages without a run id, marked removed, or for an unregistered run change nothing |
| MetadataStream.UnregisteredRunIgnored | metro-ai-suite/live-video-analysis/live-video-captioning/app/ui/js/services/metadata-stream.js:41-45 | after a run is unregistered no later message brings back its card or caption time |
| MetadataStream.UpdateKeepsExclusive | metro-ai-suite/live-video-analysis/live-video-captioning/app/ui/js/services/metadata-stream.js:58-88 | a card never has both the alert and the safe class after an update that started without both |
| MetadataStream.OnMessageKeepsNeverBoth | metro-ai-suite/live-video-analysis/live-video-captioning/app/ui/js/services/metadata-stream.js:58-88 | every message keeps alert and safe apart on every card and caption panel |
| MetadataStream.YesTakesPrecedence | metro-ai-suite/live-video-analysis/live-video-captioning/app/ui/js/services/metadata-stream.js:58-67 | in agent mode a caption with yes raises the alert even when it also says no |
| MetadataStream.LastCaptionTime | metro-ai-suite/live-video-analysis/live-video-captioning/app/ui/js/services/metadata-stream.js:147-149 | a caption time is known exactly for runs that have one recorded, and is that time |
| MetadataStream.Target | metro-ai-suite/live-video-analysis/live-video-captioning/app/ui/js/services/metadata-stream.js:22-45 | a message targets only a registered run, and never when the stream is closed, the data is empty or it does not parse |
| MetadataStream.FlagsFor | metro-ai-suite/live-video-analysis/live-video-captioning/app/ui/js/services/metadata-stream.js:58-88 | an alert verdict sets only the alert class, a safe verdict only the safe class, never both |
| MetadataStream.Mark | metro-ai-suite/live-video-analysis/live-video-captioning/app/ui/js/services/metadata-stream.js:60-87 | a missing element stays missing and a present one gets the verdict's classes |
| MetricsCollector.FormatEngineName | metro-ai-suite/live-video-analysis/live-video-captioning/app/ui/js/services/metrics-collector.js:17-21 | an empty engine name shows as Unknown; otherwise the shown name has the same length and no underscore |
| MetricsCollector.CapitaliseOnlyChangesCase | metro-ai-suite/live-video-analysis/live-video-captioning/app/ui/js/services/metrics-collector.js:20 | capitalising words changes only the case of letters, and capitalising twice is the same as once |
| MetricsCollector.FormatIdempotent | metro-ai-suite/live-video-analysis/live-video-captioning/app/ui/js/services/metrics-collector.js:17-21 | formatting a formatted engine name changes nothing |
| MetricsCollector.UpperNameOnlyLosesUnderscores | metro-ai-suite/live-video-analysis/live-video-captioning/app/ui/js/services/metrics-collector.js:20-58 | an upper-cased engine tag is shown with underscores turned into spaces and nothing else changed |
| MetricsCollector.Step | metro-ai-suite/live-video-analysis/live-video-captioning/app/ui/js/services/metrics-collector.js:30-110 | one metric updates only what it carries: the CPU or RAM value and chart sample, the frequency of a `cur_freq` reading, the temperature of a package sensor, the GPU or package power, or one engine's usage; everything else stays as it was |
| MetricsCollector.Fold | metro-ai-suite/live-video-analysis/live-video-captioning/app/ui/js/services/metrics-collector.js:30-110 | the loop over a batch keeps the set of charts, and leaves the power, engine and GPU usage texts to the steps after the loop |
| MetricsCollector.FoldDisplay | metro-ai-suite/live-video-analysis/live-video-captioning/app/ui/js/services/metrics-collector.js:37-100 | after a batch the CPU, RAM, frequency and temperature values are the batch's last reading of each kind, or unchanged when it has none |
| MetricsCollector.FoldPower | metro-ai-suite/live-video-analysis/live-video-captioning/app/ui/js/services/metrics-collector.js:76-87 | the loop ends holding the batch's last GPU and package power readings |
| MetricsCollector.FoldEngines | metro-ai-suite/live-video-analysis/live-video-captioning/app/ui/js/services/metrics-collector.js:56-64 | an engine read in the batch holds its last reading; any other keeps what it had, since the map is never cleared |
| MetricsCollector.FoldKeepsEngines | metro-ai-suite/live-video-analysis/live-video-captioning/app/ui/js/services/metrics-collector.js:12-62 | every engine known before a batch is still known after it |
| MetricsCollector.MaxUsage | metro-ai-suite/live-video-analysis/live-video-captioning/app/ui/js/services/metrics-collector.js:136 | the overall usage bounds every engine reading and is one of them |
| MetricsCollector.Finish | metro-ai-suite/live-video-analysis/live-video-captioning/app/ui/js/services/metrics-collector.js:112-146 | power is shown when the batch had a GPU reading, engines when any are known, and the overall GPU usage as the maximum engine reading when the batch had any |
| MetricsCollector.ProcessBatch | metro-ai-suite/live-video-analysis/live-video-captioning/app/ui/js/services/metrics-collector.js:23-147 | a batch never adds or removes charts, and one cut short by a bad metric leaves the power and GPU display alone |
| MetricsCollector.PowerIsFromThisBatch | metro-ai-suite/live-video-analysis/live-video-captioning/app/ui/js/services/metrics-collector.js:26-28 | power is shown exactly when this batch has a GPU power reading, paired with this batch's package reading or none, never one left from an earlier batch |
| MetricsCollector.GpuUsageIsMaximum | metro-ai-suite/live-video-analysis/live-video-captioning/app/ui/js/services/metrics-collector.js:133-146 | with engine readings in the batch, the GPU usage shown bounds every one of them and equals one of them |
| MetricsCollector.EngineMetricsNonEmpty | metro-ai-suite/live-video-analysis/live-video-captioning/app/ui/js/services/metrics-collector.js:133-134 | a batch with an engine reading has a non-empty engine list |
| MetricsCollector.NoEngineMetricsNoGpuSample | metro-ai-suite/live-video-analysis/live-video-captioning/app/ui/js/services/metrics-collector.js:133-134 | a batch without engine readings leaves the GPU usage shown unchanged |
| MetricsCollector.OnMessage | metro-ai-suite/live-video-analysis/live-video-captioning/app/ui/js/services/metrics-collector.js:184-195 | a message without a metrics list changes nothing; otherwise the decodable prefix of the list is processed and the charts stay the same set |
| MetricsCollector.OnMessageKeepsChartsBounded | metro-ai-suite/live-video-analysis/live-video-captioning/app/ui/js/services/metrics-collector.js:184-195 | every message keeps each chart within 60 points with labels aligned to data |
| MetricsCollector.Connect | metro-ai-suite/live-video-analysis/live-video-captioning/app/ui/js/services/metrics-collector.js:159-166 | a socket that is connecting or open is kept; otherwise a new one starts connecting |
| MetricsCollector.OnOpen | metro-ai-suite/live-video-analysis/live-video-captioning/app/ui/js/services/metrics-collector.js:168-170 | an open socket resets the attempt counter |
| MetricsCollector.OnClose | metro-ai-suite/live-video-analysis/live-video-captioning/app/ui/js/services/metrics-collector.js:201-223 | a close schedules a retry and counts it exactly while fewer than 10 attempts were made |
| MetricsCollector.AttemptsBounded | metro-ai-suite/live-video-analysis/live-video-captioning/app/ui/js/services/metrics-collector.js:216-217 | the attempt counter never passes 10, whatever sequence of events happens |
| MetricsCollector.ClosesCountUp | metro-ai-suite/live-video-analysis/live-video-captioning/app/ui/js/services/metrics-collector.js:216-222 | closes without an open in between raise the counter by one each, stopping at 10 |
| MetricsCollector.GivesUpAfterTenCloses | metro-ai-suite/live-video-analysis/live-video-captioning/app/ui/js/services/metrics-collector.js:216-222 | after ten closes in a row from a fresh connection no further attempt is scheduled |
| MetricsCollector.PowerReading | metro-ai-suite/live-video-analysis/live-video-captioning/app/ui/js/services/metrics-collector.js:76-87 | a metric is a power reading of a kind exactly when it is gpu_power with a value and that type tag |
| MetricsCollector.EngineReading | metro-ai-suite/live-video-analysis/live-video-captioning/app/ui/js/services/metrics-collector.js:56-63 | a metric is an engine reading exactly when it is gpu_engine_usage with a usage and a non-empty engine tag, stored under the upper-cased tag |
| MetricsCollector.ChartSample | metro-ai-suite/live-video-analysis/live-video-captioning/app/ui/js/services/metrics-collector.js:34-54 | only CPU and memory metrics feed the cpu and ram charts during the loop |
| MetricsCollector.EngineMetrics | metro-ai-suite/live-video-analysis/live-video-captioning/app/ui/js/services/metrics-collector.js:133 | the engine metrics are exactly the batch's gpu_engine_usage metrics, empty exactly when there are none |
| MetricsCollector.LastPower | metro-ai-suite/live-video-analysis/live-video-captioning/app/ui/js/services/metrics-collector.js:76-87 | the last power reading of a kind is one of the batch's readings, and none exists exactly when no metric carries one |
| MetricsCollector.DecodePrefix | metro-ai-suite/live-video-analysis/live-video-captioning/app/ui/js/services/metrics-collector.js:30-31 | the processed metrics are the longest decodable prefix of the list, and the batch is complete exactly when every item decodes |
| MetricsCollector.MetricsOf | metro-ai-suite/live-video-analysis/live-video-captioning/app/ui/js/services/metrics-collector.js:186-189 | a message is processed exactly when it parses and its metrics field is an array |
| MetricsCollector.StepKeepsBounded | metro-ai-suite/live-video-analysis/live-video-captioning/app/ui/js/services/metrics-collector.js:37-48 | one metric keeps every chart within 60 points |
| MetricsCollector.FoldKeepsChartsBounded | metro-ai-suite/live-video-analysis/live-video-captioning/app/ui/js/services/metrics-collector.js:30-110 | a whole batch keeps every chart within 60 points |
| Header.Pad2Value | education-ai-suite/smart-classroom/ui/src/components/Header/Header.tsx:188 | a zero-padded number reads back as the number it pads |
| Header.Pad2 | education-ai-suite/smart-classroom/ui/src/components/Header/Header.tsx:188 | the padded text is all digits, at least two of them, and exactly two below 100 |
| Header.FormatTime | education-ai-suite/smart-classroom/ui/src/components/Header/Header.tsx:185-189 | the timer text is at least five characters and holds a colon |
| Header.FormatTimeReadsBack | education-ai-suite/smart-classroom/ui/src/components/Header/Header.tsx:185-189 | the timer text splits at its colon into whole minutes and two digits of seconds below 60 that together give the elapsed seconds |
| Header.ErrorMessage | education-ai-suite/smart-classroom/ui/src/components/Header/Header.tsx:37-46 | the message shown is the error's response.data.message exactly when that is a string that is not blank after trimming, and the fallback otherwise |
| Header.BlankMessageFallsBack | education-ai-suite/smart-classroom/ui/src/components/Header/Header.tsx:43 | a message that is only whitespace is never shown; the fallback is |
| Header.FirstMatchStartIff | education-ai-suite/smart-classroom/ui/src/components/Header/Header.tsx:135-162 | with no rule naming the start prompt, the first-match result is the start prompt exactly when no rule holds |
| Header.FirstMatchIsFirst | education-ai-suite/smart-classroom/ui/src/components/Header/Header.tsx:135-162 | any other notice comes from a rule that holds with no earlier rule holding |
| Header.Notification | education-ai-suite/smart-classroom/ui/src/components/Header/Header.tsx:135-162 | a mind-map error always wins |
| Header.NotificationIsFirstMatch | education-ai-suite/smart-classroom/ui/src/components/Header/Header.tsx:135-162 | the if-chain picks the notice of the first rule that holds in the priority order |
| Header.StartIffNoRule | education-ai-suite/smart-classroom/ui/src/components/Header/Header.tsx:135-162 | the header shows the start prompt exactly when none of the eight conditions holds |
| Header.TranscriptNoticesNeedSummaryOff | education-ai-suite/smart-classroom/ui/src/components/Header/Header.tsx:145-158 | the loading-transcript and analysing-audio notices show only while busy with summaries off |
| Header.RecordingDisabled | education-ai-suite/smart-classroom/ui/src/components/Header/Header.tsx:193-204 | stopping a recording is never blocked |
| Header.UploadDisabled | education-ai-suite/smart-classroom/ui/src/components/Header/Header.tsx:206-215 | upload is always blocked while recording |
| Header.ButtonsAgreeWhenIdle | education-ai-suite/smart-classroom/ui/src/components/Header/Header.tsx:193-215 | while not recording, recording is blocked exactly when upload is or no audio device exists, and upload exactly when some processing is under way |
| Header.Requests | education-ai-suite/smart-classroom/ui/src/components/Header/Header.tsx:242-251 | never more requests than cameras |
| Header.RequestsEmptyIff | education-ai-suite/smart-classroom/ui/src/components/Header/Header.tsx:236-256 | no request at all exactly when every camera is blank |
| Header.RequestsFromCameras | education-ai-suite/smart-classroom/ui/src/components/Header/Header.tsx:242-251 | every request carries a camera's pipeline and its non-empty source |
| Header.RequestPresent | education-ai-suite/smart-classroom/ui/src/components/Header/Header.tsx:242-251 | every camera with a source gets its request |
| Header.RequestFor | education-ai-suite/smart-classroom/ui/src/components/Header/Header.tsx:242-251 | with distinct pipelines, a pipeline gets a request exactly when its camera has a source, carrying that source |
| Header.Cameras | education-ai-suite/smart-classroom/ui/src/components/Header/Header.tsx:225-250 | the front, back and board settings go to the front, back and content pipelines, trimmed |
| Header.VideoRequests | education-ai-suite/smart-classroom/ui/src/components/Header/Header.tsx:236-256 | at most three requests, and none exactly when every camera setting is blank |
| Header.TrimmedCamerasGiveTrimmedRequests | education-ai-suite/smart-classroom/ui/src/components/Header/Header.tsx:243-250 | trimmed camera settings give trimmed non-empty request sources |
| Header.VideoRequestsTrimmed | education-ai-suite/smart-classroom/ui/src/components/Header/Header.tsx:243-250 | every request source is trimmed and not blank |
| Header.OneRequestPerSetCamera | education-ai-suite/smart-classroom/ui/src/components/Header/Header.tsx:242-251 | each set camera has a request, with its trimmed source, exactly when its setting is not blank |
| Header.Route | education-ai-suite/smart-classroom/ui/src/components/Header/Header.tsx:270-295 | a working front, back or content result sets that camera's stream to its hls_stream; any other result changes nothing; routing never changes whether analytics is active |
| Header.RouteAll | education-ai-suite/smart-classroom/ui/src/components/Header/Header.tsx:270-295 | routing the results never changes whether analytics is active or which stream is shown |
| Header.RouteAllLastWins | education-ai-suite/smart-classroom/ui/src/components/Header/Header.tsx:270-287 | after routing, a camera shows the hls_stream of the last result that started it |
| Header.RouteAllKeepsUnstarted | education-ai-suite/smart-classroom/ui/src/components/Header/Header.tsx:270-287 | a camera that no result started keeps the stream it had |
| Header.RouteStream | education-ai-suite/smart-classroom/ui/src/components/Header/Header.tsx:271-287 | one result sets a camera's stream exactly when it started that camera |
| Header.AnyWorking | education-ai-suite/smart-classroom/ui/src/components/Header/Header.tsx:266-273 | some stream worked exactly when some result has status success and a stream URL |
| Header.AfterAnalytics | education-ai-suite/smart-classroom/ui/src/components/Header/Header.tsx:261-325 | a call that fails switches analytics off; no results changes nothing; a non-array results switches it off; a null result routes the results before it and switches it off; otherwise the streams are routed and analytics is on, showing all, exactly when some stream started |
| Header.ActiveIffSomeStreamWorks | education-ai-suite/smart-classroom/ui/src/components/Header/Header.tsx:265-314 | with a well-formed answer the video view is active exactly when some stream started |
| Header.FailedResultsRouteNothing | education-ai-suite/smart-classroom/ui/src/components/Header/Header.tsx:270-295 | failed streams never replace a camera's stream URL |
| Header.CameraSource | education-ai-suite/smart-classroom/ui/src/components/Header/Header.tsx:225-227 | a camera setting is the store's value, else the saved one, else empty |
| Header.FirstNull | education-ai-suite/smart-classroom/ui/src/components/Header/Header.tsx:270-271 | the first null result is found exactly when one exists, with none before it |

## Left out

- Clocks, uuid generation, JSON parsing and serialisation, float parsing, `urlparse`, `ipaddress.ip_address` and datetime parsing are parameters of the operations that use them, not modelled code.
- SseManager.Connect: a queue capacity of 0 stands for an unbounded queue, which is what the hub creates (`asyncio.Queue` with `maxsize <= 0`); bounded capacities are modelled but never created by the source.
- JavaScript `localeCompare` is modelled as code-point lexicographic order (`Text.StrLess`); locale collation is not modelled.
- Text.IsSpace: follows Python's `str.isspace` set; JavaScript `trim()` and `\s` differ on U+001C to U+001F and U+0085 (Python only) and on U+FEFF (JavaScript only), so `RunCard.PrepareRunName` may disagree with a browser on those characters, while `RunNames.Sanitize` follows Python exactly.
- `toUpperCase` and `toLowerCase` (and Python `lower`) are modelled on ASCII letters only.
- asyncio locks, queue blocking, `wait_for` timeouts and WebSocket receive loops are modelled as atomic state transitions; interleavings between them are not modelled.
- The SSE heartbeat and error lines of the event generators, and their one-second retry sleep, are not modelled.
- `list_runs` (return all registered runs) is not modelled beyond the registry map itself; the multiplexed metadata generator is modelled only through its subscription bookkeeping (`Runs.ChangesFor`, `Runs.SyncSubscriptions`).
- MQTT networking through paho, the backend's urllib HTTP client, and the FastAPI, WebSocket and EventSource plumbing are not modelled; their outcomes are inputs.
- gRPC threads and `run_coroutine_threadsafe` are not modelled: whether the event loop exists is an `Option`, and a scheduled broadcast is a queued envelope.
- The AI-ECG polling loop in the aggregator server is not modelled, because the client it polls is not part of this model.
- Filesystem reads, `subprocess`, `glob` and `getmtime`, and `/proc` are not modelled; the last line of each log is an input.
- `parse_gpu_metrics` and `get_platform_info` of the metrics service are not modelled (hardware probing through subprocess output), and neither are its HTTP handler and `run_server`.
- Float formatting (`toFixed`, `isoformat`, `toLocaleTimeString`, the size-in-GB formatting) and the rounding of `statistics.mean` are not modelled; values are exact `real`s.
- VitalProcessor.Process: its contract bounds `avg` by `min` and `max` but does not name it the mean; that is stated for every input by VitalProcessor.ProcessAverageIsMean.
- MetricsService.Stamped: timestamps are second offsets rather than ISO datetime strings.
- DOM updates, Chart.js rendering and `updateChartColors`, React effects and timers, Redux dispatch, i18n (notice keys are an enumeration), audio upload and `handleRecordingToggle` are not modelled.
- The metadata stream's `onerror` reconnect timer and the text of the metrics chips are not modelled.
- The iteration order of `Object.keys` over the engine map is not modelled.
- RunRequest.Validate: Pydantic runs every validator and reports all errors; the model checks in a fixed order and reports the first failure only.
- Discovery.Suffix approximates `Path.suffix` on a bare file name: the text from the last dot, empty when the only dot leads the name or the name ends in a dot.
- Environment settings read by the backend's configuration module are boolean or string parameters; that module is not part of this model.
- Header.Notification, Header.RecordingDisabled, Header.UploadDisabled and ApiService.FetchModels: each contract states part of the behaviour; the rest is stated by NotificationIsFirstMatch, ButtonsAgreeWhenIdle and ModelsOr.
- AppState.StopReaction: the text of the `TypeError` thrown by reading `notFound` on `null` is a parameter; V8's "Cannot read properties of null (reading 'notFound')" names none of 404, not found and 502, so NullStopBodyKeepsRun applies to it.
- AppState.SelectedTypeAfterOptions: covers the select as `setPipelineOptions` leaves it; a selection that saved settings restore afterwards is covered by SelectedPipelineType for whatever index it selects, not by this lemma.
- SseManager.RoutingTag: a list or object tag, whose membership test in a Python set raises `TypeError`, is treated as a tag no subscriber wants.

## Findings

| source | as written | input that shows it | evidently intended | confidence | as-written member | corrected member |
|---|---|---|---|---|---|---|
| health-and-life-sciences-ai-suite/services/aggregator-service/aggregator/server.py:93-94 | the vitals servicer broadcasts only what `consume` returns, and the consumer modelled here returns `None`, so no vital is ever broadcast (`AggregatorServer.Returned` with `asWritten`, driven by `AggregatorServer.StreamVitalsAsWritten`) | any fresh vital sample arriving while the event loop is running | `consume` returns the aggregate it computes, and that aggregate is broadcast, once per fresh vital and in arrival order (`AggregatorServer.FreshVitalsInOrder`) | low, not executed (the consumer the servicer imports is not part of this model; the one modelled returns `None`) | AggregatorServer.AsWrittenNeverBroadcasts | AggregatorServer.FreshVitalsAllScheduled |
| metro-ai-suite/live-video-analysis/live-video-captioning/app/ui/js/services/api.js:89 | the fallback reads `resp.text()` after `resp.json()` has already consumed the body, so for a body that is not JSON the read rejects with a `TypeError` and no `{message}` object is built (`ApiService.BodyOfAsWritten`) | any failed start or stop whose body is not JSON, such as a 500 answered with an HTML page | the fallback object `{message: text}` carries the server's text, which is shown as the error (`ApiService.BodyOf`) | medium, not executed | ApiService.AsWrittenNonJsonBodyRejects | ApiService.NonJsonErrorShowsText |

=== FILE: aggregator_server.dfy ===
/**
 * The aggregator service's request handling: the `/events` subscription
 * endpoint, the vital-stream servicer that turns aggregates into envelopes,
 * and the pose servicer. gRPC, HTTP and threads are not modelled; each
 * handler is a function from its inputs and the hub or consumer state to the
 * new state and the broadcasts it schedules on the event loop.
 */
module AggregatorServer {
  import opened Wrappers
  import opened Json
  import opened Text
  import TimeWindow
  import opened VitalProcessor
  import opened VitalConsumer
  import opened SseManager

  /** The workload label an instance uses when `WORKLOAD_TYPE` is unset. */
  const DefaultWorkloadType: string := "mdpnp"

  function WorkloadTypeSetting(env: Option<string>): (w: string)
    ensures env.None? ==> w == DefaultWorkloadType
    ensures env.Some? ==> w == env.value
  {
    env.GetOr(DefaultWorkloadType)
  }

  // ---------------------------------------------------------------------------
  // `/events`

  /** The stripped, non-blank entries of a split query. */
  function CleanedParts(parts: seq<string>): (r: set<string>)
    requires forall p :: p in parts ==> ',' !in p
    ensures forall w :: w in r ==> CleanWorkload(w)
  {
    var r := set p | p in parts && Strip(p) != [] :: Strip(p);
    assert forall w :: w in r ==> CleanWorkload(w) by {
      forall w | w in r ensures CleanWorkload(w) {
        var p :| p in parts && Strip(p) != [] && Strip(p) == w;
        StripIdempotent(p);
        StripKeepsChars(p);
      }
    }
    r
  }

  /**
   * The `workloads` query parameter: absent or empty means no filter;
   * otherwise the set of comma-separated entries, stripped, blanks dropped.
   */
  function ParseWorkloads(query: Option<string>): (r: Option<set<string>>)
    ensures r.None? <==> query.None? || query.value == []
    ensures r.Some? ==> forall w :: w in r.value ==> CleanWorkload(w)
  {
    if query.None? || query.value == [] then None
    else Some(CleanedParts(Split(query.value, ',')))
  }

  /** A clean workload name: non-empty, no comma, no surrounding whitespace. */
  predicate CleanWorkload(w: string) {
    w != [] && ',' !in w && Strip(w) == w
  }

  /** Parsing a comma-joined list of clean names gives back exactly those names. */
  lemma ParseWorkloadsOfJoin(names: seq<string>)
    requires |names| > 0
    requires forall i :: 0 <= i < |names| ==> CleanWorkload(names[i])
    ensures ParseWorkloads(Some(Join(names, ","))) == Some(set w | w in names)
  {
    var q := Join(names, ",");
    assert q != [] by {
      JoinStartsWithFirst(names, ",");
    }
    assert Split(q, ',') == names by {
      SplitJoin(names, ',');
    }
    CleanedPartsOfClean(names);
  }

  /** Clean entries survive cleaning unchanged, and nothing else appears. */
  lemma CleanedPartsOfClean(names: seq<string>)
    requires forall w :: w in names ==> CleanWorkload(w)
    ensures (forall p :: p in names ==> ',' !in p) && CleanedParts(names) == set w | w in names
  {
    var got := CleanedParts(names);
    forall w | w in names ensures w in got {
      assert Strip(w) == w;
    }
    forall w | w in got ensures w in names {
      var p :| p in names && Strip(p) != [] && Strip(p) == w;
      assert Strip(p) == p;
    }
  }

  lemma {:induction false} JoinStartsWithFirst(parts: seq<string>, sep: string)
    requires |parts| > 0
    ensures |Join(parts, sep)| >= |parts[0]|
  {
  }

  /** A query made only of commas and blanks subscribes to every default workload. */
  lemma BlankQuerySubscribesToAll(h: Hub, query: string)
    requires Valid(h) && query != []
    requires forall p :: p in Split(query, ',') ==> Strip(p) == []
    ensures var (h1, q) := StreamEvents(h, Some(query));
            h1.subs[q].interest == DefaultWorkloads
  {
  }

  /** `stream_events` on connection: registers an unbounded queue with the parsed interests. */
  function StreamEvents(h: Hub, query: Option<string>): (r: (Hub, Handle))
    requires Valid(h)
    ensures Valid(r.0) && r.1 !in h.subs
    ensures r.0.subs == h.subs[r.1 := Subscriber(Interest(ParseWorkloads(query)), [], 0)]
  {
    Connect(h, ParseWorkloads(query), 0)
  }

  /** The SSE frame written for one queued payload. */
  function SseFrame(data: string): (f: string)
    ensures |f| == |data| + 8
    ensures StartsWith(f, "data: ") && EndsWith(f, "\n\n")
    ensures f[6..|f| - 2] == data
  {
    "data: " + data + "\n\n"
  }

  // ---------------------------------------------------------------------------
  // Envelopes

  /** `waveform` when the vital carries waveform samples, `numeric` otherwise. */
  function EventType(v: Vital): (e: string)
    ensures e == "waveform" <==> |v.waveform| > 0
    ensures e == "waveform" || e == "numeric"
  {
    if |v.waveform| > 0 then "waveform" else "numeric"
  }

  /** The aggregate as the dictionary `process` builds. */
  function AggregateJson(a: Aggregate): (j: Json)
    ensures j.JObj? && PyTruthy(j)
    ensures Get(j, "device_id") == Some(JStr(a.deviceId)) && Get(j, "metric") == Some(JStr(a.metric))
  {
    match a
    case Stats(d, m, avg, lo, hi) =>
      JObj(map["device_id" := JStr(d), "metric" := JStr(m), "avg" := JNum(avg),
               "min" := JNum(lo), "max" := JNum(hi)])
    case Latest(d, m, v) =>
      JObj(map["device_id" := JStr(d), "metric" := JStr(m), "value" := JNum(v)])
  }

  /** The broadcast envelope `{workload_type, event_type, timestamp, payload}`. */
  function Envelope(workloadType: string, eventType: string, timestamp: int, payload: Json): (j: Json)
    ensures RoutingTag(j) == Some(workloadType)
    ensures Get(j, "payload") == Some(payload)
    ensures Get(j, "event_type") == Some(JStr(eventType))
    ensures Get(j, "timestamp") == Some(JNum(timestamp as real))
    ensures j.JObj? && j.fields.Keys == {"workload_type", "event_type", "timestamp", "payload"}
  {
    var j := JObj(map["workload_type" := JStr(workloadType), "event_type" := JStr(eventType),
                      "timestamp" := JNum(timestamp as real), "payload" := payload]);
    assert Get(j, "workload").None?;
    j
  }

  // ---------------------------------------------------------------------------
  // `StreamVitals`

  /** The captured event loop: never captured, running, or closed (scheduling on it raises). */
  datatype EventLoop = NoLoop | Running | Closed

  /** The consumer state after a stream, the broadcasts scheduled, and whether scheduling raised. */
  datatype StreamResult = StreamResult(consumer: Consumer, scheduled: seq<Json>, raised: bool)

  /** What the servicer gets back from the consumer for one vital. */
  function Returned(c: Consumer, v: Vital, now: real, asWritten: bool): (r: Option<Aggregate>)
    ensures asWritten ==> r.None?
    ensures !asWritten ==> r == Consume(c, v, now).printed
  {
    if asWritten then Consume(c, v, now).returned else ConsumeAggregate(c, v, now).1
  }

  /** The envelope for one vital, when the consumer handed back a (truthy) aggregate. */
  function VitalEnvelope(workloadType: string, v: Vital, result: Option<Aggregate>): (m: Option<Json>)
    ensures m.Some? <==> result.Some?
    ensures m.Some? ==> RoutingTag(m.value) == Some(workloadType)
                        && Get(m.value, "event_type") == Some(JStr(EventType(v)))
                        && Get(m.value, "payload") == Some(AggregateJson(result.value))
                        && Get(m.value, "timestamp") == Some(JNum(v.timestamp as real))
  {
    if result.Some? then Some(Envelope(workloadType, EventType(v), v.timestamp, AggregateJson(result.value)))
    else None
  }

  /**
   * The envelope of a consumed vital describes that vital: its device and
   * metric in the payload, its millisecond timestamp unchanged, and the
   * event type its waveform decides.
   */
  lemma VitalEnvelopeDescribesVital(c: Consumer, workloadType: string, v: Vital, now: real)
    requires VitalEnvelope(workloadType, v, Returned(c, v, now, false)).Some?
    ensures var m := VitalEnvelope(workloadType, v, Returned(c, v, now, false)).value;
      && Get(m, "timestamp") == Some(JNum(v.timestamp as real))
      && Get(m, "event_type") == Some(JStr(if |v.waveform| > 0 then "waveform" else "numeric"))
      && Get(m, "payload").Some?
      && Get(Get(m, "payload").value, "device_id") == Some(JStr(v.deviceId))
      && Get(Get(m, "payload").value, "metric") == Some(JStr(v.metric))
  {
    var result := Returned(c, v, now, false);
    assert result.value.deviceId == v.deviceId && result.value.metric == v.metric;
  }

  /**
   * The servicer loop: each `(vital, now)` is consumed; a non-empty result
   * becomes an envelope that is scheduled when a loop was captured. A closed
   * loop makes scheduling raise, which ends the stream.
   */
  function StreamVitalsWith(c: Consumer, workloadType: string, arrivals: seq<(Vital, real)>,
                            loop: EventLoop, asWritten: bool): (r: StreamResult)
    ensures r.consumer.buffer.window == c.buffer.window
    ensures |r.scheduled| <= |arrivals|
    ensures loop != Running ==> r.scheduled == []
    ensures r.raised ==> loop == Closed
    ensures forall m :: m in r.scheduled ==> RoutingTag(m) == Some(workloadType)
    ensures asWritten ==> r.scheduled == [] && !r.raised
    decreases |arrivals|
  {
    if |arrivals| == 0 then StreamResult(c, [], false)
    else
      var v, now := arrivals[0].0, arrivals[0].1;
      var c1 := Consume(c, v, now).next;
      var message := VitalEnvelope(workloadType, v, Returned(c, v, now, asWritten));
      if message.Some? && loop == Closed then StreamResult(c1, [], true)
      else if message.Some? && loop == Running then
        var rest := StreamVitalsWith(c1, workloadType, arrivals[1..], loop, asWritten);
        StreamResult(rest.consumer, [message.value] + rest.scheduled, rest.raised)
      else StreamVitalsWith(c1, workloadType, arrivals[1..], loop, asWritten)
  }

  /** `StreamVitals` with a consumer that returns its aggregate. */
  function StreamVitals(c: Consumer, workloadType: string, arrivals: seq<(Vital, real)>, loop: EventLoop): (r: StreamResult)
    ensures |r.scheduled| <= |arrivals|
    ensures forall m :: m in r.scheduled ==> RoutingTag(m) == Some(workloadType)
  {
    StreamVitalsWith(c, workloadType, arrivals, loop, false)
  }

  /** `StreamVitals` as written, against a `consume` that returns nothing. */
  function StreamVitalsAsWritten(c: Consumer, workloadType: string, arrivals: seq<(Vital, real)>, loop: EventLoop): (r: StreamResult)
    ensures r.scheduled == [] && !r.raised
  {
    StreamVitalsWith(c, workloadType, arrivals, loop, true)
  }

  /** Every vital that is fresh when it arrives is aggregated. */
  predicate AllFresh(window: real, arrivals: seq<(Vital, real)>) {
    forall i :: 0 <= i < |arrivals| ==>
      arrivals[i].1 - TimestampSeconds(arrivals[i].0.timestamp) <= window
  }

  /**
   * With a running loop, every fresh vital produces exactly one envelope
   * and scheduling never fails.
   */
  lemma {:induction false} FreshVitalsAllScheduled(c: Consumer, workloadType: string, arrivals: seq<(Vital, real)>)
    requires AllFresh(c.buffer.window, arrivals)
    ensures var r := StreamVitals(c, workloadType, arrivals, Running);
            |r.scheduled| == |arrivals| && !r.raised
    decreases |arrivals|
  {
    if |arrivals| > 0 {
      var v, now := arrivals[0].0, arrivals[0].1;
      var c1 := Consume(c, v, now).next;
      var message := VitalEnvelope(workloadType, v, Returned(c, v, now, false));
      assert message.Some? by {
        FreshVitalIsAggregated(c, v, now);
      }
      assert AllFresh(c1.buffer.window, arrivals[1..]) by {
        FreshSuffix(c.buffer.window, arrivals);
      }
      var rest := StreamVitalsWith(c1, workloadType, arrivals[1..], Running, false);
      assert |rest.scheduled| == |arrivals| - 1 && !rest.raised by {
        FreshVitalsAllScheduled(c1, workloadType, arrivals[1..]);
      }
      StreamStep(c, workloadType, arrivals);
    }
  }

  /**
   * The consumer after filing every arrival in order: the window is kept,
   * and a key no arrival is filed under keeps its samples.
   */
  function ConsumeAll(c: Consumer, arrivals: seq<(Vital, real)>): (r: Consumer)
    ensures r.buffer.window == c.buffer.window
    ensures forall k :: (forall j :: 0 <= j < |arrivals| ==> KeyOf(arrivals[j].0) != k)
                        ==> TimeWindow.Get(r.buffer, k) == TimeWindow.Get(c.buffer, k)
    decreases |arrivals|
  {
    if |arrivals| == 0 then c
    else
      var rest := arrivals[1..];
      assert forall j :: 0 <= j < |rest| ==> rest[j] == arrivals[j + 1];
      ConsumeAll(Consume(c, arrivals[0].0, arrivals[0].1).next, rest)
  }

  /**
   * Envelopes go out in arrival order: with a running loop and fresh vitals,
   * the `i`-th scheduled envelope is the one built from the `i`-th vital and
   * what the consumer returns for it after filing the earlier vitals.
   */
  lemma {:induction false} FreshVitalsInOrder(c: Consumer, workloadType: string, arrivals: seq<(Vital, real)>, i: nat)
    requires AllFresh(c.buffer.window, arrivals) && i < |arrivals|
    ensures var r := StreamVitals(c, workloadType, arrivals, Running);
            var v := arrivals[i].0;
            i < |r.scheduled|
            && Some(r.scheduled[i])
               == VitalEnvelope(workloadType, v, Returned(ConsumeAll(c, arrivals[..i]), v, arrivals[i].1, false))
    decreases i, 1
  {
    if i == 0 {
      var v, now := arrivals[0].0, arrivals[0].1;
      assert VitalEnvelope(workloadType, v, Returned(c, v, now, false)).Some? by {
        FreshVitalIsAggregated(c, v, now);
      }
      StreamStep(c, workloadType, arrivals);
      assert arrivals[..0] == [];
    } else {
      InOrderTail(c, workloadType, arrivals, i);
    }
  }

  lemma {:induction false} InOrderTail(c: Consumer, workloadType: string, arrivals: seq<(Vital, real)>, i: nat)
    requires AllFresh(c.buffer.window, arrivals) && 0 < i < |arrivals|
    ensures var r := StreamVitals(c, workloadType, arrivals, Running);
            var v := arrivals[i].0;
            i < |r.scheduled|
            && Some(r.scheduled[i])
               == VitalEnvelope(workloadType, v, Returned(ConsumeAll(c, arrivals[..i]), v, arrivals[i].1, false))
    decreases i, 0
  {
    var v, now := arrivals[0].0, arrivals[0].1;
    var c1 := Consume(c, v, now).next;
    assert VitalEnvelope(workloadType, v, Returned(c, v, now, false)).Some? by {
      FreshVitalIsAggregated(c, v, now);
    }
    StreamStep(c, workloadType, arrivals);
    FreshSuffix(c.buffer.window, arrivals);
    FreshVitalsInOrder(c1, workloadType, arrivals[1..], i - 1);
    ConsumeAllStep(c, arrivals, i);
    assert arrivals[1..][i - 1] == arrivals[i];
  }

  lemma FreshSuffix(window: real, arrivals: seq<(Vital, real)>)
    requires AllFresh(window, arrivals) && |arrivals| > 0
    ensures AllFresh(window, arrivals[1..])
  {
    forall i | 0 <= i < |arrivals[1..]|
      ensures arrivals[1..][i].1 - TimestampSeconds(arrivals[1..][i].0.timestamp) <= window
    {
      assert arrivals[1..][i] == arrivals[i + 1];
    }
  }

  /** Filing a non-empty prefix is filing its head, then the rest of it. */
  lemma ConsumeAllStep(c: Consumer, arrivals: seq<(Vital, real)>, i: nat)
    requires 0 < i <= |arrivals|
    ensures ConsumeAll(c, arrivals[..i])
            == ConsumeAll(Consume(c, arrivals[0].0, arrivals[0].1).next, arrivals[1..][..i - 1])
  {
    assert arrivals[..i][1..] == arrivals[1..][..i - 1];
  }

  /** One step of the servicer loop, when the vital yields an envelope on a running loop. */
  lemma StreamStep(c: Consumer, workloadType: string, arrivals: seq<(Vital, real)>)
    requires |arrivals| > 0
    requires Returned(c, arrivals[0].0, arrivals[0].1, false).Some?
    ensures var rest := StreamVitalsWith(Consume(c, arrivals[0].0, arrivals[0].1).next, workloadType, arrivals[1..], Running, false);
            var m := VitalEnvelope(workloadType, arrivals[0].0, Returned(c, arrivals[0].0, arrivals[0].1, false));
            StreamVitalsWith(c, workloadType, arrivals, Running, false)
            == StreamResult(rest.consumer, [m.value] + rest.scheduled, rest.raised)
  {
    var v, now := arrivals[0].0, arrivals[0].1;
    var message := VitalEnvelope(workloadType, v, Returned(c, v, now, false));
    assert message.Some?;
  }

  /**
   * As written, a fresh vital on a running loop is aggregated and printed,
   * yet nothing is broadcast; `FreshVitalsAllScheduled` is the corrected loop,
   * which schedules one envelope for it.
   */
  lemma AsWrittenNeverBroadcasts(c: Consumer, workloadType: string, v: Vital, now: real)
    requires now - TimestampSeconds(v.timestamp) <= c.buffer.window
    ensures Consume(c, v, now).printed.Some?
    ensures StreamVitalsAsWritten(c, workloadType, [(v, now)], Running).scheduled == []
  {
    FreshVitalIsAggregated(c, v, now);
    AsWrittenSchedulesNothing(c, workloadType, [(v, now)]);
  }

  lemma AsWrittenSchedulesNothing(c: Consumer, workloadType: string, arrivals: seq<(Vital, real)>)
    ensures StreamVitalsAsWritten(c, workloadType, arrivals, Running).scheduled == []
  {
  }

  // ---------------------------------------------------------------------------
  // Delivery of scheduled broadcasts

  /** The event loop running the scheduled broadcasts in order. */
  function Deliver(h: Hub, messages: seq<Json>, serialize: Json -> string): (r: Hub)
    ensures r.next == h.next && r.subs.Keys == h.subs.Keys
    decreases |messages|
  {
    if |messages| == 0 then h
    else Deliver(Broadcast(h, messages[0], serialize), messages[1..], serialize)
  }

  function Serialized(messages: seq<Json>, serialize: Json -> string): (r: seq<string>)
    ensures |r| == |messages| && forall i :: 0 <= i < |r| ==> r[i] == serialize(messages[i])
  {
    seq(|messages|, i requires 0 <= i < |messages| => serialize(messages[i]))
  }

  /** An unbounded queue interested in a tag receives every message with that tag, in order. */
  lemma {:induction false} DeliverToInterested(h: Hub, messages: seq<Json>, serialize: Json -> string, q: Handle, tag: string)
    requires q in h.subs && h.subs[q].capacity == 0 && tag in h.subs[q].interest
    requires forall m :: m in messages ==> RoutingTag(m) == Some(tag)
    ensures Deliver(h, messages, serialize).subs[q]
            == h.subs[q].(queue := h.subs[q].queue + Serialized(messages, serialize))
    decreases |messages|
  {
    if |messages| > 0 {
      var h1 := Broadcast(h, messages[0], serialize);
      var s := h.subs[q];
      assert messages[0] in messages;
      assert forall m :: m in messages[1..] ==> m in messages;
      DeliverToInterested(h1, messages[1..], serialize, q, tag);
      SerializedCons(messages, serialize, s.queue);
    }
  }

  /** Serializing a non-empty batch serializes its head, then the rest. */
  lemma SerializedCons(messages: seq<Json>, serialize: Json -> string, queue: seq<string>)
    requires |messages| > 0
    ensures queue + [serialize(messages[0])] + Serialized(messages[1..], serialize)
            == queue + Serialized(messages, serialize)
  {
    assert Serialized(messages, serialize) == [serialize(messages[0])] + Serialized(messages[1..], serialize);
  }

  /** A queue not interested in a tag receives nothing from messages with that tag. */
  lemma {:induction false} DeliverSkipsUninterested(h: Hub, messages: seq<Json>, serialize: Json -> string, q: Handle, tag: string)
    requires q in h.subs && tag !in h.subs[q].interest
    requires forall m :: m in messages ==> RoutingTag(m) == Some(tag)
    ensures Deliver(h, messages, serialize).subs[q] == h.subs[q]
    decreases |messages|
  {
    if |messages| > 0 {
      assert messages[0] in messages;
      assert forall m :: m in messages[1..] ==> m in messages;
      DeliverSkipsUninterested(Broadcast(h, messages[0], serialize), messages[1..], serialize, q, tag);
    }
  }

  /** A client asking for a comma-joined list of clean names gets a fresh queue for exactly those names. */
  lemma SubscriberFor(h: Hub, names: seq<string>)
    requires Valid(h) && |names| > 0
    requires forall i :: 0 <= i < |names| ==> CleanWorkload(names[i])
    ensures var (h1, q) := StreamEvents(h, Some(Join(names, ",")));
            h1.subs[q] == Subscriber(set w | w in names, [], 0)
  {
    var query := Some(Join(names, ","));
    var wanted := set w | w in names;
    ParseWorkloadsOfJoin(names);
    assert ParseWorkloads(query) == Some(wanted);
    assert names[0] in wanted;
    assert Interest(ParseWorkloads(query)) == wanted;
    var r := StreamEvents(h, query);
    assert r.0.subs[r.1] == Subscriber(Interest(ParseWorkloads(query)), [], 0);
  }

  // ---------------------------------------------------------------------------
  // `PublishPose`

  datatype Joint2D = Joint2D(x: real, y: real)
  datatype Joint3D = Joint3D(x: real, y: real, z: real)
  datatype Person = Person(personId: int, joints2d: seq<Joint2D>, joints3d: seq<Joint3D>, confidence: seq<real>)
  datatype PoseFrame = PoseFrame(sourceId: string, timestampMs: int, people: seq<Person>)

  function Joint2DJson(j: Joint2D): Json {
    JObj(map["x" := JNum(j.x), "y" := JNum(j.y)])
  }

  function Joint3DJson(j: Joint3D): Json {
    JObj(map["x" := JNum(j.x), "y" := JNum(j.y), "z" := JNum(j.z)])
  }

  /** The `{x, y}` dicts `PublishPose` builds for the 2-D joints, element by element. */
  function Joints2DJson(js: seq<Joint2D>): (r: seq<Json>)
    ensures |r| == |js|
  {
    seq(|js|, i requires 0 <= i < |js| => Joint2DJson(js[i]))
  }

  function Joints3DJson(js: seq<Joint3D>): (r: seq<Json>)
    ensures |r| == |js|
  {
    seq(|js|, i requires 0 <= i < |js| => Joint3DJson(js[i]))
  }

  function NumbersJson(xs: seq<real>): (r: seq<Json>)
    ensures |r| == |xs|
  {
    seq(|xs|, i requires 0 <= i < |xs| => JNum(xs[i]))
  }

  function PeopleJson(ps: seq<Person>): (r: seq<Json>)
    ensures |r| == |ps|
  {
    seq(|ps|, i requires 0 <= i < |ps| => PersonJson(ps[i]))
  }

  function PersonJson(p: Person): Json {
    JObj(map[
      "person_id" := JNum(p.personId as real),
      "joints_2d" := JArr(Joints2DJson(p.joints2d)),
      "joints_3d" := JArr(Joints3DJson(p.joints3d)),
      "confidence" := JArr(NumbersJson(p.confidence))])
  }

  /** The `3d-pose` / `pose3d` envelope built from a frame. */
  function PoseMessage(frame: PoseFrame): (j: Json)
    ensures RoutingTag(j) == Some("3d-pose")
    ensures Get(j, "event_type") == Some(JStr("pose3d"))
  {
    Envelope("3d-pose", "pose3d", frame.timestampMs, JObj(map[
      "source_id" := JStr(frame.sourceId),
      "people" := JArr(PeopleJson(frame.people))]))
  }

  datatype StatusCode = StatusOk | Internal

  /** The `Ack`, the status code set on the call, and the broadcast scheduled, if any. */
  datatype PoseReply = PoseReply(ack: bool, status: StatusCode, scheduled: Option<Json>)

  /**
   * `PublishPose`: builds the envelope and schedules it when a loop was
   * captured; scheduling on a closed loop raises, which becomes
   * `Ack(ok=False)` with status `INTERNAL`.
   */
  function PublishPose(frame: PoseFrame, loop: EventLoop): (r: PoseReply)
    ensures r.ack <==> loop != Closed
    ensures r.status == Internal <==> !r.ack
    ensures r.scheduled.Some? <==> loop == Running
    ensures r.scheduled.Some? ==> r.scheduled.value == PoseMessage(frame)
  {
    match loop
    case NoLoop => PoseReply(true, StatusOk, None)
    case Running => PoseReply(true, StatusOk, Some(PoseMessage(frame)))
    case Closed => PoseReply(false, Internal, None)
  }

  // ---------------------------------------------------------------------------
  // Reading a pose envelope back

  function NumberOf(j: Json): Option<real> {
    if j.JNum? then Some(j.n) else None
  }

  /** A number that is a whole number, as protobuf integer fields serialize. */
  function IntOf(j: Json): Option<int> {
    if j.JNum? && j.n == (j.n.Floor as real) then Some(j.n.Floor) else None
  }

  function NumField(j: Json, key: string): Option<real> {
    var f := Get(j, key);
    if f.Some? then NumberOf(f.value) else None
  }

  function ArrField(j: Json, key: string): Option<seq<Json>> {
    var f := Get(j, key);
    if f.Some? && f.value.JArr? then Some(f.value.items) else None
  }

  function DecodeJoint2D(j: Json): Option<Joint2D> {
    var x, y := NumField(j, "x"), NumField(j, "y");
    if x.Some? && y.Some? then Some(Joint2D(x.value, y.value)) else None
  }

  function DecodeJoint3D(j: Json): Option<Joint3D> {
    var x, y, z := NumField(j, "x"), NumField(j, "y"), NumField(j, "z");
    if x.Some? && y.Some? && z.Some? then Some(Joint3D(x.value, y.value, z.value)) else None
  }

  function DecodeJoints2D(items: seq<Json>): Option<seq<Joint2D>>
    decreases |items|
  {
    if |items| == 0 then Some([])
    else
      var head, rest := DecodeJoint2D(items[0]), DecodeJoints2D(items[1..]);
      if head.Some? && rest.Some? then Some([head.value] + rest.value) else None
  }

  function DecodeJoints3D(items: seq<Json>): Option<seq<Joint3D>>
    decreases |items|
  {
    if |items| == 0 then Some([])
    else
      var head, rest := DecodeJoint3D(items[0]), DecodeJoints3D(items[1..]);
      if head.Some? && rest.Some? then Some([head.value] + rest.value) else None
  }

  function DecodeNumbers(items: seq<Json>): Option<seq<real>>
    decreases |items|
  {
    if |items| == 0 then Some([])
    else
      var head, rest := NumberOf(items[0]), DecodeNumbers(items[1..]);
      if head.Some? && rest.Some? then Some([head.value] + rest.value) else None
  }

  function DecodePerson(j: Json): Option<Person> {
    var id := Get(j, "person_id");
    var pid := if id.Some? then IntOf(id.value) else None;
    var j2, j3, c := ArrField(j, "joints_2d"), ArrField(j, "joints_3d"), ArrField(j, "confidence");
    if pid.None? || j2.None? || j3.None? || c.None? then None
    else
      var a, b, cs := DecodeJoints2D(j2.value), DecodeJoints3D(j3.value), DecodeNumbers(c.value);
      if a.Some? && b.Some? && cs.Some? then Some(Person(pid.value, a.value, b.value, cs.value)) else None
  }

  function DecodePeople(items: seq<Json>): Option<seq<Person>>
    decreases |items|
  {
    if |items| == 0 then Some([])
    else
      var head, rest := DecodePerson(items[0]), DecodePeople(items[1..]);
      if head.Some? && rest.Some? then Some([head.value] + rest.value) else None
  }

  /** Reads a frame back from a `pose3d` envelope. */
  function DecodePoseMessage(j: Json): Option<PoseFrame> {
    var ts, payload := Get(j, "timestamp"), Get(j, "payload");
    var t := if ts.Some? then IntOf(ts.value) else None;
    if t.None? || payload.None? then None
    else
      var src, people := Get(payload.value, "source_id"), ArrField(payload.value, "people");
      if src.None? || !src.value.JStr? || people.None? then None
      else
        var ps := DecodePeople(people.value);
        if ps.Some? then Some(PoseFrame(src.value.s, t.value, ps.value)) else None
  }

  lemma {:induction false} Joints2DRoundTrip(js: seq<Joint2D>)
    ensures DecodeJoints2D(Joints2DJson(js)) == Some(js)
    decreases |js|
  {
    if |js| > 0 {
      var items := Joints2DJson(js);
      assert items[1..] == Joints2DJson(js[1..]);
      Joints2DRoundTrip(js[1..]);
      assert js == [js[0]] + js[1..];
    }
  }

  lemma {:induction false} Joints3DRoundTrip(js: seq<Joint3D>)
    ensures DecodeJoints3D(Joints3DJson(js)) == Some(js)
    decreases |js|
  {
    if |js| > 0 {
      var items := Joints3DJson(js);
      assert items[1..] == Joints3DJson(js[1..]);
      Joints3DRoundTrip(js[1..]);
      assert js == [js[0]] + js[1..];
    }
  }

  lemma {:induction false} NumbersRoundTrip(xs: seq<real>)
    ensures DecodeNumbers(NumbersJson(xs)) == Some(xs)
    decreases |xs|
  {
    if |xs| > 0 {
      var items := NumbersJson(xs);
      assert items[1..] == NumbersJson(xs[1..]);
      NumbersRoundTrip(xs[1..]);
      assert xs == [xs[0]] + xs[1..];
    }
  }

  lemma PersonRoundTrip(p: Person)
    ensures DecodePerson(PersonJson(p)) == Some(p)
  {
    var j := PersonJson(p);
    assert Get(j, "person_id") == Some(JNum(p.personId as real));
    assert IntOf(JNum(p.personId as real)) == Some(p.personId);
    assert ArrField(j, "joints_2d") == Some(Joints2DJson(p.joints2d));
    assert ArrField(j, "joints_3d") == Some(Joints3DJson(p.joints3d));
    assert ArrField(j, "confidence") == Some(NumbersJson(p.confidence));
    Joints2DRoundTrip(p.joints2d);
    Joints3DRoundTrip(p.joints3d);
    NumbersRoundTrip(p.confidence);
  }

  lemma {:induction false} PeopleRoundTrip(ps: seq<Person>)
    ensures DecodePeople(PeopleJson(ps)) == Some(ps)
    decreases |ps|
  {
    if |ps| > 0 {
      PeopleJsonSplits(ps);
      PersonRoundTrip(ps[0]);
      PeopleRoundTrip(ps[1..]);
      DecodePeopleCons(PeopleJson(ps), ps[0], ps[1..]);
      assert [ps[0]] + ps[1..] == ps;
    }
  }

  lemma DecodePeopleCons(items: seq<Json>, p: Person, rest: seq<Person>)
    requires |items| > 0 && DecodePerson(items[0]) == Some(p) && DecodePeople(items[1..]) == Some(rest)
    ensures DecodePeople(items) == Some([p] + rest)
  {
  }

  lemma PeopleJsonSplits(ps: seq<Person>)
    requires |ps| > 0
    ensures PeopleJson(ps)[0] == PersonJson(ps[0]) && PeopleJson(ps)[1..] == PeopleJson(ps[1..])
  {
    var items, tail := PeopleJson(ps), PeopleJson(ps[1..]);
    assert forall i :: 0 <= i < |tail| ==> items[1..][i] == tail[i];
  }

  /** The pose envelope loses nothing: the frame can be read back from it. */
  lemma PoseMessageRoundTrip(frame: PoseFrame)
    ensures DecodePoseMessage(PoseMessage(frame)) == Some(frame)
  {
    var j := PoseMessage(frame);
    var people := PeopleJson(frame.people);
    var payload := JObj(map["source_id" := JStr(frame.sourceId), "people" := JArr(people)]);
    assert Get(j, "payload") == Some(payload);
    assert Get(j, "timestamp") == Some(JNum(frame.timestampMs as real));
    assert IntOf(JNum(frame.timestampMs as real)) == Some(frame.timestampMs);
    assert Get(payload, "source_id") == Some(JStr(frame.sourceId));
    assert ArrField(payload, "people") == Some(people);
    PeopleRoundTrip(frame.people);
  }
}

=== FILE: api_service.dfy ===
/**
 * The browser's API service of the captioning UI: the model and pipeline
 * lists with their fallbacks, the error message of a failed start
 * request, and the outcome of a stop request.
 *
 * A request's answer is a parameter: `None` when `fetch`, a non-2xx
 * status or `resp.json()` failed, otherwise the decoded body. JavaScript's
 * string conversion of a non-string value (template literals, `new
 * Error(v)`) is the `render` parameter.
 */
module ApiService {
  import opened Wrappers
  import opened Text
  import opened Json
  import Seqs
  import D = Discovery
  import PL = PipelineList

  const DefaultModel: string := "InternVL2-1B"
  const DefaultDetectionModel: string := "yolov8s"
  const DefaultPipeline: string := "GenAI_Pipeline_on_CPU"

  // ---------------------------------------------------------------------------
  // Model lists

  /**
   * `data?.models || [fallback]`: the `models` field when it is truthy,
   * whatever its type, else the one-element fallback list.
   */
  function ModelsOr(answer: Option<Json>, fallback: string): (r: Json)
    ensures JsTruthy(r)
    ensures answer.Some? && JsTruthyOpt(Get(answer.value, "models")) ==> r == Get(answer.value, "models").value
    ensures !(answer.Some? && JsTruthyOpt(Get(answer.value, "models"))) ==> r == JArr([JStr(fallback)])
  {
    if answer.Some? && JsTruthyOpt(Get(answer.value, "models")) then Get(answer.value, "models").value
    else JArr([JStr(fallback)])
  }

  /** `fetchModels`. */
  function FetchModels(answer: Option<Json>): (r: Json)
    ensures answer.None? ==> r == JArr([JStr(DefaultModel)])
  {
    ModelsOr(answer, DefaultModel)
  }

  /** `fetchDetectionModels`. */
  function FetchDetectionModels(answer: Option<Json>): (r: Json)
    ensures answer.None? ==> r == JArr([JStr(DefaultDetectionModel)])
  {
    ModelsOr(answer, DefaultDetectionModel)
  }

  /** An empty `models` list is truthy in JavaScript, so it is passed on rather than replaced. */
  lemma EmptyModelListPassedOn(answer: Json)
    requires Get(answer, "models") == Some(JArr([]))
    ensures FetchModels(Some(answer)) == JArr([])
  {
  }

  // ---------------------------------------------------------------------------
  // Pipeline list

  /**
   * One item of `data.pipelines`: an object with a string `pipeline_name`
   * keeps its name and its type (anything but `detection` is
   * non-detection); a string is a non-detection pipeline; anything else is
   * dropped.
   */
  function NormaliseItem(it: Json): (r: Option<PL.Pipeline>)
    ensures it.JStr? ==> r == Some(D.PipelineInfo(it.s, D.NonDetection))
    ensures r.Some? && !it.JStr? ==> Get(it, "pipeline_name") == Some(JStr(r.value.name))
    ensures r.Some? && !it.JStr? ==> r.value.kind == PL.KindOf(Get(it, "pipeline_type"))
    ensures r.None? <==> !it.JStr? && !(Get(it, "pipeline_name").Some? && Get(it, "pipeline_name").value.JStr?)
  {
    if it.JObj? && "pipeline_name" in it.fields && it.fields["pipeline_name"].JStr? then
      Some(D.PipelineInfo(it.fields["pipeline_name"].s, PL.KindOf(Get(it, "pipeline_type"))))
    else if it.JStr? then Some(D.PipelineInfo(it.s, D.NonDetection))
    else None
  }

  function Fallback(): seq<PL.Pipeline> {
    [D.PipelineInfo(DefaultPipeline, D.NonDetection)]
  }

  /** `Array.isArray(data?.pipelines) ? data.pipelines : []`. */
  function PipelineItems(answer: Json): (r: seq<Json>)
    ensures Get(answer, "pipelines").Some? && Get(answer, "pipelines").value.JArr? ==> r == Get(answer, "pipelines").value.items
  {
    match Get(answer, "pipelines")
    case Some(JArr(items)) => items
    case _ => []
  }

  /**
   * `fetchPipelines`: the normalised entries, de-duplicated and sorted; the
   * default pipeline alone when the request failed or nothing was left.
   */
  function FetchPipelines(answer: Option<Json>): (r: seq<PL.Pipeline>)
    ensures |r| >= 1 && PL.Sorted(r) && PL.DistinctNames(r)
    ensures answer.None? ==> r == Fallback()
  {
    if answer.None? then Fallback()
    else
      var normalised := PL.Normalise(Seqs.FilterMap(PipelineItems(answer.value), NormaliseItem));
      if normalised == [] then Fallback() else normalised
  }

  /**
   * A successful answer lists exactly the last version of each named
   * item, unless none was usable.
   */
  lemma FetchPipelinesMembers(answer: Json, q: PL.Pipeline)
    requires Seqs.FilterMap(PipelineItems(answer), NormaliseItem) != []
    ensures var entries := Seqs.FilterMap(PipelineItems(answer), NormaliseItem);
      q in FetchPipelines(Some(answer)) <==> PL.LastNamed(entries, q.name) == Some(q)
  {
    var entries := Seqs.FilterMap(PipelineItems(answer), NormaliseItem);
    PL.DedupKeepsNames(entries, entries[0].name);
    PL.DedupSpec(entries);
    assert entries[0] in entries;
    var d := PL.Dedup(entries);
    var w :| w in d && w.name == entries[0].name;
    assert w in multiset(PL.Normalise(entries));
    PL.NormaliseMembers(entries, q);
  }

  /** A listed pipeline appears in the answer only with the type of its last listing. */
  lemma RepeatedNameLastTypeWins(name: string, first: D.PipelineType, last: D.PipelineType)
    ensures PL.Normalise([D.PipelineInfo(name, first), D.PipelineInfo(name, last)]) == [D.PipelineInfo(name, last)]
  {
    var ps := [D.PipelineInfo(name, first), D.PipelineInfo(name, last)];
    assert ps[..1] == [D.PipelineInfo(name, first)];
    assert PL.Dedup(ps[..1]) == [D.PipelineInfo(name, first)] by {
      assert ps[..1][..0] == [];
    }
    assert PL.Dedup(ps) == [D.PipelineInfo(name, last)];
    var r := PL.Normalise(ps);
    assert |r| == 1 by {
      assert |multiset(r)| == 1;
    }
    assert r[0] in multiset(r);
  }

  // ---------------------------------------------------------------------------
  // Start and stop

  /** `String(v)` for a value that is already a string, `render(v)` otherwise. */
  function AsText(v: Json, render: Json -> string): (r: string)
    ensures v.JStr? ==> r == v.s
  {
    if v.JStr? then v.s else render(v)
  }

  /**
   * The field of one validation error: the last element of a truthy `loc`
   * (`undefined` when that is out of range), `unknown field` otherwise.
   * `None` when the entry is `null`, where reading `.loc` throws.
   */
  function ValidationField(error: Json, render: Json -> string): (r: Option<string>)
    ensures error.JNull? <==> r.None?
    ensures (Get(error, "loc").Some? && Get(error, "loc").value.JArr? && Get(error, "loc").value.items != [])
            ==> r == Some(AsText(Seqs.Last(Get(error, "loc").value.items), render))
    ensures !error.JNull? && !JsTruthyOpt(Get(error, "loc")) ==> r == Some("unknown field")
  {
    if error.JNull? then None
    else
      match Get(error, "loc")
      case Some(loc) =>
        if !JsTruthy(loc) then Some("unknown field")
        else if loc.JArr? && loc.items != [] then Some(AsText(Seqs.Last(loc.items), render))
        else if loc.JStr? then Some([loc.s[|loc.s| - 1]])
        else Some("undefined")
      case None => Some("unknown field")
  }

  /** `${field}: ${error.msg}` for one validation error. */
  function ValidationEntry(error: Json, render: Json -> string): (r: Option<string>)
    ensures r.None? <==> error.JNull?
  {
    match ValidationField(error, render)
    case None => None
    case Some(field) =>
      var msg := match Get(error, "msg") case Some(m) => AsText(m, render) case None => "undefined";
      Some(field + ": " + msg)
  }

  /** The entries of a validation-error list, `None` as soon as one throws. */
  function ValidationEntries(errors: seq<Json>, render: Json -> string): (r: Option<seq<string>>)
    ensures r.Some? ==> |r.value| == |errors|
    ensures r.Some? ==> forall i :: 0 <= i < |errors| ==> Some(r.value[i]) == ValidationEntry(errors[i], render)
    ensures r.None? <==> exists i :: 0 <= i < |errors| && errors[i].JNull?
    decreases |errors|
  {
    if |errors| == 0 then Some([])
    else
      match ValidationEntry(errors[0], render)
      case None => None
      case Some(e) =>
        match ValidationEntries(errors[1..], render)
        case Some(rest) => Some([e] + rest)
        case None =>
          assert exists i :: 0 <= i < |errors| && errors[i].JNull? by {
            var i :| 0 <= i < |errors| - 1 && errors[1..][i].JNull?;
            assert errors[i + 1].JNull?;
          }
          None
  }

  /** A 422 answer whose `detail` is a list: FastAPI's validation errors. */
  predicate IsValidationFailure(status: int, data: Json) {
    status == 422 && Get(data, "detail").Some? && Get(data, "detail").value.JArr?
  }

  /**
   * The message of a failed `startRun`, in order of precedence: a 422 with
   * an array `detail` joins the validation entries with `, `; then a truthy
   * `message`; then a truthy `detail.message`; then a string `detail`; then
   * the status text. `None` when formatting a validation entry throws.
   */
  function StartErrorMessage(status: int, statusText: string, data: Json, render: Json -> string): (r: Option<string>)
    ensures r.None? ==> status == 422
    ensures IsValidationFailure(status, data) ==>
              var entries := ValidationEntries(Get(data, "detail").value.items, render);
              (r.None? <==> entries.None?) && (r.Some? ==> r.value == Join(entries.value, ", "))
    ensures !IsValidationFailure(status, data) && JsTruthyOpt(Get(data, "message"))
            ==> r == Some(AsText(Get(data, "message").value, render))
    ensures !IsValidationFailure(status, data) && !JsTruthyOpt(Get(data, "message"))
              && Get(data, "detail").Some? && JsTruthyOpt(Get(Get(data, "detail").value, "message"))
            ==> r == Some(AsText(Get(Get(data, "detail").value, "message").value, render))
    ensures !IsValidationFailure(status, data) && !JsTruthyOpt(Get(data, "message"))
              && !(Get(data, "detail").Some? && JsTruthyOpt(Get(Get(data, "detail").value, "message")))
              && Get(data, "detail").Some? && Get(data, "detail").value.JStr?
            ==> r == Some(Get(data, "detail").value.s)
    ensures !IsValidationFailure(status, data) && !JsTruthyOpt(Get(data, "message"))
              && !(Get(data, "detail").Some? && JsTruthyOpt(Get(Get(data, "detail").value, "message")))
              && !(Get(data, "detail").Some? && Get(data, "detail").value.JStr?)
            ==> r == Some(statusText)
  {
    var detail := Get(data, "detail");
    if IsValidationFailure(status, data) then
      match ValidationEntries(detail.value.items, render)
      case None => None
      case Some(entries) => Some(Join(entries, ", "))
    else if JsTruthyOpt(Get(data, "message")) then Some(AsText(Get(data, "message").value, render))
    else if detail.Some? && JsTruthyOpt(Get(detail.value, "message")) then Some(AsText(Get(detail.value, "message").value, render))
    else if detail.Some? && detail.value.JStr? then Some(detail.value.s)
    else Some(statusText)
  }

  // ---------------------------------------------------------------------------
  // Reading an answer's body

  /** A response body as the server sent it: text that decodes as JSON, or other text. */
  datatype Body = Decoded(value: Json) | NotJson(text: string)

  /**
   * `resp.json().catch(async () => ({ message: await resp.text() }))` as
   * written: `json()` has already consumed the body, and a body can be read
   * only once, so the `text()` in the handler rejects with a `TypeError`
   * and no `{message}` object is built. `None` is that rejection.
   */
  function BodyOfAsWritten(body: Body): (r: Option<Json>)
    ensures r.None? <==> body.NotJson?
    ensures body.Decoded? ==> r == Some(body.value)
  {
    match body
    case Decoded(j) => Some(j)
    case NotJson(_) => None
  }

  /** The evidently intended body: the decoded value, or `{message: text}` for a body that is not JSON. */
  function BodyOf(body: Body): (r: Json)
    ensures body.Decoded? ==> r == body.value
    ensures body.NotJson? ==> r.JObj? && r.fields.Keys == {"message"} && Get(r, "message") == Some(JStr(body.text))
  {
    match body
    case Decoded(j) => j
    case NotJson(text) => JObj(map["message" := JStr(text)])
  }

  /** Where the body as written can be read, it is the intended one. */
  lemma BodiesAgree(body: Body)
    ensures BodyOfAsWritten(body).Some? ==> BodyOfAsWritten(body).value == BodyOf(body)
    ensures BodyOfAsWritten(body).None? ==> Get(BodyOf(body), "message") == Some(JStr(body.text))
  {
  }

  /** What the body reading of `startRun`/`stopRun` gives: as written, or as intended. */
  function ReadBody(body: Body, asWritten: bool): Option<Json> {
    if asWritten then BodyOfAsWritten(body) else Some(BodyOf(body))
  }

  // ---------------------------------------------------------------------------
  // Start and stop outcomes

  datatype StartOutcome = Started(body: Json) | StartFailed(message: string)

  /**
   * `startRun` on an answer: the body is read first; a 2xx answer gives it,
   * any other fails with `StartErrorMessage`. `thrown` is the message of an
   * error the runtime raises instead (an unreadable body, a `null`
   * validation entry); `asWritten` selects the body reading of api.js:89.
   */
  function StartRun(status: int, statusText: string, body: Body, render: Json -> string, thrown: string,
                    asWritten: bool): (r: StartOutcome)
    ensures asWritten && body.NotJson? ==> r == StartFailed(thrown)
    ensures r.Started? <==> 200 <= status < 300 && (body.Decoded? || !asWritten)
    ensures r.Started? ==> r.body == BodyOf(body)
    ensures !(200 <= status < 300) && (body.Decoded? || !asWritten)
            ==> r == StartFailed(match StartErrorMessage(status, statusText, BodyOf(body), render)
                                 case Some(m) => m case None => thrown)
  {
    match ReadBody(body, asWritten)
    case None => StartFailed(thrown)
    case Some(data) =>
      if 200 <= status < 300 then Started(data)
      else
        match StartErrorMessage(status, statusText, data, render)
        case Some(m) => StartFailed(m)
        case None => StartFailed(thrown)
  }

  /** A validation failure reports the fields and ignores any `message` of the body. */
  lemma ValidationBeatsMessage(data: Json, field: string, msg: string, render: Json -> string)
    requires Get(data, "detail") == Some(JArr([JObj(map["loc" := JArr([JStr("body"), JStr(field)]), "msg" := JStr(msg)])]))
    ensures StartErrorMessage(422, "Unprocessable Entity", data, render) == Some(field + ": " + msg)
  {
    var error := JObj(map["loc" := JArr([JStr("body"), JStr(field)]), "msg" := JStr(msg)]);
    assert Seqs.Last([JStr("body"), JStr(field)]) == JStr(field);
    assert Get(error, "loc") == Some(JArr([JStr("body"), JStr(field)]));
    assert ValidationField(error, render) == Some(field);
    assert Get(error, "msg") == Some(JStr(msg));
    assert ValidationEntry(error, render) == Some(field + ": " + msg);
    var errors := [error];
    assert errors[1..] == [];
    assert ValidationEntries(errors[1..], render) == Some([]);
    assert ValidationEntry(errors[0], render) == Some(field + ": " + msg);
    assert [field + ": " + msg] + [] == [field + ": " + msg];
  }

  /** The backend's `detail` string is shown when there is no `message`. */
  lemma DetailStringShown(status: int, statusText: string, detail: string, render: Json -> string)
    requires status != 422 && detail != []
    ensures StartErrorMessage(status, statusText, JObj(map["detail" := JStr(detail)]), render) == Some(detail)
  {
  }

  /** A body with none of the recognised fields yields the status text. */
  lemma StatusTextLast(status: int, statusText: string, render: Json -> string)
    ensures StartErrorMessage(status, statusText, JObj(map[]), render) == Some(statusText)
  {
  }

  datatype StopOutcome = Stopped(body: Json) | NotFound | StopFailed(message: string)

  /**
   * `stopRun`: a 2xx answer gives its body (whose `json()` has no fallback,
   * so a body that is not JSON rejects); 404 and 502 report the run as gone
   * without reading the body; any other status fails with `message`,
   * `detail.message` or the status text, the first that is truthy.
   * `thrown` is the message of an error the runtime raises instead.
   */
  function StopRun(status: int, statusText: string, body: Body, render: Json -> string, thrown: string,
                   asWritten: bool): (r: StopOutcome)
    ensures r.Stopped? <==> 200 <= status < 300 && body.Decoded?
    ensures r.Stopped? ==> r.body == body.value
    ensures r.NotFound? <==> status == 404 || status == 502
    ensures 200 <= status < 300 && body.NotJson? ==> r == StopFailed(thrown)
    ensures asWritten && body.NotJson? && !(200 <= status < 300) && status != 404 && status != 502
            ==> r == StopFailed(thrown)
    ensures !(200 <= status < 300) && status != 404 && status != 502 && (body.Decoded? || !asWritten) ==>
              var data := BodyOf(body);
              if JsTruthyOpt(Get(data, "message")) then r == StopFailed(AsText(Get(data, "message").value, render))
              else if Get(data, "detail").Some? && JsTruthyOpt(Get(Get(data, "detail").value, "message"))
              then r == StopFailed(AsText(Get(Get(data, "detail").value, "message").value, render))
              else r == StopFailed(statusText)
  {
    if 200 <= status < 300 then
      if body.Decoded? then Stopped(body.value) else StopFailed(thrown)
    else if status == 404 || status == 502 then NotFound
    else
      match ReadBody(body, asWritten)
      case None => StopFailed(thrown)
      case Some(data) =>
        if JsTruthyOpt(Get(data, "message")) then StopFailed(AsText(Get(data, "message").value, render))
        else
          var detail := Get(data, "detail");
          if detail.Some? && JsTruthyOpt(Get(detail.value, "message")) then StopFailed(AsText(Get(detail.value, "message").value, render))
          else StopFailed(statusText)
  }

  /**
   * As written, a failed start or stop whose body is not JSON rejects with
   * the runtime's `TypeError`, whatever the server's text said.
   */
  lemma AsWrittenNonJsonBodyRejects(status: int, statusText: string, text: string, render: Json -> string,
                                    thrown: string)
    requires !(200 <= status < 300) && status != 404 && status != 502
    ensures BodyOfAsWritten(NotJson(text)).None?
    ensures StartRun(status, statusText, NotJson(text), render, thrown, true) == StartFailed(thrown)
    ensures StopRun(status, statusText, NotJson(text), render, thrown, true) == StopFailed(thrown)
  {
  }

  /**
   * Read as intended, a failed start or stop whose body is non-empty text
   * that is not JSON reports that text.
   */
  lemma NonJsonErrorShowsText(status: int, statusText: string, text: string, render: Json -> string,
                              thrown: string)
    requires !(200 <= status < 300) && status != 404 && status != 502 && text != ""
    ensures StartRun(status, statusText, NotJson(text), render, thrown, false) == StartFailed(text)
    ensures StopRun(status, statusText, NotJson(text), render, thrown, false) == StopFailed(text)
  {
    var data := BodyOf(NotJson(text));
    assert !IsValidationFailure(status, data);
  }
}

=== FILE: app_state.dfy ===
/**
 * The captioning UI's main script: filling the model and pipeline selects,
 * building the start request from the form, and the run registry of the
 * page (`state.runs`, `state.selectedRunId`).
 *
 * The DOM is a record: a select is its option list and selected value.
 * `Number.parseInt`/`Number.parseFloat` are given as their results (`None`
 * for `NaN`).
 */
module AppState {
  import opened Wrappers
  import opened Text
  import opened Json
  import Seqs
  import D = Discovery
  import PL = PipelineList
  import Api = ApiService
  import RunNames
  import RunCard
  import RunRequest

  // ---------------------------------------------------------------------------
  // Model selects

  datatype ModelSelect = ModelSelect(options: seq<Json>, selected: Json)

  /**
   * `setModelOptions` / `setDetectionModelOptions`: the given list, or the
   * default alone when it is not a non-empty array; the default is
   * selected when listed, else the first option.
   */
  function SetModelOptions(models: Json, default: string): (r: ModelSelect)
    ensures |r.options| >= 1 && r.selected in r.options
    ensures r.selected == JStr(default) <==> JStr(default) in r.options
    ensures models.JArr? && models.items != [] ==> r.options == models.items
    ensures !(models.JArr? && models.items != []) ==> r.options == [JStr(default)]
    ensures JStr(default) !in r.options ==> r.selected == r.options[0]
  {
    var list := if models.JArr? && models.items != [] then models.items else [JStr(default)];
    ModelSelect(list, if JStr(default) in list then JStr(default) else list[0])
  }

  /**
   * An empty `models` list survives `fetchModels` (an empty array is
   * truthy) and is replaced here: either way the select offers the default.
   */
  lemma EmptyModelListSelectsDefault(answer: Json)
    requires Get(answer, "models") == Some(JArr([]))
    ensures SetModelOptions(Api.FetchModels(Some(answer)), Api.DefaultModel)
            == ModelSelect([JStr(Api.DefaultModel)], JStr(Api.DefaultModel))
  {
  }

  /** A failed model request leaves the default model selected. */
  lemma FailedModelFetchSelectsDefault()
    ensures SetModelOptions(Api.FetchModels(None), Api.DefaultModel).selected == JStr(Api.DefaultModel)
    ensures SetModelOptions(Api.FetchDetectionModels(None), Api.DefaultDetectionModel).selected
            == JStr(Api.DefaultDetectionModel)
  {
  }

  // ---------------------------------------------------------------------------
  // Pipeline select

  /** One entry for the pipeline select: only objects with a string `pipeline_name`. */
  function SelectItem(it: Json): (r: Option<PL.Pipeline>)
    ensures r.Some? ==> it.JObj? && Get(it, "pipeline_name") == Some(JStr(r.value.name))
    ensures it.JStr? ==> r.None?
  {
    if it.JObj? && "pipeline_name" in it.fields && it.fields["pipeline_name"].JStr? then
      Some(D.PipelineInfo(it.fields["pipeline_name"].s, PL.KindOf(Get(it, "pipeline_type"))))
    else None
  }

  datatype PipelineSelect = PipelineSelect(options: seq<PL.Pipeline>, selected: Option<string>)

  /** `[{pipeline_name: DEFAULT_PIPELINE, pipeline_type: 'non-detection'}]`. */
  function DefaultPipelineList(): Json {
    JArr([PL.Encode(D.PipelineInfo(Api.DefaultPipeline, D.NonDetection))])
  }

  /**
   * `setPipelineOptions`: the usable entries of the list (or of the default
   * list when it is not a non-empty array), de-duplicated and sorted, with
   * the first selected when there is one.
   */
  function SetPipelineOptions(pipelines: Json): (r: PipelineSelect)
    ensures PL.Sorted(r.options) && PL.DistinctNames(r.options)
    ensures r.selected.Some? <==> r.options != []
    ensures r.selected.Some? ==> r.selected.value == r.options[0].name
  {
    var list := if pipelines.JArr? && pipelines.items != [] then pipelines.items else DefaultPipelineList().items;
    var options := PL.Normalise(Seqs.FilterMap(list, SelectItem));
    PipelineSelect(options, if options != [] then Some(options[0].name) else None)
  }

  /** Anything but a non-empty array shows the default pipeline, selected. */
  lemma NoListShowsDefault(pipelines: Json)
    requires !(pipelines.JArr? && pipelines.items != [])
    ensures SetPipelineOptions(pipelines)
            == PipelineSelect([D.PipelineInfo(Api.DefaultPipeline, D.NonDetection)], Some(Api.DefaultPipeline))
  {
    var p := D.PipelineInfo(Api.DefaultPipeline, D.NonDetection);
    var items := DefaultPipelineList().items;
    assert SelectItem(items[0]) == Some(p);
    assert items[..0] == [];
    assert Seqs.FilterMap(items, SelectItem) == [p];
    PL.DedupDistinct([p]);
    PL.SortSorted([p]);
  }

  /**
   * A non-empty list of plain names, such as the `[DEFAULT_PIPELINE]` that
   * `loadPipelines` passes after an error, gives an empty select: strings
   * are not accepted here.
   */
  lemma NamesOnlyGiveNoOptions(names: seq<string>)
    requires |names| > 0
    ensures SetPipelineOptions(JArr(Seqs.Map(names, (n: string) => JStr(n)))).options == []
    ensures SetPipelineOptions(JArr(Seqs.Map(names, (n: string) => JStr(n)))).selected.None?
  {
    var items := Seqs.Map(names, (n: string) => JStr(n));
    Seqs.FilterMapEmpty(items, SelectItem);
    assert PL.Dedup([]) == [];
  }

  /** The list `fetchPipelines` returns is shown exactly as it is, first entry selected. */
  lemma FetchedListShownAsIs(answer: Option<Json>)
    ensures var fetched := Api.FetchPipelines(answer);
      SetPipelineOptions(JArr(Seqs.Map(fetched, PL.Encode))) == PipelineSelect(fetched, Some(fetched[0].name))
  {
    var fetched := Api.FetchPipelines(answer);
    Seqs.FilterMapOfMap(fetched, PL.Encode, SelectItem);
    PL.DedupDistinct(fetched);
    PL.SortSorted(fetched);
  }

  /** The option text: detection pipelines are marked `  [Detection]`. */
  function OptionLabel(p: PL.Pipeline): (text: string)
    ensures StartsWith(text, p.name)
    ensures p.kind == D.NonDetection ==> text == p.name
    ensures p.kind == D.Detection ==> EndsWith(text, "  [Detection]")
  {
    if p.kind == D.Detection then p.name + "  [Detection]" else p.name
  }

  /** `toggleDetectionFieldsByText`: the detection fields show when enabled and the label mentions `[Detection]`. */
  function ShowDetectionFields(enabledByFlag: bool, optionText: string): (show: bool)
    ensures show ==> enabledByFlag
  {
    enabledByFlag && Contains(optionText, "[Detection]")
  }

  lemma ContainsSuffix(s: string, pat: string)
    requires EndsWith(s, pat)
    ensures Contains(s, pat)
  {
    var j := |s| - |pat|;
    assert StartsWith(s[j..], pat);
  }

  /**
   * With the flag on, the fields show for exactly the detection pipelines,
   * as long as no pipeline name itself contains `[Detection]`.
   */
  lemma DetectionFieldsFollowType(p: PL.Pipeline)
    requires !Contains(p.name, "[Detection]")
    ensures ShowDetectionFields(true, OptionLabel(p)) <==> p.kind == D.Detection
  {
    if p.kind == D.Detection {
      ContainsSuffix(OptionLabel(p), "  [Detection]");
      var k := FindSub(OptionLabel(p), "  [Detection]").value;
      assert "  [Detection]"[2..] == "[Detection]";
      MatchInsideMatch(OptionLabel(p), k, "  [Detection]", 2, "[Detection]");
    }
  }

  // ---------------------------------------------------------------------------
  // The start request

  const BuiltInPrompt: string := "Describe what you see in one sentence."
  const DefaultMaxTokens: int := 70
  const DefaultThreshold: real := 0.5

  /** The form's field values (`''` for a missing element) and the parsed numbers. */
  datatype Form = Form(
    rtspUrl: string,
    prompt: string,
    modelName: string,
    pipelineName: string,
    maxTokensParsed: Option<int>,
    detectionModelName: string,
    detectionThresholdParsed: Option<real>,
    runName: string)

  datatype StartBody = StartBody(
    rtspUrl: string,
    prompt: string,
    detectionModelName: Option<string>,
    detectionThreshold: Option<real>,
    modelName: string,
    maxNewTokens: int,
    pipelineName: string,
    runName: Option<string>)

  /** A trimmed value, or the fallback when it is blank. */
  function OrDefault(raw: string, fallback: string): (r: string)
    ensures Strip(raw) != [] ==> r == Strip(raw)
    ensures Strip(raw) == [] ==> r == fallback
  {
    if Strip(raw) != [] then Strip(raw) else fallback
  }

  /** The parsed token count when it is a positive number, else 70. */
  function MaxTokens(parsed: Option<int>): (r: int)
    ensures r >= 1
    ensures parsed.Some? && parsed.value > 0 ==> r == parsed.value
    ensures !(parsed.Some? && parsed.value > 0) ==> r == DefaultMaxTokens
  {
    if parsed.Some? && parsed.value > 0 then parsed.value else DefaultMaxTokens
  }

  /** The threshold of a detection pipeline: the parsed value when in [0, 1], else 0.5; `null` otherwise. */
  function Threshold(isDetection: bool, parsed: Option<real>): (r: Option<real>)
    ensures r.Some? <==> isDetection
    ensures r.Some? ==> 0.0 <= r.value <= 1.0
    ensures isDetection && parsed.Some? && 0.0 <= parsed.value <= 1.0 ==> r == parsed
  {
    if !isDetection then None
    else if parsed.Some? && 0.0 <= parsed.value <= 1.0 then parsed
    else Some(DefaultThreshold)
  }

  /** The detection model of a detection pipeline when one is chosen; `null` otherwise. */
  function DetectionModel(isDetection: bool, raw: string): (r: Option<string>)
    ensures r.Some? ==> isDetection && r.value != []
    ensures r.None? <==> !isDetection || Strip(raw) == []
    ensures r.Some? ==> r.value == Strip(raw)
  {
    if isDetection && Strip(raw) != [] then Some(Strip(raw)) else None
  }

  /**
   * `startPipeline`: nothing is sent for a blank RTSP URL; otherwise the
   * body with trimmed fields, defaults for blank ones, and a custom run
   * name made unique among the page's runs.
   */
  function StartPipeline(form: Form, cfgPrompt: string, isDetection: bool, existing: set<string>)
    : (r: Option<StartBody>)
    ensures r.None? <==> Strip(form.rtspUrl) == []
    ensures r.Some? ==> r.value.rtspUrl == Strip(form.rtspUrl) && r.value.rtspUrl != []
    ensures r.Some? && r.value.runName.Some? ==> r.value.runName.value !in existing
    ensures r.Some? ==> r.value.maxNewTokens >= 1
    ensures r.Some? && r.value.detectionThreshold.Some? ==> 0.0 <= r.value.detectionThreshold.value <= 1.0
    ensures r.Some? ==>
              && r.value.prompt == OrDefault(form.prompt, if cfgPrompt != [] then cfgPrompt else BuiltInPrompt)
              && r.value.modelName == OrDefault(form.modelName, Api.DefaultModel)
              && r.value.pipelineName == OrDefault(form.pipelineName, Api.DefaultPipeline)
              && r.value.maxNewTokens == MaxTokens(form.maxTokensParsed)
              && r.value.detectionModelName == DetectionModel(isDetection, form.detectionModelName)
              && r.value.detectionThreshold == Threshold(isDetection, form.detectionThresholdParsed)
    ensures r.Some? ==> (r.value.runName.Some? <==> RunCard.PrepareRunName(Some(Strip(form.runName))).Some?)
    ensures r.Some? && r.value.runName.Some? ==>
              r.value.runName.value == RunNames.UniqueName(RunCard.PrepareRunName(Some(Strip(form.runName))).value, existing)
  {
    var rtspUrl := Strip(form.rtspUrl);
    if rtspUrl == [] then None
    else
      var runName :=
        match RunCard.PrepareRunName(Some(Strip(form.runName)))
        case None => None
        case Some(base) => Some(RunNames.UniqueName(base, existing));
      Some(StartBody(
        rtspUrl,
        OrDefault(form.prompt, if cfgPrompt != [] then cfgPrompt else BuiltInPrompt),
        DetectionModel(isDetection, form.detectionModelName),
        Threshold(isDetection, form.detectionThresholdParsed),
        OrDefault(form.modelName, Api.DefaultModel),
        MaxTokens(form.maxTokensParsed),
        OrDefault(form.pipelineName, Api.DefaultPipeline),
        runName))
  }

  /** The JSON body as the backend receives it: `null` for absent detection fields, no `runName` when unset. */
  function ToRaw(b: StartBody): (raw: RunRequest.RawRequest)
    ensures raw.rtspUrl == RunRequest.Given(b.rtspUrl) && raw.maxNewTokens == RunRequest.Given(b.maxNewTokens)
  {
    RunRequest.RawRequest(
      RunRequest.Given(b.rtspUrl),
      RunRequest.Given(b.prompt),
      if b.detectionModelName.Some? then RunRequest.Given(b.detectionModelName.value) else RunRequest.Null,
      if b.detectionThreshold.Some? then RunRequest.Given(b.detectionThreshold.value) else RunRequest.Null,
      RunRequest.Given(b.modelName),
      RunRequest.Given(b.maxNewTokens),
      RunRequest.Given(b.pipelineName),
      if b.runName.Some? then RunRequest.Given(b.runName.value) else RunRequest.Absent)
  }

  /**
   * The backend accepts what the page sends exactly when the token count
   * is at most 4096 (the page checks only the lower bound) and the URL
   * passes its validator.
   */
  lemma BackendAcceptsPageRequest(form: Form, cfgPrompt: string, isDetection: bool, existing: set<string>,
                                  agentMode: bool, hostnameOf: RunRequest.HostnameParser, isIpAddress: string -> bool)
    requires StartPipeline(form, cfgPrompt, isDetection, existing).Some?
    ensures var b := StartPipeline(form, cfgPrompt, isDetection, existing).value;
      RunRequest.Validate(ToRaw(b), agentMode, hostnameOf, isIpAddress).Ok?
      <==> b.maxNewTokens <= RunRequest.MaxNewTokensLimit
           && RunRequest.ValidateRtspUrl(b.rtspUrl, hostnameOf, isIpAddress).Ok?
  {
    BackendAcceptsBody(StartPipeline(form, cfgPrompt, isDetection, existing).value, agentMode, hostnameOf, isIpAddress);
  }

  /** A body with a URL, a positive token count and an in-range threshold fails validation only on those two checks. */
  lemma BackendAcceptsBody(b: StartBody, agentMode: bool, hostnameOf: RunRequest.HostnameParser,
                           isIpAddress: string -> bool)
    requires b.rtspUrl != [] && b.maxNewTokens >= 1
    requires b.detectionThreshold.Some? ==> 0.0 <= b.detectionThreshold.value <= 1.0
    ensures RunRequest.Validate(ToRaw(b), agentMode, hostnameOf, isIpAddress).Ok?
      <==> b.maxNewTokens <= RunRequest.MaxNewTokensLimit
           && RunRequest.ValidateRtspUrl(b.rtspUrl, hostnameOf, isIpAddress).Ok?
  {
  }

  /** Without a detection pipeline, both detection fields are sent as `null`. */
  lemma NonDetectionSendsNulls(form: Form, cfgPrompt: string, existing: set<string>)
    requires Strip(form.rtspUrl) != []
    ensures var b := StartPipeline(form, cfgPrompt, false, existing).value;
      b.detectionModelName.None? && b.detectionThreshold.None?
  {
  }

  // ---------------------------------------------------------------------------
  // Runs on the page

  datatype Page = Page(runs: set<string>, selectedRunId: Option<string>)

  /** `tearDownRun`: the run leaves the registry; the selection is cleared only if it was this run. */
  function TearDownRun(p: Page, runId: string): (r: Page)
    ensures r.runs == p.runs - {runId}
    ensures p.selectedRunId == Some(runId) ==> r.selectedRunId.None?
    ensures p.selectedRunId != Some(runId) ==> r.selectedRunId == p.selectedRunId
  {
    Page(p.runs - {runId}, if p.selectedRunId == Some(runId) then None else p.selectedRunId)
  }

  /** Tearing down another run keeps the selected one selected. */
  lemma TearDownKeepsOtherSelection(p: Page, runId: string, other: string)
    requires p.selectedRunId == Some(other) && other != runId && other in p.runs
    ensures TearDownRun(p, runId).selectedRunId == Some(other) && other in TearDownRun(p, runId).runs
  {
  }

  /** The error texts the page reads as "the run is gone on the server". */
  predicate MentionsMissing(message: string) {
    var m := Lower(message);
    Contains(m, "404") || Contains(m, "not found") || Contains(m, "502")
  }

  /**
   * The page's reaction to a stop request: the run is torn down when it
   * stopped, when it is gone on the server, or when the error message
   * mentions 404, `not found` or 502; otherwise it stays for a retry. A
   * stop answered with a JSON `null` throws when `result.notFound` is read,
   * with the runtime's message `thrown`, and that error takes the same path.
   */
  function StopReaction(p: Page, runId: string, outcome: Result<Api.StopOutcome, string>, thrown: string): (r: Page)
    ensures r == p || r == TearDownRun(p, runId)
    ensures runId !in p.runs ==> r == p
    ensures runId in p.runs && outcome.Ok? && outcome.value.Stopped? && outcome.value.body != JNull
            ==> r == TearDownRun(p, runId)
    ensures runId in p.runs && outcome == Ok(Api.NotFound) ==> r == TearDownRun(p, runId)
    ensures runId in p.runs && outcome == Ok(Api.Stopped(JNull)) ==> r == StopFailedReaction(p, runId, thrown)
    ensures runId in p.runs && outcome.Ok? && outcome.value.StopFailed?
            ==> r == StopFailedReaction(p, runId, outcome.value.message)
    ensures runId in p.runs && outcome.Err? ==> r == StopFailedReaction(p, runId, outcome.error)
  {
    if runId !in p.runs then p
    else
      match outcome
      case Ok(answer) =>
        (match answer
         case StopFailed(message) => StopFailedReaction(p, runId, message)
         case Stopped(body) => if body == JNull then StopFailedReaction(p, runId, thrown) else TearDownRun(p, runId)
         case NotFound => TearDownRun(p, runId))
      case Err(message) => StopFailedReaction(p, runId, message)
  }

  function StopFailedReaction(p: Page, runId: string, message: string): (r: Page)
    ensures r == p || r == TearDownRun(p, runId)
    ensures runId in p.runs ==>
              (runId !in r.runs <==>
                 Contains(Lower(message), "404") || Contains(Lower(message), "not found") || Contains(Lower(message), "502"))
  {
    if MentionsMissing(message) then TearDownRun(p, runId) else p
  }

  /**
   * A stop answered with a JSON `null` keeps the run, with the selection
   * and the other runs, whenever the runtime's error names none of 404,
   * `not found` and 502.
   */
  lemma NullStopBodyKeepsRun(p: Page, runId: string, thrown: string)
    requires runId in p.runs && !MentionsMissing(thrown)
    ensures StopReaction(p, runId, Ok(Api.Stopped(JNull)), thrown) == p
    ensures runId in StopReaction(p, runId, Ok(Api.Stopped(JNull)), thrown).runs
  {
  }

  // ---------------------------------------------------------------------------
  // Pipeline type of the selected option

  /**
   * The pipeline select as `getSelectedPipelineType` sees it: the
   * `data-pipeline-type` attribute of each option (`None` when unset) and
   * `selectedIndex`.
   */
  datatype SelectElement = SelectElement(typeTags: seq<Option<string>>, selectedIndex: int)

  /**
   * `getSelectedPipelineType`: non-detection without a select or without a
   * selection; otherwise the selected option's tag when it names a type,
   * and `undefined` (here `None`) when it does not.
   */
  function SelectedPipelineType(select: Option<SelectElement>): (r: Option<D.PipelineType>)
    ensures select.None? || select.value.selectedIndex < 0 ==> r == Some(D.NonDetection)
    ensures select.Some? && 0 <= select.value.selectedIndex < |select.value.typeTags| ==>
              var tag := select.value.typeTags[select.value.selectedIndex];
              && (tag == Some("detection") ==> r == Some(D.Detection))
              && (tag == Some("non-detection") ==> r == Some(D.NonDetection))
              && (tag != Some("detection") && tag != Some("non-detection") ==> r.None?)
    ensures select.Some? && select.value.selectedIndex >= |select.value.typeTags| ==> r.None?
  {
    if select.None? || select.value.selectedIndex < 0 then Some(D.NonDetection)
    else if select.value.selectedIndex >= |select.value.typeTags| then None
    else
      var tag := select.value.typeTags[select.value.selectedIndex];
      if tag == Some("detection") then Some(D.Detection)
      else if tag == Some("non-detection") then Some(D.NonDetection)
      else None
  }

  /** `selectedPipelineType === 'detection'`: `undefined` counts as non-detection. */
  predicate IsDetectionSelected(t: Option<D.PipelineType>) {
    t == Some(D.Detection)
  }

  /** The data attribute `setPipelineOptions` writes on the option of `p`. */
  function TypeTag(p: PL.Pipeline): Option<string> {
    Some(if p.kind == D.Detection then "detection" else "non-detection")
  }

  /**
   * The select `setPipelineOptions` leaves behind: one tagged option per
   * entry, and the first selected when there is one (the names are
   * distinct, so `select.value = name` selects index 0).
   */
  function SelectAfter(s: PipelineSelect): (e: SelectElement)
    ensures |e.typeTags| == |s.options|
    ensures s.options != [] ==> e.selectedIndex == 0
    ensures s.options == [] ==> e.selectedIndex == -1
  {
    SelectElement(Seqs.Map(s.options, TypeTag), if s.options != [] then 0 else -1)
  }

  /**
   * Straight after `setPipelineOptions`, the flag `startPipeline` derives
   * is the kind of the first sorted entry, and non-detection when the
   * select is empty.
   */
  lemma SelectedTypeAfterOptions(pipelines: Json)
    ensures var s := SetPipelineOptions(pipelines);
            var t := SelectedPipelineType(Some(SelectAfter(s)));
            && t.Some?
            && (IsDetectionSelected(t) <==> s.options != [] && s.options[0].kind == D.Detection)
  {
    var s := SetPipelineOptions(pipelines);
    if s.options != [] {
      assert SelectAfter(s).typeTags[0] == TypeTag(s.options[0]);
    }
  }

  /** A tag that names no type is `undefined`, which the start request treats as non-detection. */
  lemma UnknownTagIsNonDetection(tags: seq<Option<string>>, i: int)
    requires 0 <= i < |tags| && tags[i] != Some("detection") && tags[i] != Some("non-detection")
    ensures SelectedPipelineType(Some(SelectElement(tags, i))).None?
    ensures !IsDetectionSelected(SelectedPipelineType(Some(SelectElement(tags, i))))
  {
  }
}

=== FILE: charts.dfy ===
/**
 * The captioning UI's small live charts (CPU, RAM, GPU): a registry of
 * series keyed by chart name, each series a bounded window of the latest
 * 60 samples with a time label per sample.
 *
 * Chart.js objects are records of their label and data arrays; whether the
 * canvas exists is a parameter, and the label text (the browser's local
 * time) is passed in.
 */
module Charts {
  import opened Wrappers
  import opened Text

  const MaxPoints: nat := 60

  datatype Series = Series(labels: seq<string>, data: seq<real>)

  const EmptySeries: Series := Series([], [])

  type Registry = map<string, Series>

  /** The registry key of a chart: the element id with its first `Chart` removed. */
  function ChartKey(elementId: string): (k: string)
    ensures !Contains(elementId, "Chart") ==> k == elementId
    ensures Contains(elementId, "Chart") ==> |k| == |elementId| - 5
    ensures FindSub(elementId, "Chart").Some? ==>
              var i := FindSub(elementId, "Chart").value;
              k == elementId[..i] + elementId[i + 5..]
  {
    ReplaceFirst(elementId, "Chart", "")
  }

  /** The key drops the earliest `Chart` of the id and keeps everything around it. */
  lemma ChartKeyRemovesFirst(elementId: string, i: nat)
    requires i + 5 <= |elementId| && elementId[i..i + 5] == "Chart"
    requires forall j :: 0 <= j < i ==> !StartsWith(elementId[j..], "Chart")
    ensures ChartKey(elementId) == elementId[..i] + elementId[i + 5..]
  {
    assert elementId[i..][..5] == elementId[i..i + 5];
    assert StartsWith(elementId[i..], "Chart");
    var f := FindSub(elementId, "Chart");
    assert f.Some?;
    var v := f.value;
    assert elementId[v..][..5] == elementId[v..v + 5];
    assert StartsWith(elementId[v..], "Chart");
    assert v == i;
  }

  /**
   * `name + "Chart"` is keyed by `name` when `name` has no capital C, as
   * for the `cpuChart`, `ramChart` and `gpuChart` canvases.
   */
  lemma SuffixKey(name: string)
    requires 'C' !in name
    ensures ChartKey(name + "Chart") == name
  {
    var s := name + "Chart";
    assert s[|name|..] == "Chart";
    assert StartsWith(s[|name|..], "Chart");
    forall j | 0 <= j < |name|
      ensures !StartsWith(s[j..], "Chart")
    {
      assert s[j] == name[j];
    }
    var found := FindSub(s, "Chart");
    assert found.Some?;
    var v := found.value;
    assert s[v..][..5] == s[v..v + 5];
    assert StartsWith(s[v..], "Chart");
    assert v == |name|;
    assert s[..|name|] == name;
    assert s[|name| + 5..] == [];
  }

  /**
   * `createStatChart`: with a canvas, an empty series is registered under
   * the chart key (replacing any earlier one); without, nothing changes.
   */
  function Create(reg: Registry, elementId: string, hasCanvas: bool): (r: Registry)
    ensures !hasCanvas ==> r == reg
    ensures hasCanvas ==> ChartKey(elementId) in r && r[ChartKey(elementId)] == EmptySeries
    ensures hasCanvas ==> r.Keys == reg.Keys + {ChartKey(elementId)}
    ensures forall k :: k in reg && k != ChartKey(elementId) ==> r[k] == reg[k]
  {
    if hasCanvas then reg[ChartKey(elementId) := EmptySeries] else reg
  }

  /** Appending to a bounded array: push, then drop the oldest once there are more than 60. */
  function PushBounded<T>(s: seq<T>, x: T): (r: seq<T>)
    ensures |r| == if |s| + 1 > MaxPoints then |s| else |s| + 1
    ensures r[|r| - 1] == x
    ensures r[..|r| - 1] == s || (|s| > 0 && r[..|r| - 1] == s[1..])
  {
    var pushed := s + [x];
    if |pushed| > MaxPoints then pushed[1..] else pushed
  }

  /** `pushStatSample`: an unknown key changes nothing; a known one gets a label and a value. */
  function Push(reg: Registry, key: string, value: real, now: string): (r: Registry)
    ensures key !in reg ==> r == reg
    ensures r.Keys == reg.Keys
    ensures forall k :: k in reg && k != key ==> r[k] == reg[k]
    ensures key in reg ==> r[key] == Series(PushBounded(reg[key].labels, now), PushBounded(reg[key].data, value))
  {
    if key in reg then
      var s := reg[key];
      reg[key := Series(PushBounded(s.labels, now), PushBounded(s.data, value))]
    else reg
  }

  predicate WellFormed(s: Series) {
    |s.labels| == |s.data| <= MaxPoints
  }

  /** A push keeps a series within 60 points and its labels aligned with its data. */
  lemma PushKeepsWellFormed(reg: Registry, key: string, value: real, now: string)
    requires key in reg && WellFormed(reg[key])
    ensures WellFormed(Push(reg, key, value, now)[key])
    ensures Push(reg, key, value, now)[key].data[|reg[key].data|
      - (if |reg[key].data| == MaxPoints then 1 else 0)] == value
  {
  }

  /** Pushing a run of values one after another. */
  function PushAll(s: seq<real>, xs: seq<real>): (r: seq<real>)
    ensures |s| <= MaxPoints ==> |r| <= MaxPoints
    decreases |xs|
  {
    if |xs| == 0 then s else PushBounded(PushAll(s, xs[..|xs| - 1]), xs[|xs| - 1])
  }

  /** The number of points a window of at most 60 keeps out of `n`. */
  function Kept(n: nat): (k: nat)
    ensures k <= n && k <= MaxPoints
    ensures k == n || k == MaxPoints
  {
    if n <= MaxPoints then n else MaxPoints
  }

  /**
   * A series is always the latest samples: after pushing `xs` onto a
   * series of at most 60 points, it holds the last (up to) 60 points of the
   * old series followed by `xs`.
   */
  lemma {:induction false} PushAllIsWindow(s: seq<real>, xs: seq<real>)
    requires |s| <= MaxPoints
    ensures PushAll(s, xs) == (s + xs)[|s + xs| - Kept(|s + xs|)..]
    decreases |xs|
  {
    if |xs| == 0 {
      assert s + xs == s;
    } else {
      var init := xs[..|xs| - 1];
      var x := xs[|xs| - 1];
      PushAllIsWindow(s, init);
      var all := s + init;
      var w := all[|all| - Kept(|all|)..];
      assert PushAll(s, xs) == PushBounded(w, x);
      assert s + xs == all + [x];
      var n := |all| + 1;
      if |w| + 1 > MaxPoints {
        assert |w| == MaxPoints;
        assert PushBounded(w, x) == (w + [x])[1..];
        assert (w + [x])[1..] == (all + [x])[n - Kept(n)..];
      } else {
        assert |w| == |all|;
        assert w == all;
        assert Kept(n) == n;
        assert (all + [x])[n - Kept(n)..] == all + [x];
      }
    }
  }

  /** Starting from a new chart, the series is the last 60 samples pushed, in order. */
  lemma {:induction false} NewChartShowsLastSamples(xs: seq<real>)
    ensures PushAll([], xs) == xs[|xs| - Kept(|xs|)..]
  {
    var empty: seq<real> := [];
    PushAllIsWindow(empty, xs);
    assert empty + xs == xs;
  }
}

=== FILE: discovery.dfy ===
/**
 * Discovery in the captioning backend: the pipelines the pipeline server
 * offers (normalised and classified as detection or not) and the model
 * directories on disk.
 *
 * The HTTP call and `json.loads` are one parameter, the decoded answer
 * (`None` when either raised). The filesystem is a sorted directory listing
 * plus an `isDir` predicate on paths relative to the models root.
 */
module Discovery {
  import opened Wrappers
  import opened Text
  import opened Json
  import Seqs

  datatype PipelineType = Detection | NonDetection

  datatype PipelineInfo = PipelineInfo(name: string, kind: PipelineType)

  // ---------------------------------------------------------------------------
  // Classifying one pipeline

  /**
   * `is_detection_pipeline`: `None` when `item.get("parameters", {})` is
   * present but not an object, where `.get` raises; otherwise whether the
   * properties object has a key starting with `detection_` in any letter
   * case (the two explicit detection keys are among those).
   */
  function IsDetection(item: map<string, Json>): (r: Option<bool>)
    ensures r.None? <==> "parameters" in item && !item["parameters"].JObj?
    ensures r == Some(true) <==>
      "parameters" in item && item["parameters"].JObj? && "properties" in item["parameters"].fields
      && item["parameters"].fields["properties"].JObj?
      && exists k :: k in item["parameters"].fields["properties"].fields && StartsWith(Lower(k), "detection_")
  {
    var params := if "parameters" in item then item["parameters"] else JObj(map[]);
    if !params.JObj? then None
    else
      var props := if "properties" in params.fields then params.fields["properties"] else JObj(map[]);
      if props.JObj? && exists k :: k in props.fields && StartsWith(Lower(k), "detection_") then Some(true)
      else Some(false)
  }

  /** The two explicit keys each mark a detection pipeline. */
  lemma ExplicitKeysAreDetection(item: map<string, Json>, props: map<string, Json>)
    requires "parameters" in item && item["parameters"] == JObj(map["properties" := JObj(props)])
    requires "detection_model_name" in props || "detection_threshold" in props
    ensures IsDetection(item) == Some(true)
  {
    if "detection_model_name" in props {
      LowerKeepsPrefix("detection_model_name");
    } else {
      LowerKeepsPrefix("detection_threshold");
    }
  }

  lemma LowerKeepsPrefix(k: string)
    requires StartsWith(k, "detection_") && forall i :: 0 <= i < |k| ==> !('A' <= k[i] <= 'Z')
    ensures StartsWith(Lower(k), "detection_")
  {
    assert Lower(k) == k;
  }

  /** A pipeline without parameters or properties is not a detection pipeline. */
  lemma NoPropertiesIsNotDetection(item: map<string, Json>)
    requires "parameters" !in item || (item["parameters"].JObj? && "properties" !in item["parameters"].fields)
    ensures IsDetection(item) == Some(false)
  {
  }

  // ---------------------------------------------------------------------------
  // Normalising the server's answer

  /** The first of `version`, `name`, `id` that is a string. */
  function ItemName(item: map<string, Json>): (r: Option<string>)
    ensures r.None? <==> !(("version" in item && item["version"].JStr?) || ("name" in item && item["name"].JStr?)
                           || ("id" in item && item["id"].JStr?))
    ensures "version" in item && item["version"].JStr? ==> r == Some(item["version"].s)
    ensures !("version" in item && item["version"].JStr?) && "name" in item && item["name"].JStr?
            ==> r == Some(item["name"].s)
    ensures !("version" in item && item["version"].JStr?) && !("name" in item && item["name"].JStr?)
              && "id" in item && item["id"].JStr?
            ==> r == Some(item["id"].s)
  {
    if "version" in item && item["version"].JStr? then Some(item["version"].s)
    else if "name" in item && item["name"].JStr? then Some(item["name"].s)
    else if "id" in item && item["id"].JStr? then Some(item["id"].s)
    else None
  }

  /**
   * `payload if list else payload.get("pipelines") or payload.get("items") or []`;
   * `None` when the result is not a list.
   */
  function ItemsOf(payload: Json): (r: Option<seq<Json>>)
    ensures payload.JArr? ==> r == Some(payload.items)
    ensures !payload.JArr? && !payload.JObj? ==> r == Some([])
    ensures payload.JObj? && PyTruthyOpt(Get(payload, "pipelines"))
            ==> r == (if payload.fields["pipelines"].JArr? then Some(payload.fields["pipelines"].items) else None)
    ensures payload.JObj? && !PyTruthyOpt(Get(payload, "pipelines")) && PyTruthyOpt(Get(payload, "items"))
            ==> r == (if payload.fields["items"].JArr? then Some(payload.fields["items"].items) else None)
    ensures payload.JObj? && !PyTruthyOpt(Get(payload, "pipelines")) && !PyTruthyOpt(Get(payload, "items"))
            ==> r == Some([])
  {
    if payload.JArr? then Some(payload.items)
    else if payload.JObj? then
      var m := payload.fields;
      var chosen :=
        if "pipelines" in m && PyTruthy(m["pipelines"]) then m["pipelines"]
        else if "items" in m && PyTruthy(m["items"]) then m["items"]
        else JArr([]);
      if chosen.JArr? then Some(chosen.items) else None
    else Some([])
  }

  /**
   * The entries of the item loop in order: strings are non-detection
   * pipelines, objects are named and classified, anything else is skipped.
   * `None` when classifying some object raised.
   */
  function Entries(items: seq<Json>): (r: Option<seq<PipelineInfo>>)
    ensures r.Some? ==> |r.value| <= |items|
    decreases |items|
  {
    if |items| == 0 then Some([])
    else
      match Entries(items[..|items| - 1])
      case None => None
      case Some(init) =>
        var item := items[|items| - 1];
        if item.JStr? then Some(init + [PipelineInfo(item.s, NonDetection)])
        else if item.JObj? then
          match ItemName(item.fields)
          case None => Some(init)
          case Some(name) =>
            match IsDetection(item.fields)
            case None => None
            case Some(d) => Some(init + [PipelineInfo(name, if d then Detection else NonDetection)])
        else Some(init)
  }

  /** Classifying this listed item raises: it is a named object whose `parameters` is not an object. */
  predicate Raises(item: Json) {
    item.JObj? && ItemName(item.fields).Some? && IsDetection(item.fields).None?
  }

  /**
   * What one listed item contributes on its own: a string is a
   * non-detection pipeline of that name, an object with a usable name is
   * that name classified by `IsDetection`, anything else nothing.
   */
  function EntryOf(item: Json): Option<PipelineInfo> {
    if item.JStr? then Some(PipelineInfo(item.s, NonDetection))
    else if item.JObj? && ItemName(item.fields).Some? && IsDetection(item.fields).Some? then
      Some(PipelineInfo(ItemName(item.fields).value, if IsDetection(item.fields).value then Detection else NonDetection))
    else None
  }

  /**
   * The item loop fails exactly when some item raises, and otherwise lists
   * every item's own contribution, in order.
   */
  lemma {:induction false} EntriesPerItem(items: seq<Json>)
    ensures Entries(items).None? <==> exists i :: 0 <= i < |items| && Raises(items[i])
    ensures Entries(items).Some? ==> Entries(items).value == Seqs.FilterMap(items, EntryOf)
    decreases |items|
  {
    if |items| > 0 {
      var n := |items| - 1;
      var init := items[..n];
      EntriesPerItem(init);
      assert forall i :: 0 <= i < n ==> init[i] == items[i];
      if exists i :: 0 <= i < n && Raises(init[i]) {
        var i :| 0 <= i < n && Raises(init[i]);
        assert Raises(items[i]);
      }
    }
  }

  /** A list of names becomes the same names, all non-detection, in order. */
  lemma {:induction false} NamesAreNonDetection(names: seq<string>)
    ensures Entries(seq(|names|, i requires 0 <= i < |names| => JStr(names[i])))
            == Some(seq(|names|, i requires 0 <= i < |names| => PipelineInfo(names[i], NonDetection)))
    decreases |names|
  {
    if |names| > 0 {
      var n := |names| - 1;
      var items := seq(|names|, i requires 0 <= i < |names| => JStr(names[i]));
      var infos := seq(|names|, i requires 0 <= i < |names| => PipelineInfo(names[i], NonDetection));
      assert items[..n] == seq(n, i requires 0 <= i < n => JStr(names[..n][i]));
      NamesAreNonDetection(names[..n]);
      assert infos == seq(n, i requires 0 <= i < n => PipelineInfo(names[..n][i], NonDetection))
                      + [PipelineInfo(names[n], NonDetection)];
      assert items[n] == JStr(names[n]);
      assert Entries(items) == Some(Entries(items[..n]).value + [PipelineInfo(names[n], NonDetection)]);
    } else {
      assert seq(|names|, i requires 0 <= i < |names| => JStr(names[i])) == [];
      assert seq(|names|, i requires 0 <= i < |names| => PipelineInfo(names[i], NonDetection)) == [];
      assert Entries([]) == Some([]);
    }
  }

  predicate NotDetection(p: PipelineInfo) {
    p.kind == NonDetection
  }

  function KeepNonDetection(p: PipelineInfo): Option<PipelineInfo> {
    if p.kind == Detection then None else Some(p)
  }

  /** `[{PIPELINE_NAME, "non-detection"}]`, the answer whenever nothing usable came back. */
  function Fallback(pipelineName: string): seq<PipelineInfo> {
    [PipelineInfo(pipelineName, NonDetection)]
  }

  /**
   * `discover_pipelines_remote`: the classified entries, without detection
   * pipelines when those are disabled, and the single default pipeline
   * when the request failed, the answer was unusable or nothing was left.
   */
  function DiscoverPipelines(answer: Option<Json>, pipelineName: string, enableDetection: bool)
    : (r: seq<PipelineInfo>)
    ensures |r| >= 1
    ensures !enableDetection ==> forall i :: 0 <= i < |r| ==> r[i].kind == NonDetection
    ensures answer.None? ==> r == Fallback(pipelineName)
  {
    if answer.None? then Fallback(pipelineName)
    else
      match ItemsOf(answer.value)
      case None => Fallback(pipelineName)
      case Some(items) =>
        match Entries(items)
        case None => Fallback(pipelineName)
        case Some(entries) =>
          var kept := if enableDetection then entries else Seqs.FilterMap(entries, KeepNonDetection);
          assert !enableDetection ==> forall i :: 0 <= i < |kept| ==> kept[i].kind == NonDetection by {
            if !enableDetection {
              forall i | 0 <= i < |kept| ensures kept[i].kind == NonDetection {
                assert kept[i] in kept;
              }
            }
          }
          if kept == [] then Fallback(pipelineName) else kept
  }

  /**
   * Discovery over any decoded answer: the default pipeline when the item
   * list is unusable or some item raises; otherwise every item's own
   * contribution in order, detection pipelines dropped when disabled, and
   * the default pipeline only when nothing survives.
   */
  lemma DiscoverPipelinesSpec(payload: Json, pipelineName: string, enableDetection: bool)
    ensures var r := DiscoverPipelines(Some(payload), pipelineName, enableDetection);
            match ItemsOf(payload)
            case None => r == Fallback(pipelineName)
            case Some(items) =>
              if exists i :: 0 <= i < |items| && Raises(items[i]) then r == Fallback(pipelineName)
              else
                var all := Seqs.FilterMap(items, EntryOf);
                var kept := if enableDetection then all else Seqs.FilterMap(all, KeepNonDetection);
                r == (if kept == [] then Fallback(pipelineName) else kept)
  {
    if ItemsOf(payload).Some? {
      EntriesPerItem(ItemsOf(payload).value);
    }
  }

  /** With detection disabled, what survives is exactly the non-detection entries, in order. */
  lemma FilterKeepsNonDetection(entries: seq<PipelineInfo>)
    ensures var kept := Seqs.FilterMap(entries, KeepNonDetection);
            |kept| == |Seqs.IndicesWhere(entries, NotDetection)|
            && forall k :: 0 <= k < |kept| ==> kept[k] == entries[Seqs.IndicesWhere(entries, NotDetection)[k]]
  {
    Seqs.FilterMapAtIndices(entries, KeepNonDetection, NotDetection);
  }

  /** A server listing names only yields those names, as non-detection pipelines, in order. */
  lemma NameListIsKept(names: seq<string>, pipelineName: string, enableDetection: bool)
    requires |names| > 0
    ensures DiscoverPipelines(Some(JArr(seq(|names|, i requires 0 <= i < |names| => JStr(names[i])))),
                              pipelineName, enableDetection)
            == seq(|names|, i requires 0 <= i < |names| => PipelineInfo(names[i], NonDetection))
  {
    var items := seq(|names|, i requires 0 <= i < |names| => JStr(names[i]));
    var entries := seq(|names|, i requires 0 <= i < |names| => PipelineInfo(names[i], NonDetection));
    NamesAreNonDetection(names);
    assert ItemsOf(JArr(items)) == Some(items);
    assert Entries(items) == Some(entries);
    KeptWhole(entries, enableDetection);
  }

  /** Non-detection entries survive the detection filter unchanged. */
  lemma KeptWhole(entries: seq<PipelineInfo>, enableDetection: bool)
    requires forall i :: 0 <= i < |entries| ==> entries[i].kind == NonDetection
    ensures (if enableDetection then entries else Seqs.FilterMap(entries, KeepNonDetection)) == entries
  {
    if !enableDetection {
      Seqs.FilterMapKeepsAll(entries, KeepNonDetection);
    }
  }

  /**
   * One named pipeline whose `parameters` is not an object makes the whole
   * discovery fall back to the default pipeline, whatever else was listed.
   */
  lemma BadParametersFallsBack(before: seq<Json>, item: map<string, Json>, after: seq<Json>,
                               pipelineName: string, enableDetection: bool)
    requires Entries(before).Some?
    requires ItemName(item).Some? && "parameters" in item && !item["parameters"].JObj?
    ensures DiscoverPipelines(Some(JArr(before + [JObj(item)] + after)), pipelineName, enableDetection)
            == Fallback(pipelineName)
  {
    EntriesFailurePersists(before + [JObj(item)], after);
  }

  lemma {:induction false} EntriesFailurePersists(prefix: seq<Json>, rest: seq<Json>)
    requires Entries(prefix).None?
    ensures Entries(prefix + rest).None?
    decreases |rest|
  {
    if |rest| > 0 {
      var n := |rest| - 1;
      EntriesFailurePersists(prefix, rest[..n]);
      assert (prefix + rest)[..|prefix + rest| - 1] == prefix + rest[..n];
    } else {
      assert prefix + rest == prefix;
    }
  }

  // ---------------------------------------------------------------------------
  // Models on disk

  datatype DirEntry = DirEntry(name: string, isDir: bool)

  /** `Path.suffix`: from the last dot, unless the dot leads or ends the name. */
  function Suffix(name: string): (r: string)
    ensures r == [] || (r[0] == '.' && EndsWith(name, r))
    decreases |name|
  {
    if |name| <= 1 then []
    else if name[|name| - 1] == '.' then []
    else LastDotSuffix(name, |name| - 1)
  }

  function LastDotSuffix(name: string, i: nat): (r: string)
    requires 0 < i < |name|
    ensures r == [] || (r[0] == '.' && EndsWith(name, r))
    decreases i
  {
    if name[i] == '.' then name[i..]
    else if i == 1 then []
    else LastDotSuffix(name, i - 1)
  }

  predicate IsModelEntry(e: DirEntry) {
    !StartsWith(e.name, ".") && (e.isDir || Suffix(e.name) in {".xml", ".bin", ".json"})
  }

  function ModelName(e: DirEntry): Option<string> {
    if IsModelEntry(e) then Some(e.name) else None
  }

  /**
   * `discover_models` over the sorted listing: visible directories and the
   * `.xml`/`.bin`/`.json` files, in listing order; nothing when the root is
   * missing.
   */
  function DiscoverModels(listing: Option<seq<DirEntry>>): (r: seq<string>)
    ensures listing.None? ==> r == []
    ensures listing.Some? ==>
              var ks := Seqs.IndicesWhere(listing.value, IsModelEntry);
              |r| == |ks| && forall k :: 0 <= k < |ks| ==> r[k] == listing.value[ks[k]].name
  {
    if listing.None? then []
    else
      Seqs.FilterMapAtIndices(listing.value, ModelName, IsModelEntry);
      Seqs.FilterMap(listing.value, ModelName)
  }

  /** Every listed model is a visible directory or an accepted model file, and every such entry is listed. */
  lemma DiscoverModelsExact(listing: seq<DirEntry>)
    ensures forall e :: e in listing && IsModelEntry(e) ==> e.name in DiscoverModels(Some(listing))
    ensures forall n :: n in DiscoverModels(Some(listing)) ==>
              exists e :: e in listing && IsModelEntry(e) && e.name == n
  {
    forall e | e in listing && IsModelEntry(e) ensures e.name in DiscoverModels(Some(listing)) {
      var j :| 0 <= j < |listing| && listing[j] == e;
      assert listing == listing[..j] + [e] + listing[j + 1..];
      Seqs.FilterMapAppend(listing[..j] + [e], listing[j + 1..], ModelName);
      Seqs.FilterMapAppend(listing[..j], [e], ModelName);
      assert Seqs.FilterMap([e], ModelName) == [e.name];
    }
  }

  /**
   * `discover_detection_models`: visible directories `d` for which
   * `d/public/d` is a directory, in listing order.
   */
  function DiscoverDetectionModels(listing: Option<seq<DirEntry>>, isDir: string -> bool): (r: seq<string>)
    ensures listing.None? ==> r == []
    ensures forall n :: n in r ==> isDir(n + "/public") && isDir(n + "/public/" + n)
    ensures listing.Some? ==> forall n :: n in r ==> exists e :: e in listing.value && IsDetectionModelDir(e, isDir) && e.name == n
    ensures listing.Some? ==> forall e :: e in listing.value && IsDetectionModelDir(e, isDir) ==> e.name in r
  {
    if listing.None? then []
    else
      var pick := (e: DirEntry) => if IsDetectionModelDir(e, isDir) then Some(e.name) else None;
      Seqs.FilterMapComplete(listing.value, pick);
      Seqs.FilterMap(listing.value, pick)
  }

  /** A visible directory `d` with directories `d/public` and `d/public/d`. */
  predicate IsDetectionModelDir(e: DirEntry, isDir: string -> bool) {
    !StartsWith(e.name, ".") && e.isDir && isDir(e.name + "/public") && isDir(e.name + "/public/" + e.name)
  }
}

=== FILE: header.dfy ===
/**
 * The classroom application's header bar: the recording timer text, the
 * error-message helper, the notification shown for the current state, the
 * two button-disabling rules, the camera request list for video analytics,
 * and how the analytics answer switches the video view on or off.
 *
 * Redux selectors and React state are plain inputs; the translated
 * notification texts are the keys they are looked up by. The analytics
 * call is its decoded answer, `None` when it threw.
 */
module Header {
  import opened Wrappers
  import opened Text
  import opened Json

  // ---------------------------------------------------------------------------
  // Timer

  /** `String(n).padStart(2, '0')`. */
  function Pad2(n: nat): (r: string)
    ensures |r| >= 2 && AllDigits(r)
    ensures n < 100 ==> |r| == 2
  {
    if n < 10 then ['0', DigitChar(n)]
    else if n < 100 then [DigitChar(n / 10), DigitChar(n % 10)]
    else NatToString(n)
  }

  lemma {:induction false} Pad2Value(n: nat)
    ensures DecimalValue(Pad2(n)) == n
  {
    var r := Pad2(n);
    if n < 100 {
      assert r[..1] == [r[0]];
      assert [r[0]][..0] == [];
      assert DecimalValue([r[0]]) == DigitValue(r[0]);
      if n < 10 {
        assert DigitValue(r[1]) == n;
      } else {
        assert DigitValue(r[0]) == n / 10 && DigitValue(r[1]) == n % 10;
      }
    } else {
      DecimalValueOfNatToString(n);
    }
  }

  /** `formatTime`: minutes and seconds, each at least two digits, joined by `:`. */
  function FormatTime(seconds: nat): (r: string)
    ensures |r| >= 5 && ':' in r
  {
    var r := Pad2(seconds / 60) + ":" + Pad2(seconds % 60);
    assert r[|Pad2(seconds / 60)|] == ':';
    r
  }

  /**
   * Reading the timer text back: the part before the colon is the whole
   * minutes, the part after is two digits of seconds below 60, and together
   * they give the elapsed seconds.
   */
  lemma FormatTimeReadsBack(seconds: nat)
    ensures var parts := SplitOnce(FormatTime(seconds), ':');
      && parts.Some?
      && AllDigits(parts.value.0) && AllDigits(parts.value.1)
      && |parts.value.1| == 2
      && DecimalValue(parts.value.1) < 60
      && DecimalValue(parts.value.0) * 60 + DecimalValue(parts.value.1) == seconds
  {
    var m := Pad2(seconds / 60);
    var s := Pad2(seconds % 60);
    assert ':' !in m by {
      forall i | 0 <= i < |m| ensures m[i] != ':' {
        assert IsDigit(m[i]);
      }
    }
    var parts := SplitOnce(FormatTime(seconds), ':');
    assert FormatTime(seconds) == m + [':'] + s;
    SplitOnceUnique(m, s, parts.value.0, parts.value.1);
    Pad2Value(seconds / 60);
    Pad2Value(seconds % 60);
  }

  /** In `a + ":" + b` with `a` colon-free, the first colon is at `|a|`. */
  lemma FirstColonAt(w: string, a: string, b: string)
    requires ':' !in a && w == a + [':'] + b
    ensures w[|a|] == ':'
    ensures forall i :: 0 <= i < |a| ==> w[i] != ':'
  {
    forall i | 0 <= i < |a| ensures w[i] != ':' {
      assert w[i] == a[i];
    }
  }

  /** Splitting at the first colon is determined by the colon-free left part. */
  lemma SplitOnceUnique(a: string, b: string, x: string, y: string)
    requires ':' !in a && ':' !in x
    requires a + [':'] + b == x + [':'] + y
    ensures a == x && b == y
  {
    var w := a + [':'] + b;
    FirstColonAt(w, a, b);
    FirstColonAt(w, x, y);
    assert |a| == |x|;
    assert a == w[..|a|];
    assert x == (x + [':'] + y)[..|x|];
    assert b == w[|a| + 1..];
    assert y == (x + [':'] + y)[|x| + 1..];
  }

  // ---------------------------------------------------------------------------
  // Errors

  /** `response?.data?.message` of an error value; reading a member of anything but an object gives nothing. */
  function ResponseMessage(err: Json): Option<Json> {
    match Get(err, "response")
    case Some(resp) =>
      (match Get(resp, "data")
       case Some(data) => Get(data, "message")
       case None => None)
    case None => None
  }

  /** The error carries a message worth showing: a string that is not blank after trimming. */
  predicate HasShownMessage(err: Option<Json>) {
    && err.Some? && JsTruthy(err.value) && JsTypeofObject(err.value)
    && ResponseMessage(err.value).Some? && ResponseMessage(err.value).value.JStr?
    && Strip(ResponseMessage(err.value).value.s) != []
  }

  /** `getErrorMessage`: `response.data.message` when it is a non-blank string, else the fallback. */
  function ErrorMessage(err: Option<Json>, fallback: string): (r: string)
    ensures r == fallback || (err.Some? && Strip(r) != [])
    ensures r != fallback ==>
      var resp := Get(err.value, "response");
      resp.Some? && Get(resp.value, "data").Some? && Get(Get(resp.value, "data").value, "message") == Some(JStr(r))
    ensures HasShownMessage(err) ==> r == ResponseMessage(err.value).value.s
    ensures !HasShownMessage(err) ==> r == fallback
  {
    if err.Some? && JsTruthy(err.value) && JsTypeofObject(err.value) then
      var msg := ResponseMessage(err.value);
      if msg.Some? && msg.value.JStr? && Strip(msg.value.s) != [] then msg.value.s else fallback
    else fallback
  }

  /** A message that is only whitespace is never shown; the fallback is. */
  lemma BlankMessageFallsBack(message: string, fallback: string)
    requires Strip(message) == []
    ensures ErrorMessage(Some(JObj(map["response" := JObj(map["data" := JObj(map["message" := JStr(message)])])])), fallback)
      == fallback
  {
  }

  // ---------------------------------------------------------------------------
  // Notifications

  datatype Status = Status(
    isBusy: bool,
    summaryEnabled: bool,
    summaryLoading: bool,
    transcriptStreaming: bool,
    mindmapEnabled: bool,
    mindmapLoading: bool,
    mindmapStateLoading: bool,
    mindmapHasText: bool,
    mindmapError: bool)

  datatype Notice =
    | MindmapError | GeneratingMindmap | MindmapReady | GeneratingSummary | StreamingSummary
    | SummaryReady | LoadingTranscript | AnalyzingAudio | Start

  /** The conditions of the chain, in priority order. */
  function Rules(s: Status): (rules: seq<(bool, Notice)>)
    ensures |rules| == 8
  {
    [ (s.mindmapError, MindmapError),
      (s.mindmapLoading || s.mindmapStateLoading, GeneratingMindmap),
      (s.mindmapEnabled && !s.mindmapLoading && s.mindmapHasText, MindmapReady),
      (s.summaryEnabled && s.summaryLoading, GeneratingSummary),
      (s.summaryEnabled && s.isBusy && !s.summaryLoading, StreamingSummary),
      (!s.isBusy && s.summaryEnabled && !s.mindmapEnabled, SummaryReady),
      (s.isBusy && s.transcriptStreaming, LoadingTranscript),
      (s.isBusy && !s.summaryEnabled, AnalyzingAudio) ]
  }

  /** The notice of the first rule from index `k` on that holds, `Start` when none does. */
  function FirstMatch(rules: seq<(bool, Notice)>, k: nat): (n: Notice)
    requires k <= |rules|
    decreases |rules| - k
  {
    if k == |rules| then Start
    else if rules[k].0 then rules[k].1
    else FirstMatch(rules, k + 1)
  }

  /** With no rule naming the start prompt, it shows exactly when no rule from `k` on holds. */
  lemma {:induction false} FirstMatchStartIff(rules: seq<(bool, Notice)>, k: nat)
    requires k <= |rules|
    requires forall i :: 0 <= i < |rules| ==> rules[i].1 != Start
    ensures FirstMatch(rules, k) == Start <==> forall i :: k <= i < |rules| ==> !rules[i].0
    decreases |rules| - k
  {
    if k < |rules| && !rules[k].0 {
      FirstMatchStartIff(rules, k + 1);
    }
  }

  /** Any other notice comes from a rule that holds, with no earlier rule holding. */
  lemma {:induction false} FirstMatchIsFirst(rules: seq<(bool, Notice)>, k: nat) returns (i: nat)
    requires k <= |rules| && FirstMatch(rules, k) != Start
    ensures k <= i < |rules| && rules[i].0 && rules[i].1 == FirstMatch(rules, k)
    ensures forall j :: k <= j < i ==> !rules[j].0
    decreases |rules| - k
  {
    if rules[k].0 {
      i := k;
    } else {
      i := FirstMatchIsFirst(rules, k + 1);
    }
  }

  /** The effect that sets the header notification. */
  function Notification(s: Status): (n: Notice)
    ensures s.mindmapError ==> n == MindmapError
  {
    if s.mindmapError then MindmapError
    else if s.mindmapLoading || s.mindmapStateLoading then GeneratingMindmap
    else if s.mindmapEnabled && !s.mindmapLoading && s.mindmapHasText then MindmapReady
    else if s.summaryEnabled && s.summaryLoading then GeneratingSummary
    else if s.summaryEnabled && s.isBusy && !s.summaryLoading then StreamingSummary
    else if !s.isBusy && s.summaryEnabled && !s.mindmapEnabled then SummaryReady
    else if s.isBusy && s.transcriptStreaming then LoadingTranscript
    else if s.isBusy && !s.summaryEnabled then AnalyzingAudio
    else Start
  }

  /** The `if`-chain is the first-match rule over the priority list. */
  lemma NotificationIsFirstMatch(s: Status)
    ensures Notification(s) == FirstMatch(Rules(s), 0)
  {
    var rules := Rules(s);
    assert FirstMatch(rules, 8) == Start;
    assert FirstMatch(rules, 7) == if rules[7].0 then AnalyzingAudio else Start;
    assert FirstMatch(rules, 6) == if rules[6].0 then LoadingTranscript else FirstMatch(rules, 7);
    assert FirstMatch(rules, 5) == if rules[5].0 then SummaryReady else FirstMatch(rules, 6);
    assert FirstMatch(rules, 4) == if rules[4].0 then StreamingSummary else FirstMatch(rules, 5);
    assert FirstMatch(rules, 3) == if rules[3].0 then GeneratingSummary else FirstMatch(rules, 4);
    assert FirstMatch(rules, 2) == if rules[2].0 then MindmapReady else FirstMatch(rules, 3);
    assert FirstMatch(rules, 1) == if rules[1].0 then GeneratingMindmap else FirstMatch(rules, 2);
  }

  /** No rule holds exactly when the header shows the start prompt. */
  lemma StartIffNoRule(s: Status)
    ensures Notification(s) == Start <==> forall i :: 0 <= i < |Rules(s)| ==> !Rules(s)[i].0
  {
    NotificationIsFirstMatch(s);
    FirstMatchStartIff(Rules(s), 0);
  }

  /** While busy with summaries on, the transcript and audio notices never show. */
  lemma TranscriptNoticesNeedSummaryOff(s: Status)
    requires Notification(s) == LoadingTranscript || Notification(s) == AnalyzingAudio
    ensures s.isBusy && !s.summaryEnabled
  {
  }

  // ---------------------------------------------------------------------------
  // Buttons

  /** Everything that blocks a new recording or upload apart from the recording itself. */
  predicate Occupied(s: Status) {
    s.isBusy || s.transcriptStreaming || s.summaryLoading
    || (s.mindmapEnabled && (s.mindmapLoading || s.mindmapStateLoading || !s.mindmapHasText))
  }

  /** `isRecordingDisabled`: only starting is ever blocked; stopping always works. */
  function RecordingDisabled(s: Status, isRecording: bool, hasAudioDevices: bool): (r: bool)
    ensures isRecording ==> !r
  {
    !isRecording && (s.isBusy || s.transcriptStreaming || s.summaryLoading
      || (s.mindmapEnabled && (s.mindmapLoading || s.mindmapStateLoading || !s.mindmapHasText))
      || !hasAudioDevices)
  }

  /** `isUploadDisabled`: always while recording. */
  function UploadDisabled(s: Status, isRecording: bool): (r: bool)
    ensures isRecording ==> r
  {
    isRecording || s.transcriptStreaming || s.isBusy || s.summaryLoading
    || (s.mindmapEnabled && (s.mindmapLoading || s.mindmapStateLoading || !s.mindmapHasText))
  }

  /**
   * When not recording, the two buttons are blocked by the same conditions,
   * except that recording also needs an audio device.
   */
  lemma ButtonsAgreeWhenIdle(s: Status, hasAudioDevices: bool)
    ensures RecordingDisabled(s, false, hasAudioDevices) <==> Occupied(s) || !hasAudioDevices
    ensures UploadDisabled(s, false) <==> Occupied(s)
  {
  }

  // ---------------------------------------------------------------------------
  // Video analytics

  /** A camera setting: the store's value, else the saved one, else empty. */
  function CameraSource(fromStore: string, saved: Option<string>): (r: string)
    ensures fromStore != "" ==> r == fromStore
    ensures fromStore == "" && saved.Some? && saved.value != "" ==> r == saved.value
    ensures fromStore == "" && (saved.None? || saved.value == "") ==> r == ""
  {
    if fromStore != "" then fromStore
    else if saved.Some? && saved.value != "" then saved.value
    else ""
  }

  datatype VideoRequest = VideoRequest(pipelineName: string, source: string)

  /** The request for one pipeline, made only when its (trimmed) source is not empty. */
  function RequestIfSet(name: string, source: string): (r: seq<VideoRequest>)
    ensures source != [] ==> r == [VideoRequest(name, source)]
    ensures source == [] ==> r == []
  {
    if source != [] then [VideoRequest(name, source)] else []
  }

  /** The requests for a list of (pipeline, trimmed camera) pairs: the non-empty ones, in order. */
  function Requests(cams: seq<(string, string)>): (r: seq<VideoRequest>)
    ensures |r| <= |cams|
    decreases |cams|
  {
    if |cams| == 0 then [] else RequestIfSet(cams[0].0, cams[0].1) + Requests(cams[1..])
  }

  /** No request at all exactly when every camera is empty. */
  lemma {:induction false} RequestsEmptyIff(cams: seq<(string, string)>)
    ensures Requests(cams) == [] <==> forall i :: 0 <= i < |cams| ==> cams[i].1 == []
    decreases |cams|
  {
    if |cams| > 0 {
      RequestsEmptyIff(cams[1..]);
      assert forall i :: 1 <= i < |cams| ==> cams[i] == cams[1..][i - 1];
    }
  }

  /** A request made from one of `cams`: its pipeline with that camera's non-empty source. */
  predicate FromCamera(cams: seq<(string, string)>, q: VideoRequest) {
    q.source != [] && exists i :: 0 <= i < |cams| && cams[i] == (q.pipelineName, q.source)
  }

  /** Every request comes from one of the cameras. */
  lemma {:induction false} RequestsFromCameras(cams: seq<(string, string)>)
    ensures forall j :: 0 <= j < |Requests(cams)| ==> FromCamera(cams, Requests(cams)[j])
    decreases |cams|
  {
    if |cams| > 0 {
      var head := RequestIfSet(cams[0].0, cams[0].1);
      var rest := Requests(cams[1..]);
      RequestsFromCameras(cams[1..]);
      assert Requests(cams) == head + rest;
      forall j | 0 <= j < |Requests(cams)| ensures FromCamera(cams, Requests(cams)[j]) {
        if j < |head| {
          assert Requests(cams)[j] == head[j] == VideoRequest(cams[0].0, cams[0].1);
        } else {
          assert Requests(cams)[j] == rest[j - |head|];
          assert FromCamera(cams[1..], rest[j - |head|]);
          var i :| 0 <= i < |cams[1..]| && cams[1..][i] == (rest[j - |head|].pipelineName, rest[j - |head|].source);
          assert cams[1..][i] == cams[i + 1];
        }
      }
    }
  }

  /** A camera with a source gets its request. */
  lemma {:induction false} RequestPresent(cams: seq<(string, string)>, k: nat) returns (j: nat)
    requires k < |cams| && cams[k].1 != []
    ensures j < |Requests(cams)| && Requests(cams)[j] == VideoRequest(cams[k].0, cams[k].1)
    decreases |cams|
  {
    var head := RequestIfSet(cams[0].0, cams[0].1);
    var rest := Requests(cams[1..]);
    assert Requests(cams) == head + rest;
    if k == 0 {
      j := 0;
    } else {
      assert cams[1..][k - 1] == cams[k];
      var j' := RequestPresent(cams[1..], k - 1);
      j := |head| + j';
      assert Requests(cams)[j] == rest[j'];
    }
  }

  /**
   * With distinct pipeline names, a pipeline gets a request exactly when its
   * camera has a source, and that request carries the camera's source.
   */
  lemma RequestFor(cams: seq<(string, string)>, k: nat)
    requires k < |cams|
    requires forall i, j :: 0 <= i < j < |cams| ==> cams[i].0 != cams[j].0
    ensures (exists j :: 0 <= j < |Requests(cams)| && Requests(cams)[j].pipelineName == cams[k].0)
      <==> cams[k].1 != []
    ensures forall j :: 0 <= j < |Requests(cams)| && Requests(cams)[j].pipelineName == cams[k].0 ==>
      Requests(cams)[j].source == cams[k].1
  {
    RequestsFromCameras(cams);
    var r := Requests(cams);
    forall j | 0 <= j < |r| && r[j].pipelineName == cams[k].0
      ensures r[j].source == cams[k].1 && r[j].source != []
    {
      assert FromCamera(cams, r[j]);
      var i :| 0 <= i < |cams| && cams[i] == (r[j].pipelineName, r[j].source);
      assert i == k;
    }
    if cams[k].1 != [] {
      var j := RequestPresent(cams, k);
      assert r[j].pipelineName == cams[k].0;
    }
  }

  /** The pipelines the trimmed camera settings are sent to, in request order. */
  function Cameras(front: string, back: string, board: string): (cams: seq<(string, string)>)
    ensures |cams| == 3
    ensures cams[0] == ("front", Strip(front)) && cams[1] == ("back", Strip(back))
      && cams[2] == ("content", Strip(board))
  {
    [("front", Strip(front)), ("back", Strip(back)), ("content", Strip(board))]
  }

  /**
   * The requests of `tryStartVideoAnalytics`: one per camera that is not
   * blank, in the order front, back, content, with the source trimmed; none
   * at all when every camera is blank.
   */
  function VideoRequests(front: string, back: string, board: string): (r: seq<VideoRequest>)
    ensures |r| <= 3
    ensures r == [] <==> Strip(front) == [] && Strip(back) == [] && Strip(board) == []
  {
    var cams := Cameras(front, back, board);
    RequestsEmptyIff(cams);
    Requests(cams)
  }

  /** Trimmed camera settings give trimmed, non-empty request sources. */
  lemma TrimmedCamerasGiveTrimmedRequests(cams: seq<(string, string)>)
    requires forall i :: 0 <= i < |cams| ==> Strip(cams[i].1) == cams[i].1
    ensures forall j :: 0 <= j < |Requests(cams)| ==>
      Requests(cams)[j].source != [] && Strip(Requests(cams)[j].source) == Requests(cams)[j].source
  {
    RequestsFromCameras(cams);
    forall j | 0 <= j < |Requests(cams)|
      ensures Strip(Requests(cams)[j].source) == Requests(cams)[j].source
    {
      var q := Requests(cams)[j];
      assert FromCamera(cams, q);
      var i :| 0 <= i < |cams| && cams[i] == (q.pipelineName, q.source);
    }
  }

  /** Every request's source is already trimmed and not blank. */
  lemma VideoRequestsTrimmed(front: string, back: string, board: string)
    ensures forall j :: 0 <= j < |VideoRequests(front, back, board)| ==>
      var q := VideoRequests(front, back, board)[j];
      q.source != [] && Strip(q.source) == q.source
  {
    var cams := Cameras(front, back, board);
    StripIdempotent(front);
    StripIdempotent(back);
    StripIdempotent(board);
    forall i | 0 <= i < |cams| ensures Strip(cams[i].1) == cams[i].1 {
      assert i == 0 || i == 1 || i == 2;
    }
    TrimmedCamerasGiveTrimmedRequests(cams);
    assert VideoRequests(front, back, board) == Requests(cams);
  }

  /** Each set camera gets exactly one request, with its trimmed source. */
  lemma OneRequestPerSetCamera(front: string, back: string, board: string)
    ensures var r := VideoRequests(front, back, board);
      && ((exists j :: 0 <= j < |r| && r[j].pipelineName == "front") <==> Strip(front) != [])
      && ((exists j :: 0 <= j < |r| && r[j].pipelineName == "back") <==> Strip(back) != [])
      && ((exists j :: 0 <= j < |r| && r[j].pipelineName == "content") <==> Strip(board) != [])
      && (forall j :: 0 <= j < |r| && r[j].pipelineName == "front" ==> r[j].source == Strip(front))
      && (forall j :: 0 <= j < |r| && r[j].pipelineName == "back" ==> r[j].source == Strip(back))
      && (forall j :: 0 <= j < |r| && r[j].pipelineName == "content" ==> r[j].source == Strip(board))
  {
    var cams := Cameras(front, back, board);
    assert VideoRequests(front, back, board) == Requests(cams);
    assert forall i, j :: 0 <= i < j < |cams| ==> cams[i].0 != cams[j].0;
    RequestFor(cams, 0);
    RequestFor(cams, 1);
    RequestFor(cams, 2);
  }

  datatype Video = Video(active: bool, front: Option<Json>, back: Option<Json>, content: Option<Json>,
                         activeStream: Option<string>)

  /** A result that started: status `success` and a truthy stream URL. */
  predicate Working(result: Json) {
    Get(result, "status") == Some(JStr("success")) && JsTruthyOpt(Get(result, "hls_stream"))
  }

  /** A result that started the stream of the named pipeline. */
  predicate RoutesTo(result: Json, name: string) {
    Working(result) && Get(result, "pipeline_name") == Some(JStr(name))
  }

  /** The stream URL the view holds for `front`, `back` or `content`. */
  function StreamOf(v: Video, name: string): Option<Json> {
    if name == "front" then v.front
    else if name == "back" then v.back
    else if name == "content" then v.content
    else None
  }

  predicate IsCamera(name: string) {
    name == "front" || name == "back" || name == "content"
  }

  /**
   * The stream assignments of one result: a working `front`, `back` or
   * `content` result sets that camera's URL to its `hls_stream`; anything
   * else changes nothing.
   */
  function Route(v: Video, result: Json): (r: Video)
    ensures r.active == v.active && r.activeStream == v.activeStream
    ensures !Working(result) ==> r == v
    ensures RoutesTo(result, "front") ==> r == v.(front := Get(result, "hls_stream"))
    ensures RoutesTo(result, "back") ==> r == v.(back := Get(result, "hls_stream"))
    ensures RoutesTo(result, "content") ==> r == v.(content := Get(result, "hls_stream"))
    ensures !RoutesTo(result, "front") && !RoutesTo(result, "back") && !RoutesTo(result, "content") ==> r == v
  {
    if !Working(result) then v
    else
      var url := Get(result, "hls_stream");
      match Get(result, "pipeline_name")
      case Some(JStr(name)) =>
        if name == "front" then v.(front := url)
        else if name == "back" then v.(back := url)
        else if name == "content" then v.(content := url)
        else v
      case _ => v
  }

  function RouteAll(v: Video, results: seq<Json>): (r: Video)
    ensures r.active == v.active && r.activeStream == v.activeStream
    decreases |results|
  {
    if |results| == 0 then v else Route(RouteAll(v, results[..|results| - 1]), results[|results| - 1])
  }

  /** After routing, a camera shows the stream of the last result that started it. */
  lemma {:induction false} RouteAllLastWins(v: Video, results: seq<Json>, name: string, i: nat)
    requires IsCamera(name) && i < |results| && RoutesTo(results[i], name)
    requires forall j :: i < j < |results| ==> !RoutesTo(results[j], name)
    ensures StreamOf(RouteAll(v, results), name) == Get(results[i], "hls_stream")
    decreases |results|
  {
    var n := |results| - 1;
    var init := results[..n];
    RouteStream(RouteAll(v, init), results[n], name);
    if i < n {
      assert init[i] == results[i];
      assert forall j :: i < j < n ==> init[j] == results[j];
      RouteAllLastWins(v, init, name, i);
    }
  }

  /** A camera no result started keeps the stream it had. */
  lemma {:induction false} RouteAllKeepsUnstarted(v: Video, results: seq<Json>, name: string)
    requires IsCamera(name)
    requires forall j :: 0 <= j < |results| ==> !RoutesTo(results[j], name)
    ensures StreamOf(RouteAll(v, results), name) == StreamOf(v, name)
    decreases |results|
  {
    if |results| > 0 {
      var n := |results| - 1;
      var init := results[..n];
      RouteStream(RouteAll(v, init), results[n], name);
      assert forall j :: 0 <= j < n ==> init[j] == results[j];
      RouteAllKeepsUnstarted(v, init, name);
    }
  }

  /** One result sets the named camera's stream exactly when it started that camera. */
  lemma RouteStream(v: Video, result: Json, name: string)
    requires IsCamera(name)
    ensures StreamOf(Route(v, result), name)
            == if RoutesTo(result, name) then Get(result, "hls_stream") else StreamOf(v, name)
  {
  }

  function AnyWorking(results: seq<Json>): (b: bool)
    ensures b <==> exists i :: 0 <= i < |results| && Working(results[i])
    decreases |results|
  {
    if |results| == 0 then false
    else
      var rest := AnyWorking(results[..|results| - 1]);
      assert forall i :: 0 <= i < |results| - 1 ==> results[..|results| - 1][i] == results[i];
      rest || Working(results[|results| - 1])
  }

  /** The index of the first `null` result, whose `.status` throws. */
  function FirstNull(results: seq<Json>): (r: Option<nat>)
    ensures r.Some? ==> (r.value < |results| && results[r.value].JNull?
      && forall i :: 0 <= i < r.value ==> !results[i].JNull?)
    ensures r.None? ==> forall i :: 0 <= i < |results| ==> !results[i].JNull?
    decreases |results|
  {
    if |results| == 0 then None
    else if results[0].JNull? then Some(0)
    else
      match FirstNull(results[1..])
      case None => None
      case Some(k) => Some(k + 1)
  }

  /**
   * The answer's effect: with a `results` array, working streams are routed
   * and the view is active exactly when one worked (then showing all
   * streams); a call that threw, a non-array `results` or a `null` result
   * switches analytics off; an answer without results changes nothing.
   */
  function AfterAnalytics(v: Video, answer: Option<Json>): (r: Video)
    ensures answer.None? ==> r == v.(active := false)
    ensures answer.Some? && !(JsTruthy(answer.value) && JsTruthyOpt(Get(answer.value, "results"))) ==> r == v
    ensures answer.Some? && JsTruthy(answer.value) && JsTruthyOpt(Get(answer.value, "results"))
              && !Get(answer.value, "results").value.JArr?
            ==> r == v.(active := false)
    ensures answer.Some? && Get(answer.value, "results").Some? && Get(answer.value, "results").value.JArr?
            ==> var items := Get(answer.value, "results").value.items;
                match FirstNull(items)
                case Some(k) => r == RouteAll(v, items[..k]).(active := false)
                case None =>
                  && (r.active <==> exists i :: 0 <= i < |items| && Working(items[i]))
                  && r.activeStream == (if r.active then Some("all") else v.activeStream)
                  && r.front == RouteAll(v, items).front && r.back == RouteAll(v, items).back
                  && r.content == RouteAll(v, items).content
  {
    match answer
    case None => v.(active := false)
    case Some(body) =>
      var results := Get(body, "results");
      if !JsTruthy(body) || !JsTruthyOpt(results) then v
      else if !results.value.JArr? then v.(active := false)
      else
        var items := results.value.items;
        match FirstNull(items)
        case Some(k) => RouteAll(v, items[..k]).(active := false)
        case None =>
          var routed := RouteAll(v, items);
          if AnyWorking(items) then routed.(active := true, activeStream := Some("all"))
          else routed.(active := false)
  }

  /** With a well-formed answer, the video view is active exactly when some stream started. */
  lemma ActiveIffSomeStreamWorks(v: Video, body: Json)
    requires body.JObj? && Get(body, "results").Some? && Get(body, "results").value.JArr?
    requires forall i :: 0 <= i < |Get(body, "results").value.items| ==> !Get(body, "results").value.items[i].JNull?
    ensures var items := Get(body, "results").value.items;
      AfterAnalytics(v, Some(body)).active <==> exists i :: 0 <= i < |items| && Working(items[i])
  {
  }

  /** A failed stream never replaces a camera's stream URL. */
  lemma {:induction false} FailedResultsRouteNothing(v: Video, results: seq<Json>)
    requires forall i :: 0 <= i < |results| ==> !Working(results[i])
    ensures RouteAll(v, results) == v
    decreases |results|
  {
    if |results| > 0 {
      FailedResultsRouteNothing(v, results[..|results| - 1]);
    }
  }
}

=== FILE: json.dfy ===
/**
 * Decoded JSON values as the Python services and the browser code see them,
 * with the two languages' notions of truthiness.
 */
module Json {
  import opened Wrappers

  datatype Json =
    | JNull
    | JBool(b: bool)
    | JNum(n: real)
    | JStr(s: string)
    | JArr(items: seq<Json>)
    | JObj(fields: map<string, Json>)

  /** Python truthiness: `None`, `False`, `0`, and empty strings, lists and dicts are false. */
  predicate PyTruthy(j: Json) {
    match j
    case JNull => false
    case JBool(b) => b
    case JNum(n) => n != 0.0
    case JStr(s) => |s| > 0
    case JArr(a) => |a| > 0
    case JObj(m) => |m| > 0
  }

  /** JavaScript truthiness: every array and object is true, even an empty one. */
  predicate JsTruthy(j: Json) {
    match j
    case JNull => false
    case JBool(b) => b
    case JNum(n) => n != 0.0
    case JStr(s) => |s| > 0
    case JArr(_) => true
    case JObj(_) => true
  }

  /** JavaScript `v?.key` / Python `d.get(key)`: only objects have fields. */
  function Get(j: Json, key: string): (r: Option<Json>)
    ensures r.Some? <==> j.JObj? && key in j.fields
    ensures r.Some? ==> r.value == j.fields[key]
  {
    if j.JObj? && key in j.fields then Some(j.fields[key]) else None
  }

  /** JavaScript truthiness of an optional value; `undefined` is false. */
  predicate JsTruthyOpt(o: Option<Json>) {
    o.Some? && JsTruthy(o.value)
  }

  /** Python truthiness of `d.get(key)`; a missing key gives `None`, which is false. */
  predicate PyTruthyOpt(o: Option<Json>) {
    o.Some? && PyTruthy(o.value)
  }

  /** JavaScript `typeof v === 'object'`, which is also true of `null`. */
  predicate JsTypeofObject(j: Json) {
    j.JNull? || j.JArr? || j.JObj?
  }
}

=== FILE: metadata_stream.dfy ===
/**
 * The captioning UI's single metadata stream: one server-sent-event
 * connection for all runs, a map from run id to that run's card, and the
 * time each run last received a caption.
 *
 * A run's card is a record of what the handler writes: the caption text,
 * the alert/safe classes of the card and of the caption panel (each
 * element may be missing), and the lag chip. `JSON.parse` is a parameter
 * (`None` when it throws), as are `JSON.stringify` and the `String(...)`
 * form of a non-string caption; `Date.now()` is passed in. An exception in
 * the handler is caught, so the writes made before it stay and the rest is
 * skipped.
 */
module MetadataStream {
  import opened Wrappers
  import opened Text
  import opened Json

  datatype Flags = Flags(alert: bool, safe: bool)

  datatype Card = Card(caption: string, card: Option<Flags>, panel: Option<Flags>, lag: string)

  /** `source` holds the agent-mode flag of the configuration the open connection's handler captured. */
  datatype Stream = Stream(source: Option<bool>, cards: map<string, Card>, lastCaption: map<string, int>)

  const Initial: Stream := Stream(None, map[], map[])

  // ---------------------------------------------------------------------------
  // Connection and registry

  /** `initMultiplexedMetadataStream`: a no-op while a connection exists. */
  function Init(s: Stream, agentMode: bool): (r: Stream)
    ensures s.source.Some? ==> r == s
    ensures s.source.None? ==> r == s.(source := Some(agentMode))
  {
    if s.source.Some? then s else s.(source := Some(agentMode))
  }

  /** `close` (and the connection's `onclose`): the connection is dropped, the registry kept. */
  function Close(s: Stream): (r: Stream)
    ensures r.source.None? && r.cards == s.cards && r.lastCaption == s.lastCaption
  {
    s.(source := None)
  }

  /** Once connected, a second initialisation keeps the first configuration. */
  lemma SecondInitKeepsConfig(s: Stream, first: bool, second: bool)
    ensures Init(Init(s, first), second) == Init(s, first)
    ensures s.source.None? ==> Init(Init(s, first), second).source == Some(first)
  {
  }

  function Register(s: Stream, runId: string, card: Card): (r: Stream)
    ensures r.cards.Keys == s.cards.Keys + {runId} && r.cards[runId] == card
    ensures forall k :: k in s.cards && k != runId ==> r.cards[k] == s.cards[k]
    ensures r.source == s.source && r.lastCaption == s.lastCaption
  {
    s.(cards := s.cards[runId := card])
  }

  /** `unregisterRunUI`: the run leaves both maps; every other run is kept. */
  function Unregister(s: Stream, runId: string): (r: Stream)
    ensures runId !in r.cards && runId !in r.lastCaption
    ensures forall k :: k != runId ==> (k in r.cards <==> k in s.cards)
    ensures forall k :: k != runId && k in s.cards ==> r.cards[k] == s.cards[k]
    ensures forall k :: k != runId ==> (k in r.lastCaption <==> k in s.lastCaption)
    ensures forall k :: k != runId && k in s.lastCaption ==> r.lastCaption[k] == s.lastCaption[k]
    ensures r.source == s.source
  {
    s.(cards := s.cards - {runId}, lastCaption := s.lastCaption - {runId})
  }

  function LastCaptionTime(s: Stream, runId: string): (r: Option<int>)
    ensures r.Some? <==> runId in s.lastCaption
    ensures r.Some? ==> r.value == s.lastCaption[runId]
  {
    if runId in s.lastCaption then Some(s.lastCaption[runId]) else None
  }

  // ---------------------------------------------------------------------------
  // Captions

  /** What `captionText` holds: a string, another JSON value, or `undefined`. */
  datatype CaptionValue = Str(s: string) | Other(v: Json) | Undefined

  /**
   * The caption of a message's `data`: a truthy `result` of an object, else
   * a string `data` itself, else its JSON text. `None` is the `TypeError`
   * of reading `result` from `null`; `JSON.stringify(undefined)` is
   * `undefined`.
   */
  function CaptionOf(data: Option<Json>, stringify: Json -> string): (r: Option<CaptionValue>)
    ensures r.None? <==> data == Some(JNull)
    ensures data.Some? && data.value.JObj? && JsTruthyOpt(Get(data.value, "result"))
      ==> r == Some(if data.value.fields["result"].JStr? then Str(data.value.fields["result"].s)
                    else Other(data.value.fields["result"]))
    ensures data.Some? && data.value.JStr? ==> r == Some(Str(data.value.s))
    ensures data.Some? && !data.value.JNull? && !data.value.JStr? && !JsTruthyOpt(Get(data.value, "result"))
      ==> r == Some(Str(stringify(data.value)))
    ensures data.None? ==> r == Some(Undefined)
  {
    match data
    case None => Some(Undefined)
    case Some(d) =>
      if d.JNull? then None
      else if JsTypeofObject(d) && JsTruthyOpt(Get(d, "result")) then
        var result := Get(d, "result").value;
        Some(if result.JStr? then Str(result.s) else Other(result))
      else if d.JStr? then Some(Str(d.s))
      else Some(Str(stringify(d)))
  }

  /** The text the caption element shows; `undefined` assigned to `textContent` shows nothing. */
  function Shown(c: CaptionValue, render: Json -> string): (r: string)
    ensures c.Str? ==> r == c.s
    ensures c.Undefined? ==> r == ""
  {
    match c
    case Str(s) => s
    case Other(v) => render(v)
    case Undefined => ""
  }

  // ---------------------------------------------------------------------------
  // Agent-mode classification

  datatype Verdict = Alert | Safe | Neutral

  /** `yes` anywhere wins; otherwise `no` anywhere is safe. */
  function Classify(lowered: string): (v: Verdict)
    ensures v == Alert <==> Contains(lowered, "yes")
    ensures v == Safe <==> !Contains(lowered, "yes") && Contains(lowered, "no")
    ensures v == Neutral <==> !Contains(lowered, "yes") && !Contains(lowered, "no")
  {
    if Contains(lowered, "yes") then Alert
    else if Contains(lowered, "no") then Safe
    else Neutral
  }

  /** The classes an element has after the handler: exactly one, or none for no keyword. */
  function FlagsFor(v: Verdict): (f: Flags)
    ensures f.alert <==> v == Alert
    ensures f.safe <==> v == Safe
    ensures !(f.alert && f.safe)
  {
    Flags(v == Alert, v == Safe)
  }

  function Mark(el: Option<Flags>, v: Verdict): (r: Option<Flags>)
    ensures r.Some? <==> el.Some?
    ensures r.Some? ==> r.value == FlagsFor(v)
  {
    if el.Some? then Some(FlagsFor(v)) else None
  }

  /** What the handler does to a card, and whether it got as far as recording the time. */
  datatype Update = Update(card: Card, recorded: bool)

  /**
   * The members `metrics` offers to the chips: those of an object held in
   * a truthy `data.metrics`; an array, a primitive or `{}` has none of the
   * keys read.
   */
  function MetricsOf(data: Json): map<string, Json> {
    if data.JObj? && "metrics" in data.fields && data.fields["metrics"].JObj? then data.fields["metrics"].fields
    else map[]
  }

  /** A truthy chip value is formatted with `toFixed`, which only a number has. */
  predicate ChipThrows(metrics: map<string, Json>, key: string) {
    key in metrics && JsTruthy(metrics[key]) && !metrics[key].JNum?
  }

  /**
   * Formatting the timestamp text or a chip throws: a `timestamp_seconds`
   * that is present but not a number, or a truthy `ttft_mean`, `tpot_mean`
   * or `throughput_mean` that is not a number.
   */
  predicate ChipsThrow(data: Json) {
    (data.JObj? && "timestamp_seconds" in data.fields && !data.fields["timestamp_seconds"].JNum?)
    || ChipThrows(MetricsOf(data), "ttft_mean") || ChipThrows(MetricsOf(data), "tpot_mean")
    || ChipThrows(MetricsOf(data), "throughput_mean")
  }

  /**
   * The handler on a card: the caption is written first; in agent mode a
   * string caption is classified (a non-string one has no `toLowerCase`,
   * which stops the handler); an `undefined` data stops the handler when
   * its timestamp is read, and so does a timestamp or chip value that
   * cannot be formatted; otherwise the lag chip is reset and the time is
   * recorded.
   */
  function UpdateCard(card: Card, data: Option<Json>, agentMode: bool, stringify: Json -> string,
                      render: Json -> string): (u: Update)
    ensures CaptionOf(data, stringify).None? ==> u == Update(card, false)
    ensures CaptionOf(data, stringify).Some? ==> u.card.caption == Shown(CaptionOf(data, stringify).value, render)
    ensures u.recorded <==> (CaptionOf(data, stringify).Some? && !CaptionOf(data, stringify).value.Undefined?
                             && !(agentMode && CaptionOf(data, stringify).value.Other?) && !ChipsThrow(data.value))
    ensures u.recorded ==> u.card.lag == "0.00s"
    ensures !u.recorded ==> u.card.lag == card.lag
    ensures !agentMode ==> u.card.card == card.card && u.card.panel == card.panel
    ensures (u.card.card.Some? <==> card.card.Some?) && (u.card.panel.Some? <==> card.panel.Some?)
    ensures agentMode && CaptionOf(data, stringify) == Some(Undefined)
      ==> u.card.card == Mark(card.card, Neutral) && u.card.panel == Mark(card.panel, Neutral)
    ensures agentMode && CaptionOf(data, stringify).Some? && CaptionOf(data, stringify).value.Str?
      ==> var v := Classify(Lower(CaptionOf(data, stringify).value.s));
          u.card.card == Mark(card.card, v) && u.card.panel == Mark(card.panel, v)
  {
    match CaptionOf(data, stringify)
    case None => Update(card, false)
    case Some(c) =>
      var written := card.(caption := Shown(c, render));
      if agentMode && c.Other? then Update(written, false)
      else
        var marked :=
          if !agentMode then written
          else
            var v := if c.Str? then Classify(Lower(c.s)) else Neutral;
            written.(card := Mark(card.card, v), panel := Mark(card.panel, v));
        if data.None? || ChipsThrow(data.value) then Update(marked, false)
        else Update(marked.(lag := "0.00s"), true)
  }

  /**
   * A `null` timestamp: the caption is shown and classified, but
   * `toFixed` throws before the time is recorded or the lag reset.
   */
  lemma NullTimestampNotRecorded(card: Card, stringify: Json -> string, render: Json -> string)
    requires card.card.Some?
    ensures var data := JObj(map["result" := JStr("ok"), "timestamp_seconds" := JNull]);
            var u := UpdateCard(card, Some(data), true, stringify, render);
            !u.recorded && u.card.caption == "ok" && u.card.card == Some(Flags(false, false)) && u.card.lag == card.lag
  {
    var data := JObj(map["result" := JStr("ok"), "timestamp_seconds" := JNull]);
    assert ChipsThrow(data);
    assert CaptionOf(Some(data), stringify) == Some(Str("ok"));
    assert Lower("ok") == "ok";
    assert "ok"[0..2] == "ok" != "no";
    assert !Contains("ok", "no");
  }

  // ---------------------------------------------------------------------------
  // Messages

  /**
   * The run a message is for, if the handler gets past its filters: a
   * non-empty event that parses, has a truthy `runId`, no truthy `removed`,
   * and whose `runId` is a registered run.
   */
  function Target(s: Stream, eventData: string, parse: string -> Option<Json>): (r: Option<string>)
    ensures r.Some? ==> r.value in s.cards
    ensures s.source.None? || eventData == "" || parse(eventData).None? ==> r.None?
  {
    if s.source.None? || eventData == "" then None
    else
      match parse(eventData)
      case None => None
      case Some(msg) =>
        var runId := Get(msg, "runId");
        if !JsTruthyOpt(runId) || JsTruthyOpt(Get(msg, "removed")) then None
        else if runId.value.JStr? && runId.value.s in s.cards then Some(runId.value.s)
        else None
  }

  /** `onmessage`: only the addressed run's card and caption time can change. */
  function OnMessage(s: Stream, eventData: string, parse: string -> Option<Json>, stringify: Json -> string,
                     render: Json -> string, now: int): (r: Stream)
    ensures Target(s, eventData, parse).None? ==> r == s
    ensures r.source == s.source && r.cards.Keys == s.cards.Keys
    ensures forall k :: k in s.cards && Target(s, eventData, parse) != Some(k) ==> r.cards[k] == s.cards[k]
    ensures forall k :: Target(s, eventData, parse) != Some(k) ==> (k in r.lastCaption <==> k in s.lastCaption)
    ensures forall k :: (k in s.lastCaption && Target(s, eventData, parse) != Some(k))
                        ==> r.lastCaption[k] == s.lastCaption[k]
    ensures Target(s, eventData, parse).Some? ==>
      var k := Target(s, eventData, parse).value;
      var u := UpdateCard(s.cards[k], Get(parse(eventData).value, "data"), s.source.value, stringify, render);
      r.cards[k] == u.card
      && (u.recorded ==> LastCaptionTime(r, k) == Some(now))
      && (!u.recorded ==> LastCaptionTime(r, k) == LastCaptionTime(s, k))
  {
    match Target(s, eventData, parse)
    case None => s
    case Some(k) =>
      var u := UpdateCard(s.cards[k], Get(parse(eventData).value, "data"), s.source.value, stringify, render);
      s.(cards := s.cards[k := u.card],
         lastCaption := if u.recorded then s.lastCaption[k := now] else s.lastCaption)
  }

  /** Messages without a `runId`, with `removed` set, or for an unknown run change nothing. */
  lemma FilteredMessagesChangeNothing(s: Stream, eventData: string, parse: string -> Option<Json>,
                                      stringify: Json -> string, render: Json -> string, now: int)
    requires eventData != "" && parse(eventData).Some?
    requires var msg := parse(eventData).value;
      !JsTruthyOpt(Get(msg, "runId")) || JsTruthyOpt(Get(msg, "removed"))
      || !(Get(msg, "runId").value.JStr? && Get(msg, "runId").value.s in s.cards)
    ensures OnMessage(s, eventData, parse, stringify, render, now) == s
  {
    assert Target(s, eventData, parse).None?;
  }

  /** A run that was unregistered is not updated by later messages. */
  lemma UnregisteredRunIgnored(s: Stream, runId: string, eventData: string, parse: string -> Option<Json>,
                               stringify: Json -> string, render: Json -> string, now: int)
    ensures var t := Unregister(s, runId);
      OnMessage(t, eventData, parse, stringify, render, now).cards.Keys == t.cards.Keys
      && LastCaptionTime(OnMessage(t, eventData, parse, stringify, render, now), runId).None?
  {
    var t := Unregister(s, runId);
    assert Target(t, eventData, parse) != Some(runId);
  }

  // ---------------------------------------------------------------------------
  // The alert/safe invariant

  predicate Exclusive(f: Option<Flags>) {
    f.Some? ==> !(f.value.alert && f.value.safe)
  }

  /** No card or caption panel has both the alert and the safe class. */
  predicate NeverBoth(s: Stream) {
    forall k :: k in s.cards ==> Exclusive(s.cards[k].card) && Exclusive(s.cards[k].panel)
  }

  lemma UpdateKeepsExclusive(card: Card, data: Option<Json>, agentMode: bool, stringify: Json -> string,
                             render: Json -> string)
    requires Exclusive(card.card) && Exclusive(card.panel)
    ensures var u := UpdateCard(card, data, agentMode, stringify, render);
      Exclusive(u.card.card) && Exclusive(u.card.panel)
  {
  }

  /** Every message keeps alert and safe apart, whatever the caption says. */
  lemma OnMessageKeepsNeverBoth(s: Stream, eventData: string, parse: string -> Option<Json>,
                                stringify: Json -> string, render: Json -> string, now: int)
    requires NeverBoth(s)
    ensures NeverBoth(OnMessage(s, eventData, parse, stringify, render, now))
  {
    var t := Target(s, eventData, parse);
    if t.Some? {
      UpdateKeepsExclusive(s.cards[t.value], Get(parse(eventData).value, "data"), s.source.value, stringify, render);
    }
  }

  /** In agent mode, a string caption with `yes` raises the alert even when it also says `no`. */
  lemma YesTakesPrecedence(card: Card, caption: string, stringify: Json -> string, render: Json -> string)
    requires card.card.Some? && Contains(Lower(caption), "yes")
    ensures UpdateCard(card, Some(JStr(caption)), true, stringify, render).card.card == Some(Flags(true, false))
  {
  }
}

=== FILE: metrics_collector.dfy ===
/**
 * The captioning UI's system-metrics panel: folding a collector batch into
 * the CPU/RAM/GPU charts and the GPU detail texts, the engine-usage map
 * that lives across batches, and the websocket reconnect counter.
 *
 * A metric is a record of its name, numeric fields and string tags; turning
 * a batch entry into one is the parameter `decode`, `None` when reading the
 * entry would throw (the exception ends the batch early, and the steps after
 * the loop are skipped). The panel's texts are kept as the numbers they
 * show; `toFixed` formatting is left out. The time label of every chart
 * sample of a batch is passed in.
 */
module MetricsCollector {
  import opened Wrappers
  import opened Text
  import opened Json
  import Charts

  // ---------------------------------------------------------------------------
  // Engine names

  /** JavaScript regular-expression `\w`. */
  predicate IsWordChar(c: char) {
    IsAsciiAlnum(c) || c == '_'
  }

  /** `\b\w` matches at `i`: a word character with no word character before it. */
  predicate StartsWord(s: string, i: nat)
    requires i < |s|
  {
    IsWordChar(s[i]) && (i == 0 || !IsWordChar(s[i - 1]))
  }

  /** Upper-cases the first character of every word. */
  function Capitalise(s: string): (r: string)
    ensures |r| == |s|
    ensures forall i :: 0 <= i < |s| ==> r[i] == (if StartsWord(s, i) then UpperChar(s[i]) else s[i])
  {
    seq(|s|, i requires 0 <= i < |s| => if StartsWord(s, i) then UpperChar(s[i]) else s[i])
  }

  /** `formatEngineName`: `Unknown` for an empty name; underscores become spaces, words are capitalised. */
  function FormatEngineName(name: string): (r: string)
    ensures name == "" ==> r == "Unknown"
    ensures name != "" ==> |r| == |name| && '_' !in r
  {
    if name == "" then "Unknown" else Capitalise(ReplaceChar(name, '_', ' '))
  }

  lemma UpperCharKeepsClass(c: char)
    ensures IsWordChar(UpperChar(c)) <==> IsWordChar(c)
    ensures UpperChar(UpperChar(c)) == UpperChar(c)
    ensures UpperChar(c) != '_' || c == '_'
  {
  }

  /**
   * Capitalising only changes case: upper-casing forgets it, and the word
   * starts it looks at are the same afterwards, so a second pass changes
   * nothing.
   */
  lemma CapitaliseOnlyChangesCase(s: string)
    ensures Upper(Capitalise(s)) == Upper(s)
    ensures Capitalise(Capitalise(s)) == Capitalise(s)
  {
    var once := Capitalise(s);
    forall i | 0 <= i < |s|
      ensures Upper(once)[i] == Upper(s)[i]
      ensures StartsWord(once, i) <==> StartsWord(s, i)
    {
      UpperCharKeepsClass(s[i]);
      if i > 0 {
        UpperCharKeepsClass(s[i - 1]);
      }
    }
    forall i | 0 <= i < |once|
      ensures Capitalise(once)[i] == once[i]
    {
      UpperCharKeepsClass(s[i]);
    }
  }

  /** Formatting a formatted name changes nothing. */
  lemma {:induction false} FormatIdempotent(name: string)
    requires name != ""
    ensures FormatEngineName(FormatEngineName(name)) == FormatEngineName(name)
  {
    var spaced := ReplaceChar(name, '_', ' ');
    var once := Capitalise(spaced);
    assert ReplaceChar(once, '_', ' ') == once;
    forall i | 0 <= i < |once|
      ensures StartsWord(once, i) <==> StartsWord(spaced, i)
    {
      UpperCharKeepsClass(spaced[i]);
      if i > 0 {
        UpperCharKeepsClass(spaced[i - 1]);
      }
    }
    forall i | 0 <= i < |once|
      ensures Capitalise(once)[i] == once[i]
    {
      UpperCharKeepsClass(spaced[i]);
    }
  }

  /** The engine map's keys are upper-cased already, so they are shown with underscores as spaces. */
  lemma UpperNameOnlyLosesUnderscores(tag: string)
    requires tag != ""
    ensures FormatEngineName(Upper(tag)) == ReplaceChar(Upper(tag), '_', ' ')
  {
    var spaced := ReplaceChar(Upper(tag), '_', ' ');
    forall i | 0 <= i < |spaced|
      ensures Capitalise(spaced)[i] == spaced[i]
    {
      UpperCharKeepsClass(tag[i]);
    }
  }

  // ---------------------------------------------------------------------------
  // Batches

  datatype Metric = Metric(name: string, fields: map<string, real>, tags: map<string, string>)

  datatype Power = Power(gpu: real, pkg: Option<real>)

  /** What the panel shows: the numbers behind each text, `None` until first written. */
  datatype Display = Display(
    cpu: Option<real>,
    ram: Option<real>,
    gpu: Option<real>,
    freq: Option<real>,
    temp: Option<real>,
    power: Option<Power>,
    engines: Option<map<string, real>>,
    gpuAvailable: bool)

  /** The loop's state: what it writes, plus the two power values of this batch. */
  datatype Acc = Acc(charts: Charts.Registry, display: Display, engines: map<string, real>,
                     gpuPower: Option<real>, pkgPower: Option<real>)

  function Tag(m: Metric, key: string): (r: Option<string>)
    ensures r.Some? <==> key in m.tags
  {
    if key in m.tags then Some(m.tags[key]) else None
  }

  /** A power reading of the given `type` tag in this metric, if any. */
  function PowerReading(m: Metric, kind: string): (r: Option<real>)
    ensures r.Some? <==> m.name == "gpu_power" && "value" in m.fields && Tag(m, "type") == Some(kind)
  {
    if m.name == "gpu_power" && "value" in m.fields && Tag(m, "type") == Some(kind) then Some(m.fields["value"])
    else None
  }

  /** An engine-usage reading: the upper-cased engine tag and the usage. */
  function EngineReading(m: Metric): (r: Option<(string, real)>)
    ensures r.Some? <==> m.name == "gpu_engine_usage" && "usage" in m.fields && "engine" in m.tags && m.tags["engine"] != ""
    ensures r.Some? ==> r.value == (Upper(m.tags["engine"]), m.fields["usage"])
  {
    if m.name == "gpu_engine_usage" && "usage" in m.fields && "engine" in m.tags && m.tags["engine"] != "" then
      Some((Upper(m.tags["engine"]), m.fields["usage"]))
    else None
  }

  /** The chart sample a metric adds: CPU user time to `cpu`, memory use to `ram`. */
  function ChartSample(m: Metric): (r: Option<(string, real)>)
    ensures r.Some? ==> r.value.0 == "cpu" || r.value.0 == "ram"
  {
    if m.name == "cpu" && "usage_user" in m.fields then Some(("cpu", m.fields["usage_user"]))
    else if m.name == "mem" && "used_percent" in m.fields then Some(("ram", m.fields["used_percent"]))
    else None
  }

  /** The CPU text's value a metric writes: `usage_user` of a `cpu` metric. */
  function CpuReading(m: Metric): (r: Option<real>)
    ensures r.Some? <==> m.name == "cpu" && "usage_user" in m.fields
    ensures r.Some? ==> ChartSample(m) == Some(("cpu", r.value))
  {
    if m.name == "cpu" && "usage_user" in m.fields then Some(m.fields["usage_user"]) else None
  }

  /** The RAM text's value a metric writes: `used_percent` of a `mem` metric. */
  function RamReading(m: Metric): (r: Option<real>)
    ensures r.Some? <==> m.name == "mem" && "used_percent" in m.fields
    ensures r.Some? ==> ChartSample(m) == Some(("ram", r.value))
  {
    if m.name == "mem" && "used_percent" in m.fields then Some(m.fields["used_percent"]) else None
  }

  /** The frequency text's value: `value` of a `gpu_frequency` metric tagged `cur_freq`. */
  function FreqReading(m: Metric): (r: Option<real>)
    ensures r.Some? <==> m.name == "gpu_frequency" && "value" in m.fields && Tag(m, "type") == Some("cur_freq")
    ensures r.Some? ==> r.value == m.fields["value"]
  {
    if m.name == "gpu_frequency" && "value" in m.fields && Tag(m, "type") == Some("cur_freq") then Some(m.fields["value"])
    else None
  }

  /** The sensor a `temp` metric names, `unknown` when its tag is missing or empty. */
  function Sensor(m: Metric): string {
    if "sensor" in m.tags && m.tags["sensor"] != "" then m.tags["sensor"] else "unknown"
  }

  /** The temperature text's value: `temp` of a `temp` metric whose sensor contains `package`. */
  function TempReading(m: Metric): (r: Option<real>)
    ensures r.Some? <==> m.name == "temp" && "temp" in m.fields && Contains(Sensor(m), "package")
    ensures r.Some? ==> r.value == m.fields["temp"]
  {
    if m.name == "temp" && "temp" in m.fields && Contains(Sensor(m), "package") then Some(m.fields["temp"]) else None
  }

  /** One metric of the loop. */
  function Step(acc: Acc, m: Metric, now: string): (r: Acc)
    ensures PowerReading(m, "gpu_cur_power").Some? ==> r.gpuPower == PowerReading(m, "gpu_cur_power")
    ensures PowerReading(m, "gpu_cur_power").None? ==> r.gpuPower == acc.gpuPower
    ensures PowerReading(m, "pkg_cur_power").Some? ==> r.pkgPower == PowerReading(m, "pkg_cur_power")
    ensures PowerReading(m, "pkg_cur_power").None? ==> r.pkgPower == acc.pkgPower
    ensures EngineReading(m).Some? ==> r.engines == acc.engines[EngineReading(m).value.0 := EngineReading(m).value.1]
    ensures EngineReading(m).None? ==> r.engines == acc.engines
    ensures ChartSample(m).None? ==> r.charts == acc.charts
    ensures ChartSample(m).Some? ==> r.charts == Charts.Push(acc.charts, ChartSample(m).value.0, ChartSample(m).value.1, now)
    ensures r.charts.Keys == acc.charts.Keys
    ensures r.display.power == acc.display.power && r.display.engines == acc.display.engines
    ensures r.display.gpu == acc.display.gpu && r.display.gpuAvailable == acc.display.gpuAvailable
    ensures r.display.cpu == if CpuReading(m).Some? then CpuReading(m) else acc.display.cpu
    ensures r.display.ram == if RamReading(m).Some? then RamReading(m) else acc.display.ram
    ensures r.display.freq == if FreqReading(m).Some? then FreqReading(m) else acc.display.freq
    ensures r.display.temp == if TempReading(m).Some? then TempReading(m) else acc.display.temp
  {
    match m.name
    case "cpu" =>
      if "usage_user" in m.fields then
        var v := m.fields["usage_user"];
        acc.(charts := Charts.Push(acc.charts, "cpu", v, now), display := acc.display.(cpu := Some(v)))
      else acc
    case "mem" =>
      if "used_percent" in m.fields then
        var v := m.fields["used_percent"];
        acc.(charts := Charts.Push(acc.charts, "ram", v, now), display := acc.display.(ram := Some(v)))
      else acc
    case "gpu_engine_usage" =>
      if "usage" in m.fields && "engine" in m.tags && m.tags["engine"] != "" then
        acc.(engines := acc.engines[Upper(m.tags["engine"]) := m.fields["usage"]])
      else acc
    case "gpu_frequency" =>
      if "value" in m.fields && Tag(m, "type") == Some("cur_freq") then
        acc.(display := acc.display.(freq := Some(m.fields["value"])))
      else acc
    case "gpu_power" =>
      if "value" in m.fields then
        if Tag(m, "type") == Some("gpu_cur_power") then acc.(gpuPower := Some(m.fields["value"]))
        else if Tag(m, "type") == Some("pkg_cur_power") then acc.(pkgPower := Some(m.fields["value"]))
        else acc
      else acc
    case "temp" =>
      if "temp" in m.fields then
        if Contains(Sensor(m), "package") then acc.(display := acc.display.(temp := Some(m.fields["temp"]))) else acc
      else acc
    case _ => acc
  }

  /** The `forEach` over a batch, in order. */
  function Fold(acc: Acc, ms: seq<Metric>, now: string): (r: Acc)
    ensures r.charts.Keys == acc.charts.Keys
    ensures r.display.power == acc.display.power && r.display.engines == acc.display.engines
    ensures r.display.gpu == acc.display.gpu && r.display.gpuAvailable == acc.display.gpuAvailable
    decreases |ms|
  {
    if |ms| == 0 then acc else Step(Fold(acc, ms[..|ms| - 1], now), ms[|ms| - 1], now)
  }

  /** The last reading of a power type in a batch. */
  function LastPower(ms: seq<Metric>, kind: string): (r: Option<real>)
    ensures r.Some? ==> exists i :: 0 <= i < |ms| && PowerReading(ms[i], kind) == r
    ensures r.None? ==> forall i :: 0 <= i < |ms| ==> PowerReading(ms[i], kind).None?
    decreases |ms|
  {
    if |ms| == 0 then None
    else if PowerReading(ms[|ms| - 1], kind).Some? then PowerReading(ms[|ms| - 1], kind)
    else LastPower(ms[..|ms| - 1], kind)
  }

  /** The last reading a batch gives under `read`, if any. */
  function LastReading(ms: seq<Metric>, read: Metric -> Option<real>): (r: Option<real>)
    ensures r.Some? ==> exists i :: 0 <= i < |ms| && read(ms[i]) == r && forall j :: i < j < |ms| ==> read(ms[j]).None?
    ensures r.None? ==> forall i :: 0 <= i < |ms| ==> read(ms[i]).None?
    decreases |ms|
  {
    if |ms| == 0 then None
    else if read(ms[|ms| - 1]).Some? then read(ms[|ms| - 1])
    else
      var r := LastReading(ms[..|ms| - 1], read);
      assert forall i :: 0 <= i < |ms| - 1 ==> ms[..|ms| - 1][i] == ms[i];
      r
  }

  /**
   * The CPU, RAM, frequency and temperature texts are written as the loop
   * goes: after a batch each shows the batch's last reading of its kind,
   * and keeps its old value when the batch has none.
   */
  lemma {:induction false} FoldDisplay(acc: Acc, ms: seq<Metric>, now: string)
    ensures var r := Fold(acc, ms, now);
      && r.display.cpu == (if LastReading(ms, CpuReading).Some? then LastReading(ms, CpuReading) else acc.display.cpu)
      && r.display.ram == (if LastReading(ms, RamReading).Some? then LastReading(ms, RamReading) else acc.display.ram)
      && r.display.freq == (if LastReading(ms, FreqReading).Some? then LastReading(ms, FreqReading) else acc.display.freq)
      && r.display.temp == (if LastReading(ms, TempReading).Some? then LastReading(ms, TempReading) else acc.display.temp)
    decreases |ms|
  {
    if |ms| > 0 {
      FoldDisplay(acc, ms[..|ms| - 1], now);
    }
  }

  /** The loop ends holding the batch's last GPU and package power readings. */
  lemma {:induction false} FoldPower(acc: Acc, ms: seq<Metric>, now: string)
    ensures Fold(acc, ms, now).gpuPower
      == if LastPower(ms, "gpu_cur_power").Some? then LastPower(ms, "gpu_cur_power") else acc.gpuPower
    ensures Fold(acc, ms, now).pkgPower
      == if LastPower(ms, "pkg_cur_power").Some? then LastPower(ms, "pkg_cur_power") else acc.pkgPower
    decreases |ms|
  {
    if |ms| > 0 {
      FoldPower(acc, ms[..|ms| - 1], now);
    }
  }

  /** The usage the last engine reading for `engine` in a batch reports. */
  function LastEngineUsage(ms: seq<Metric>, engine: string): (r: Option<real>)
    decreases |ms|
  {
    if |ms| == 0 then None
    else
      var reading := EngineReading(ms[|ms| - 1]);
      if reading.Some? && reading.value.0 == engine then Some(reading.value.1)
      else LastEngineUsage(ms[..|ms| - 1], engine)
  }

  /**
   * The engine map after a batch: an engine read in the batch has its last
   * reading, any other keeps the value it had (the map is never cleared).
   */
  lemma {:induction false} FoldEngines(acc: Acc, ms: seq<Metric>, now: string, engine: string)
    ensures LastEngineUsage(ms, engine).Some? ==>
      engine in Fold(acc, ms, now).engines && Fold(acc, ms, now).engines[engine] == LastEngineUsage(ms, engine).value
    ensures LastEngineUsage(ms, engine).None? ==>
      (engine in Fold(acc, ms, now).engines <==> engine in acc.engines)
      && (engine in acc.engines ==> Fold(acc, ms, now).engines[engine] == acc.engines[engine])
    decreases |ms|
  {
    if |ms| > 0 {
      FoldEngines(acc, ms[..|ms| - 1], now, engine);
    }
  }

  /** Every engine the map held before the batch is still there. */
  lemma {:induction false} FoldKeepsEngines(acc: Acc, ms: seq<Metric>, now: string)
    ensures acc.engines.Keys <= Fold(acc, ms, now).engines.Keys
    decreases |ms|
  {
    if |ms| > 0 {
      FoldKeepsEngines(acc, ms[..|ms| - 1], now);
    }
  }

  /** `m.fields.usage || 0`. */
  function Usage(m: Metric): real {
    if "usage" in m.fields then m.fields["usage"] else 0.0
  }

  function EngineMetrics(ms: seq<Metric>): (r: seq<Metric>)
    ensures forall m :: m in r <==> m in ms && m.name == "gpu_engine_usage"
    ensures r == [] <==> forall i :: 0 <= i < |ms| ==> ms[i].name != "gpu_engine_usage"
    decreases |ms|
  {
    if |ms| == 0 then []
    else if ms[|ms| - 1].name == "gpu_engine_usage" then EngineMetrics(ms[..|ms| - 1]) + [ms[|ms| - 1]]
    else EngineMetrics(ms[..|ms| - 1])
  }

  /** `Math.max(...usages)` of a non-empty list. */
  function MaxUsage(ms: seq<Metric>): (r: real)
    requires |ms| > 0
    ensures forall m :: m in ms ==> Usage(m) <= r
    ensures exists m :: m in ms && Usage(m) == r
    decreases |ms|
  {
    if |ms| == 1 then Usage(ms[0])
    else
      var rest := MaxUsage(ms[..|ms| - 1]);
      assert forall m :: m in ms ==> m in ms[..|ms| - 1] || m == ms[|ms| - 1];
      if Usage(ms[|ms| - 1]) > rest then Usage(ms[|ms| - 1]) else rest
  }

  /**
   * After the loop: the power text when this batch had a GPU reading (with
   * the package reading appended when there was one), the engine list when
   * the map is non-empty, and the overall GPU usage when the batch had any
   * engine metric.
   */
  function Finish(acc: Acc, ms: seq<Metric>, now: string): (r: Acc)
    ensures acc.gpuPower.Some? ==> r.display.power == Some(Power(acc.gpuPower.value, acc.pkgPower))
    ensures acc.gpuPower.None? ==> r.display.power == acc.display.power
    ensures |acc.engines| > 0 ==> r.display.engines == Some(acc.engines)
    ensures |acc.engines| == 0 ==> r.display.engines == acc.display.engines
    ensures EngineMetrics(ms) != [] ==> r.display.gpu == Some(MaxUsage(EngineMetrics(ms))) && r.display.gpuAvailable
    ensures EngineMetrics(ms) == [] ==> r.display.gpu == acc.display.gpu && r.charts == acc.charts
    ensures r.engines == acc.engines && r.charts.Keys == acc.charts.Keys
  {
    var d := acc.display;
    var d := if acc.gpuPower.Some? then d.(power := Some(Power(acc.gpuPower.value, acc.pkgPower))) else d;
    var d := if |acc.engines| > 0 then d.(engines := Some(acc.engines)) else d;
    var engineMetrics := EngineMetrics(ms);
    if engineMetrics != [] then
      var top := MaxUsage(engineMetrics);
      acc.(charts := Charts.Push(acc.charts, "gpu", top, now), display := d.(gpu := Some(top), gpuAvailable := true))
    else acc.(display := d)
  }

  /** `processCollectorMetrics`: the power values reset, the loop, and — unless it threw — the final step. */
  function ProcessBatch(charts: Charts.Registry, display: Display, engines: map<string, real>,
                        ms: seq<Metric>, complete: bool, now: string): (r: Acc)
    ensures r.charts.Keys == charts.Keys
    ensures !complete ==> r.display.power == display.power && r.display.gpu == display.gpu
  {
    var looped := Fold(Acc(charts, display, engines, None, None), ms, now);
    if complete then Finish(looped, ms, now) else looped
  }

  /**
   * Power comes from this batch alone: it is shown exactly when the batch
   * has a GPU power reading, with the batch's package reading or none,
   * never one left over from an earlier batch.
   */
  lemma PowerIsFromThisBatch(charts: Charts.Registry, display: Display, engines: map<string, real>,
                             ms: seq<Metric>, now: string)
    ensures var r := ProcessBatch(charts, display, engines, ms, true, now);
      && (LastPower(ms, "gpu_cur_power").Some? ==>
            r.display.power == Some(Power(LastPower(ms, "gpu_cur_power").value, LastPower(ms, "pkg_cur_power"))))
      && (LastPower(ms, "gpu_cur_power").None? ==> r.display.power == display.power)
  {
    FoldPower(Acc(charts, display, engines, None, None), ms, now);
  }

  /** The overall GPU usage bounds every engine reading of the batch and is one of them. */
  lemma GpuUsageIsMaximum(charts: Charts.Registry, display: Display, engines: map<string, real>,
                          ms: seq<Metric>, now: string)
    requires exists m :: m in ms && m.name == "gpu_engine_usage"
    ensures var r := ProcessBatch(charts, display, engines, ms, true, now);
      && r.display.gpu.Some?
      && (forall m :: m in ms && m.name == "gpu_engine_usage" ==> Usage(m) <= r.display.gpu.value)
      && (exists m :: m in ms && m.name == "gpu_engine_usage" && Usage(m) == r.display.gpu.value)
  {
    EngineMetricsNonEmpty(ms);
  }

  lemma EngineMetricsNonEmpty(ms: seq<Metric>)
    requires exists m :: m in ms && m.name == "gpu_engine_usage"
    ensures EngineMetrics(ms) != []
  {
    var m :| m in ms && m.name == "gpu_engine_usage";
    var i :| 0 <= i < |ms| && ms[i] == m;
  }

  /** A batch without engine metrics leaves the GPU usage and its chart alone. */
  lemma NoEngineMetricsNoGpuSample(charts: Charts.Registry, display: Display, engines: map<string, real>,
                                   ms: seq<Metric>, now: string)
    requires forall i :: 0 <= i < |ms| ==> ms[i].name != "gpu_engine_usage"
    ensures ProcessBatch(charts, display, engines, ms, true, now).display.gpu == display.gpu
  {
  }

  // ---------------------------------------------------------------------------
  // Messages

  /** The entries that decode before the first one that would throw, and whether all did. */
  function DecodePrefix(items: seq<Json>, decode: Json -> Option<Metric>): (r: (seq<Metric>, bool))
    ensures |r.0| <= |items|
    ensures r.1 ==> |r.0| == |items|
    ensures forall i :: 0 <= i < |r.0| ==> decode(items[i]) == Some(r.0[i])
    ensures !r.1 ==> |r.0| < |items| && decode(items[|r.0|]).None?
    ensures r.1 ==> forall i :: 0 <= i < |items| ==> decode(items[i]).Some?
    decreases |items|
  {
    if |items| == 0 then ([], true)
    else
      match decode(items[0])
      case None => ([], false)
      case Some(m) =>
        var (rest, complete) := DecodePrefix(items[1..], decode);
        assert forall i :: 1 <= i < |items| ==> items[i] == items[1..][i - 1];
        ([m] + rest, complete)
  }

  datatype Collector = Collector(charts: Charts.Registry, display: Display, engines: map<string, real>)

  /** The metrics list of a parsed message: only an array `metrics` field counts. */
  function MetricsOf(msg: Option<Json>): (r: Option<seq<Json>>)
    ensures r.Some? <==> msg.Some? && Get(msg.value, "metrics").Some? && Get(msg.value, "metrics").value.JArr?
  {
    if msg.Some? then
      match Get(msg.value, "metrics")
      case Some(JArr(items)) => Some(items)
      case _ => None
    else None
  }

  /** `onmessage`: a message that does not parse or has no array `metrics` changes nothing. */
  function OnMessage(c: Collector, msg: Option<Json>, decode: Json -> Option<Metric>, now: string): (r: Collector)
    ensures MetricsOf(msg).None? ==> r == c
    ensures r.charts.Keys == c.charts.Keys
    ensures MetricsOf(msg).Some? ==>
      var (ms, complete) := DecodePrefix(MetricsOf(msg).value, decode);
      var a := ProcessBatch(c.charts, c.display, c.engines, ms, complete, now);
      r == Collector(a.charts, a.display, a.engines)
  {
    match MetricsOf(msg)
    case None => c
    case Some(items) =>
      var (ms, complete) := DecodePrefix(items, decode);
      var a := ProcessBatch(c.charts, c.display, c.engines, ms, complete, now);
      Collector(a.charts, a.display, a.engines)
  }

  predicate ChartsBounded(reg: Charts.Registry) {
    forall k :: k in reg ==> Charts.WellFormed(reg[k])
  }

  lemma PushKeepsBounded(reg: Charts.Registry, key: string, v: real, now: string)
    requires ChartsBounded(reg)
    ensures ChartsBounded(Charts.Push(reg, key, v, now))
  {
    if key in reg {
      Charts.PushKeepsWellFormed(reg, key, v, now);
    }
  }

  lemma StepKeepsBounded(acc: Acc, m: Metric, now: string)
    requires ChartsBounded(acc.charts)
    ensures ChartsBounded(Step(acc, m, now).charts)
  {
    var sample := ChartSample(m);
    if sample.Some? {
      PushKeepsBounded(acc.charts, sample.value.0, sample.value.1, now);
    }
  }

  /** The charts stay within 60 points, labels aligned with data, through any batch. */
  lemma {:induction false} FoldKeepsChartsBounded(acc: Acc, ms: seq<Metric>, now: string)
    requires ChartsBounded(acc.charts)
    ensures ChartsBounded(Fold(acc, ms, now).charts)
    decreases |ms|
  {
    if |ms| > 0 {
      FoldKeepsChartsBounded(acc, ms[..|ms| - 1], now);
      StepKeepsBounded(Fold(acc, ms[..|ms| - 1], now), ms[|ms| - 1], now);
    }
  }

  /** A whole message keeps every chart within 60 points. */
  lemma OnMessageKeepsChartsBounded(c: Collector, msg: Option<Json>, decode: Json -> Option<Metric>, now: string)
    requires ChartsBounded(c.charts)
    ensures ChartsBounded(OnMessage(c, msg, decode, now).charts)
  {
    if MetricsOf(msg).Some? {
      var (ms, complete) := DecodePrefix(MetricsOf(msg).value, decode);
      var acc := Acc(c.charts, c.display, c.engines, None, None);
      FoldKeepsChartsBounded(acc, ms, now);
      var looped := Fold(acc, ms, now);
      if complete && EngineMetrics(ms) != [] {
        PushKeepsBounded(looped.charts, "gpu", MaxUsage(EngineMetrics(ms)), now);
      }
    }
  }

  // ---------------------------------------------------------------------------
  // Reconnecting

  const MaxReconnectAttempts: nat := 10

  datatype SocketState = NoSocket | Connecting | Open | Closed

  datatype Connection = Connection(socket: SocketState, attempts: nat)

  /** `connectMetricsWS`: nothing while a socket is connecting or open. */
  function Connect(c: Connection): (r: Connection)
    ensures c.socket == Connecting || c.socket == Open ==> r == c
    ensures c.socket == NoSocket || c.socket == Closed ==> r == c.(socket := Connecting)
  {
    if c.socket == Connecting || c.socket == Open then c else c.(socket := Connecting)
  }

  /** `onopen`: the attempt counter starts over. */
  function OnOpen(c: Connection): (r: Connection)
    ensures r.socket == Open && r.attempts == 0
  {
    Connection(Open, 0)
  }

  /** `onclose`: another attempt is scheduled while fewer than 10 were made. */
  function OnClose(c: Connection): (r: (Connection, bool))
    ensures r.1 <==> c.attempts < MaxReconnectAttempts
    ensures r.1 ==> r.0.attempts == c.attempts + 1
    ensures !r.1 ==> r.0.attempts == c.attempts
    ensures r.0.socket == Closed
  {
    if c.attempts < MaxReconnectAttempts then (Connection(Closed, c.attempts + 1), true)
    else (Connection(Closed, c.attempts), false)
  }

  datatype Event = Opened | ClosedEvent | Retry

  /** A run of socket events; a retry is the scheduled `connectMetricsWS`. */
  function Run(c: Connection, events: seq<Event>): (r: Connection)
    decreases |events|
  {
    if |events| == 0 then c
    else
      var last := events[|events| - 1];
      var before := Run(c, events[..|events| - 1]);
      match last
      case Opened => OnOpen(before)
      case ClosedEvent => OnClose(before).0
      case Retry => Connect(before)
  }

  /** The attempt counter never passes 10, whatever happens. */
  lemma {:induction false} AttemptsBounded(c: Connection, events: seq<Event>)
    requires c.attempts <= MaxReconnectAttempts
    ensures Run(c, events).attempts <= MaxReconnectAttempts
    decreases |events|
  {
    if |events| > 0 {
      AttemptsBounded(c, events[..|events| - 1]);
    }
  }

  /** Closes without an open in between count up by one each, stopping at 10. */
  lemma {:induction false} ClosesCountUp(c: Connection, n: nat)
    ensures Run(c, seq(n, i => ClosedEvent)).attempts
      == if c.attempts + n <= MaxReconnectAttempts then c.attempts + n
         else if c.attempts <= MaxReconnectAttempts then MaxReconnectAttempts else c.attempts
  {
    if n > 0 {
      var events := seq(n, i => ClosedEvent);
      assert events[..n - 1] == seq(n - 1, i => ClosedEvent);
      ClosesCountUp(c, n - 1);
    }
  }

  /** After ten closes in a row from a fresh connection, no further attempt is scheduled. */
  lemma GivesUpAfterTenCloses()
    ensures !OnClose(Run(Connection(NoSocket, 0), seq(10, i => ClosedEvent))).1
  {
    ClosesCountUp(Connection(NoSocket, 0), 10);
  }
}

=== FILE: metrics_relay.dfy ===
/**
 * The live-metrics relay of the captioning backend: one collector slot,
 * a set of dashboard clients, the wrapping of collector batches into
 * `{"metrics": ...}`, the fan-out that drops clients whose send failed,
 * and the status report.
 *
 * Websockets are identified by a number; whether a send to a client fails
 * is a parameter. Locks and the receive loops are left out: each handler
 * step is one atomic transition.
 */
module MetricsRelay {
  import opened Wrappers
  import opened Json

  type Socket = nat

  datatype Relay = Relay(collector: Option<Socket>, clients: set<Socket>)

  const Empty: Relay := Relay(None, {})

  /** WebSocket close code 1008, policy violation. */
  const PolicyViolation: int := 1008

  datatype CollectorAnswer = Accepted | Rejected(closeCode: int, message: Json)

  // ---------------------------------------------------------------------------
  // The collector slot

  /** A collector connecting: rejected with 1008 while another one holds the slot. */
  function CollectorConnect(r: Relay, ws: Socket): (out: (Relay, CollectorAnswer))
    ensures r.collector.Some? ==> out.0 == r && out.1.Rejected? && out.1.closeCode == PolicyViolation
    ensures r.collector.None? ==> out.0 == r.(collector := Some(ws)) && out.1 == Accepted
  {
    if r.collector.Some? then
      (r, Rejected(PolicyViolation, JObj(map["error" := JStr("Only one collector connection allowed.")])))
    else (r.(collector := Some(ws)), Accepted)
  }

  /** A collector handler ending: the slot is freed only if it still holds this socket. */
  function CollectorRelease(r: Relay, ws: Socket): (out: Relay)
    ensures out.clients == r.clients
    ensures r.collector == Some(ws) ==> out.collector.None?
    ensures r.collector != Some(ws) ==> out == r
  {
    if r.collector == Some(ws) then r.(collector := None) else r
  }

  /** A rejected collector that goes away leaves the accepted one in its slot. */
  lemma RejectedCollectorKeepsSlot(r: Relay, holder: Socket, ws: Socket)
    requires r.collector == Some(holder) && ws != holder
    ensures var (after, answer) := CollectorConnect(r, ws);
      answer.Rejected? && CollectorRelease(after, ws).collector == Some(holder)
  {
  }

  /** An accepted collector that ends frees the slot for the next one. */
  lemma AcceptedCollectorFreesSlot(r: Relay, ws: Socket, next: Socket)
    requires r.collector.None?
    ensures var released := CollectorRelease(CollectorConnect(r, ws).0, ws);
      released.collector.None? && CollectorConnect(released, next).1 == Accepted
  {
  }

  // ---------------------------------------------------------------------------
  // Batches

  /**
   * The wrapping rule: a list becomes `{"metrics": list}`, an object that
   * already has `metrics` is kept, any other object is wrapped in a
   * one-element list, anything else becomes `{"metrics": data}`.
   */
  function Wrap(data: Json): (r: Json)
    ensures r.JObj? && "metrics" in r.fields
    ensures data.JArr? ==> r == JObj(map["metrics" := data])
    ensures data.JObj? && "metrics" in data.fields ==> r == data
    ensures data.JObj? && "metrics" !in data.fields ==> r == JObj(map["metrics" := JArr([data])])
    ensures !data.JArr? && !data.JObj? ==> r == JObj(map["metrics" := data])
  {
    if data.JArr? then JObj(map["metrics" := data])
    else if data.JObj? && "metrics" in data.fields then data
    else JObj(map["metrics" := if data.JObj? then JArr([data]) else data])
  }

  /** Wrapping a wrapped batch changes nothing. */
  lemma WrapIdempotent(data: Json)
    ensures Wrap(Wrap(data)) == Wrap(data)
  {
    var w := Wrap(data);
    assert w.JObj? && "metrics" in w.fields;
  }

  /** A collector's list reaches the clients as the `metrics` field, unchanged. */
  lemma ListBatchUnchanged(items: seq<Json>)
    ensures Get(Wrap(JArr(items)), "metrics") == Some(JArr(items))
  {
  }

  /** The result of broadcasting one batch. */
  datatype Fanout = Fanout(state: Relay, delivered: set<Socket>, message: Json)

  /**
   * One batch: sent, wrapped, to every client; clients whose send failed
   * are dropped from the set, the others stay.
   */
  function Broadcast(r: Relay, data: Json, sendFails: Socket -> bool): (out: Fanout)
    ensures out.message == Wrap(data)
    ensures forall c :: c in out.delivered <==> c in r.clients && !sendFails(c)
    ensures forall c :: c in out.state.clients <==> c in r.clients && !sendFails(c)
    ensures out.state.collector == r.collector
  {
    var failed := set c | c in r.clients && sendFails(c);
    Fanout(r.(clients := r.clients - failed), r.clients - failed, Wrap(data))
  }

  /** When every send succeeds, the client set is unchanged and everyone gets the batch. */
  lemma BroadcastWithoutFailures(r: Relay, data: Json, sendFails: Socket -> bool)
    requires forall c :: c in r.clients ==> !sendFails(c)
    ensures Broadcast(r, data, sendFails).state == r
    ensures Broadcast(r, data, sendFails).delivered == r.clients
  {
    var out := Broadcast(r, data, sendFails);
    assert out.state.clients == r.clients;
  }

  // ---------------------------------------------------------------------------
  // Clients and status

  function ClientConnect(r: Relay, ws: Socket): (out: Relay)
    ensures out.clients == r.clients + {ws} && out.collector == r.collector
  {
    r.(clients := r.clients + {ws})
  }

  /** Disconnect or error: the socket is discarded; an unknown socket is a no-op. */
  function ClientDisconnect(r: Relay, ws: Socket): (out: Relay)
    ensures out.clients == r.clients - {ws} && out.collector == r.collector
    ensures ws !in r.clients ==> out == r
  {
    r.(clients := r.clients - {ws})
  }

  /** A client that connects and then disconnects leaves the set as it was, if it was new. */
  lemma ConnectThenDisconnect(r: Relay, ws: Socket)
    requires ws !in r.clients
    ensures ClientDisconnect(ClientConnect(r, ws), ws) == r
  {
    assert (r.clients + {ws}) - {ws} == r.clients;
  }

  datatype Status = Status(collectorConnected: bool, clientsConnected: nat)

  /** `GET /api/metrics/status`. */
  function MetricsStatus(r: Relay): (s: Status)
    ensures s.collectorConnected <==> r.collector.Some?
    ensures s.clientsConnected == |r.clients|
  {
    Status(r.collector.Some?, |r.clients|)
  }

  /** A new client raises the count by one; the collector flag is untouched. */
  lemma StatusCountsClients(r: Relay, ws: Socket)
    requires ws !in r.clients
    ensures MetricsStatus(ClientConnect(r, ws)).clientsConnected == MetricsStatus(r).clientsConnected + 1
    ensures MetricsStatus(ClientConnect(r, ws)).collectorConnected == MetricsStatus(r).collectorConnected
  {
  }
}

=== FILE: metrics_service.dfy ===
/**
 * The metrics service's log parsers: the latest CPU, NPU and memory readings
 * and the time series built from the same logs, including the power series
 * derived from the energy counters of a two-header PCM CSV file.
 *
 * A log file is given as its lines (`None` when it is missing or cannot be
 * read); the PCM file as its CSV rows. Python's `float()`, the timestamp
 * parsing of `parse_ts` and the current time are parameters. A series entry
 * produced with "approximated" timestamps carries its offset in seconds from
 * the current time instead of the ISO string.
 */
module MetricsService {
  import opened Wrappers
  import opened Text
  import opened Seqs

  /** A text file as read line by line, or `None` when it is missing or unreadable. */
  type LogFile = Option<seq<string>>

  /** Python's `float()` on a string: the number, or `None` when it raises. */
  type FloatParser = string -> Option<real>

  // ---------------------------------------------------------------------------
  // Lines

  /** `line.strip()` when that is non-blank. */
  function StrippedLine(line: string): Option<string> {
    if Strip(line) != [] then Some(Strip(line)) else None
  }

  /** `[line.strip() for line in f if line.strip()]`. */
  function NonBlankStripped(lines: seq<string>): (r: seq<string>)
    ensures forall l :: l in r ==> l != [] && exists x :: x in lines && l == Strip(x)
  {
    FilterMap(lines, StrippedLine)
  }

  /** `read_last_nonempty_line`: the last non-blank line, stripped; `None` if there is none. */
  function ReadLastNonemptyLine(file: LogFile): (r: Option<string>)
    ensures r.Some? ==> r.value != []
  {
    if file.None? then None
    else
      var lines := NonBlankStripped(file.value);
      if |lines| > 0 then Some(Last(lines)) else None
  }

  /**
   * The line `read_last_nonempty_line` returns is the stripped form of some
   * line after which every line is blank, and there is none exactly when the
   * file is missing or blank throughout.
   */
  lemma LastNonemptyLineIsLast(file: LogFile)
    ensures var r := ReadLastNonemptyLine(file);
            r.None? <==> file.None? || forall i :: 0 <= i < |file.value| ==> Strip(file.value[i]) == []
    ensures var r := ReadLastNonemptyLine(file);
            r.Some? ==> exists j :: 0 <= j < |file.value| && r.value == Strip(file.value[j])
                                    && forall k :: j < k < |file.value| ==> Strip(file.value[k]) == []
  {
    if file.Some? {
      var lines := file.value;
      FilterMapEmpty(lines, StrippedLine);
      if NonBlankStripped(lines) != [] {
        FilterMapLast(lines, StrippedLine);
      }
    }
  }

  // ---------------------------------------------------------------------------
  // CPU

  function Clamp(x: real, lo: real, hi: real): (r: real)
    requires lo <= hi
    ensures lo <= r <= hi
    ensures lo <= x <= hi ==> r == x
  {
    if x < lo then lo else if x > hi then hi else x
  }

  /** `100 - idle`, clamped to a percentage. */
  function UsageFromIdle(idle: real): (u: real)
    ensures 0.0 <= u <= 100.0
    ensures 0.0 <= idle <= 100.0 ==> u == 100.0 - idle
    ensures idle > 100.0 ==> u == 0.0
    ensures idle < 0.0 ==> u == 100.0
  {
    Clamp(100.0 - idle, 0.0, 100.0)
  }

  datatype CpuReading =
    | CpuUsage(usagePercent: real, raw: string)
    | CpuRaw(raw: string)

  /** The reading of one `sar` line: `%idle` is its last column. */
  function CpuReadingOf(line: string, parseFloat: FloatParser): (r: CpuReading)
    ensures r.raw == line
    ensures r.CpuUsage? <==> |Tokens(line)| > 0 && parseFloat(Last(Tokens(line))).Some?
    ensures r.CpuUsage? ==> r.usagePercent == UsageFromIdle(parseFloat(Last(Tokens(line))).value)
  {
    var parts := Tokens(line);
    if |parts| == 0 then CpuRaw(line)
    else
      var idle := parseFloat(Last(parts));
      if idle.Some? then CpuUsage(UsageFromIdle(idle.value), line) else CpuRaw(line)
  }

  /** `parse_cpu_usage`: the reading of the last non-blank line of the CPU log. */
  function ParseCpuUsage(cpuLog: LogFile, parseFloat: FloatParser): (r: Option<CpuReading>)
    ensures r.None? <==> ReadLastNonemptyLine(cpuLog).None?
    ensures r.Some? ==> r.value == CpuReadingOf(ReadLastNonemptyLine(cpuLog).value, parseFloat)
    ensures r.Some? && r.value.CpuUsage? ==> 0.0 <= r.value.usagePercent <= 100.0
  {
    var line := ReadLastNonemptyLine(cpuLog);
    if line.None? then None else Some(CpuReadingOf(line.value, parseFloat))
  }

  /** One CPU series sample: a line with at least two columns whose last one parses. */
  function CpuSampleOf(parseFloat: FloatParser, line: string): (r: Option<real>)
    ensures r.Some? <==> |Tokens(line)| >= 2 && parseFloat(Last(Tokens(line))).Some?
    ensures r.Some? ==> r.value == UsageFromIdle(parseFloat(Last(Tokens(line))).value)
  {
    var parts := Tokens(line);
    if |parts| < 2 then None
    else
      var idle := parseFloat(Last(parts));
      if idle.Some? then Some(UsageFromIdle(idle.value)) else None
  }

  function CpuSampler(parseFloat: FloatParser): string -> Option<real> {
    line => CpuSampleOf(parseFloat, line)
  }

  /** The usages of the CPU lines that yield one, in file order; each is a percentage. */
  function CpuSamples(lines: seq<string>, parseFloat: FloatParser): (r: seq<real>)
    ensures forall i :: 0 <= i < |r| ==> 0.0 <= r[i] <= 100.0
  {
    var samples := FilterMap(lines, CpuSampler(parseFloat));
    assert forall i :: 0 <= i < |samples| ==> 0.0 <= samples[i] <= 100.0 by {
      forall i | 0 <= i < |samples| ensures 0.0 <= samples[i] <= 100.0 {
        assert samples[i] in samples;
        var x :| x in lines && CpuSampler(parseFloat)(x) == Some(samples[i]);
      }
    }
    samples
  }

  /** A series point whose time is `secondsFromNow` (zero or negative) relative to the current time. */
  datatype Point<T> = Point(secondsFromNow: int, value: T)

  /**
   * Attaches the approximated timestamps: one-second sampling ending at the
   * current time, so the last value is at offset 0.
   */
  function Stamped<T>(values: seq<T>): (r: seq<Point<T>>)
    ensures |r| == |values|
    ensures forall i :: 0 <= i < |r| ==> r[i] == Point(i - (|values| - 1), values[i])
  {
    seq(|values|, i requires 0 <= i < |values| => Point(i - (|values| - 1), values[i]))
  }

  /** `build_cpu_series`. */
  function BuildCpuSeries(cpuLog: LogFile, parseFloat: FloatParser): (r: seq<Point<real>>)
    ensures cpuLog.None? ==> r == []
    ensures forall i :: 0 <= i < |r| ==> 0.0 <= r[i].value <= 100.0
  {
    if cpuLog.None? then []
    else Stamped(CpuSamples(NonBlankStripped(cpuLog.value), parseFloat))
  }

  /**
   * The series and the latest reading agree: when the log's last non-blank
   * line is a usable sample, the series ends, at offset 0, with the usage
   * `parse_cpu_usage` reports.
   */
  lemma CpuSeriesEndsWithLatest(cpuLog: LogFile, parseFloat: FloatParser)
    requires ReadLastNonemptyLine(cpuLog).Some?
    requires |Tokens(ReadLastNonemptyLine(cpuLog).value)| >= 2
    ensures var series := BuildCpuSeries(cpuLog, parseFloat);
            var latest := ParseCpuUsage(cpuLog, parseFloat).value;
            latest.CpuUsage? ==> |series| > 0 && Last(series) == Point(0, latest.usagePercent)
  {
    var lines := NonBlankStripped(cpuLog.value);
    var line := ReadLastNonemptyLine(cpuLog).value;
    assert line == Last(lines);
    var latest := CpuReadingOf(line, parseFloat);
    if latest.CpuUsage? {
      LastSampleOfLastLine(lines, parseFloat);
      var samples := CpuSamples(lines, parseFloat);
      assert Last(Stamped(samples)) == Point(0, Last(samples));
    }
  }

  /** A usable last line contributes the last sample. */
  lemma {:induction false} LastSampleOfLastLine(lines: seq<string>, parseFloat: FloatParser)
    requires |lines| > 0 && CpuSampleOf(parseFloat, Last(lines)).Some?
    ensures var samples := CpuSamples(lines, parseFloat);
            |samples| > 0 && Last(samples) == CpuSampleOf(parseFloat, Last(lines)).value
  {
    assert CpuSampler(parseFloat)(lines[|lines| - 1]) == CpuSampleOf(parseFloat, Last(lines));
    FilterMapLastKept(lines, CpuSampler(parseFloat));
  }

  /** The CPU samples follow the file's line order. */
  lemma CpuSamplesInFileOrder(a: seq<string>, b: seq<string>, parseFloat: FloatParser)
    ensures CpuSamples(a + b, parseFloat) == CpuSamples(a, parseFloat) + CpuSamples(b, parseFloat)
  {
    FilterMapAppend(a, b, CpuSampler(parseFloat));
  }

  // ---------------------------------------------------------------------------
  // NPU

  datatype NpuReading = NpuReading(timestamp: string, usagePercent: Option<real>)

  /**
   * `parse_npu_usage`: the first line is a header; the last line splits at
   * its first comma into timestamp and usage. A line without a comma makes
   * the unpacking raise, which yields `None`.
   */
  function ParseNpuUsage(npuCsv: LogFile, parseFloat: FloatParser): (r: Option<NpuReading>)
    ensures npuCsv.None? || |NonBlankStripped(npuCsv.value)| <= 1 ==> r.None?
    ensures r.Some? ==>
              var last := Last(NonBlankStripped(npuCsv.value));
              SplitOnce(last, ',').Some? && ',' !in r.value.timestamp
              && last == r.value.timestamp + "," + SplitOnce(last, ',').value.1
              && r.value.usagePercent == parseFloat(SplitOnce(last, ',').value.1)
  {
    if npuCsv.None? then None
    else
      var lines := NonBlankStripped(npuCsv.value);
      if |lines| <= 1 then None
      else
        var cut := SplitOnce(Last(lines), ',');
        if cut.None? then None
        else Some(NpuReading(cut.value.0, parseFloat(cut.value.1)))
  }

  /** One NPU series row: `(ts, usage)` when the line has a comma and the usage parses. */
  function NpuSampleOf(parseFloat: FloatParser, line: string): (r: Option<(string, real)>)
    ensures r.Some? <==> SplitOnce(line, ',').Some? && parseFloat(SplitOnce(line, ',').value.1).Some?
    ensures r.Some? ==> line == r.value.0 + "," + SplitOnce(line, ',').value.1 && ',' !in r.value.0
                        && parseFloat(SplitOnce(line, ',').value.1) == Some(r.value.1)
  {
    var cut := SplitOnce(line, ',');
    if cut.None? then None
    else
      var usage := parseFloat(cut.value.1);
      if usage.Some? then Some((cut.value.0, usage.value)) else None
  }

  function NpuSampler(parseFloat: FloatParser): string -> Option<(string, real)> {
    line => NpuSampleOf(parseFloat, line)
  }

  /** `build_npu_series`: every line after the header that parses, in file order. */
  function BuildNpuSeries(npuCsv: LogFile, parseFloat: FloatParser): (r: seq<(string, real)>)
    ensures npuCsv.None? || |NonBlankStripped(npuCsv.value)| <= 1 ==> r == []
    ensures npuCsv.Some? && |NonBlankStripped(npuCsv.value)| > 1 ==>
              r == FilterMap(NonBlankStripped(npuCsv.value)[1..], NpuSampler(parseFloat))
  {
    if npuCsv.None? then []
    else
      var lines := NonBlankStripped(npuCsv.value);
      if |lines| <= 1 then [] else FilterMap(lines[1..], NpuSampler(parseFloat))
  }

  /** The header line never becomes a series row, whatever it holds. */
  lemma NpuHeaderIgnored(header: string, rows: seq<string>, parseFloat: FloatParser)
    requires forall i :: 0 <= i < |[header] + rows| ==> Strip(([header] + rows)[i]) == ([header] + rows)[i] != []
    requires |rows| > 0
    ensures BuildNpuSeries(Some([header] + rows), parseFloat) == FilterMap(rows, NpuSampler(parseFloat))
  {
    var lines := [header] + rows;
    KeepsCleanLines(lines);
    assert lines[1..] == rows;
  }

  /** Lines that are already stripped and non-blank pass the line filter unchanged. */
  lemma KeepsCleanLines(rows: seq<string>)
    requires forall i :: 0 <= i < |rows| ==> Strip(rows[i]) == rows[i] && rows[i] != []
    ensures NonBlankStripped(rows) == rows
  {
    forall i | 0 <= i < |rows|
      ensures StrippedLine(rows[i]) == Some(rows[i])
    {
    }
    FilterMapKeepsAll(rows, StrippedLine);
  }

  // ---------------------------------------------------------------------------
  // Memory

  /** `line.rstrip()` of the non-blank lines, as the memory parsers read the log. */
  function RStrippedLine(line: string): Option<string> {
    if Strip(line) != [] then Some(RStrip(line)) else None
  }

  /** A `free` output line: its left-stripped form starts with `Mem:`. */
  function MemLine(line: string): Option<string> {
    if StartsWith(LStrip(line), "Mem:") then Some(line) else None
  }

  function MemLines(memLog: seq<string>): seq<string> {
    FilterMap(FilterMap(memLog, RStrippedLine), MemLine)
  }

  datatype MemReading =
    | MemUsage(totalKib: real, usedKib: real, usagePercent: real, raw: string)
    | MemRaw(raw: string)

  /** `used / total * 100`, or 0 when the total is not positive. */
  function UsagePercent(total: real, used: real): (p: real)
    ensures total > 0.0 ==> p * total == used * 100.0
    ensures total <= 0.0 ==> p == 0.0
  {
    if total > 0.0 then (used / total) * 100.0 else 0.0
  }

  function MemReadingOf(line: string, parseFloat: FloatParser): (r: MemReading)
    ensures r.raw == line
    ensures r.MemUsage? <==> |Tokens(line)| >= 3 && parseFloat(Tokens(line)[1]).Some?
                             && parseFloat(Tokens(line)[2]).Some?
    ensures r.MemUsage? ==> r.totalKib == parseFloat(Tokens(line)[1]).value
                            && r.usedKib == parseFloat(Tokens(line)[2]).value
                            && r.usagePercent == UsagePercent(r.totalKib, r.usedKib)
  {
    var parts := Tokens(line);
    if |parts| < 3 then MemRaw(line)
    else
      var total, used := parseFloat(parts[1]), parseFloat(parts[2]);
      if total.Some? && used.Some? then MemUsage(total.value, used.value, UsagePercent(total.value, used.value), line)
      else MemRaw(line)
  }

  /** `parse_memory_usage`: the reading of the last `Mem:` line; `None` when there is none. */
  function ParseMemoryUsage(memLog: LogFile, parseFloat: FloatParser): (r: Option<MemReading>)
    ensures memLog.None? ==> r.None?
    ensures memLog.Some? ==> (r.None? <==> MemLines(memLog.value) == [])
    ensures r.Some? ==> r.value == MemReadingOf(Last(MemLines(memLog.value)), parseFloat)
  {
    if memLog.None? then None
    else
      var memLines := MemLines(memLog.value);
      if |memLines| == 0 then None else Some(MemReadingOf(Last(memLines), parseFloat))
  }

  /** The line `parse_memory_usage` reads is the last `Mem:` line of the log. */
  lemma MemoryUsesLastMemLine(memLog: seq<string>) returns (j: nat)
    requires MemLines(memLog) != []
    ensures var lines := FilterMap(memLog, RStrippedLine);
            j < |lines| && LastMemLineAt(lines, j) && Last(MemLines(memLog)) == lines[j]
  {
    var lines := FilterMap(memLog, RStrippedLine);
    assert MemLines(memLog) == FilterMap(lines, MemLine);
    FilterMapLast(lines, MemLine);
    j :| 0 <= j < |lines| && MemLine(lines[j]) == Some(Last(MemLines(memLog)))
             && forall k :: j < k < |lines| ==> MemLine(lines[k]).None?;
    assert Last(MemLines(memLog)) == lines[j];
    assert LastMemLineAt(lines, j);
  }

  /** Line `j` is a `Mem:` line and no later line is. */
  predicate LastMemLineAt(lines: seq<string>, j: int)
    requires 0 <= j < |lines|
  {
    StartsWith(LStrip(lines[j]), "Mem:") && forall k :: j < k < |lines| ==> !StartsWith(LStrip(lines[k]), "Mem:")
  }

  datatype MemSample = MemSample(totalGb: real, usedGb: real, freeGb: real, usagePercent: real)

  /** KiB to GiB: divided by 1024 squared. */
  const KibPerGib: real := 1048576.0

  /** One memory series sample: a `Mem:` line with at least four columns that parse. */
  function MemSampleOf(parseFloat: FloatParser, line: string): (r: Option<MemSample>)
    ensures var parts := Tokens(line);
            r.Some? <==> |parts| >= 4 && parseFloat(parts[1]).Some? && parseFloat(parts[2]).Some?
                         && parseFloat(parts[3]).Some?
    ensures var parts := Tokens(line);
            r.Some? ==> |parts| >= 4 && parseFloat(parts[1]).Some? && parseFloat(parts[2]).Some?
                        && parseFloat(parts[3]).Some?
                        && r.value.totalGb * KibPerGib == parseFloat(parts[1]).value
                        && r.value.usedGb * KibPerGib == parseFloat(parts[2]).value
                        && r.value.freeGb * KibPerGib == parseFloat(parts[3]).value
                        && r.value.usagePercent == UsagePercent(parseFloat(parts[1]).value, parseFloat(parts[2]).value)
  {
    var parts := Tokens(line);
    if |parts| < 4 then None
    else
      var total, used, free := parseFloat(parts[1]), parseFloat(parts[2]), parseFloat(parts[3]);
      if total.Some? && used.Some? && free.Some? then
        Some(MemSample(total.value / KibPerGib, used.value / KibPerGib, free.value / KibPerGib,
                       UsagePercent(total.value, used.value)))
      else None
  }

  function MemSampler(parseFloat: FloatParser): string -> Option<MemSample> {
    line => MemSampleOf(parseFloat, line)
  }

  /** `build_memory_series`. */
  function BuildMemorySeries(memLog: LogFile, parseFloat: FloatParser): (r: seq<Point<MemSample>>)
    ensures memLog.None? ==> r == []
    ensures memLog.Some? ==> r == Stamped(FilterMap(MemLines(memLog.value), MemSampler(parseFloat)))
  {
    if memLog.None? then [] else Stamped(FilterMap(MemLines(memLog.value), MemSampler(parseFloat)))
  }

  /** A usable last `Mem:` line makes the series end, at offset 0, with the latest percentage. */
  lemma {:induction false} MemorySeriesEndsWithLatest(memLog: seq<string>, parseFloat: FloatParser)
    requires MemLines(memLog) != []
    requires MemSampleOf(parseFloat, Last(MemLines(memLog))).Some?
    ensures var series := BuildMemorySeries(Some(memLog), parseFloat);
            var latest := ParseMemoryUsage(Some(memLog), parseFloat).value;
            latest.MemUsage? && |series| > 0 && Last(series).secondsFromNow == 0
            && Last(series).value.usagePercent == latest.usagePercent
  {
    var lines := MemLines(memLog);
    var samples := FilterMap(lines, MemSampler(parseFloat));
    LastMemSample(lines, parseFloat);
    SampleAgreesWithReading(Last(lines), parseFloat);
    StampedLast(samples);
    assert BuildMemorySeries(Some(memLog), parseFloat) == Stamped(samples);
    assert ParseMemoryUsage(Some(memLog), parseFloat) == Some(MemReadingOf(Last(lines), parseFloat));
  }

  /** The last stamped point is the last value, at offset 0. */
  lemma StampedLast<T>(values: seq<T>)
    requires |values| > 0
    ensures |Stamped(values)| > 0 && Last(Stamped(values)) == Point(0, Last(values))
  {
  }

  /** A line that yields a series sample also yields a full reading with the same percentage. */
  lemma SampleAgreesWithReading(line: string, parseFloat: FloatParser)
    requires MemSampleOf(parseFloat, line).Some?
    ensures MemReadingOf(line, parseFloat).MemUsage?
    ensures MemReadingOf(line, parseFloat).usagePercent == MemSampleOf(parseFloat, line).value.usagePercent
  {
  }

  /** A usable last `Mem:` line contributes the last memory sample. */
  lemma {:induction false} LastMemSample(lines: seq<string>, parseFloat: FloatParser)
    requires |lines| > 0 && MemSampleOf(parseFloat, Last(lines)).Some?
    ensures var samples := FilterMap(lines, MemSampler(parseFloat));
            |samples| > 0 && Last(samples) == MemSampleOf(parseFloat, Last(lines)).value
  {
    assert MemSampler(parseFloat)(lines[|lines| - 1]) == MemSampleOf(parseFloat, Last(lines));
    FilterMapLastKept(lines, MemSampler(parseFloat));
  }

  // ---------------------------------------------------------------------------
  // Power from the PCM energy counters

  /** `parse_ts(date, time)`: seconds on some fixed scale, or `None` when neither format matches. */
  type TimestampParser = (string, string) -> Option<real>

  /** The index of the first column whose lower-cased label is `wanted`. */
  function FindColumn(header: seq<string>, wanted: string): (r: Option<nat>)
    ensures r.Some? ==> r.value < |header| && Lower(header[r.value]) == wanted
                        && forall i :: 0 <= i < r.value ==> Lower(header[i]) != wanted
    ensures r.None? ==> forall i :: 0 <= i < |header| ==> Lower(header[i]) != wanted
    decreases |header|
  {
    if |header| == 0 then None
    else if Lower(header[0]) == wanted then Some(0)
    else
      var rest := FindColumn(header[1..], wanted);
      assert forall i :: 1 <= i < |header| ==> header[1..][i - 1] == header[i];
      if rest.Some? then Some(rest.value + 1) else None
  }

  /** The Date column of the second header row, else column 0. */
  function DateIndex(header2: seq<string>): nat {
    FindColumn(header2, "date").GetOr(0)
  }

  /** The Time column of the second header row, else column 1 (column 0 for a one-column row). */
  function TimeIndex(header2: seq<string>): nat {
    FindColumn(header2, "time").GetOr(if |header2| > 1 then 1 else 0)
  }

  predicate IsEnergyLabel(column: string) {
    Contains(Lower(column), "energy") && Contains(Lower(column), "joule")
  }

  /** The indices of the first header row's energy-counter columns, ascending. */
  function EnergyIndices(header1: seq<string>): (r: seq<nat>)
    ensures forall k :: 0 <= k < |r| ==> r[k] < |header1| && IsEnergyLabel(header1[r[k]])
    ensures forall k, l :: 0 <= k < l < |r| ==> r[k] < r[l]
  {
    IndicesWhere(header1, IsEnergyLabel)
  }

  /** Every energy column is found: the indices are exactly the energy columns. */
  lemma EnergyIndicesComplete(header1: seq<string>)
    ensures forall i :: 0 <= i < |header1| ==> (i in EnergyIndices(header1) <==> IsEnergyLabel(header1[i]))
  {
    IndicesWhereComplete(header1, IsEnergyLabel);
  }

  function MaxOf(xs: seq<nat>): (m: nat)
    ensures forall i :: 0 <= i < |xs| ==> xs[i] <= m
    decreases |xs|
  {
    if |xs| == 0 then 0 else var rest := MaxOf(xs[1..]); if xs[0] > rest then xs[0] else rest
  }

  /** The energies of a row at the given columns; `None` when any of them fails to parse. */
  function Energies(row: seq<string>, indices: seq<nat>, parseFloat: FloatParser): (r: Option<seq<real>>)
    requires forall k :: 0 <= k < |indices| ==> indices[k] < |row|
    ensures r.Some? ==> |r.value| == |indices|
                        && forall k :: 0 <= k < |indices| ==> parseFloat(row[indices[k]]) == Some(r.value[k])
    ensures r.None? ==> exists k :: 0 <= k < |indices| && parseFloat(row[indices[k]]).None?
    decreases |indices|
  {
    if |indices| == 0 then Some([])
    else
      var head := parseFloat(row[indices[0]]);
      var rest := Energies(row, indices[1..], parseFloat);
      if head.None? then None
      else if rest.None? then
        var k :| 0 <= k < |indices[1..]| && parseFloat(row[indices[1..][k]]).None?;
        assert parseFloat(row[indices[k + 1]]).None?;
        None
      else Some([head.value] + rest.value)
  }

  /** One counter's power: the energy delta over the time delta, or 0 when the counter went back. */
  function Watts(prev: real, cur: real, dt: real): (w: real)
    requires dt > 0.0
    ensures w >= 0.0
    ensures cur >= prev ==> w * dt == cur - prev
    ensures cur < prev ==> w == 0.0
  {
    if cur >= prev then (cur - prev) / dt else 0.0
  }

  function PowerValues(prev: seq<real>, cur: seq<real>, dt: real): (r: seq<real>)
    requires |prev| == |cur| && dt > 0.0
    ensures |r| == |cur|
    ensures forall k :: 0 <= k < |r| ==> r[k] == Watts(prev[k], cur[k], dt)
  {
    seq(|cur|, k requires 0 <= k < |cur| => Watts(prev[k], cur[k], dt))
  }

  /** An output row: the current row's timestamp and one power per energy column. */
  datatype PowerRow = PowerRow(timestamp: real, watts: seq<real>)

  /** The columns the power computation reads. */
  datatype Layout = Layout(dateIdx: nat, timeIdx: nat, energy: seq<nat>)

  predicate Fits(layout: Layout, row: seq<string>) {
    layout.dateIdx < |row| && layout.timeIdx < |row|
    && forall k :: 0 <= k < |layout.energy| ==> layout.energy[k] < |row|
  }

  function RowTime(layout: Layout, row: seq<string>, parseTs: TimestampParser): Option<real>
    requires Fits(layout, row)
  {
    parseTs(Strip(row[layout.dateIdx]), Strip(row[layout.timeIdx]))
  }

  /** What one data row does to the loop: the next previous timestamp and energies, and the row it emits. */
  datatype Stepped = Stepped(ts: Option<real>, energies: seq<real>, emitted: Option<PowerRow>)

  /**
   * One data row. A row with no timestamp (or after one without), a
   * non-positive time step or an unparsable energy emits nothing and moves
   * only the previous timestamp; any other row emits a power row and moves
   * both.
   */
  function PowerStep(layout: Layout, row: seq<string>, prevTs: Option<real>, prevEnergies: seq<real>,
                     parseFloat: FloatParser, parseTs: TimestampParser): (r: Stepped)
    requires Fits(layout, row) && |prevEnergies| == |layout.energy|
    ensures |r.energies| == |layout.energy| && r.ts == RowTime(layout, row, parseTs)
    ensures r.emitted.Some? ==> |r.emitted.value.watts| == |layout.energy|
                                && forall k :: 0 <= k < |r.emitted.value.watts| ==> r.emitted.value.watts[k] >= 0.0
  {
    var curTs := RowTime(layout, row, parseTs);
    if curTs.None? || prevTs.None? then Stepped(curTs, prevEnergies, None)
    else
      var dt := curTs.value - prevTs.value;
      var cur := Energies(row, layout.energy, parseFloat);
      if dt <= 0.0 || cur.None? then Stepped(curTs, prevEnergies, None)
      else Stepped(curTs, cur.value, Some(PowerRow(curTs.value, PowerValues(prevEnergies, cur.value, dt))))
  }

  /** The loop over the data rows after the first, one `PowerStep` per row. */
  function PowerLoop(layout: Layout, rows: seq<seq<string>>, prevTs: Option<real>, prevEnergies: seq<real>,
                     parseFloat: FloatParser, parseTs: TimestampParser): (r: seq<PowerRow>)
    requires |layout.energy| > 0
    requires forall i :: 0 <= i < |rows| ==> Fits(layout, rows[i])
    requires |prevEnergies| == |layout.energy|
    ensures |r| <= |rows|
    ensures forall i :: 0 <= i < |r| ==> |r[i].watts| == |layout.energy|
    ensures forall i, k :: 0 <= i < |r| && 0 <= k < |r[i].watts| ==> r[i].watts[k] >= 0.0
    decreases |rows|
  {
    if |rows| == 0 then []
    else
      var step := PowerStep(layout, rows[0], prevTs, prevEnergies, parseFloat, parseTs);
      var rest := PowerLoop(layout, rows[1..], step.ts, step.energies, parseFloat, parseTs);
      if step.emitted.None? then rest
      else
        ConsRows(step.emitted.value, rest, |layout.energy|);
        [step.emitted.value] + rest
  }

  /** A well-shaped row in front of well-shaped rows keeps the shape. */
  lemma ConsRows(row: PowerRow, rest: seq<PowerRow>, n: nat)
    requires |row.watts| == n && forall k :: 0 <= k < |row.watts| ==> row.watts[k] >= 0.0
    requires forall i :: 0 <= i < |rest| ==> |rest[i].watts| == n
    requires forall i, k :: 0 <= i < |rest| && 0 <= k < |rest[i].watts| ==> rest[i].watts[k] >= 0.0
    ensures forall i :: 0 <= i < |[row] + rest| ==> |([row] + rest)[i].watts| == n
    ensures forall i, k :: 0 <= i < |[row] + rest| && 0 <= k < |([row] + rest)[i].watts|
              ==> ([row] + rest)[i].watts[k] >= 0.0
  {
    forall i | 0 < i < |[row] + rest| ensures ([row] + rest)[i] == rest[i - 1] {}
  }

  /** `build_power_series` over the CSV rows (both header rows first), with `None` for a missing file. */
  function BuildPowerSeries(pcm: Option<seq<seq<string>>>, parseFloat: FloatParser, parseTs: TimestampParser)
    : (r: seq<PowerRow>)
    ensures pcm.None? || |pcm.value| < 4 ==> r == []
    ensures r != [] ==> |EnergyIndices(pcm.value[0])| > 0
    ensures forall i :: 0 <= i < |r| ==> |r[i].watts| == |EnergyIndices(pcm.value[0])|
    ensures forall i, k :: 0 <= i < |r| && 0 <= k < |r[i].watts| ==> r[i].watts[k] >= 0.0
  {
    if pcm.None? || |pcm.value| < 2 || pcm.value[0] == [] || pcm.value[1] == [] then []
    else
      var header1, header2 := pcm.value[0], pcm.value[1];
      var layout := Layout(DateIndex(header2), TimeIndex(header2), EnergyIndices(header1));
      if |layout.energy| == 0 then []
      else
        var dataRows := UsableRows(layout, pcm.value[2..]);
        if |dataRows| < 2 then []
        else
          var first := dataRows[0];
          var energies := Energies(first, layout.energy, parseFloat);
          if energies.None? then []
          else PowerLoop(layout, dataRows[1..], RowTime(layout, first, parseTs), energies.value, parseFloat, parseTs)
  }

  /** The data rows that are non-empty and long enough for every column read. */
  function UsableRows(layout: Layout, rows: seq<seq<string>>): (r: seq<seq<string>>)
    ensures |r| <= |rows|
    ensures forall i :: 0 <= i < |r| ==> Fits(layout, r[i])
    ensures forall row :: row in r ==> row in rows
    decreases |rows|
  {
    if |rows| == 0 then []
    else
      var rest := UsableRows(layout, rows[1..]);
      if rows[0] != [] && Fits(layout, rows[0]) then [rows[0]] + rest else rest
  }

  /** A row without a timestamp emits nothing and keeps the previous energies for later rows. */
  lemma UnparsableTimeSkipsRow(layout: Layout, rows: seq<seq<string>>, prevTs: Option<real>, prevEnergies: seq<real>,
                               parseFloat: FloatParser, parseTs: TimestampParser)
    requires |layout.energy| > 0
    requires forall i :: 0 <= i < |rows| ==> Fits(layout, rows[i])
    requires |prevEnergies| == |layout.energy|
    requires |rows| > 0 && RowTime(layout, rows[0], parseTs).None?
    ensures PowerLoop(layout, rows, prevTs, prevEnergies, parseFloat, parseTs)
            == PowerLoop(layout, rows[1..], None, prevEnergies, parseFloat, parseTs)
  {
  }

  /**
   * A well-behaved log: every row has a timestamp later than the one before
   * it and parsable energies. Then every row yields a power row, stamped
   * with the row's time, whose powers compare the row's energies with the
   * previous row's over the time between them.
   */
  lemma SteadyRowsAllEmit(layout: Layout, rows: seq<seq<string>>, prevTs: real,
                                             prevEnergies: seq<real>, times: seq<real>, energies: seq<seq<real>>,
                                             parseFloat: FloatParser, parseTs: TimestampParser)
    requires |layout.energy| > 0
    requires |prevEnergies| == |layout.energy|
    requires |times| == |rows| && |energies| == |rows|
    requires forall i :: 0 <= i < |rows| ==> Fits(layout, rows[i]) && RowTime(layout, rows[i], parseTs) == Some(times[i])
    requires forall i :: 0 <= i < |rows| ==> Fits(layout, rows[i]) && Energies(rows[i], layout.energy, parseFloat) == Some(energies[i])
    requires |rows| > 0 ==> prevTs < times[0]
    requires forall i :: 0 < i < |rows| ==> times[i - 1] < times[i]
    ensures var r := PowerLoop(layout, rows, Some(prevTs), prevEnergies, parseFloat, parseTs);
            |r| == |rows| && forall i :: 0 <= i < |r| ==> r[i].timestamp == times[i]
    ensures var r := PowerLoop(layout, rows, Some(prevTs), prevEnergies, parseFloat, parseTs);
            |rows| > 0 ==> |r| > 0 && r[0].watts == PowerValues(prevEnergies, energies[0], times[0] - prevTs)
  {
    SteadyRowsStamped(layout, rows, prevTs, prevEnergies, times, energies, parseFloat, parseTs);
    if |rows| > 0 {
      EmitStep(layout, rows, prevTs, prevEnergies, times[0], energies[0], parseFloat, parseTs);
    }
  }

  /** The induction behind `SteadyRowsAllEmit`: one power row per input row, with the row's time. */
  lemma {:induction false} SteadyRowsStamped(layout: Layout, rows: seq<seq<string>>, prevTs: real,
                                              prevEnergies: seq<real>, times: seq<real>, energies: seq<seq<real>>,
                                              parseFloat: FloatParser, parseTs: TimestampParser)
    requires |layout.energy| > 0
    requires |prevEnergies| == |layout.energy|
    requires |times| == |rows| && |energies| == |rows|
    requires forall i :: 0 <= i < |rows| ==> Fits(layout, rows[i]) && RowTime(layout, rows[i], parseTs) == Some(times[i])
    requires forall i :: 0 <= i < |rows| ==> Fits(layout, rows[i]) && Energies(rows[i], layout.energy, parseFloat) == Some(energies[i])
    requires |rows| > 0 ==> prevTs < times[0]
    requires forall i :: 0 < i < |rows| ==> times[i - 1] < times[i]
    ensures var r := PowerLoop(layout, rows, Some(prevTs), prevEnergies, parseFloat, parseTs);
            |r| == |rows| && forall i :: 0 <= i < |r| ==> r[i].timestamp == times[i]
    decreases |rows|
  {
    if |rows| > 0 {
      EmitStep(layout, rows, prevTs, prevEnergies, times[0], energies[0], parseFloat, parseTs);
      var tail, tailTimes, tailEnergies := rows[1..], times[1..], energies[1..];
      SteadyTail(layout, rows, times, energies, tail, tailTimes, tailEnergies, parseFloat, parseTs);
      SteadyRowsStamped(layout, tail, times[0], energies[0], tailTimes, tailEnergies, parseFloat, parseTs);
      var row := PowerRow(times[0], PowerValues(prevEnergies, energies[0], times[0] - prevTs));
      ConsTimestamps(row, PowerLoop(layout, tail, Some(times[0]), energies[0], parseFloat, parseTs), times);
    }
  }

  /** The rows after the first of a well-behaved log are well-behaved too. */
  lemma SteadyTail(layout: Layout, rows: seq<seq<string>>, times: seq<real>, energies: seq<seq<real>>,
                   tail: seq<seq<string>>, tailTimes: seq<real>, tailEnergies: seq<seq<real>>,
                   parseFloat: FloatParser, parseTs: TimestampParser)
    requires |rows| > 0 && |times| == |rows| && |energies| == |rows|
    requires tail == rows[1..] && tailTimes == times[1..] && tailEnergies == energies[1..]
    requires forall i :: 0 <= i < |rows| ==> Fits(layout, rows[i]) && RowTime(layout, rows[i], parseTs) == Some(times[i])
    requires forall i :: 0 <= i < |rows| ==> Fits(layout, rows[i]) && Energies(rows[i], layout.energy, parseFloat) == Some(energies[i])
    requires forall i :: 0 < i < |rows| ==> times[i - 1] < times[i]
    ensures |tailTimes| == |tail| && |tailEnergies| == |tail|
    ensures forall i :: 0 <= i < |tail| ==> Fits(layout, tail[i]) && RowTime(layout, tail[i], parseTs) == Some(tailTimes[i])
    ensures forall i :: 0 <= i < |tail| ==> Fits(layout, tail[i]) && Energies(tail[i], layout.energy, parseFloat) == Some(tailEnergies[i])
    ensures |tail| > 0 ==> times[0] < tailTimes[0]
    ensures forall i :: 0 < i < |tail| ==> tailTimes[i - 1] < tailTimes[i]
  {
    assert forall i :: 0 <= i < |tail| ==> tail[i] == rows[i + 1] && tailTimes[i] == times[i + 1] && tailEnergies[i] == energies[i + 1];
  }

  /** A row stamped with the first time in front of rows stamped with the rest. */
  lemma ConsTimestamps(row: PowerRow, rest: seq<PowerRow>, times: seq<real>)
    requires |times| > 0 && row.timestamp == times[0]
    requires |rest| == |times| - 1 && forall i :: 0 <= i < |rest| ==> rest[i].timestamp == times[1..][i]
    ensures |[row] + rest| == |times| && forall i :: 0 <= i < |[row] + rest| ==> ([row] + rest)[i].timestamp == times[i]
  {
    forall i | 0 < i < |[row] + rest| ensures ([row] + rest)[i].timestamp == times[i] {
      assert ([row] + rest)[i] == rest[i - 1] && times[1..][i - 1] == times[i];
    }
  }

  /**
   * A row whose time does not advance, or whose energies do not parse,
   * emits nothing: its timestamp becomes the previous one but the previous
   * energies stay.
   */
  lemma BadRowSkipped(layout: Layout, rows: seq<seq<string>>, prevTs: real, prevEnergies: seq<real>, ts: real,
                      parseFloat: FloatParser, parseTs: TimestampParser)
    requires |layout.energy| > 0
    requires forall i :: 0 <= i < |rows| ==> Fits(layout, rows[i])
    requires |prevEnergies| == |layout.energy|
    requires |rows| > 0 && RowTime(layout, rows[0], parseTs) == Some(ts)
    requires ts <= prevTs || Energies(rows[0], layout.energy, parseFloat).None?
    ensures PowerLoop(layout, rows, Some(prevTs), prevEnergies, parseFloat, parseTs)
            == PowerLoop(layout, rows[1..], Some(ts), prevEnergies, parseFloat, parseTs)
  {
  }

  /** A row with a later timestamp and parsable energies emits one power row and becomes the previous row. */
  lemma {:induction false} EmitStep(layout: Layout, rows: seq<seq<string>>, prevTs: real, prevEnergies: seq<real>, ts: real,
                 energies: seq<real>, parseFloat: FloatParser, parseTs: TimestampParser)
    requires |layout.energy| > 0
    requires forall i :: 0 <= i < |rows| ==> Fits(layout, rows[i])
    requires |prevEnergies| == |layout.energy|
    requires |rows| > 0 && RowTime(layout, rows[0], parseTs) == Some(ts) && prevTs < ts
    requires Energies(rows[0], layout.energy, parseFloat) == Some(energies)
    ensures |energies| == |prevEnergies|
    ensures PowerLoop(layout, rows, Some(prevTs), prevEnergies, parseFloat, parseTs)
            == [PowerRow(ts, PowerValues(prevEnergies, energies, ts - prevTs))]
               + PowerLoop(layout, rows[1..], Some(ts), energies, parseFloat, parseTs)
    ensures var r := PowerLoop(layout, rows, Some(prevTs), prevEnergies, parseFloat, parseTs);
            |r| > 0 && r[0].watts == PowerValues(prevEnergies, energies, ts - prevTs)
  {
    assert |energies| == |layout.energy|;
    assert PowerStep(layout, rows[0], Some(prevTs), prevEnergies, parseFloat, parseTs)
        == Stepped(Some(ts), energies, Some(PowerRow(ts, PowerValues(prevEnergies, energies, ts - prevTs))));
  }

  /** A counter that went back (wrapped or reset) reports 0 W for that column. */
  lemma CounterResetReportsZero(prev: seq<real>, cur: seq<real>, dt: real, k: nat)
    requires |prev| == |cur| && dt > 0.0 && k < |cur| && cur[k] < prev[k]
    ensures PowerValues(prev, cur, dt)[k] == 0.0
  {
  }

  // ---------------------------------------------------------------------------
  // Payload

  /** `build_gpu_series`: a placeholder that reports no samples. */
  function BuildGpuSeries(): (r: seq<Point<real>>)
    ensures |r| == 0
  {
    []
  }

  /** The `/metrics` payload: one series per source. */
  datatype Payload = Payload(
    cpuUtilization: seq<Point<real>>,
    gpuUtilization: seq<Point<real>>,
    memory: seq<Point<MemSample>>,
    power: seq<PowerRow>,
    npuUtilization: seq<(string, real)>)

  /** `build_metrics_payload`: each series built from its own file only. */
  function BuildMetricsPayload(cpuLog: LogFile, npuCsv: LogFile, memLog: LogFile, pcm: Option<seq<seq<string>>>,
                               parseFloat: FloatParser, parseTs: TimestampParser): (p: Payload)
    ensures p.gpuUtilization == []
    ensures cpuLog.None? ==> p.cpuUtilization == []
    ensures memLog.None? ==> p.memory == []
    ensures npuCsv.None? ==> p.npuUtilization == []
    ensures pcm.None? ==> p.power == []
    ensures forall i :: 0 <= i < |p.cpuUtilization| ==> 0.0 <= p.cpuUtilization[i].value <= 100.0
  {
    Payload(BuildCpuSeries(cpuLog, parseFloat), BuildGpuSeries(), BuildMemorySeries(memLog, parseFloat),
            BuildPowerSeries(pcm, parseFloat, parseTs), BuildNpuSeries(npuCsv, parseFloat))
  }
}

=== FILE: mqtt_subscriber.dfy ===
/**
 * The MQTT subscriber of the captioning backend: the per-topic callback
 * registry, the topic of a run and the run of a topic, the connection
 * flags, and how one received message is decoded and handed to the
 * callbacks of its topic.
 *
 * The broker and the network are left out: the commands the subscriber
 * would send (`subscribe`, `unsubscribe`) are returned as values. Callbacks
 * are identified by a number; whether one raises is a parameter.
 * `json.loads` is the `decode` parameter (`None` for a decode error).
 */
module MqttSubscriber {
  import opened Wrappers
  import opened Text
  import opened Json
  import Seqs

  type CallbackId = nat

  datatype Subscriber = Subscriber(
    topicPrefix: string,
    hasClient: bool,
    connected: bool,
    reconnectDelay: int,
    callbacks: map<string, seq<CallbackId>>)

  datatype BrokerCommand = SubscribeTopic(topic: string) | UnsubscribeTopic(topic: string)

  /** A state change together with the broker commands it issued. */
  datatype Step = Step(state: Subscriber, commands: seq<BrokerCommand>)

  const InitialReconnectDelay: int := 1
  const MaxReconnectDelay: int := 30

  function Initial(topicPrefix: string): Subscriber {
    Subscriber(topicPrefix, false, false, InitialReconnectDelay, map[])
  }

  // ---------------------------------------------------------------------------
  // Topics

  /** `_get_topic_for_run`: `prefix/run_id`. */
  function TopicForRun(prefix: string, runId: string): (topic: string)
    ensures StartsWith(topic, prefix) && EndsWith(topic, runId)
  {
    prefix + "/" + runId
  }

  /** The run id of a topic: its last `/` segment, or the whole topic without a `/`. */
  function RunIdFromTopic(topic: string): (r: string)
    ensures '/' !in topic ==> r == topic
  {
    var parts := Split(topic, '/');
    assert '/' !in topic ==> |parts| == 1 by {
      if '/' !in topic { SplitNoSeparator(topic, '/'); }
    }
    if |parts| > 1 then Seqs.Last(parts) else topic
  }

  /** A run id without `/` is read back from its own topic, whatever the prefix. */
  lemma RunIdFromTopicRoundTrip(prefix: string, runId: string)
    requires '/' !in runId
    ensures RunIdFromTopic(TopicForRun(prefix, runId)) == runId
  {
    SplitConcat(prefix, '/', runId);
    SplitNoSeparator(runId, '/');
    assert TopicForRun(prefix, runId) == prefix + ['/'] + runId;
  }

  /** Different run ids without `/` have different topics. */
  lemma TopicForRunInjective(prefix: string, a: string, b: string)
    requires '/' !in a && '/' !in b
    requires TopicForRun(prefix, a) == TopicForRun(prefix, b)
    ensures a == b
  {
    RunIdFromTopicRoundTrip(prefix, a);
    RunIdFromTopicRoundTrip(prefix, b);
  }

  // ---------------------------------------------------------------------------
  // Registry transitions

  /**
   * `subscribe_to_run`: appends the callback to the topic's list, creating
   * it on first use; only a first registration while connected subscribes
   * at the broker.
   */
  function SubscribeToRun(s: Subscriber, runId: string, callback: CallbackId): (r: Step)
    ensures var topic := TopicForRun(s.topicPrefix, runId);
      topic in r.state.callbacks
      && r.state.callbacks[topic] == (if topic in s.callbacks then s.callbacks[topic] else []) + [callback]
      && (forall t :: t in s.callbacks && t != topic ==> t in r.state.callbacks && r.state.callbacks[t] == s.callbacks[t])
      && r.state.callbacks.Keys == s.callbacks.Keys + {topic}
    ensures r.commands == if TopicForRun(s.topicPrefix, runId) !in s.callbacks && s.hasClient && s.connected
                         then [SubscribeTopic(TopicForRun(s.topicPrefix, runId))] else []
    ensures r.state.connected == s.connected && r.state.hasClient == s.hasClient
  {
    var topic := TopicForRun(s.topicPrefix, runId);
    var existing := if topic in s.callbacks then s.callbacks[topic] else [];
    var commands := if topic !in s.callbacks && s.hasClient && s.connected then [SubscribeTopic(topic)] else [];
    Step(s.(callbacks := s.callbacks[topic := existing + [callback]]), commands)
  }

  /**
   * `unsubscribe_from_run`: drops every callback of the run's topic and
   * unsubscribes at the broker when connected; an unknown run changes
   * nothing.
   */
  function UnsubscribeFromRun(s: Subscriber, runId: string): (r: Step)
    ensures TopicForRun(s.topicPrefix, runId) !in r.state.callbacks
    ensures r.state.callbacks == s.callbacks - {TopicForRun(s.topicPrefix, runId)}
    ensures TopicForRun(s.topicPrefix, runId) !in s.callbacks ==> r == Step(s, [])
    ensures r.commands != [] <==> TopicForRun(s.topicPrefix, runId) in s.callbacks && s.hasClient && s.connected
  {
    var topic := TopicForRun(s.topicPrefix, runId);
    if topic in s.callbacks then
      Step(s.(callbacks := s.callbacks - {topic}),
           if s.hasClient && s.connected then [UnsubscribeTopic(topic)] else [])
    else Step(s, [])
  }

  /** Subscribing a run and then unsubscribing it leaves no callbacks for its topic. */
  lemma SubscribeThenUnsubscribe(s: Subscriber, runId: string, callback: CallbackId)
    ensures var s1 := SubscribeToRun(s, runId, callback).state;
      UnsubscribeFromRun(s1, runId).state.callbacks == s.callbacks - {TopicForRun(s.topicPrefix, runId)}
  {
    var topic := TopicForRun(s.topicPrefix, runId);
    var s1 := SubscribeToRun(s, runId, callback).state;
    assert s1.topicPrefix == s.topicPrefix;
    assert s1.callbacks - {topic} == s.callbacks - {topic};
  }

  /**
   * `_on_connect`: return code 0 marks the subscriber connected, resets the
   * reconnect delay and re-subscribes every registered topic; any other
   * code leaves it disconnected.
   */
  function OnConnect(s: Subscriber, rc: int): (r: Subscriber)
    ensures r.connected <==> rc == 0
    ensures rc == 0 ==> r.reconnectDelay == InitialReconnectDelay
    ensures rc != 0 ==> r == s.(connected := false)
    ensures r.callbacks == s.callbacks
  {
    if rc == 0 then s.(connected := true, reconnectDelay := InitialReconnectDelay)
    else s.(connected := false)
  }

  /** The topics `_on_connect` re-subscribes after a successful connection: every registered one. */
  function ResubscribedTopics(s: Subscriber, rc: int): (topics: set<string>)
    ensures rc == 0 ==> topics == s.callbacks.Keys
    ensures rc != 0 ==> topics == {}
  {
    if rc == 0 then s.callbacks.Keys else {}
  }

  /** After a successful reconnection every registered topic is subscribed at the broker again. */
  lemma ReconnectRestoresSubscriptions(s: Subscriber, runId: string)
    requires TopicForRun(s.topicPrefix, runId) in s.callbacks
    ensures TopicForRun(s.topicPrefix, runId) in ResubscribedTopics(OnDisconnect(s), 0)
    ensures OnConnect(OnDisconnect(s), 0).connected
  {
  }

  /** `_on_disconnect`: only the connected flag drops. */
  function OnDisconnect(s: Subscriber): (r: Subscriber)
    ensures !r.connected && r.callbacks == s.callbacks && r.hasClient == s.hasClient
  {
    s.(connected := false)
  }

  /** `connect`: a second call while a client exists does nothing. */
  function Connect(s: Subscriber): (r: Subscriber)
    ensures s.hasClient ==> r == s
    ensures r.hasClient && r.callbacks == s.callbacks
  {
    if s.hasClient then s else s.(hasClient := true)
  }

  /** `disconnect`: drops the client and the connected flag, keeps the registry. */
  function Disconnect(s: Subscriber): (r: Subscriber)
    ensures !r.hasClient && r.callbacks == s.callbacks
    ensures s.hasClient ==> !r.connected
    ensures !s.hasClient ==> r == s
  {
    if s.hasClient then s.(hasClient := false, connected := false) else s
  }

  /** Without a client no registry change reaches the broker. */
  lemma NoClientNoCommands(s: Subscriber, runId: string, callback: CallbackId)
    requires !s.hasClient
    ensures SubscribeToRun(s, runId, callback).commands == []
    ensures UnsubscribeFromRun(s, runId).commands == []
  {
  }

  // ---------------------------------------------------------------------------
  // Messages

  /**
   * The data handed to callbacks: the decoded payload, `{"raw": payload}`
   * when it is not JSON, unwrapped to its `metadata` field when it is an
   * object that has one.
   */
  function PayloadData(payload: string, decode: string -> Option<Json>): (r: Json)
    ensures decode(payload).None? ==> r == JObj(map["raw" := JStr(payload)])
    ensures (decode(payload).Some? && decode(payload).value.JObj? && "metadata" in decode(payload).value.fields)
            ==> r == decode(payload).value.fields["metadata"]
    ensures (decode(payload).Some? && !(decode(payload).value.JObj? && "metadata" in decode(payload).value.fields))
            ==> r == decode(payload).value
  {
    var raw := match decode(payload) case None => JObj(map["raw" := JStr(payload)]) case Some(j) => j;
    if raw.JObj? && "metadata" in raw.fields then raw.fields["metadata"] else raw
  }

  /** A payload that fails to decode is never unwrapped: callbacks see the raw text. */
  lemma UndecodableKeepsRawText(payload: string, decode: string -> Option<Json>)
    requires decode(payload).None?
    ensures Get(PayloadData(payload, decode), "raw") == Some(JStr(payload))
  {
  }

  datatype Delivery = Delivery(callback: CallbackId, runId: string, data: Json, receivedAt: real)

  /**
   * One message of `process_messages`: every callback registered for the
   * topic is called in registration order with the run id, the data and
   * the arrival time; a callback that raises is logged and the rest are
   * still called. Returns the calls made and those that raised.
   */
  method Dispatch(s: Subscriber, topic: string, payload: string, receivedAt: real,
                  decode: string -> Option<Json>, raises: Delivery -> bool)
    returns (calls: seq<Delivery>, failed: seq<Delivery>)
    ensures var registered := if topic in s.callbacks then s.callbacks[topic] else [];
      |calls| == |registered|
      && forall i :: 0 <= i < |calls| ==>
           calls[i] == Delivery(registered[i], RunIdFromTopic(topic), PayloadData(payload, decode), receivedAt)
    ensures forall d :: d in failed <==> d in calls && raises(d)
  {
    var data := PayloadData(payload, decode);
    var runId := RunIdFromTopic(topic);
    var registered := if topic in s.callbacks then s.callbacks[topic] else [];
    calls := [];
    failed := [];
    var i := 0;
    while i < |registered|
      invariant 0 <= i <= |registered| && |calls| == i
      invariant forall k :: 0 <= k < i ==> calls[k] == Delivery(registered[k], runId, data, receivedAt)
      invariant forall d :: d in failed <==> d in calls && raises(d)
    {
      var call := Delivery(registered[i], runId, data, receivedAt);
      calls := calls + [call];
      if raises(call) {
        failed := failed + [call];
      }
      i := i + 1;
    }
  }
}

=== FILE: pipeline_list.dfy ===
/**
 * The pipeline list as the browser keeps it: entries `{pipeline_name,
 * pipeline_type}` de-duplicated by name with the last occurrence winning
 * (a JavaScript `Map` filled in order), then sorted with non-detection
 * pipelines first and by name inside each kind. Both the API service and
 * the pipeline select use this rule.
 */
module PipelineList {
  import opened Wrappers
  import opened Text
  import opened Json
  import D = Discovery

  type Pipeline = D.PipelineInfo

  /** `pipeline_type === 'detection'`; every other value counts as non-detection. */
  function KindOf(t: Option<Json>): (k: D.PipelineType)
    ensures k == D.Detection <==> t == Some(JStr("detection"))
  {
    if t == Some(JStr("detection")) then D.Detection else D.NonDetection
  }

  /** The JSON object form of an entry. */
  function Encode(p: Pipeline): (j: Json)
    ensures j.JObj? && Get(j, "pipeline_name") == Some(JStr(p.name))
    ensures KindOf(Get(j, "pipeline_type")) == p.kind
  {
    JObj(map["pipeline_name" := JStr(p.name),
             "pipeline_type" := JStr(if p.kind == D.Detection then "detection" else "non-detection")])
  }

  // ---------------------------------------------------------------------------
  // De-duplication

  predicate DistinctNames(s: seq<Pipeline>) {
    forall i, j :: 0 <= i < j < |s| ==> s[i].name != s[j].name
  }

  /** The last entry of `ps` with this name. */
  function LastNamed(ps: seq<Pipeline>, name: string): (r: Option<Pipeline>)
    ensures r.Some? ==> r.value in ps && r.value.name == name
    ensures r.None? ==> forall p :: p in ps ==> p.name != name
    decreases |ps|
  {
    if |ps| == 0 then None
    else if ps[|ps| - 1].name == name then Some(ps[|ps| - 1])
    else
      var r := LastNamed(ps[..|ps| - 1], name);
      assert r.None? ==> forall p :: p in ps ==> p.name != name by {
        if r.None? {
          forall p | p in ps ensures p.name != name {
            if p != ps[|ps| - 1] {
              assert p in ps[..|ps| - 1];
            }
          }
        }
      }
      r
  }

  /** `map.set(p.pipeline_name, p)`: replaces the entry of that name in place, or appends. */
  function Upsert(acc: seq<Pipeline>, p: Pipeline): (r: seq<Pipeline>)
    ensures |r| <= |acc| + 1
    decreases |acc|
  {
    if |acc| == 0 then [p]
    else if acc[0].name == p.name then [p] + acc[1..]
    else [acc[0]] + Upsert(acc[1..], p)
  }

  /** Drops the first entry of a list with distinct names: the rest keep distinct names that differ from it. */
  lemma TailDistinct(acc: seq<Pipeline>)
    requires |acc| > 0 && DistinctNames(acc)
    ensures DistinctNames(acc[1..]) && forall q :: q in acc[1..] ==> q.name != acc[0].name
  {
    forall q | q in acc[1..] ensures q.name != acc[0].name {
      var k :| 0 <= k < |acc| - 1 && acc[1..][k] == q;
      assert acc[k + 1] == q;
    }
  }

  /** Upserting into map values keeps one entry per name: `p` replaces its namesake, the others stay. */
  lemma {:induction false} UpsertSpec(acc: seq<Pipeline>, p: Pipeline)
    requires DistinctNames(acc)
    ensures p in Upsert(acc, p) && DistinctNames(Upsert(acc, p))
    ensures forall q :: q in Upsert(acc, p) ==> q == p || (q in acc && q.name != p.name)
    ensures forall q :: q in acc && q.name != p.name ==> q in Upsert(acc, p)
    decreases |acc|
  {
    if |acc| > 0 {
      TailDistinct(acc);
      if acc[0].name != p.name {
        UpsertSpec(acc[1..], p);
        var rest := Upsert(acc[1..], p);
        assert Upsert(acc, p) == [acc[0]] + rest;
        forall q | q in acc && q.name != p.name ensures q in Upsert(acc, p) {
          if q != acc[0] {
            var k :| 0 <= k < |acc| && acc[k] == q;
            assert q in acc[1..] by { assert acc[1..][k - 1] == q; }
          }
        }
      } else {
        assert acc == [acc[0]] + acc[1..];
      }
    }
  }

  /** The map's values after setting every entry in order. */
  function Dedup(ps: seq<Pipeline>): (r: seq<Pipeline>)
    ensures |r| <= |ps|
    decreases |ps|
  {
    if |ps| == 0 then [] else Upsert(Dedup(ps[..|ps| - 1]), ps[|ps| - 1])
  }

  /**
   * One entry per name, that name's last occurrence, and every name of the
   * input represented.
   */
  lemma {:induction false} DedupSpec(ps: seq<Pipeline>)
    ensures DistinctNames(Dedup(ps))
    ensures forall q :: q in Dedup(ps) ==> LastNamed(ps, q.name) == Some(q)
    ensures forall p :: p in ps ==> LastNamed(ps, p.name).Some? && LastNamed(ps, p.name).value in Dedup(ps)
    decreases |ps|
  {
    if |ps| > 0 {
      var init := ps[..|ps| - 1];
      var last := ps[|ps| - 1];
      DedupSpec(init);
      UpsertSpec(Dedup(init), last);
      var r := Dedup(ps);
      assert r == Upsert(Dedup(init), last);
      DedupStepMembers(ps, init, last, Dedup(init), r);
      DedupStepCovers(ps, init, last, Dedup(init), r);
    }
  }

  /** After the upsert of the last entry, every kept entry is the last of its name. */
  lemma DedupStepMembers(ps: seq<Pipeline>, init: seq<Pipeline>, last: Pipeline, d: seq<Pipeline>, r: seq<Pipeline>)
    requires |ps| > 0 && init == ps[..|ps| - 1] && last == ps[|ps| - 1]
    requires forall q :: q in d ==> LastNamed(init, q.name) == Some(q)
    requires forall q :: q in r ==> q == last || (q in d && q.name != last.name)
    ensures forall q :: q in r ==> LastNamed(ps, q.name) == Some(q)
  {
    forall q | q in r ensures LastNamed(ps, q.name) == Some(q) {
      if q != last {
        assert LastNamed(init, q.name) == Some(q);
      }
    }
  }

  /** After the upsert of the last entry, every name of the input has its last entry kept. */
  lemma DedupStepCovers(ps: seq<Pipeline>, init: seq<Pipeline>, last: Pipeline, d: seq<Pipeline>, r: seq<Pipeline>)
    requires |ps| > 0 && init == ps[..|ps| - 1] && last == ps[|ps| - 1]
    requires forall p :: p in init ==> LastNamed(init, p.name).Some? && LastNamed(init, p.name).value in d
    requires last in r
    requires forall q :: q in d && q.name != last.name ==> q in r
    ensures forall p :: p in ps ==> LastNamed(ps, p.name).Some? && LastNamed(ps, p.name).value in r
  {
    forall p | p in ps ensures LastNamed(ps, p.name).Some? && LastNamed(ps, p.name).value in r {
      if p.name != last.name {
        assert p in init;
      }
    }
  }

  /** Every name of the input appears exactly once in the de-duplicated list. */
  lemma DedupKeepsNames(ps: seq<Pipeline>, name: string)
    ensures (exists p :: p in ps && p.name == name) <==> (exists q :: q in Dedup(ps) && q.name == name)
  {
    DedupSpec(ps);
    var r := Dedup(ps);
    if q :| q in r && q.name == name {
      assert LastNamed(ps, name) == Some(q);
    }
  }

  /** A list that already has distinct names is its own de-duplication. */
  lemma {:induction false} DedupDistinct(ps: seq<Pipeline>)
    requires DistinctNames(ps)
    ensures Dedup(ps) == ps
    decreases |ps|
  {
    if |ps| > 0 {
      var init := ps[..|ps| - 1];
      var last := ps[|ps| - 1];
      assert DistinctNames(init);
      DedupDistinct(init);
      assert forall q :: q in init ==> q.name != last.name by {
        forall q | q in init ensures q.name != last.name {
          var k :| 0 <= k < |init| && init[k] == q;
          assert ps[k] == q;
        }
      }
      UpsertNew(init, last);
      assert ps == init + [last];
    }
  }

  lemma {:induction false} UpsertNew(acc: seq<Pipeline>, p: Pipeline)
    requires forall q :: q in acc ==> q.name != p.name
    ensures Upsert(acc, p) == acc + [p]
    decreases |acc|
  {
    if |acc| > 0 {
      assert acc[0] in acc;
      assert forall q :: q in acc[1..] ==> q in acc;
      UpsertNew(acc[1..], p);
      assert acc == [acc[0]] + acc[1..];
    }
  }

  // ---------------------------------------------------------------------------
  // Sorting

  function Rank(k: D.PipelineType): nat {
    if k == D.NonDetection then 0 else 1
  }

  /** The comparator: non-detection before detection, then by name. */
  predicate Before(a: Pipeline, b: Pipeline) {
    Rank(a.kind) < Rank(b.kind) || (a.kind == b.kind && StrLess(a.name, b.name))
  }

  lemma BeforeAsymmetric(a: Pipeline, b: Pipeline)
    ensures Before(a, b) ==> !Before(b, a)
  {
    StrLessAsymmetric(a.name, b.name);
  }

  lemma BeforeTotal(a: Pipeline, b: Pipeline)
    requires a.name != b.name
    ensures Before(a, b) || Before(b, a)
  {
    StrLessTotal(a.name, b.name);
  }

  lemma BeforeTransitive(a: Pipeline, b: Pipeline, c: Pipeline)
    requires Before(a, b) && Before(b, c)
    ensures Before(a, c)
  {
    if a.kind == b.kind && b.kind == c.kind {
      StrLessTransitive(a.name, b.name, c.name);
    }
  }

  /** Each entry comes strictly before the next. */
  predicate Sorted(s: seq<Pipeline>) {
    forall i :: 0 <= i < |s| - 1 ==> Before(s[i], s[i + 1])
  }

  function Insert(p: Pipeline, s: seq<Pipeline>): (r: seq<Pipeline>)
    ensures multiset(r) == multiset(s) + multiset{p}
    ensures |r| == |s| + 1 && (r[0] == p || (|s| > 0 && r[0] == s[0]))
    decreases |s|
  {
    if |s| == 0 then [p]
    else if Before(s[0], p) then
      assert s == [s[0]] + s[1..];
      [s[0]] + Insert(p, s[1..])
    else [p] + s
  }

  /** Inserting an entry of a new name into a sorted list keeps it sorted. */
  lemma {:induction false} InsertSorted(p: Pipeline, s: seq<Pipeline>)
    requires Sorted(s) && forall q :: q in s ==> q.name != p.name
    ensures Sorted(Insert(p, s))
    decreases |s|
  {
    if |s| > 0 {
      if Before(s[0], p) {
        assert forall q :: q in s[1..] ==> q in s;
        InsertSorted(p, s[1..]);
        var rest := Insert(p, s[1..]);
        var r := [s[0]] + rest;
        assert Insert(p, s) == r;
        forall i | 0 <= i < |r| - 1 ensures Before(r[i], r[i + 1]) {
          if i > 0 {
            assert r[i] == rest[i - 1] && r[i + 1] == rest[i];
          }
        }
      } else {
        assert s[0] in s;
        BeforeTotal(s[0], p);
      }
    }
  }

  /** Inserting an entry of a new name keeps the names distinct. */
  lemma {:induction false} InsertDistinct(p: Pipeline, s: seq<Pipeline>)
    requires DistinctNames(s) && forall q :: q in s ==> q.name != p.name
    ensures DistinctNames(Insert(p, s))
    decreases |s|
  {
    if |s| > 0 && Before(s[0], p) {
      TailDistinct(s);
      assert forall q :: q in s[1..] ==> q in s;
      InsertDistinct(p, s[1..]);
      var rest := Insert(p, s[1..]);
      var r := [s[0]] + rest;
      assert Insert(p, s) == r;
      forall i, j | 0 <= i < j < |r| ensures r[i].name != r[j].name {
        assert r[j] == rest[j - 1];
        if i == 0 {
          assert rest[j - 1] in multiset(rest);
        } else {
          assert r[i] == rest[i - 1];
        }
      }
    } else if |s| > 0 {
      var r := [p] + s;
      forall i, j | 0 <= i < j < |r| ensures r[i].name != r[j].name {
        assert r[j] == s[j - 1];
        if i > 0 {
          assert r[i] == s[i - 1];
        }
      }
    }
  }

  /** The sort of the pipeline list: insertion from the back. */
  function Sort(s: seq<Pipeline>): (r: seq<Pipeline>)
    ensures multiset(r) == multiset(s)
    decreases |s|
  {
    if |s| == 0 then []
    else
      assert s == s[..|s| - 1] + [s[|s| - 1]];
      Insert(s[|s| - 1], Sort(s[..|s| - 1]))
  }

  /** Sorting entries with distinct names gives a strictly ordered list of the same entries. */
  lemma {:induction false} SortSpec(s: seq<Pipeline>)
    requires DistinctNames(s)
    ensures Sorted(Sort(s)) && DistinctNames(Sort(s))
    decreases |s|
  {
    if |s| > 0 {
      var init := s[..|s| - 1];
      var last := s[|s| - 1];
      assert DistinctNames(init);
      SortSpec(init);
      forall q | q in Sort(init) ensures q.name != last.name {
        assert q in multiset(init);
        var k :| 0 <= k < |init| && init[k] == q;
        assert s[k] == q;
      }
      InsertSorted(last, Sort(init));
      InsertDistinct(last, Sort(init));
    }
  }

  /** Sorted means every earlier entry comes before every later one. */
  lemma {:induction false} SortedEverywhere(s: seq<Pipeline>)
    requires Sorted(s)
    ensures forall i, j :: 0 <= i < j < |s| ==> Before(s[i], s[j])
    decreases |s|
  {
    if |s| > 1 {
      SortedEverywhere(s[1..]);
      forall i, j | 0 <= i < j < |s| ensures Before(s[i], s[j]) {
        if i > 0 {
          assert s[i] == s[1..][i - 1] && s[j] == s[1..][j - 1];
        } else if j > 1 {
          assert Before(s[1], s[j]) by { assert s[1] == s[1..][0] && s[j] == s[1..][j - 1]; }
          BeforeTransitive(s[0], s[1], s[j]);
        }
      }
    }
  }

  /** In a sorted list no detection pipeline precedes a non-detection one, and names ascend within a kind. */
  lemma NonDetectionFirst(s: seq<Pipeline>)
    requires Sorted(s)
    ensures forall i, j :: 0 <= i < j < |s| && s[i].kind == D.Detection ==> s[j].kind == D.Detection
    ensures forall i, j :: 0 <= i < j < |s| && s[i].kind == s[j].kind ==> StrLess(s[i].name, s[j].name)
  {
    SortedEverywhere(s);
  }

  /** Sorting an already sorted list changes nothing. */
  lemma {:induction false} SortSorted(s: seq<Pipeline>)
    requires Sorted(s) && DistinctNames(s)
    ensures Sort(s) == s
    decreases |s|
  {
    if |s| > 0 {
      var init := s[..|s| - 1];
      PrefixSortedDistinct(s);
      SortSorted(init);
      InsertLast(init, s[|s| - 1]);
      assert init + [s[|s| - 1]] == s;
    }
  }

  lemma PrefixSortedDistinct(s: seq<Pipeline>)
    requires |s| > 0 && Sorted(s) && DistinctNames(s)
    ensures Sorted(s[..|s| - 1]) && DistinctNames(s[..|s| - 1])
  {
  }

  lemma {:induction false} InsertLast(s: seq<Pipeline>, p: Pipeline)
    requires Sorted(s + [p])
    ensures Sorted(s) && Insert(p, s) == s + [p]
    decreases |s|
  {
    assert Sorted(s) by {
      forall i | 0 <= i < |s| - 1 ensures Before(s[i], s[i + 1]) {
        assert s[i] == (s + [p])[i] && s[i + 1] == (s + [p])[i + 1];
      }
    }
    if |s| > 0 {
      SortedEverywhere(s + [p]);
      assert Before(s[0], p) by { assert s[0] == (s + [p])[0] && p == (s + [p])[|s|]; }
      assert (s + [p])[1..] == s[1..] + [p];
      InsertLast(s[1..], p);
      assert s == [s[0]] + s[1..];
    }
  }

  /** The normalised list: de-duplicated, then sorted. */
  function Normalise(ps: seq<Pipeline>): (r: seq<Pipeline>)
    ensures Sorted(r) && DistinctNames(r)
    ensures multiset(r) == multiset(Dedup(ps))
  {
    DedupSpec(ps);
    SortSpec(Dedup(ps));
    Sort(Dedup(ps))
  }

  /** A normalised list is its own normalisation. */
  lemma NormaliseIdempotent(ps: seq<Pipeline>)
    ensures Normalise(Normalise(ps)) == Normalise(ps)
  {
    var r := Normalise(ps);
    DedupDistinct(r);
    SortSorted(r);
  }

  /** An entry is in the normalised list exactly when it is the last one of its name in the input. */
  lemma NormaliseMembers(ps: seq<Pipeline>, q: Pipeline)
    ensures q in Normalise(ps) <==> LastNamed(ps, q.name) == Some(q)
  {
    DedupSpec(ps);
    var d := Dedup(ps);
    assert q in Normalise(ps) <==> q in multiset(d);
    if LastNamed(ps, q.name) == Some(q) {
      assert q in ps;
    }
  }
}

=== FILE: run_card.dfy ===
/**
 * The run card's pure helpers in the browser: the display form of a run
 * id, the run-name preparation before a start request, the client-side
 * de-duplication loop, and the CPU/GPU badge.
 *
 * JavaScript's falsy `null`/`undefined` are `None`; the empty string is
 * `Some("")`, which is falsy too.
 */
module RunCard {
  import opened Wrappers
  import opened Text
  import RunNames
  import Runs

  /** JavaScript truthiness of an optional string. */
  predicate Truthy(s: Option<string>) {
    s.Some? && s.value != []
  }

  /** `formatRunNameForDisplay`: underscores shown as spaces; a falsy id comes back as it was. */
  function DisplayName(runId: Option<string>): (r: Option<string>)
    ensures !Truthy(runId) ==> r == runId
    ensures Truthy(runId) ==>
              r.Some? && |r.value| == |runId.value| && forall i :: 0 <= i < |r.value| ==> r.value[i] != '_'
  {
    if !Truthy(runId) then runId else Some(ReplaceChar(runId.value, '_', ' '))
  }

  /** A run id without spaces, which every sanitised name is, can be read back from its display form. */
  lemma DisplayNameRoundTrip(runId: string)
    requires runId != [] && ' ' !in runId
    ensures ReplaceChar(DisplayName(Some(runId)).value, ' ', '_') == runId
  {
    var shown := DisplayName(Some(runId)).value;
    var back := ReplaceChar(shown, ' ', '_');
    forall i | 0 <= i < |runId| ensures back[i] == runId[i] {
      assert runId[i] != ' ';
    }
  }

  /**
   * `validateAndPrepareRunName`: `null` for a falsy or blank name and when
   * nothing survives sanitising; otherwise the sanitised name.
   */
  function PrepareRunName(raw: Option<string>): (r: Option<string>)
    ensures r.Some? ==> r.value != [] && AllRunNameChars(r.value) && NoSpace(r.value)
    ensures raw.None? || Strip(raw.value) == [] ==> r.None?
  {
    if !Truthy(raw) || Strip(raw.value) == [] then None
    else
      var prepared := RunNames.Sanitize(raw.value);
      if prepared == [] then None else Some(prepared)
  }

  /** Preparing a prepared name changes nothing. */
  lemma PrepareIdempotent(raw: Option<string>)
    requires PrepareRunName(raw).Some?
    ensures PrepareRunName(PrepareRunName(raw)) == PrepareRunName(raw)
  {
    var name := PrepareRunName(raw).value;
    RunNames.SanitizeKeepsCleanName(name);
    RunNameCharsHaveNoSpace(name);
    StripNoSpace(name);
  }

  /**
   * The browser and the backend agree: the browser prepares a name exactly
   * when the backend would use it as a custom name, and both start from the
   * same sanitised base.
   */
  lemma PrepareMatchesBackend(raw: Option<string>, taken: set<string>)
    ensures PrepareRunName(raw).Some? <==> Runs.RunNameFor(raw, taken).Some?
    ensures PrepareRunName(raw).Some? ==>
              Runs.RunNameFor(raw, taken) == Some(RunNames.UniqueName(PrepareRunName(raw).value, taken))
  {
    if raw.Some? && Strip(raw.value) == [] {
      assert RunNames.Sanitize(raw.value) == [];
    }
  }

  /**
   * `getUniqueRunName`: `null` for a falsy base; otherwise the loop that
   * tries `base`, `base_1`, `base_2`, ... until a name is not among the
   * existing run ids.
   */
  method UniqueRunName(base: Option<string>, existing: seq<string>) returns (r: Option<string>)
    ensures !Truthy(base) ==> r.None?
    ensures Truthy(base) ==> r == Some(RunNames.UniqueName(base.value, set id | id in existing))
  {
    if !Truthy(base) {
      return None;
    }
    var name := base.value;
    var taken := set id | id in existing;
    var finalName := name;
    var counter: nat := 1;
    while finalName in existing
      invariant counter >= 1
      invariant counter == 1 ==> finalName == name
      invariant counter > 1 ==> name in taken && finalName == RunNames.Candidate(name, counter - 1)
      invariant forall j :: 1 <= j < counter - 1 ==> RunNames.Candidate(name, j) in taken
      invariant counter - 2 <= |taken|
      decreases |taken| + 2 - counter
    {
      if counter > 1 {
        RunNames.TakenBound(name, taken, counter - 1);
      }
      finalName := name + "_" + NatToString(counter);
      counter := counter + 1;
    }
    if counter > 1 {
      RunNames.FirstFreeIsUnique(name, taken, counter - 1);
    }
    return Some(finalName);
  }

  /** The badge: `GPU` when the lower-cased pipeline name mentions `gpu`, else `CPU`. */
  function DeviceType(pipelineName: Option<string>): (r: string)
    ensures r == "GPU" || r == "CPU"
    ensures r == "GPU" <==> Contains(Lower(Runs.OrEmpty(pipelineName)), "gpu")
  {
    if Contains(Lower(Runs.OrEmpty(pipelineName)), "gpu") then "GPU" else "CPU"
  }

  /** A pipeline whose name ends in `gpu`, in any letter case, gets the GPU badge. */
  lemma GpuSuffixGivesGpu(name: string)
    requires |name| >= 3 && Lower(name[|name| - 3..]) == "gpu"
    ensures DeviceType(Some(name)) == "GPU"
  {
    var low := Lower(name);
    var j := |name| - 3;
    assert low[j..][..3] == Lower(name[j..]);
    assert StartsWith(low[j..], "gpu");
  }

  /** Without a pipeline name the badge says CPU. */
  lemma NoPipelineIsCpu()
    ensures DeviceType(None) == "CPU"
  {
    assert Lower("") == "";
    assert FindSub("", "gpu") == None;
  }
}

=== FILE: run_names.dfy ===
/**
 * Run names of the captioning service, shared by the backend (`start_run`)
 * and the browser (`validateAndPrepareRunName`, `getUniqueRunName`): both
 * strip the name, turn every whitespace run into `_`, drop everything
 * outside `[a-zA-Z0-9_-]`, and make the result unique by appending `_1`,
 * `_2`, ... to the base name.
 */
module RunNames {
  import opened Text

  /** `re.sub(r'\s+', '_', s)` / `s.replace(/\s+/g, '_')`: each whitespace run becomes one `_`. */
  function CollapseSpaces(s: string): string
    decreases |s|
  {
    if |s| == 0 then []
    else if IsSpace(s[0]) then "_" + CollapseSpaces(LStrip(s))
    else [s[0]] + CollapseSpaces(s[1..])
  }

  /** `re.sub(r'[^a-zA-Z0-9_-]', '', s)`: keeps only run-name characters, in order. */
  function KeepRunNameChars(s: string): (r: string)
    ensures AllRunNameChars(r)
    ensures |r| <= |s|
    ensures AllRunNameChars(s) ==> r == s
  {
    if |s| == 0 then []
    else if IsRunNameChar(s[0]) then [s[0]] + KeepRunNameChars(s[1..])
    else KeepRunNameChars(s[1..])
  }

  /** `re.sub(r'[^a-zA-Z0-9_-]', '', re.sub(r'\s+', '_', name.strip()))`. */
  function Sanitize(name: string): (r: string)
    ensures AllRunNameChars(r) && NoSpace(r)
  {
    var r := KeepRunNameChars(CollapseSpaces(Strip(name)));
    RunNameCharsHaveNoSpace(r);
    r
  }

  /** A sanitised name is its own sanitised form. */
  lemma SanitizeIdempotent(name: string)
    ensures Sanitize(Sanitize(name)) == Sanitize(name)
  {
    SanitizeKeepsCleanName(Sanitize(name));
  }

  /** A name made of run-name characters only is kept exactly. */
  lemma SanitizeKeepsCleanName(name: string)
    requires AllRunNameChars(name)
    ensures Sanitize(name) == name
  {
    RunNameCharsHaveNoSpace(name);
    StripNoSpace(name);
    CollapseNoSpace(name);
  }

  /** Without whitespace there is nothing to collapse. */
  lemma {:induction false} CollapseNoSpace(s: string)
    requires NoSpace(s)
    ensures CollapseSpaces(s) == s
    decreases |s|
  {
    if |s| > 0 {
      assert !IsSpace(s[0]);
      CollapseNoSpace(s[1..]);
    }
  }

  /** Two clean words separated by whitespace are joined by one underscore. */
  lemma SanitizeJoinsWords(a: string, gap: string, b: string)
    requires |a| > 0 && |b| > 0 && AllRunNameChars(a) && AllRunNameChars(b)
    requires |gap| > 0 && forall i :: 0 <= i < |gap| ==> IsSpace(gap[i])
    ensures Sanitize(a + gap + b) == a + "_" + b
  {
    var s := a + gap + b;
    StripWords(a, gap, b);
    CollapseWords(a, gap, b);
    JoinedIsClean(a, b);
    assert Sanitize(s) == KeepRunNameChars(CollapseSpaces(Strip(s)));
  }

  lemma StripWords(a: string, gap: string, b: string)
    requires |a| > 0 && |b| > 0 && AllRunNameChars(a) && AllRunNameChars(b)
    ensures Strip(a + gap + b) == a + gap + b
  {
    var s := a + gap + b;
    assert s[0] == a[0] && s[|s| - 1] == b[|b| - 1];
    StripKeepsEnds(s);
  }

  lemma CollapseWords(a: string, gap: string, b: string)
    requires |a| > 0 && |b| > 0 && AllRunNameChars(a) && AllRunNameChars(b)
    requires |gap| > 0 && forall i :: 0 <= i < |gap| ==> IsSpace(gap[i])
    ensures CollapseSpaces(a + gap + b) == a + "_" + b
  {
    RunNameCharsHaveNoSpace(a);
    RunNameCharsHaveNoSpace(b);
    ConcatAssoc(a, gap, b);
    ConcatAssoc(a, "_", b);
    CollapseAfterWord(a, gap + b);
    CollapseGap(gap, b);
  }

  lemma ConcatAssoc(a: string, x: string, y: string)
    ensures a + x + y == a + (x + y)
  {
  }

  lemma JoinedIsClean(a: string, b: string)
    requires AllRunNameChars(a) && AllRunNameChars(b)
    ensures AllRunNameChars(a + "_" + b)
  {
  }

  /** A string that starts and ends with a non-space character is its own strip. */
  lemma StripKeepsEnds(s: string)
    requires |s| > 0 && !IsSpace(s[0]) && !IsSpace(s[|s| - 1])
    ensures Strip(s) == s
  {
    assert LStrip(s) == s;
  }

  /** Collapsing passes over a whitespace-free prefix unchanged. */
  lemma {:induction false} CollapseAfterWord(a: string, t: string)
    requires NoSpace(a)
    ensures CollapseSpaces(a + t) == a + CollapseSpaces(t)
    decreases |a|
  {
    if |a| > 0 {
      assert (a + t)[1..] == a[1..] + t;
      CollapseAfterWord(a[1..], t);
    } else {
      assert a + t == t;
    }
  }

  /** A whitespace run before a clean word becomes one underscore. */
  lemma CollapseGap(gap: string, b: string)
    requires |gap| > 0 && forall i :: 0 <= i < |gap| ==> IsSpace(gap[i])
    requires |b| > 0 && NoSpace(b)
    ensures CollapseSpaces(gap + b) == "_" + b
  {
    var s := gap + b;
    assert s[0] == gap[0];
    LStripGap(gap, b);
    CollapseNoSpace(b);
    assert CollapseSpaces(s) == "_" + CollapseSpaces(LStrip(s));
  }

  lemma {:induction false} LStripGap(gap: string, b: string)
    requires forall i :: 0 <= i < |gap| ==> IsSpace(gap[i])
    requires |b| > 0 && !IsSpace(b[0])
    ensures LStrip(gap + b) == b
    decreases |gap|
  {
    if |gap| > 0 {
      assert (gap + b)[1..] == gap[1..] + b;
      LStripGap(gap[1..], b);
    } else {
      assert gap + b == b;
    }
  }

  /** The `k`-th alternative to `base`: `f"{base}_{k}"`. */
  function Candidate(base: string, k: nat): (r: string)
    ensures |r| > |base| && r[..|base|] == base
  {
    base + "_" + NatToString(k)
  }

  /** Different suffixes give different candidates. */
  lemma CandidateInjective(base: string, j: nat, k: nat)
    requires Candidate(base, j) == Candidate(base, k)
    ensures j == k
  {
    var a, b := Candidate(base, j), Candidate(base, k);
    assert NatToString(j) == a[|base| + 1..];
    assert NatToString(k) == b[|base| + 1..];
    NatToStringInjective(j, k);
  }

  /** The candidates `1..n`. */
  function Candidates(base: string, n: nat): set<string>
    decreases n
  {
    if n == 0 then {} else Candidates(base, n - 1) + {Candidate(base, n)}
  }

  /** `n` different suffixes give `n` different names. */
  lemma {:induction false} CandidatesCount(base: string, n: nat)
    ensures |Candidates(base, n)| == n
    ensures forall j :: 1 <= j <= n ==> Candidate(base, j) in Candidates(base, n)
    decreases n
  {
    if n > 0 {
      CandidatesCount(base, n - 1);
      if Candidate(base, n) in Candidates(base, n - 1) {
        var j := CandidateIndex(base, n - 1, Candidate(base, n));
        CandidateInjective(base, j, n);
        assert false;
      }
    }
  }

  /** Every member of `Candidates(base, n)` has its suffix in `1..n`. */
  lemma {:induction false} CandidateIndex(base: string, n: nat, name: string) returns (j: nat)
    requires name in Candidates(base, n)
    ensures 1 <= j <= n && name == Candidate(base, j)
    decreases n
  {
    if name == Candidate(base, n) {
      j := n;
    } else {
      j := CandidateIndex(base, n - 1, name);
    }
  }

  /** If the candidates `1..n` are all taken, there are at least `n` taken names. */
  lemma TakenBound(base: string, taken: set<string>, n: nat)
    requires forall j :: 1 <= j <= n ==> Candidate(base, j) in taken
    ensures n <= |taken|
  {
    CandidatesCount(base, n);
    assert Candidates(base, n) <= taken by {
      forall name | name in Candidates(base, n) ensures name in taken {
        var j := CandidateIndex(base, n, name);
      }
    }
    SubsetCard(Candidates(base, n), taken);
  }

  lemma SubsetCard(a: set<string>, b: set<string>)
    requires a <= b
    ensures |a| <= |b|
  {
    assert b == a + (b - a);
  }

  /**
   * The loop `while name in taken: name = f"{base}_{counter}"; counter += 1`
   * from counter `k`: the first free suffix at or after `k`.
   */
  function FirstFreeFrom(base: string, taken: set<string>, k: nat): (r: nat)
    requires k >= 1 && forall j :: 1 <= j < k ==> Candidate(base, j) in taken
    ensures r >= k && Candidate(base, r) !in taken
    ensures forall j :: 1 <= j < r ==> Candidate(base, j) in taken
    decreases |taken| + 1 - k
  {
    TakenBound(base, taken, k - 1);
    if Candidate(base, k) !in taken then k
    else
      TakenBound(base, taken, k);
      FirstFreeFrom(base, taken, k + 1)
  }

  /** The smallest `k >= 1` whose candidate is free. */
  function FirstFreeIndex(base: string, taken: set<string>): (k: nat)
    ensures k >= 1 && Candidate(base, k) !in taken
    ensures forall j :: 1 <= j < k ==> Candidate(base, j) in taken
  {
    FirstFreeFrom(base, taken, 1)
  }

  /**
   * The name the duplicate check settles on: the base when it is free,
   * else the candidate with the smallest free suffix.
   */
  function UniqueName(base: string, taken: set<string>): (r: string)
    ensures r !in taken
    ensures base !in taken ==> r == base
    ensures base in taken ==> r == Candidate(base, FirstFreeIndex(base, taken))
  {
    if base !in taken then base else Candidate(base, FirstFreeIndex(base, taken))
  }

  /** The smallest free suffix is determined by its two defining facts. */
  lemma FirstFreeIsUnique(base: string, taken: set<string>, k: nat)
    requires k >= 1 && Candidate(base, k) !in taken
    requires forall j :: 1 <= j < k ==> Candidate(base, j) in taken
    ensures FirstFreeIndex(base, taken) == k
  {
  }

  /** A de-duplicated run name uses only run-name characters when its base does. */
  lemma UniqueNameKeepsChars(base: string, taken: set<string>)
    requires AllRunNameChars(base)
    ensures AllRunNameChars(UniqueName(base, taken))
  {
    if base in taken {
      var k := FirstFreeIndex(base, taken);
      var digits := NatToString(k);
      assert forall i :: 0 <= i < |digits| ==> IsDigit(digits[i]);
      assert Candidate(base, k) == base + "_" + digits;
    }
  }
}

=== FILE: run_request.dfy ===
/**
 * The request that starts a captioning run (`StartRunRequest`): field
 * defaults and bounds, and the RTSP URL validator.
 *
 * `urlparse(v).hostname` and `ipaddress.ip_address` are parameters: the
 * first yields the hostname (`None` when there is none, an error when the
 * URL cannot be parsed), the second says whether a hostname is an IPv4 or
 * IPv6 address.
 */
module RunRequest {
  import opened Wrappers
  import opened Text

  const DefaultDetectionModel: string := "yolov8s"
  const DefaultCaptionModel: string := "OpenGVLab/InternVL2-2B"
  const DefaultMaxNewTokens: int := 70
  const MaxNewTokensLimit: int := 4096
  const DefaultThreshold: real := 0.5

  /** The default prompt; agent mode asks a yes/no question. */
  function DefaultPrompt(agentMode: bool): string {
    if agentMode then "Is there an accident in the stream? Just Answer with a Yes or No"
    else "Describe what you see in one sentence."
  }

  datatype StartRunRequest = StartRunRequest(
    rtspUrl: string,
    prompt: string,
    detectionModelName: Option<string>,
    detectionThreshold: Option<real>,
    modelName: string,
    maxNewTokens: int,
    pipelineName: Option<string>,
    runName: Option<string>)

  /** A JSON field as the request body gives it: missing, `null`, or a value. */
  datatype Field<T> = Absent | Null | Given(value: T)

  /** The body of `POST /api/runs` before validation. */
  datatype RawRequest = RawRequest(
    rtspUrl: Field<string>,
    prompt: Field<string>,
    detectionModelName: Field<string>,
    detectionThreshold: Field<real>,
    modelName: Field<string>,
    maxNewTokens: Field<int>,
    pipelineName: Field<string>,
    runName: Field<string>)

  datatype RtspError = BadScheme | NoHostname | NotQualified | BadHostname | TrailingDot | Unparsable

  datatype RequestError =
    | Missing(field: string)
    | NullNotAllowed(field: string)
    | OutOfRange(field: string)
    | TooShort(field: string)
    | InvalidUrl(reason: RtspError)

  /** `urlparse(v).hostname`: `Ok(None)` without a hostname, `Err` when parsing raises. */
  type HostnameParser = string -> Result<Option<string>, string>

  // ---------------------------------------------------------------------------
  // Hostname grammar

  /**
   * One label of `[a-zA-Z0-9]([a-zA-Z0-9\-]{0,61}[a-zA-Z0-9])?`: 1 to 63
   * characters, alphanumeric at both ends, hyphens allowed inside.
   */
  predicate IsLabel(s: string) {
    1 <= |s| <= 63 && IsAsciiAlnum(s[0]) && IsAsciiAlnum(s[|s| - 1])
    && forall i :: 0 < i < |s| - 1 ==> IsAsciiAlnum(s[i]) || s[i] == '-'
  }

  /** The whole pattern `label(\.label)*`: every dot-separated part is a label. */
  predicate MatchesHostname(h: string) {
    var labels := Split(h, '.');
    forall i :: 0 <= i < |labels| ==> IsLabel(labels[i])
  }

  /** A dot at the end leaves an empty last part, which is not a label. */
  lemma TrailingDotNeverMatches(h: string)
    requires EndsWith(h, ".")
    ensures !MatchesHostname(h)
  {
    var n := |h| - 1;
    assert h == h[..n] + ['.'] + [];
    SplitConcat(h[..n], '.', []);
    assert Split([], '.') == [[]];
    var labels := Split(h, '.');
    assert labels[|labels| - 1] == [];
  }

  /** A dotted name made of labels matches. */
  lemma DottedLabelsMatch(a: string, b: string)
    requires IsLabel(a) && IsLabel(b)
    ensures MatchesHostname(a + "." + b)
  {
    LabelHasNoDot(a);
    LabelHasNoDot(b);
    SplitConcat(a, '.', b);
    SplitNoSeparator(a, '.');
    SplitNoSeparator(b, '.');
    assert a + "." + b == a + ['.'] + b;
  }

  lemma LabelHasNoDot(s: string)
    requires IsLabel(s)
    ensures '.' !in s
  {
    forall i | 0 <= i < |s| ensures s[i] != '.' {
      assert IsAsciiAlnum(s[i]) || s[i] == '-';
    }
  }

  // ---------------------------------------------------------------------------
  // The validator

  /** A hostname the validator lets through: an IP address, or a dotted name of labels not ending in a dot. */
  predicate AcceptedHost(h: string, isIpAddress: string -> bool) {
    isIpAddress(h) || ('.' in h && MatchesHostname(h) && !EndsWith(h, "."))
  }

  /**
   * `validate_rtsp_url`: the scheme check, then the hostname checks in
   * order. An IP address is accepted at once; a name needs a dot, must
   * match the label grammar and must not end with a dot. A valid URL comes
   * back unchanged.
   */
  function ValidateRtspUrl(v: string, hostnameOf: HostnameParser, isIpAddress: string -> bool)
    : (r: Result<string, RtspError>)
    ensures r.Ok? ==> r.value == v
    ensures r.Ok? ==> StartsWith(Lower(v), "rtsp://") || StartsWith(Lower(v), "rtsps://")
    ensures !(StartsWith(Lower(v), "rtsp://") || StartsWith(Lower(v), "rtsps://")) ==> r == Err(BadScheme)
    ensures r.Ok? ==> hostnameOf(v).Ok? && hostnameOf(v).value.Some? && hostnameOf(v).value.value != []
    ensures r.Ok? && !isIpAddress(hostnameOf(v).value.value) ==>
              var h := hostnameOf(v).value.value;
              '.' in h && MatchesHostname(h) && !EndsWith(h, ".")
    ensures (StartsWith(Lower(v), "rtsp://") || StartsWith(Lower(v), "rtsps://"))
              && hostnameOf(v).Ok? && hostnameOf(v).value.Some? && hostnameOf(v).value.value != []
              && AcceptedHost(hostnameOf(v).value.value, isIpAddress)
            ==> r == Ok(v)
  {
    if !(StartsWith(Lower(v), "rtsp://") || StartsWith(Lower(v), "rtsps://")) then Err(BadScheme)
    else
      match hostnameOf(v)
      case Err(_) => Err(Unparsable)
      case Ok(host) =>
        if host.None? || host.value == [] then Err(NoHostname)
        else
          var h := host.value;
          if isIpAddress(h) then Ok(v)
          else if '.' !in h then Err(NotQualified)
          else if !MatchesHostname(h) then Err(BadHostname)
          else if EndsWith(h, ".") then Err(TrailingDot)
          else Ok(v)
  }

  /** The trailing-dot check never fires: the grammar check before it already rejects such names. */
  lemma TrailingDotRejectedByGrammar(v: string, hostnameOf: HostnameParser, isIpAddress: string -> bool)
    ensures ValidateRtspUrl(v, hostnameOf, isIpAddress) != Err(TrailingDot)
  {
    var r := ValidateRtspUrl(v, hostnameOf, isIpAddress);
    if r == Err(TrailingDot) {
      var h := hostnameOf(v).value.value;
      TrailingDotNeverMatches(h);
    }
  }

  /** Any URL whose hostname is an IP address passes once its scheme is right. */
  lemma IpHostAccepted(v: string, hostnameOf: HostnameParser, isIpAddress: string -> bool)
    requires StartsWith(Lower(v), "rtsp://")
    requires hostnameOf(v).Ok? && hostnameOf(v).value.Some? && hostnameOf(v).value.value != []
    requires isIpAddress(hostnameOf(v).value.value)
    ensures ValidateRtspUrl(v, hostnameOf, isIpAddress) == Ok(v)
  {
  }

  // ---------------------------------------------------------------------------
  // Field defaults and bounds

  /** An `Optional[...]` field: missing gives the default, `null` gives `None`. */
  function OptionalField<T>(f: Field<T>, default: Option<T>): Option<T> {
    match f
    case Absent => default
    case Null => None
    case Given(x) => Some(x)
  }

  /**
   * Pydantic's validation of the body: a required `rtspUrl` of at least one
   * character that passes the validator, `maxNewTokens` in [1, 4096],
   * `detectionThreshold` in [0, 1] when given, and the declared defaults.
   */
  function Validate(raw: RawRequest, agentMode: bool, hostnameOf: HostnameParser, isIpAddress: string -> bool)
    : (r: Result<StartRunRequest, RequestError>)
    ensures r.Ok? ==> 1 <= r.value.maxNewTokens <= MaxNewTokensLimit
    ensures r.Ok? ==> r.value.detectionThreshold.None? || 0.0 <= r.value.detectionThreshold.value <= 1.0
    ensures r.Ok? ==> |r.value.rtspUrl| >= 1 && raw.rtspUrl == Given(r.value.rtspUrl)
    ensures r.Ok? ==> ValidateRtspUrl(r.value.rtspUrl, hostnameOf, isIpAddress).Ok?
    ensures r.Ok? && raw.maxNewTokens.Absent? ==> r.value.maxNewTokens == DefaultMaxNewTokens
    ensures r.Ok? && raw.prompt.Absent? ==> r.value.prompt == DefaultPrompt(agentMode)
    ensures r.Ok? && raw.modelName.Absent? ==> r.value.modelName == DefaultCaptionModel
    ensures r.Ok? && raw.detectionThreshold.Absent? ==> r.value.detectionThreshold == Some(DefaultThreshold)
    ensures r.Ok? && raw.detectionModelName.Absent? ==> r.value.detectionModelName == Some(DefaultDetectionModel)
    ensures r.Ok? ==> r.value.pipelineName == OptionalField(raw.pipelineName, None)
                      && r.value.runName == OptionalField(raw.runName, None)
    ensures r.Ok? && raw.prompt.Given? ==> r.value.prompt == raw.prompt.value
    ensures r.Ok? && raw.modelName.Given? ==> r.value.modelName == raw.modelName.value
    ensures r.Ok? && raw.maxNewTokens.Given? ==> r.value.maxNewTokens == raw.maxNewTokens.value
    ensures r.Ok? ==> r.value.detectionThreshold == OptionalField(raw.detectionThreshold, Some(DefaultThreshold))
                      && r.value.detectionModelName == OptionalField(raw.detectionModelName, Some(DefaultDetectionModel))
    ensures r.Ok? <==>
              && raw.rtspUrl.Given? && |raw.rtspUrl.value| >= 1
              && !raw.prompt.Null? && !raw.modelName.Null? && !raw.maxNewTokens.Null?
              && (raw.maxNewTokens.Given? ==> 1 <= raw.maxNewTokens.value <= MaxNewTokensLimit)
              && (raw.detectionThreshold.Given? ==> 0.0 <= raw.detectionThreshold.value <= 1.0)
              && ValidateRtspUrl(raw.rtspUrl.value, hostnameOf, isIpAddress).Ok?
    ensures raw.rtspUrl.Absent? ==> r == Err(Missing("rtspUrl"))
  {
    if raw.rtspUrl.Absent? then Err(Missing("rtspUrl"))
    else if raw.rtspUrl.Null? then Err(NullNotAllowed("rtspUrl"))
    else if |raw.rtspUrl.value| < 1 then Err(TooShort("rtspUrl"))
    else if raw.prompt.Null? then Err(NullNotAllowed("prompt"))
    else if raw.modelName.Null? then Err(NullNotAllowed("modelName"))
    else if raw.maxNewTokens.Null? then Err(NullNotAllowed("maxNewTokens"))
    else if raw.maxNewTokens.Given? && !(1 <= raw.maxNewTokens.value <= MaxNewTokensLimit) then
      Err(OutOfRange("maxNewTokens"))
    else if raw.detectionThreshold.Given? && !(0.0 <= raw.detectionThreshold.value <= 1.0) then
      Err(OutOfRange("detectionThreshold"))
    else
      match ValidateRtspUrl(raw.rtspUrl.value, hostnameOf, isIpAddress)
      case Err(e) => Err(InvalidUrl(e))
      case Ok(url) =>
        Ok(StartRunRequest(
          url,
          if raw.prompt.Given? then raw.prompt.value else DefaultPrompt(agentMode),
          OptionalField(raw.detectionModelName, Some(DefaultDetectionModel)),
          OptionalField(raw.detectionThreshold, Some(DefaultThreshold)),
          if raw.modelName.Given? then raw.modelName.value else DefaultCaptionModel,
          if raw.maxNewTokens.Given? then raw.maxNewTokens.value else DefaultMaxNewTokens,
          OptionalField(raw.pipelineName, None),
          OptionalField(raw.runName, None)))
  }

  /** Every token count in [1, 4096] is accepted, and none outside. */
  lemma TokenBoundsExact(raw: RawRequest, agentMode: bool, hostnameOf: HostnameParser, isIpAddress: string -> bool)
    requires raw.rtspUrl.Given? && |raw.rtspUrl.value| >= 1
    requires ValidateRtspUrl(raw.rtspUrl.value, hostnameOf, isIpAddress).Ok?
    requires !raw.prompt.Null? && !raw.modelName.Null?
    requires raw.detectionThreshold.Given? ==> 0.0 <= raw.detectionThreshold.value <= 1.0
    requires raw.maxNewTokens.Given?
    ensures Validate(raw, agentMode, hostnameOf, isIpAddress).Ok?
            <==> 1 <= raw.maxNewTokens.value <= MaxNewTokensLimit
  {
  }
}

=== FILE: runs.dfy ===
/**
 * The run registry of the captioning backend (`RUNS`) and the routes that
 * change it: starting a run (naming, the pipeline-server request, the
 * record), looking one up, stopping one, and the subscription diff the
 * metadata stream performs against the registry on every round.
 *
 * The pipeline server is a parameter: `PipelineServer` answers the start
 * request with the raw response text or an HTTP error, and the stop
 * request with a `DeleteCall`; uuid generation
 * becomes the `hexId` parameter; configuration is a `Config` record.
 */
module Runs {
  import opened Wrappers
  import opened Text
  import RunNames
  import RunRequest
  import MqttSubscriber

  datatype Config = Config(
    pipelineName: string,
    serverUrl: string,
    topicPrefix: string,
    bitrate: int,
    agentMode: bool)

  /** The configuration when no environment variable is set. */
  const DefaultConfig: Config :=
    Config("genai_pipeline", "http://dlstreamer-pipeline-server:8080", "live-video-captioning", 2048, false)

  /** The record kept for an active run and returned to the browser. */
  datatype RunInfo = RunInfo(
    runId: string,
    pipelineId: string,
    peerId: string,
    mqttTopic: string,
    modelName: string,
    pipelineName: string,
    runName: Option<string>,
    prompt: string,
    maxTokens: int,
    rtspUrl: string)

  /** The body posted to the pipeline server, with the URL it goes to. */
  datatype PipelineRequest = PipelineRequest(
    url: string,
    sourceUri: string,
    peerId: string,
    bitrate: int,
    prompt: string,
    captionModel: string,
    maxNewTokens: int,
    detectionModel: string,
    detectionThreshold: Option<real>,
    publishTopic: string)

  datatype HttpError = HttpError(status: int, message: string)

  type Registry = map<string, RunInfo>

  type PipelineServer = PipelineRequest -> Result<string, HttpError>

  const CaptionModelFallback: string := "OpenGVLab/InternVL2-2B"
  const RecordedModelFallback: string := "InternVL2-2B"
  const DetectionModelFallback: string := "yolov8s"

  // ---------------------------------------------------------------------------
  // Naming

  /** Python `a or b` on strings. */
  function OrElse(a: string, b: string): (r: string)
    ensures a != [] ==> r == a
    ensures a == [] ==> r == b
  {
    if a == [] then b else a
  }

  /** Python `o or ""` on an optional string. */
  function OrEmpty(o: Option<string>): string {
    if o.Some? then o.value else ""
  }

  /**
   * The custom run name: present only for a non-blank `runName` whose
   * sanitised form is non-empty, then made unique against the registry.
   */
  function RunNameFor(runName: Option<string>, taken: set<string>): (r: Option<string>)
    ensures r.Some? <==> runName.Some? && RunNames.Sanitize(runName.value) != []
    ensures r.Some? ==> r.value !in taken && r.value == RunNames.UniqueName(RunNames.Sanitize(runName.value), taken)
  {
    if runName.Some? && runName.value != [] && Strip(runName.value) != [] then
      var sanitized := RunNames.Sanitize(runName.value);
      if sanitized != [] then Some(RunNames.UniqueName(sanitized, taken)) else None
    else
      assert runName.Some? ==> RunNames.Sanitize(runName.value) == [];
      None
  }

  /** The run id: the custom name, or the first ten characters of a new hex id. */
  function RunIdFor(runName: Option<string>, hexId: string): string {
    if runName.Some? && runName.value != [] then runName.value else Take(hexId, 10)
  }

  /** The WebRTC peer id: `stream-` and at most ten characters of the run id. */
  function PeerId(runId: string): (r: string)
    ensures StartsWith(r, "stream-") && |r| <= 17
  {
    "stream-" + Take(runId, 10)
  }

  /** `(pipelineName or PIPELINE_NAME).strip() or PIPELINE_NAME`. */
  function PipelineNameFor(requested: Option<string>, cfg: Config): string {
    OrElse(Strip(OrElse(OrEmpty(requested), cfg.pipelineName)), cfg.pipelineName)
  }

  /** The pipeline id is the response text without quotes and surrounding whitespace. */
  function PipelineIdOf(raw: string): (r: string)
    ensures '"' !in r
    ensures r == [] || (!IsSpace(r[0]) && !IsSpace(r[|r| - 1]))
  {
    var unquoted := RemoveChar(raw, '"');
    var r := Strip(unquoted);
    StripKeepsChars(unquoted);
    r
  }

  /** The start request for a run; blank text fields fall back to the defaults. */
  function StartRequest(req: RunRequest.StartRunRequest, cfg: Config, runId: string): (p: PipelineRequest)
    ensures p.peerId == PeerId(runId) && p.sourceUri == req.rtspUrl
    ensures p.publishTopic == cfg.topicPrefix + "/" + runId
    ensures Strip(req.prompt) == [] ==> p.prompt == RunRequest.DefaultPrompt(cfg.agentMode)
  {
    PipelineRequest(
      RStripChar(cfg.serverUrl, '/') + "/pipelines/user_defined_pipelines/" + PipelineNameFor(req.pipelineName, cfg),
      req.rtspUrl,
      PeerId(runId),
      cfg.bitrate,
      OrElse(Strip(req.prompt), RunRequest.DefaultPrompt(cfg.agentMode)),
      OrElse(Strip(req.modelName), CaptionModelFallback),
      req.maxNewTokens,
      OrElse(Strip(OrEmpty(req.detectionModelName)), DetectionModelFallback),
      req.detectionThreshold,
      cfg.topicPrefix + "/" + runId)
  }

  // ---------------------------------------------------------------------------
  // Routes

  /** The registry after a route, and what the route answered. */
  datatype StartOutcome = StartOutcome(runs: Registry, result: Result<RunInfo, HttpError>, sent: PipelineRequest)

  /**
   * `POST /api/runs`: names the run, asks the pipeline server to start it,
   * and records it under its run id. A failed request or an empty pipeline
   * id (502) leaves the registry as it was.
   */
  function StartRun(runs: Registry, req: RunRequest.StartRunRequest, cfg: Config, hexId: string, server: PipelineServer)
    : (r: StartOutcome)
    ensures r.result.Err? ==> r.runs == runs
    ensures r.result.Err? <==> server(r.sent).Err? || PipelineIdOf(server(r.sent).value) == []
    ensures r.result.Ok? ==> var info := r.result.value;
      r.runs == runs[info.runId := info]
      && info.pipelineId != [] && info.pipelineId == PipelineIdOf(server(r.sent).value)
  {
    var runName := RunNameFor(req.runName, runs.Keys);
    var runId := RunIdFor(runName, hexId);
    var sent := StartRequest(req, cfg, runId);
    Respond(runs, req, cfg, runName, runId, sent, server(sent))
  }

  /** How `start_run` handles the pipeline server's answer to `sent`. */
  function Respond(runs: Registry, req: RunRequest.StartRunRequest, cfg: Config, runName: Option<string>,
                   runId: string, sent: PipelineRequest, answer: Result<string, HttpError>): (r: StartOutcome)
    ensures r.sent == sent
    ensures r.result.Err? ==> r.runs == runs
    ensures r.result.Err? <==> answer.Err? || PipelineIdOf(answer.value) == []
    ensures r.result.Ok? ==> r == Record(runs, req, cfg, runName, runId, PipelineIdOf(answer.value), sent)
  {
    match answer
    case Err(e) => StartOutcome(runs, Err(e), sent)
    case Ok(raw) =>
      var pipelineId := PipelineIdOf(raw);
      if pipelineId == [] then
        StartOutcome(runs, Err(HttpError(502, "Pipeline server returned empty pipeline id")), sent)
      else
        Record(runs, req, cfg, runName, runId, pipelineId, sent)
  }

  /** The successful end of `start_run`: the record is stored under its run id. */
  function Record(runs: Registry, req: RunRequest.StartRunRequest, cfg: Config, runName: Option<string>,
                  runId: string, pipelineId: string, sent: PipelineRequest): (r: StartOutcome)
    ensures r.result.Ok? && r.sent == sent
    ensures var info := r.result.value;
      r.runs == runs[info.runId := info] && info.pipelineId == pipelineId && info.runName == runName
      && info.peerId == PeerId(runId) && info.mqttTopic == cfg.topicPrefix
      && info.rtspUrl == req.rtspUrl && info.maxTokens == req.maxNewTokens
    ensures (runName.Some? && runName.value != []) || |runId| <= 10 ==> r.result.value.runId == runId
  {
    var finalRunId := if runName.Some? && runName.value != [] then runId else Take(runId, 10);
    var info := RunInfo(
      finalRunId,
      pipelineId,
      PeerId(runId),
      cfg.topicPrefix,
      OrElse(Strip(req.modelName), RecordedModelFallback),
      PipelineNameFor(req.pipelineName, cfg),
      runName,
      OrElse(Strip(req.prompt), RunRequest.DefaultPrompt(cfg.agentMode)),
      req.maxNewTokens,
      req.rtspUrl);
    StartOutcome(runs[finalRunId := info], Ok(info), sent)
  }

  /** `GET /api/runs/{run_id}`: the record, or 404. */
  function GetRun(runs: Registry, runId: string): (r: Result<RunInfo, HttpError>)
    ensures r.Ok? <==> runId in runs
    ensures r.Ok? ==> r.value == runs[runId]
    ensures r.Err? ==> r.error.status == 404
  {
    if runId in runs then Ok(runs[runId]) else Err(HttpError(404, "Run not found"))
  }

  datatype Stopped = Stopped(status: string, runId: string)

  datatype StopOutcome = StopOutcome(runs: Registry, result: Result<Stopped, HttpError>, deleteUrl: Option<string>)

  /**
   * What `http_json("DELETE", url)` does: answers with text, raises the
   * `HTTPException` it converts an `HTTPError` or `URLError` into, or lets
   * another exception escape (a read that times out, a body that is not
   * UTF-8).
   */
  datatype DeleteCall = Answered(text: string) | HttpFailed(error: HttpError) | Escaped(reason: string)

  /** The pipeline server's URL for a run's pipeline. */
  function StopUrl(cfg: Config, info: RunInfo): string {
    RStripChar(cfg.serverUrl, '/') + "/pipelines/" + info.pipelineId
  }

  /**
   * `DELETE /api/runs/{run_id}`: 404 for an unknown run; otherwise asks the
   * pipeline server to stop the pipeline and drops the run whether it
   * answers or raises an `HTTPException`. Any other exception escapes the
   * route as a 500 before the run is dropped.
   */
  function StopRun(runs: Registry, runId: string, cfg: Config, server: string -> DeleteCall)
    : (r: StopOutcome)
    ensures runId !in runs ==> r.runs == runs && r.result.Err? && r.result.error.status == 404 && r.deleteUrl.None?
    ensures runId in runs ==> r.deleteUrl == Some(StopUrl(cfg, runs[runId]))
    ensures runId in runs && !server(StopUrl(cfg, runs[runId])).Escaped? ==>
              r.runs == runs - {runId} && r.result == Ok(Stopped("stopped", runId))
    ensures runId in runs && server(StopUrl(cfg, runs[runId])).Escaped? ==>
              r.runs == runs && r.result.Err? && r.result.error.status == 500
  {
    if runId !in runs then StopOutcome(runs, Err(HttpError(404, "Run not found")), None)
    else
      var url := StopUrl(cfg, runs[runId]);
      match server(url)
      case Escaped(_) => StopOutcome(runs, Err(HttpError(500, "Internal Server Error")), Some(url))
      case _ => StopOutcome(runs - {runId}, Ok(Stopped("stopped", runId)), Some(url))
  }

  // ---------------------------------------------------------------------------
  // Properties of the routes

  /**
   * A started run's record and the request sent for it agree: the same
   * peer id, the publish topic `prefix/run_id`, the same source URL and
   * token limit.
   */
  lemma StartedRunMatchesRequest(runs: Registry, req: RunRequest.StartRunRequest, cfg: Config, hexId: string, server: PipelineServer)
    ensures var r := StartRun(runs, req, cfg, hexId, server);
      r.result.Ok? ==> var info := r.result.value;
        info.peerId == r.sent.peerId && r.sent.publishTopic == cfg.topicPrefix + "/" + info.runId
        && info.mqttTopic == cfg.topicPrefix
        && info.rtspUrl == req.rtspUrl == r.sent.sourceUri && info.maxTokens == req.maxNewTokens == r.sent.maxNewTokens
  {
    var runName := RunNameFor(req.runName, runs.Keys);
    RunIdKept(runName, hexId);
  }

  /** The run id is the custom name itself, or short enough to survive the record unchanged. */
  lemma RunIdKept(runName: Option<string>, hexId: string)
    ensures (runName.Some? && runName.value != []) || |RunIdFor(runName, hexId)| <= 10
  {
  }

  /** A custom name never replaces an existing run, and the run is recorded under it. */
  lemma NamedRunIsFresh(runs: Registry, req: RunRequest.StartRunRequest, cfg: Config, hexId: string, server: PipelineServer)
    requires req.runName.Some? && RunNames.Sanitize(req.runName.value) != []
    ensures var r := StartRun(runs, req, cfg, hexId, server);
      r.result.Ok? ==> r.result.value.runId !in runs && r.result.value.runName == Some(r.result.value.runId)
                       && |r.runs| == |runs| + 1
  {
    var r := StartRun(runs, req, cfg, hexId, server);
    var name := RunNameFor(req.runName, runs.Keys);
    if r.result.Ok? {
      assert name.Some?;
      NonEmptyUniqueName(RunNames.Sanitize(req.runName.value), runs.Keys);
      assert r.result.value.runId == name.value;
    }
  }

  lemma NonEmptyUniqueName(base: string, taken: set<string>)
    requires base != []
    ensures RunNames.UniqueName(base, taken) != []
  {
    if base in taken {
      var k := RunNames.FirstFreeIndex(base, taken);
      assert |RunNames.Candidate(base, k)| > |base|;
    }
  }

  /**
   * The pipeline publishes a named run's metadata on the subscriber's topic
   * for that run, and the subscriber reads the run id back from it.
   */
  lemma NamedRunTopicRoundTrip(runs: Registry, req: RunRequest.StartRunRequest, cfg: Config, hexId: string, server: PipelineServer)
    requires req.runName.Some? && RunNames.Sanitize(req.runName.value) != []
    ensures var r := StartRun(runs, req, cfg, hexId, server);
      r.result.Ok? ==>
        r.sent.publishTopic == MqttSubscriber.TopicForRun(cfg.topicPrefix, r.result.value.runId)
        && MqttSubscriber.RunIdFromTopic(r.sent.publishTopic) == r.result.value.runId
  {
    var r := StartRun(runs, req, cfg, hexId, server);
    if r.result.Ok? {
      StartedRunMatchesRequest(runs, req, cfg, hexId, server);
      NamedRunIsFresh(runs, req, cfg, hexId, server);
      var base := RunNames.Sanitize(req.runName.value);
      RunNames.UniqueNameKeepsChars(base, runs.Keys);
      var runId := r.result.value.runId;
      assert runId == RunNames.UniqueName(base, runs.Keys);
      RunNameHasNoSlash(runId);
      MqttSubscriber.RunIdFromTopicRoundTrip(cfg.topicPrefix, runId);
    }
  }

  lemma RunNameHasNoSlash(name: string)
    requires AllRunNameChars(name)
    ensures '/' !in name
  {
    forall i | 0 <= i < |name| ensures name[i] != '/' {
      assert IsRunNameChar(name[i]);
    }
  }

  /** Without a usable custom name the run id is ten characters of the hex id. */
  lemma AnonymousRunUsesHexId(runs: Registry, req: RunRequest.StartRunRequest, cfg: Config, hexId: string, server: PipelineServer)
    requires req.runName.None? || RunNames.Sanitize(req.runName.value) == []
    requires |hexId| >= 10
    ensures var r := StartRun(runs, req, cfg, hexId, server);
      r.result.Ok? ==> r.result.value.runId == hexId[..10] && r.result.value.runName.None?
  {
    var runName := RunNameFor(req.runName, runs.Keys);
    assert runName.None?;
    assert RunIdFor(runName, hexId) == hexId[..10];
  }

  /**
   * Whatever the server answers, and whether it raises an `HTTPException`,
   * the outcome of a stop is the same.
   */
  lemma StopIgnoresServer(runs: Registry, runId: string, cfg: Config, a: string -> DeleteCall, b: string -> DeleteCall)
    requires runId in runs ==> !a(StopUrl(cfg, runs[runId])).Escaped? && !b(StopUrl(cfg, runs[runId])).Escaped?
    ensures StopRun(runs, runId, cfg, a) == StopRun(runs, runId, cfg, b)
  {
  }

  /** An exception other than `HTTPException` leaves the run registered and findable. */
  lemma EscapedDeleteKeepsRun(runs: Registry, runId: string, cfg: Config, server: string -> DeleteCall)
    requires runId in runs && server(StopUrl(cfg, runs[runId])).Escaped?
    ensures StopRun(runs, runId, cfg, server).runs == runs
    ensures GetRun(StopRun(runs, runId, cfg, server).runs, runId) == Ok(runs[runId])
  {
  }

  /**
   * A started run can be looked up; once stopped it is gone, unless the
   * stop escaped with an exception other than `HTTPException`.
   */
  lemma StartThenGetThenStop(runs: Registry, req: RunRequest.StartRunRequest, cfg: Config, hexId: string,
                             server: PipelineServer, stopServer: string -> DeleteCall)
    ensures var r := StartRun(runs, req, cfg, hexId, server);
      r.result.Ok? ==>
        var id := r.result.value.runId;
        && GetRun(r.runs, id) == Ok(r.result.value)
        && (GetRun(StopRun(r.runs, id, cfg, stopServer).runs, id).Err?
            <==> !stopServer(StopUrl(cfg, r.result.value)).Escaped?)
  {
  }

  /**
   * Peer ids keep only ten characters of the run id, so a de-duplicated
   * name built from a base of ten or more characters shares the base's
   * peer id.
   */
  lemma DuplicateNamesSharePeerId(base: string, taken: set<string>)
    requires |base| >= 10 && base in taken
    ensures RunNames.UniqueName(base, taken) != base
    ensures PeerId(RunNames.UniqueName(base, taken)) == PeerId(base)
  {
    var name := RunNames.UniqueName(base, taken);
    assert name[..|base|] == base;
    assert name[..10] == base[..10];
  }

  /** With a blank model name, the record and the pipeline request name different models. */
  lemma BlankModelNamesDisagree(runs: Registry, req: RunRequest.StartRunRequest, cfg: Config, hexId: string, server: PipelineServer)
    requires Strip(req.modelName) == []
    ensures var r := StartRun(runs, req, cfg, hexId, server);
      r.sent.captionModel == CaptionModelFallback
      && (r.result.Ok? ==> r.result.value.modelName == RecordedModelFallback)
  {
    var r := StartRun(runs, req, cfg, hexId, server);
    var runId := RunIdFor(RunNameFor(req.runName, runs.Keys), hexId);
    assert r.sent == StartRequest(req, cfg, runId);
    if r.result.Ok? {
      assert r.result.value.modelName == OrElse(Strip(req.modelName), RecordedModelFallback);
    }
  }

  // ---------------------------------------------------------------------------
  // Subscription diff of the metadata stream

  datatype SubscriptionChange = Subscribe(runId: string) | Unsubscribe(runId: string)

  function ChangedIds(changes: seq<SubscriptionChange>): set<string> {
    set i | 0 <= i < |changes| :: changes[i].runId
  }

  lemma ChangedIdsAppend(changes: seq<SubscriptionChange>, c: SubscriptionChange)
    ensures ChangedIds(changes + [c]) == ChangedIds(changes) + {c.runId}
  {
    var xs := changes + [c];
    assert xs[|changes|] == c;
    assert forall i :: 0 <= i < |changes| ==> xs[i] == changes[i];
  }

  predicate Distinct(changes: seq<SubscriptionChange>) {
    forall i, j :: 0 <= i < j < |changes| ==> changes[i].runId != changes[j].runId
  }

  lemma DistinctAppend(changes: seq<SubscriptionChange>, c: SubscriptionChange)
    requires Distinct(changes) && c.runId !in ChangedIds(changes)
    ensures Distinct(changes + [c])
  {
    var xs := changes + [c];
    forall i, j | 0 <= i < j < |xs| ensures xs[i].runId != xs[j].runId {
      if j == |changes| {
        assert xs[i].runId == changes[i].runId;
        assert changes[i].runId in ChangedIds(changes);
      } else {
        assert xs[i] == changes[i] && xs[j] == changes[j];
      }
    }
  }

  /** The changes of one kind for a set of runs, one per run, in some order. */
  method ChangesFor(ids: set<string>, subscribe: bool) returns (changes: seq<SubscriptionChange>)
    ensures ChangedIds(changes) == ids && Distinct(changes)
    ensures forall i :: 0 <= i < |changes| ==> changes[i].Subscribe? == subscribe
  {
    var rest := ids;
    changes := [];
    while rest != {}
      invariant rest <= ids
      invariant ChangedIds(changes) == ids - rest
      invariant Distinct(changes)
      invariant forall i :: 0 <= i < |changes| ==> changes[i].Subscribe? == subscribe
      decreases |rest|
    {
      var id :| id in rest;
      var c := if subscribe then Subscribe(id) else Unsubscribe(id);
      DistinctAppend(changes, c);
      ChangedIdsAppend(changes, c);
      changes := changes + [c];
      rest := rest - {id};
    }
  }

  /**
   * One round of the metadata stream: subscribe every run that is active
   * but not yet subscribed, then unsubscribe every subscribed run that is
   * no longer active. Each run is touched at most once, subscriptions come
   * first, and afterwards the subscribed set is the active set.
   */
  method SyncSubscriptions(subscribed: set<string>, active: set<string>)
    returns (after: set<string>, subscribes: seq<SubscriptionChange>, unsubscribes: seq<SubscriptionChange>)
    ensures after == active
    ensures forall i :: 0 <= i < |subscribes| ==> subscribes[i].Subscribe?
    ensures forall i :: 0 <= i < |unsubscribes| ==> unsubscribes[i].Unsubscribe?
    ensures ChangedIds(subscribes) == active - subscribed && Distinct(subscribes)
    ensures ChangedIds(unsubscribes) == subscribed - active && Distinct(unsubscribes)
  {
    subscribes := ChangesFor(active - subscribed, true);
    after := subscribed + (active - subscribed);
    var stopped := after - active;
    assert stopped == subscribed - active;
    unsubscribes := ChangesFor(stopped, false);
    after := after - stopped;
  }
}

=== FILE: seqs.dfy ===
/**
 * Sequence combinators the services use implicitly: list comprehensions with
 * a filter (`[f(x) for x in xs if ...]`) and the last element of a list.
 */
module Seqs {
  import opened Wrappers

  /**
   * Keeps `f(x).value` for every `x` with `f(x).Some?`, in order. Defined
   * from the back so that the last kept element is easy to reach.
   */
  function FilterMap<A, B>(xs: seq<A>, f: A -> Option<B>): (r: seq<B>)
    ensures |r| <= |xs|
    ensures forall y :: y in r ==> exists x :: x in xs && f(x) == Some(y)
    decreases |xs|
  {
    if |xs| == 0 then []
    else
      var init := FilterMap(xs[..|xs| - 1], f);
      var last := f(xs[|xs| - 1]);
      assert forall y :: y in init ==> exists x :: x in xs && f(x) == Some(y) by {
        forall y | y in init ensures exists x :: x in xs && f(x) == Some(y) {
          var x :| x in xs[..|xs| - 1] && f(x) == Some(y);
          assert x in xs;
        }
      }
      if last.Some? then init + [last.value] else init
  }

  /** A last element that maps to something is the last thing kept. */
  lemma FilterMapLastKept<A, B>(xs: seq<A>, f: A -> Option<B>)
    requires |xs| > 0 && f(xs[|xs| - 1]).Some?
    ensures |FilterMap(xs, f)| > 0 && FilterMap(xs, f)[|FilterMap(xs, f)| - 1] == f(xs[|xs| - 1]).value
  {
  }

  /** Filtering a concatenation filters each part: order is preserved. */
  lemma {:induction false} FilterMapAppend<A, B>(xs: seq<A>, ys: seq<A>, f: A -> Option<B>)
    ensures FilterMap(xs + ys, f) == FilterMap(xs, f) + FilterMap(ys, f)
    decreases |ys|
  {
    if |ys| > 0 {
      var zs := xs + ys;
      assert zs[..|zs| - 1] == xs + ys[..|ys| - 1];
      assert zs[|zs| - 1] == ys[|ys| - 1];
      FilterMapAppend(xs, ys[..|ys| - 1], f);
    } else {
      assert xs + ys == xs;
    }
  }

  /** Nothing is kept exactly when `f` rejects every element. */
  lemma {:induction false} FilterMapEmpty<A, B>(xs: seq<A>, f: A -> Option<B>)
    ensures FilterMap(xs, f) == [] <==> forall i :: 0 <= i < |xs| ==> f(xs[i]).None?
    decreases |xs|
  {
    if |xs| > 0 {
      FilterMapEmpty(xs[..|xs| - 1], f);
      assert forall i :: 0 <= i < |xs| - 1 ==> xs[..|xs| - 1][i] == xs[i];
    }
  }

  /**
   * The last kept element comes from the last element `f` accepts: some
   * index `j` with `f(xs[j])` present and every later element rejected.
   */
  lemma {:induction false} FilterMapLast<A, B>(xs: seq<A>, f: A -> Option<B>)
    requires FilterMap(xs, f) != []
    ensures exists j :: 0 <= j < |xs| && f(xs[j]) == Some(Last(FilterMap(xs, f)))
                        && forall k :: j < k < |xs| ==> f(xs[k]).None?
    decreases |xs|
  {
    var n := |xs|;
    if f(xs[n - 1]).None? {
      var init := xs[..n - 1];
      FilterMapLast(init, f);
      var j :| 0 <= j < n - 1 && f(init[j]) == Some(Last(FilterMap(init, f)))
               && forall k :: j < k < n - 1 ==> f(init[k]).None?;
      assert FilterMap(xs, f) == FilterMap(init, f);
      LastKeptInPrefix(xs, init, f, j);
    }
  }

  lemma LastKeptInPrefix<A, B>(xs: seq<A>, init: seq<A>, f: A -> Option<B>, j: int)
    requires |xs| > 0 && init == xs[..|xs| - 1] && 0 <= j < |init| && f(xs[|xs| - 1]).None?
    requires forall k :: j < k < |init| ==> f(init[k]).None?
    ensures forall k :: j < k < |xs| ==> f(xs[k]).None?
  {
    assert forall k :: j < k < |init| ==> init[k] == xs[k];
  }

  /** When `f` keeps every element as it is, filtering changes nothing. */
  lemma {:induction false} FilterMapKeepsAll<A>(xs: seq<A>, f: A -> Option<A>)
    requires forall i :: 0 <= i < |xs| ==> f(xs[i]) == Some(xs[i])
    ensures FilterMap(xs, f) == xs
    decreases |xs|
  {
    if |xs| > 0 {
      var init := xs[..|xs| - 1];
      assert forall i :: 0 <= i < |init| ==> init[i] == xs[i];
      FilterMapKeepsAll(init, f);
      assert xs == init + [xs[|xs| - 1]];
    }
  }

  /** The positions of the elements satisfying `p`, ascending: `[i for i, x in enumerate(xs) if p(x)]`. */
  function IndicesWhere<T>(xs: seq<T>, p: T -> bool): (r: seq<nat>)
    ensures forall k :: 0 <= k < |r| ==> r[k] < |xs| && p(xs[r[k]])
    ensures forall k, l :: 0 <= k < l < |r| ==> r[k] < r[l]
    decreases |xs|
  {
    if |xs| == 0 then []
    else
      var n := |xs| - 1;
      var init := IndicesWhere(xs[..n], p);
      assert forall i :: 0 <= i < n ==> xs[..n][i] == xs[i];
      if p(xs[n]) then init + [n] else init
  }

  /** Every position satisfying `p` is listed. */
  lemma {:induction false} IndicesWhereComplete<T>(xs: seq<T>, p: T -> bool)
    ensures forall i :: 0 <= i < |xs| ==> (i in IndicesWhere(xs, p) <==> p(xs[i]))
    decreases |xs|
  {
    if |xs| > 0 {
      var n := |xs| - 1;
      var init := xs[..n];
      IndicesWhereComplete(init, p);
      var last := if p(xs[n]) then [n] else [];
      assert IndicesWhere(xs, p) == IndicesWhere(init, p) + last;
      forall i | 0 <= i < |xs|
        ensures i in IndicesWhere(xs, p) <==> p(xs[i])
      {
        if i < n {
          assert init[i] == xs[i];
          assert i !in last;
        } else {
          assert n !in IndicesWhere(init, p);
        }
      }
    }
  }

  /**
   * `FilterMap` keeps, in order, exactly the images of the positions `f`
   * accepts: the `k`-th kept value comes from the `k`-th accepted position.
   */
  lemma {:induction false} FilterMapAtIndices<A, B>(xs: seq<A>, f: A -> Option<B>, p: A -> bool)
    requires forall x :: p(x) == f(x).Some?
    ensures |FilterMap(xs, f)| == |IndicesWhere(xs, p)|
    ensures forall k :: 0 <= k < |IndicesWhere(xs, p)| ==> f(xs[IndicesWhere(xs, p)[k]]) == Some(FilterMap(xs, f)[k])
    decreases |xs|
  {
    if |xs| > 0 {
      var n := |xs| - 1;
      var init := xs[..n];
      FilterMapAtIndices(init, f, p);
      assert forall i :: 0 <= i < n ==> init[i] == xs[i];
    }
  }

  /** Every element `f` accepts contributes its image. */
  lemma {:induction false} FilterMapComplete<A, B>(xs: seq<A>, f: A -> Option<B>)
    ensures forall i :: 0 <= i < |xs| && f(xs[i]).Some? ==> f(xs[i]).value in FilterMap(xs, f)
    decreases |xs|
  {
    if |xs| > 0 {
      var n := |xs| - 1;
      var init := xs[..n];
      FilterMapComplete(init, f);
      assert forall i :: 0 <= i < n ==> init[i] == xs[i];
    }
  }

  /** `xs.map(f)`. */
  function Map<A, B>(xs: seq<A>, f: A -> B): (r: seq<B>)
    ensures |r| == |xs| && forall i :: 0 <= i < |xs| ==> r[i] == f(xs[i])
  {
    seq(|xs|, i requires 0 <= i < |xs| => f(xs[i]))
  }

  /** Decoding what was encoded, element by element, gives the list back. */
  lemma {:induction false} FilterMapOfMap<A, B>(xs: seq<A>, enc: A -> B, dec: B -> Option<A>)
    requires forall x :: x in xs ==> dec(enc(x)) == Some(x)
    ensures FilterMap(Map(xs, enc), dec) == xs
    decreases |xs|
  {
    if |xs| > 0 {
      var n := |xs| - 1;
      assert Map(xs, enc)[..n] == Map(xs[..n], enc);
      assert forall x :: x in xs[..n] ==> x in xs;
      FilterMapOfMap(xs[..n], enc, dec);
      assert xs[n] in xs;
      assert xs == xs[..n] + [xs[n]];
    }
  }

  function Last<T>(xs: seq<T>): T
    requires |xs| > 0
  {
    xs[|xs| - 1]
  }
}

=== FILE: settings.dfy ===
/**
 * Persisting the captioning form in the browser: the six saved fields, the
 * stored text, and the two restore steps (inputs at start-up, selects once
 * their options are loaded).
 *
 * A missing element is `None`; a select is its value and option values.
 * `localStorage` is the stored text (`None` when nothing is stored or it
 * cannot be read); `JSON.stringify` and `JSON.parse` are parameters, the
 * latter giving `None` when it throws. Assigning a non-string to an input's
 * `value` stores its `String(...)` form, given by `render`.
 */
module Settings {
  import opened Wrappers
  import opened Json
  import Api = ApiService
  import AppState

  datatype Select = Select(value: string, options: seq<string>)

  datatype Elements = Elements(
    rtspInput: Option<string>,
    promptInput: Option<string>,
    modelSelect: Option<Select>,
    pipelineSelect: Option<Select>,
    maxTokensInput: Option<string>,
    runNameInput: Option<string>)

  /** The record `saveSettings` writes. */
  datatype Saved = Saved(
    rtspUrl: string,
    prompt: string,
    modelName: string,
    pipelineName: string,
    maxTokens: string,
    runName: string)

  const DefaultMaxTokensText: string := "70"

  /** `el?.value || fallback` for an input. */
  function ValueOr(el: Option<string>, fallback: string): (r: string)
    ensures el.Some? && el.value != [] ==> r == el.value
    ensures el.None? || el.value == [] ==> r == fallback
  {
    if el.Some? && el.value != [] then el.value else fallback
  }

  function SelectValue(sel: Option<Select>): (r: Option<string>)
    ensures r.Some? <==> sel.Some?
    ensures sel.Some? ==> r.value == sel.value.value
  {
    if sel.Some? then Some(sel.value.value) else None
  }

  /** `saveSettings`' record: each element's value, `''` when missing or empty, `'70'` for the token count. */
  function Snapshot(els: Elements): (s: Saved)
    ensures s.rtspUrl == ValueOr(els.rtspInput, "")
    ensures s.prompt == ValueOr(els.promptInput, "")
    ensures s.modelName == ValueOr(SelectValue(els.modelSelect), "")
    ensures s.pipelineName == ValueOr(SelectValue(els.pipelineSelect), "")
    ensures s.maxTokens == ValueOr(els.maxTokensInput, DefaultMaxTokensText)
    ensures s.runName == ValueOr(els.runNameInput, "")
    ensures s.maxTokens != []
  {
    Saved(
      ValueOr(els.rtspInput, ""),
      ValueOr(els.promptInput, ""),
      ValueOr(SelectValue(els.modelSelect), ""),
      ValueOr(SelectValue(els.pipelineSelect), ""),
      ValueOr(els.maxTokensInput, DefaultMaxTokensText),
      ValueOr(els.runNameInput, ""))
  }

  /** The object that is stringified. */
  function Encode(s: Saved): (j: Json)
    ensures Get(j, "rtspUrl") == Some(JStr(s.rtspUrl))
    ensures Get(j, "prompt") == Some(JStr(s.prompt))
    ensures Get(j, "modelName") == Some(JStr(s.modelName))
    ensures Get(j, "pipelineName") == Some(JStr(s.pipelineName))
    ensures Get(j, "maxTokens") == Some(JStr(s.maxTokens))
    ensures Get(j, "runName") == Some(JStr(s.runName))
    ensures JsTruthy(j)
  {
    JObj(map[
      "rtspUrl" := JStr(s.rtspUrl),
      "prompt" := JStr(s.prompt),
      "modelName" := JStr(s.modelName),
      "pipelineName" := JStr(s.pipelineName),
      "maxTokens" := JStr(s.maxTokens),
      "runName" := JStr(s.runName)])
  }

  /** `saveSettings`: the stringified record, or the old stored text when the write fails. */
  function SaveSettings(els: Elements, stored: Option<string>, storageWorks: bool, stringify: Json -> string): (r: Option<string>)
    ensures storageWorks ==> r == Some(stringify(Encode(Snapshot(els))))
    ensures !storageWorks ==> r == stored
  {
    if storageWorks then Some(stringify(Encode(Snapshot(els)))) else stored
  }

  /** `loadSettings`: nothing for an absent or empty entry or text that does not parse. */
  function LoadSettings(stored: Option<string>, parse: string -> Option<Json>): (r: Option<Json>)
    ensures stored.None? || stored == Some("") ==> r.None?
    ensures stored.Some? && stored.value != "" ==> r == parse(stored.value)
  {
    if stored.None? || stored.value == "" then None else parse(stored.value)
  }

  /** Saving and loading gives back the saved record, when parsing inverts stringifying. */
  lemma SaveThenLoad(els: Elements, stored: Option<string>, stringify: Json -> string, parse: string -> Option<Json>)
    requires stringify(Encode(Snapshot(els))) != ""
    requires parse(stringify(Encode(Snapshot(els)))) == Some(Encode(Snapshot(els)))
    ensures LoadSettings(SaveSettings(els, stored, true, stringify), parse) == Some(Encode(Snapshot(els)))
  {
  }

  /** A field of the loaded settings; a falsy or absent settings value has none. */
  function Field(settings: Option<Json>, key: string): (r: Option<Json>)
    ensures !JsTruthyOpt(settings) ==> r.None?
    ensures JsTruthyOpt(settings) ==> r == Get(settings.value, key)
  {
    if JsTruthyOpt(settings) then Get(settings.value, key) else None
  }

  /** The prompt default `restoreSettings` compares against: the configured one, else the built-in. */
  function PromptDefault(cfgPrompt: string): (r: string)
    ensures cfgPrompt != "" ==> r == cfgPrompt
    ensures cfgPrompt == "" ==> r == AppState.BuiltInPrompt
  {
    if cfgPrompt != "" then cfgPrompt else AppState.BuiltInPrompt
  }

  predicate RestoresUrl(settings: Option<Json>, els: Elements, cfgRtspUrl: string) {
    JsTruthyOpt(Field(settings, "rtspUrl")) && els.rtspInput.Some?
      && Field(settings, "rtspUrl") != Some(JStr(cfgRtspUrl))
  }

  predicate RestoresPrompt(settings: Option<Json>, els: Elements, cfgPrompt: string) {
    JsTruthyOpt(Field(settings, "prompt")) && els.promptInput.Some?
      && Field(settings, "prompt") != Some(JStr(PromptDefault(cfgPrompt)))
      && Field(settings, "prompt") != Some(JStr(AppState.BuiltInPrompt))
  }

  /** An input set from a truthy field when the element exists. */
  function RestoreInput(el: Option<string>, field: Option<Json>, render: Json -> string): (r: Option<string>)
    ensures JsTruthyOpt(field) && el.Some? ==> r == Some(Api.AsText(field.value, render))
    ensures !(JsTruthyOpt(field) && el.Some?) ==> r == el
  {
    if JsTruthyOpt(field) && el.Some? then Some(Api.AsText(field.value, render)) else el
  }

  /**
   * `restoreSettings`: the URL only when it differs from the configured
   * default (`''` when unset), the prompt only when it differs from both the
   * configured and the built-in default, the token count and run name
   * whenever truthy. Selects are left to `restoreSelectValues`.
   */
  function RestoreSettings(settings: Option<Json>, els: Elements, cfgRtspUrl: string, cfgPrompt: string,
                           render: Json -> string): (r: Elements)
    ensures r.rtspInput != els.rtspInput ==> RestoresUrl(settings, els, cfgRtspUrl)
    ensures RestoresUrl(settings, els, cfgRtspUrl)
      ==> r.rtspInput == Some(Api.AsText(Field(settings, "rtspUrl").value, render))
    ensures r.promptInput != els.promptInput ==> RestoresPrompt(settings, els, cfgPrompt)
    ensures RestoresPrompt(settings, els, cfgPrompt)
      ==> r.promptInput == Some(Api.AsText(Field(settings, "prompt").value, render))
    ensures r.maxTokensInput == RestoreInput(els.maxTokensInput, Field(settings, "maxTokens"), render)
    ensures r.runNameInput == RestoreInput(els.runNameInput, Field(settings, "runName"), render)
    ensures r.modelSelect == els.modelSelect && r.pipelineSelect == els.pipelineSelect
    ensures !JsTruthyOpt(settings) ==> r == els
  {
    if !JsTruthyOpt(settings) then els
    else
      els.(
        rtspInput := if RestoresUrl(settings, els, cfgRtspUrl)
          then Some(Api.AsText(Field(settings, "rtspUrl").value, render)) else els.rtspInput,
        promptInput := if RestoresPrompt(settings, els, cfgPrompt)
          then Some(Api.AsText(Field(settings, "prompt").value, render)) else els.promptInput,
        maxTokensInput := RestoreInput(els.maxTokensInput, Field(settings, "maxTokens"), render),
        runNameInput := RestoreInput(els.runNameInput, Field(settings, "runName"), render))
  }

  /**
   * A select set to the saved value only when that value is truthy and is
   * one of its option values (`includes` compares strictly, so only a
   * string can match); otherwise the selection is untouched.
   */
  function RestoreSelect(sel: Option<Select>, field: Option<Json>): (r: Option<Select>)
    ensures r.Some? <==> sel.Some?
    ensures r.Some? ==> r.value.options == sel.value.options
    ensures r.Some? ==> r.value.value == sel.value.value || r.value.value in sel.value.options
    ensures r != sel ==> JsTruthyOpt(field) && field.value.JStr? && field.value.s in sel.value.options
    ensures sel.Some? && field.Some? && field.value.JStr? && field.value.s != "" && field.value.s in sel.value.options
      ==> r.value.value == field.value.s
  {
    if sel.Some? && JsTruthyOpt(field) && field.value.JStr? && field.value.s in sel.value.options
    then Some(sel.value.(value := field.value.s))
    else sel
  }

  /** `restoreSelectValues`: the model and pipeline selects; the inputs are untouched. */
  function RestoreSelectValues(settings: Option<Json>, els: Elements): (r: Elements)
    ensures r.rtspInput == els.rtspInput && r.promptInput == els.promptInput
    ensures r.maxTokensInput == els.maxTokensInput && r.runNameInput == els.runNameInput
    ensures r.modelSelect == RestoreSelect(els.modelSelect, Field(settings, "modelName"))
    ensures r.pipelineSelect == RestoreSelect(els.pipelineSelect, Field(settings, "pipelineName"))
    ensures !JsTruthyOpt(settings) ==> r == els
  {
    if !JsTruthyOpt(settings) then els
    else
      els.(
        modelSelect := RestoreSelect(els.modelSelect, Field(settings, "modelName")),
        pipelineSelect := RestoreSelect(els.pipelineSelect, Field(settings, "pipelineName")))
  }

  /**
   * Reloading the page: after the form was saved and the stored text read
   * back, a next page with the same elements gets the saved token count
   * (or `70`) and the saved run name when there was one, and its selects
   * get the saved model and pipeline whenever those are among the options.
   */
  lemma ReloadRestoresForm(els: Elements, next: Elements, stored: Option<string>, cfgRtspUrl: string, cfgPrompt: string,
                           stringify: Json -> string, parse: string -> Option<Json>, render: Json -> string)
    requires stringify(Encode(Snapshot(els))) != ""
    requires parse(stringify(Encode(Snapshot(els)))) == Some(Encode(Snapshot(els)))
    requires next.maxTokensInput.Some? && next.runNameInput.Some?
    ensures var loaded := LoadSettings(SaveSettings(els, stored, true, stringify), parse);
      var page := RestoreSelectValues(loaded, RestoreSettings(loaded, next, cfgRtspUrl, cfgPrompt, render));
      && page.maxTokensInput == Some(Snapshot(els).maxTokens)
      && (Snapshot(els).runName != "" ==> page.runNameInput == Some(Snapshot(els).runName))
      && ((next.modelSelect.Some? && Snapshot(els).modelName != ""
           && Snapshot(els).modelName in next.modelSelect.value.options)
          ==> page.modelSelect.value.value == Snapshot(els).modelName)
      && ((next.pipelineSelect.Some? && Snapshot(els).pipelineName != ""
           && Snapshot(els).pipelineName in next.pipelineSelect.value.options)
          ==> page.pipelineSelect.value.value == Snapshot(els).pipelineName)
  {
    var saved := Snapshot(els);
    var loaded := LoadSettings(SaveSettings(els, stored, true, stringify), parse);
    SaveThenLoad(els, stored, stringify, parse);
    assert loaded == Some(Encode(saved));
    assert Field(loaded, "maxTokens") == Some(JStr(saved.maxTokens));
    assert Field(loaded, "runName") == Some(JStr(saved.runName));
    assert Field(loaded, "modelName") == Some(JStr(saved.modelName));
    assert Field(loaded, "pipelineName") == Some(JStr(saved.pipelineName));
  }

  /** A saved URL equal to the configured default is not restored, so the configuration wins. */
  lemma ConfiguredUrlWins(settings: Option<Json>, els: Elements, cfgRtspUrl: string, cfgPrompt: string, render: Json -> string)
    requires Field(settings, "rtspUrl") == Some(JStr(cfgRtspUrl))
    ensures RestoreSettings(settings, els, cfgRtspUrl, cfgPrompt, render).rtspInput == els.rtspInput
  {
  }

  /** The built-in prompt is never restored, whatever the configuration says. */
  lemma BuiltInPromptNotRestored(settings: Option<Json>, els: Elements, cfgRtspUrl: string, cfgPrompt: string,
                                 render: Json -> string)
    requires Field(settings, "prompt") == Some(JStr(AppState.BuiltInPrompt))
    ensures RestoreSettings(settings, els, cfgRtspUrl, cfgPrompt, render).promptInput == els.promptInput
  {
  }
}

=== FILE: sse_manager.dfy ===
/**
 * The aggregator's server-sent-events hub (`SSEManager`): subscribers, each a
 * message queue with the set of workloads it wants, and the fan-out of one
 * message to the interested queues.
 *
 * Queues are identified by handles drawn from a counter. A queue's capacity is
 * modelled explicitly; 0 means unbounded, which is what every queue the hub
 * creates is. The lock around each operation is implicit: every operation is
 * one atomic state transition.
 */
module SseManager {
  import opened Wrappers
  import opened Json

  /** What a client subscribes to when it names no workloads. */
  const DefaultWorkloads: set<string> := {"ai-ecg", "rppg", "3d-pose", "mdpnp"}

  /** One connected client: its interests and its undelivered SSE payloads, oldest first. */
  datatype Subscriber = Subscriber(interest: set<string>, queue: seq<string>, capacity: nat)

  type Handle = nat

  datatype Hub = Hub(subs: map<Handle, Subscriber>, next: Handle)

  /** Every registered handle was issued by the counter. */
  predicate Valid(h: Hub) {
    forall q :: q in h.subs ==> q < h.next
  }

  /** `put_nowait` raises `QueueFull` only on a bounded queue at capacity. */
  predicate Full(s: Subscriber) {
    s.capacity > 0 && |s.queue| >= s.capacity
  }

  predicate WithinCapacity(s: Subscriber) {
    s.capacity == 0 || |s.queue| <= s.capacity
  }

  /** No queue holds more than its capacity. */
  predicate Bounded(h: Hub) {
    forall q :: q in h.subs ==> WithinCapacity(h.subs[q])
  }

  function EmptyHub(): (h: Hub)
    ensures Valid(h) && Bounded(h) && h.subs == map[]
  {
    Hub(map[], 0)
  }

  /** The interests `connect` records: the requested set, or every workload if none or empty. */
  function Interest(workloads: Option<set<string>>): (r: set<string>)
    ensures r != {}
    ensures workloads.Some? && workloads.value != {} ==> r == workloads.value
    ensures workloads.None? || workloads.value == {} ==> r == DefaultWorkloads
  {
    if workloads.None? || workloads.value == {} then DefaultWorkloads else workloads.value
  }

  /** `connect`: registers a new, empty queue and returns its handle. */
  function Connect(h: Hub, workloads: Option<set<string>>, capacity: nat): (r: (Hub, Handle))
    requires Valid(h)
    ensures Valid(r.0)
    ensures r.1 !in h.subs && r.1 in r.0.subs
    ensures r.0.subs == h.subs[r.1 := Subscriber(Interest(workloads), [], capacity)]
  {
    (Hub(h.subs[h.next := Subscriber(Interest(workloads), [], capacity)], h.next + 1), h.next)
  }

  /** `disconnect`: forgets the queue; an unknown handle is ignored. */
  function Disconnect(h: Hub, q: Handle): (r: Hub)
    ensures r.subs == h.subs - {q} && r.next == h.next
    ensures q !in h.subs ==> r == h
  {
    Hub(h.subs - {q}, h.next)
  }

  /** `update_subscription`: replaces a registered queue's interests, even with the empty set. */
  function UpdateSubscription(h: Hub, q: Handle, workloads: set<string>): (r: Hub)
    ensures r.next == h.next && r.subs.Keys == h.subs.Keys
    ensures q in h.subs ==> r.subs[q] == h.subs[q].(interest := workloads)
    ensures forall p :: p in h.subs && p != q ==> r.subs[p] == h.subs[p]
    ensures q !in h.subs ==> r == h
  {
    if q in h.subs then Hub(h.subs[q := h.subs[q].(interest := workloads)], h.next) else h
  }

  /**
   * The workload a message is routed by: its `workload` field if that is
   * truthy, else its `workload_type` field. Only a string can match a
   * subscription.
   */
  function RoutingTag(message: Json): (r: Option<string>)
    ensures r.Some? ==> (Get(message, "workload") == Some(JStr(r.value)) && r.value != [])
                        || Get(message, "workload_type") == Some(JStr(r.value))
    ensures PyTruthyOpt(Get(message, "workload"))
            ==> r == (if Get(message, "workload").value.JStr? then Some(Get(message, "workload").value.s) else None)
    ensures !PyTruthyOpt(Get(message, "workload"))
            ==> r == (if Get(message, "workload_type").Some? && Get(message, "workload_type").value.JStr?
                      then Some(Get(message, "workload_type").value.s) else None)
  {
    var chosen := if PyTruthyOpt(Get(message, "workload")) then Get(message, "workload")
                  else Get(message, "workload_type");
    if chosen.Some? && chosen.value.JStr? then Some(chosen.value.s) else None
  }

  /** Whether `s` is sent a message with this tag. */
  predicate Wants(s: Subscriber, tag: Option<string>) {
    tag.Some? && tag.value in s.interest
  }

  function Offer(s: Subscriber, tag: Option<string>, data: string): (r: Subscriber)
    ensures r.interest == s.interest && r.capacity == s.capacity
    ensures r.queue == s.queue + [data] || r.queue == s.queue
    ensures r.queue == s.queue + [data] <==> Wants(s, tag) && !Full(s)
  {
    if Wants(s, tag) && !Full(s) then s.(queue := s.queue + [data]) else s
  }

  /**
   * `broadcast`: serializes the message once and enqueues it on every
   * interested queue that has room; a full queue drops it silently.
   */
  function Broadcast(h: Hub, message: Json, serialize: Json -> string): (r: Hub)
    ensures r.next == h.next && r.subs.Keys == h.subs.Keys
    ensures forall q :: q in h.subs ==>
              r.subs[q] == Offer(h.subs[q], RoutingTag(message), serialize(message))
  {
    var tag := RoutingTag(message);
    var data := serialize(message);
    Hub(map q | q in h.subs :: Offer(h.subs[q], tag, data), h.next)
  }

  /** The SSE handler taking the oldest payload of a queue; `None` when it has nothing yet. */
  function Receive(h: Hub, q: Handle): (r: (Hub, Option<string>))
    ensures r.0.next == h.next && r.0.subs.Keys == h.subs.Keys
    ensures r.1.Some? <==> q in h.subs && |h.subs[q].queue| > 0
    ensures r.1.Some? ==> r.1.value == h.subs[q].queue[0]
                          && r.0.subs[q].queue == h.subs[q].queue[1..]
    ensures r.1.None? ==> r.0 == h
    ensures forall p :: p in h.subs && p != q ==> r.0.subs[p] == h.subs[p]
  {
    if q in h.subs && |h.subs[q].queue| > 0 then
      var s := h.subs[q];
      (Hub(h.subs[q := s.(queue := s.queue[1..])], h.next), Some(s.queue[0]))
    else (h, None)
  }

  // ---------------------------------------------------------------------------
  // Invariants

  lemma ConnectPreservesBounded(h: Hub, workloads: Option<set<string>>, capacity: nat)
    requires Valid(h) && Bounded(h)
    ensures Bounded(Connect(h, workloads, capacity).0)
  {
  }

  lemma BroadcastPreservesInvariants(h: Hub, message: Json, serialize: Json -> string)
    requires Valid(h) && Bounded(h)
    ensures Valid(Broadcast(h, message, serialize)) && Bounded(Broadcast(h, message, serialize))
  {
    var r := Broadcast(h, message, serialize);
    forall q | q in r.subs ensures WithinCapacity(r.subs[q]) {
      assert WithinCapacity(h.subs[q]);
    }
  }

  lemma ReceivePreservesInvariants(h: Hub, q: Handle)
    requires Valid(h) && Bounded(h)
    ensures Valid(Receive(h, q).0) && Bounded(Receive(h, q).0)
  {
  }

  // ---------------------------------------------------------------------------
  // Fan-out

  /**
   * Fan-out filtering: a queue whose interests do not include the message's
   * tag, or that is full, is left exactly as it was.
   */
  lemma BroadcastSkipsOthers(h: Hub, message: Json, serialize: Json -> string, q: Handle)
    requires q in h.subs
    requires !Wants(h.subs[q], RoutingTag(message)) || Full(h.subs[q])
    ensures Broadcast(h, message, serialize).subs[q] == h.subs[q]
  {
  }

  /**
   * Backpressure isolation: one full queue does not stop delivery to any
   * other interested queue with room.
   */
  lemma BackpressureIsolation(h: Hub, message: Json, serialize: Json -> string, slow: Handle, q: Handle)
    requires slow in h.subs && q in h.subs && slow != q
    requires Full(h.subs[slow])
    requires Wants(h.subs[q], RoutingTag(message)) && !Full(h.subs[q])
    ensures Broadcast(h, message, serialize).subs[slow] == h.subs[slow]
    ensures Broadcast(h, message, serialize).subs[q].queue == h.subs[q].queue + [serialize(message)]
  {
  }

  /** An unbounded queue is never full, so it receives every message it wants. */
  lemma UnboundedReceivesAllWanted(h: Hub, message: Json, serialize: Json -> string, q: Handle)
    requires q in h.subs && h.subs[q].capacity == 0
    requires Wants(h.subs[q], RoutingTag(message))
    ensures Broadcast(h, message, serialize).subs[q].queue == h.subs[q].queue + [serialize(message)]
  {
  }

  /**
   * Per-subscriber FIFO: two messages broadcast in turn to an empty
   * unbounded queue that wants both come out in the same order.
   */
  lemma BroadcastIsFifo(h: Hub, m1: Json, m2: Json, serialize: Json -> string, q: Handle)
    requires q in h.subs && h.subs[q].capacity == 0 && h.subs[q].queue == []
    requires Wants(h.subs[q], RoutingTag(m1)) && Wants(h.subs[q], RoutingTag(m2))
    ensures var h2 := Broadcast(Broadcast(h, m1, serialize), m2, serialize);
            var (h3, first) := Receive(h2, q);
            var (_, second) := Receive(h3, q);
            first == Some(serialize(m1)) && second == Some(serialize(m2))
  {
    var h1 := Broadcast(h, m1, serialize);
    var h2 := Broadcast(h1, m2, serialize);
    assert h2.subs[q].queue == [serialize(m1), serialize(m2)];
  }

  /** A client connecting without naming workloads (or naming none) hears every default workload. */
  lemma ConnectWithoutWorkloadsHearsAll(h: Hub, workloads: Option<set<string>>, w: string)
    requires Valid(h)
    requires workloads.None? || workloads.value == {}
    requires w in DefaultWorkloads
    ensures var (h1, q) := Connect(h, workloads, 0);
            Wants(h1.subs[q], Some(w))
  {
  }

  /** Unlike `connect`, updating to the empty set silences the client. */
  lemma UpdateToEmptySilences(h: Hub, q: Handle, message: Json, serialize: Json -> string)
    requires q in h.subs
    ensures var h1 := UpdateSubscription(h, q, {});
            Broadcast(h1, message, serialize).subs[q] == h1.subs[q]
  {
  }

  /** Disconnecting twice is disconnecting once. */
  lemma DisconnectIdempotent(h: Hub, q: Handle)
    ensures Disconnect(Disconnect(h, q), q) == Disconnect(h, q)
  {
  }
}

=== FILE: text.dfy ===
/**
 * Character classes and string operations shared by the Python services and
 * the browser code: whitespace stripping, regex-free sanitising, splitting,
 * substring search, ASCII case mapping and decimal rendering of naturals.
 *
 * Python's `str.strip()`/`\s` and JavaScript's `trim()`/`\s` are both modelled
 * by `IsSpace`, the characters Python's `str.isspace` accepts.
 */
module Text {
  import opened Wrappers

  /**
   * Python's `str.isspace`: tab to carriage return, the four information
   * separators U+001C..U+001F, space, next-line U+0085, no-break space, and
   * the Unicode space separators and line/paragraph separators.
   */
  predicate IsSpace(c: char) {
    if c <= ' ' then ('\t' <= c <= '\r') || '\U{001C}' <= c
    else if c < '\U{1680}' then c == '\U{0085}' || c == '\U{00A0}'
    else OtherUnicodeSpace(c)
  }

  /** The space separators and line/paragraph separators from U+1680 up. */
  predicate OtherUnicodeSpace(c: char) {
    c == '\U{1680}' || ('\U{2000}' <= c <= '\U{200A}') || c == '\U{2028}' || c == '\U{2029}'
    || c == '\U{202F}' || c == '\U{205F}' || c == '\U{3000}'
  }

  predicate IsAsciiLetter(c: char) {
    ('a' <= c <= 'z') || ('A' <= c <= 'Z')
  }

  predicate IsDigit(c: char) {
    '0' <= c <= '9'
  }

  predicate IsAsciiAlnum(c: char) {
    IsAsciiLetter(c) || IsDigit(c)
  }

  /** The character class `[a-zA-Z0-9_-]` kept by run-name sanitising. */
  predicate IsRunNameChar(c: char) {
    IsAsciiAlnum(c) || c == '_' || c == '-'
  }

  predicate NoSpace(s: string) {
    forall i :: 0 <= i < |s| ==> !IsSpace(s[i])
  }

  predicate AllRunNameChars(s: string) {
    forall i :: 0 <= i < |s| ==> IsRunNameChar(s[i])
  }

  predicate AllDigits(s: string) {
    forall i :: 0 <= i < |s| ==> IsDigit(s[i])
  }

  // ---------------------------------------------------------------------------
  // Stripping

  /** Python `lstrip()`: drops the leading whitespace. */
  function LStrip(s: string): (r: string)
    ensures |r| <= |s| && r == s[|s| - |r|..]
    ensures |r| > 0 ==> !IsSpace(r[0])
    ensures forall i :: 0 <= i < |s| - |r| ==> IsSpace(s[i])
    ensures |s| > 0 && IsSpace(s[0]) ==> |r| < |s|
  {
    DropLeading(s, IsSpace)
  }

  /** The suffix left after dropping the leading characters that satisfy `drop`. */
  function DropLeading(s: string, drop: char -> bool): (r: string)
    ensures |r| <= |s| && r == s[|s| - |r|..]
    ensures |r| > 0 ==> !drop(r[0])
    ensures forall i :: 0 <= i < |s| - |r| ==> drop(s[i])
    ensures |s| > 0 && drop(s[0]) ==> |r| < |s|
  {
    s[LeadingRun(s, drop, 0)..]
  }

  /** The end of the run of characters satisfying `drop` that starts at `k`. */
  function LeadingRun(s: string, drop: char -> bool, k: nat): (n: nat)
    requires k <= |s|
    ensures k <= n <= |s|
    ensures forall i :: k <= i < n ==> drop(s[i])
    ensures n < |s| ==> !drop(s[n])
    decreases |s| - k
  {
    if k < |s| && drop(s[k]) then LeadingRun(s, drop, k + 1) else k
  }

  /** Python `rstrip()`: drops the trailing whitespace. */
  function RStrip(s: string): (r: string)
    ensures |r| <= |s| && r == s[..|r|]
    ensures |r| > 0 ==> !IsSpace(r[|r| - 1])
    ensures forall i :: |r| <= i < |s| ==> IsSpace(s[i])
    decreases |s|
  {
    if |s| > 0 && IsSpace(s[|s| - 1]) then RStrip(s[..|s| - 1]) else s
  }

  /** Python `strip()` / JavaScript `trim()`. */
  function Strip(s: string): (r: string)
    ensures |r| <= |s|
    ensures |r| > 0 ==> !IsSpace(r[0]) && !IsSpace(r[|r| - 1])
  {
    RStrip(LStrip(s))
  }

  /** `s.strip()` is empty exactly when `s` is made of whitespace only. */
  lemma StripEmptyIffBlank(s: string)
    ensures Strip(s) == [] <==> forall i :: 0 <= i < |s| ==> IsSpace(s[i])
  {
    var l := LStrip(s);
    if Strip(s) == [] {
      assert |l| == 0;
    } else {
      var r := Strip(s);
      assert r[0] == l[0] == s[|s| - |l|];
    }
  }

  /** Stripping a string that has no whitespace leaves it unchanged. */
  lemma StripNoSpace(s: string)
    requires NoSpace(s)
    ensures Strip(s) == s
  {
    assert LStrip(s) == s;
  }

  /** Stripping only removes characters. */
  lemma StripKeepsChars(s: string)
    ensures forall c :: c in Strip(s) ==> c in s
  {
    var l := LStrip(s);
    var k := |s| - |l|;
    assert Strip(s) == s[k..][..|Strip(s)|];
    SliceKeepsChars(s, k, k + |Strip(s)|);
  }

  lemma SliceKeepsChars(s: string, i: nat, j: nat)
    requires i <= j <= |s|
    ensures forall c :: c in s[i..j] ==> c in s
  {
    forall c | c in s[i..j] ensures c in s {
      var n :| 0 <= n < j - i && s[i..j][n] == c;
      assert s[i + n] == c;
    }
  }

  /** Stripping twice strips once. */
  lemma StripIdempotent(s: string)
    ensures Strip(Strip(s)) == Strip(s)
  {
    var r := Strip(s);
    if |r| > 0 {
      assert LStrip(r) == r;
      assert RStrip(r) == r;
    }
  }

  /** Strings of run-name characters have no whitespace. */
  lemma RunNameCharsHaveNoSpace(s: string)
    requires AllRunNameChars(s)
    ensures NoSpace(s)
  {
  }

  // ---------------------------------------------------------------------------
  // Prefixes, suffixes and substrings

  predicate StartsWith(s: string, prefix: string) {
    |prefix| <= |s| && s[..|prefix|] == prefix
  }

  predicate EndsWith(s: string, suffix: string) {
    |suffix| <= |s| && s[|s| - |suffix|..] == suffix
  }

  /** Index of the first occurrence of `pat` in `s` (JavaScript `indexOf`). */
  function FindSub(s: string, pat: string): (r: Option<nat>)
    ensures r.Some? ==> r.value + |pat| <= |s| && s[r.value..r.value + |pat|] == pat
    ensures r.Some? ==> forall j :: 0 <= j < r.value ==> !StartsWith(s[j..], pat)
    ensures r.None? ==> forall j :: 0 <= j <= |s| ==> !StartsWith(s[j..], pat)
  {
    FindFrom(s, pat, 0)
  }

  /** The first occurrence of `pat` in `s` at index `k` or later. */
  function FindFrom(s: string, pat: string, k: nat): (r: Option<nat>)
    requires k <= |s|
    ensures r.Some? ==> k <= r.value && r.value + |pat| <= |s| && s[r.value..r.value + |pat|] == pat
    ensures r.Some? ==> forall j :: k <= j < r.value ==> !StartsWith(s[j..], pat)
    ensures r.None? ==> forall j :: k <= j <= |s| ==> !StartsWith(s[j..], pat)
    decreases |s| - k
  {
    if StartsWith(s[k..], pat) then
      assert s[k..][..|pat|] == s[k..k + |pat|];
      Some(k)
    else if k == |s| then None
    else FindFrom(s, pat, k + 1)
  }

  /** A match of `pat` at `k` contains a match of each of its suffixes. */
  lemma MatchInsideMatch(s: string, k: nat, pat: string, d: nat, inner: string)
    requires k + |pat| <= |s| && s[k..k + |pat|] == pat
    requires d <= |pat| && pat[d..] == inner
    ensures StartsWith(s[k + d..], inner)
  {
    assert s[k + d..][..|inner|] == s[k..k + |pat|][d..];
  }

  /** Python `sub in s` / JavaScript `s.includes(sub)`. */
  predicate Contains(s: string, pat: string) {
    FindSub(s, pat).Some?
  }

  /** JavaScript `s.replace(pat, rep)` with a string pattern: only the first occurrence. */
  function ReplaceFirst(s: string, pat: string, rep: string): (r: string)
    ensures !Contains(s, pat) ==> r == s
    ensures Contains(s, pat) ==> |r| == |s| - |pat| + |rep|
  {
    match FindSub(s, pat)
    case None => s
    case Some(i) => s[..i] + rep + s[i + |pat|..]
  }

  /** Replaces every occurrence of character `a` by `b`. */
  function ReplaceChar(s: string, a: char, b: char): (r: string)
    ensures |r| == |s|
    ensures forall i :: 0 <= i < |s| ==> r[i] == (if s[i] == a then b else s[i])
  {
    seq(|s|, i requires 0 <= i < |s| => if s[i] == a then b else s[i])
  }

  /** Python `s.replace(c, "")`: every occurrence of `c` dropped, the rest in order. */
  function RemoveChar(s: string, c: char): (r: string)
    ensures c !in r && |r| <= |s|
    ensures c !in s ==> r == s
  {
    if |s| == 0 then []
    else if s[0] == c then RemoveChar(s[1..], c)
    else [s[0]] + RemoveChar(s[1..], c)
  }

  /** Python `s.rstrip(c)` for one character. */
  function RStripChar(s: string, c: char): (r: string)
    ensures |r| <= |s| && r == s[..|r|] && !EndsWith(r, [c])
    ensures forall i :: |r| <= i < |s| ==> s[i] == c
    decreases |s|
  {
    if |s| > 0 && s[|s| - 1] == c then RStripChar(s[..|s| - 1], c) else s
  }

  /** Python `s[:n]` / JavaScript `s.slice(0, n)`: at most the first `n` characters. */
  function Take(s: string, n: nat): (r: string)
    ensures |r| == if |s| <= n then |s| else n
    ensures r == s[..|r|]
  {
    if |s| <= n then s else s[..n]
  }

  // ---------------------------------------------------------------------------
  // Ordering

  /** Code-point lexicographic order, the stand-in for `localeCompare`. */
  predicate StrLess(a: string, b: string)
    decreases |a|
  {
    if |a| == 0 then |b| > 0
    else if |b| == 0 then false
    else if a[0] != b[0] then a[0] < b[0]
    else StrLess(a[1..], b[1..])
  }

  lemma {:induction false} StrLessAsymmetric(a: string, b: string)
    ensures StrLess(a, b) ==> !StrLess(b, a)
    decreases |a|
  {
    if |a| > 0 && |b| > 0 && a[0] == b[0] {
      StrLessAsymmetric(a[1..], b[1..]);
    }
  }

  lemma {:induction false} StrLessTransitive(a: string, b: string, c: string)
    requires StrLess(a, b) && StrLess(b, c)
    ensures StrLess(a, c)
    decreases |a|
  {
    if |a| > 0 && a[0] == b[0] && b[0] == c[0] {
      StrLessTransitive(a[1..], b[1..], c[1..]);
    }
  }

  lemma {:induction false} StrLessTotal(a: string, b: string)
    requires a != b
    ensures StrLess(a, b) || StrLess(b, a)
    decreases |a|
  {
    if |a| > 0 && |b| > 0 && a[0] == b[0] {
      assert a == [a[0]] + a[1..] && b == [b[0]] + b[1..];
      StrLessTotal(a[1..], b[1..]);
    }
  }

  // ---------------------------------------------------------------------------
  // ASCII case mapping

  function LowerChar(c: char): char {
    if 'A' <= c <= 'Z' then (c as int + 32) as char else c
  }

  function UpperChar(c: char): char {
    if 'a' <= c <= 'z' then (c as int - 32) as char else c
  }

  function Lower(s: string): (r: string)
    ensures |r| == |s| && forall i :: 0 <= i < |s| ==> r[i] == LowerChar(s[i])
  {
    seq(|s|, i requires 0 <= i < |s| => LowerChar(s[i]))
  }

  function Upper(s: string): (r: string)
    ensures |r| == |s| && forall i :: 0 <= i < |s| ==> r[i] == UpperChar(s[i])
  {
    seq(|s|, i requires 0 <= i < |s| => UpperChar(s[i]))
  }

  // ---------------------------------------------------------------------------
  // Splitting and joining

  /** Python `s.split(d)` / JavaScript `s.split(d)` for a one-character separator. */
  function Split(s: string, d: char): (r: seq<string>)
    ensures |r| >= 1
    ensures forall i :: 0 <= i < |r| ==> d !in r[i]
    decreases |s|
  {
    if |s| == 0 then [[]]
    else
      var rest := Split(s[1..], d);
      if s[0] == d then [[]] + rest
      else [[s[0]] + rest[0]] + rest[1..]
  }

  /** A string without the separator splits into itself alone. */
  lemma {:induction false} SplitNoSeparator(s: string, d: char)
    requires d !in s
    ensures Split(s, d) == [s]
    decreases |s|
  {
    if |s| > 0 {
      assert d !in s[1..] by {
        forall i | 0 <= i < |s[1..]| ensures s[1..][i] != d {
          assert s[1..][i] == s[i + 1];
        }
      }
      SplitNoSeparator(s[1..], d);
      assert [s[0]] + s[1..] == s;
    }
  }

  /** Splitting at one occurrence of the separator splits each side independently. */
  lemma {:induction false} SplitConcat(a: string, d: char, b: string)
    ensures Split(a + [d] + b, d) == Split(a, d) + Split(b, d)
    decreases |a|
  {
    var s := a + [d] + b;
    if |a| == 0 {
      assert s[1..] == b;
    } else {
      assert s[1..] == a[1..] + [d] + b;
      SplitConcat(a[1..], d, b);
    }
  }

  /** Joining separator-free parts and splitting again gives the parts back. */
  lemma {:induction false} SplitJoin(parts: seq<string>, d: char)
    requires |parts| >= 1
    requires forall i :: 0 <= i < |parts| ==> d !in parts[i]
    ensures Split(Join(parts, [d]), d) == parts
    decreases |parts|
  {
    if |parts| == 1 {
      SplitNoSeparator(parts[0], d);
    } else {
      SplitJoin(parts[1..], d);
      SplitNoSeparator(parts[0], d);
      SplitConcat(parts[0], d, Join(parts[1..], [d]));
      assert parts == [parts[0]] + parts[1..];
    }
  }

  /** Python `s.split(d, 1)`: the parts before and after the first separator, if any. */
  function SplitOnce(s: string, d: char): (r: Option<(string, string)>)
    ensures r.None? <==> d !in s
    ensures r.Some? ==> d !in r.value.0 && s == r.value.0 + [d] + r.value.1
    decreases |s|
  {
    if |s| == 0 then None
    else if s[0] == d then Some(([], s[1..]))
    else
      match SplitOnce(s[1..], d)
      case None => None
      case Some((x, y)) => Some(([s[0]] + x, y))
  }

  /** Python `s.split()` with no argument: the maximal whitespace-free words. */
  function Tokens(s: string): (r: seq<string>)
    ensures forall i :: 0 <= i < |r| ==> IsWord(r[i])
    decreases |s|
  {
    var t := LStrip(s);
    if |t| == 0 then []
    else
      var w := WordPrefix(t);
      var rest := t[|w|..];
      assert |rest| < |s|;
      var words := Tokens(rest);
      ConsWords(w, words);
      [w] + words
  }

  lemma ConsWords(w: string, words: seq<string>)
    requires IsWord(w) && forall i :: 0 <= i < |words| ==> IsWord(words[i])
    ensures forall i :: 0 <= i < |[w] + words| ==> IsWord(([w] + words)[i])
  {
    forall i | 0 < i < |[w] + words| ensures ([w] + words)[i] == words[i - 1] {}
  }

  /** A non-empty, whitespace-free word as `str.split()` produces. */
  predicate IsWord(w: string) {
    |w| > 0 && NoSpace(w)
  }

  /** The longest whitespace-free prefix. */
  function WordPrefix(s: string): (r: string)
    ensures |r| <= |s| && r == s[..|r|] && NoSpace(r)
    ensures |s| > 0 && !IsSpace(s[0]) ==> |r| > 0
  {
    if |s| == 0 || IsSpace(s[0]) then [] else [s[0]] + WordPrefix(s[1..])
  }

  /** JavaScript `parts.join(sep)`. */
  function Join(parts: seq<string>, sep: string): string {
    if |parts| == 0 then []
    else if |parts| == 1 then parts[0]
    else parts[0] + sep + Join(parts[1..], sep)
  }

  // ---------------------------------------------------------------------------
  // Decimal rendering of naturals (Python `str(n)`, JavaScript `String(n)`)

  function DigitChar(d: nat): (c: char)
    requires d < 10
    ensures IsDigit(c)
  {
    ('0' as int + d) as char
  }

  function DigitValue(c: char): nat
    requires IsDigit(c)
  {
    c as int - '0' as int
  }

  function NatToString(n: nat): (r: string)
    ensures |r| >= 1 && AllDigits(r)
    decreases n
  {
    if n < 10 then [DigitChar(n)] else NatToString(n / 10) + [DigitChar(n % 10)]
  }

  /** The number a string of decimal digits denotes. */
  function DecimalValue(s: string): nat
    requires AllDigits(s)
    decreases |s|
  {
    if |s| == 0 then 0 else DecimalValue(s[..|s| - 1]) * 10 + DigitValue(s[|s| - 1])
  }

  /** Reading back a rendered natural gives the natural. */
  lemma {:induction false} DecimalValueOfNatToString(n: nat)
    ensures DecimalValue(NatToString(n)) == n
    decreases n
  {
    var s := NatToString(n);
    if n >= 10 {
      DecimalValueOfNatToString(n / 10);
      assert s[..|s| - 1] == NatToString(n / 10);
    }
  }

  /** Distinct naturals render to distinct strings. */
  lemma NatToStringInjective(a: nat, b: nat)
    requires NatToString(a) == NatToString(b)
    ensures a == b
  {
    DecimalValueOfNatToString(a);
    DecimalValueOfNatToString(b);
  }
}

=== FILE: theme.dfy ===
/**
 * The captioning UI's light/dark theme: the initial choice, applying a
 * theme to the document, the toggle, and the chart colours each theme uses.
 *
 * The document is a record of the `data-theme` attribute, the toggle
 * button's `aria-label` and the stored preference. Whether there is a toggle
 * button and whether `localStorage` accepts a write are parameters; a
 * failing write is swallowed, so the stored value just stays as it was.
 */
module Theme {
  import opened Wrappers

  datatype Mode = Light | Dark

  function Name(m: Mode): (r: string)
    ensures r == "light" || r == "dark"
  {
    if m == Light then "light" else "dark"
  }

  function Opposite(m: Mode): (r: Mode)
    ensures r != m
  {
    if m == Light then Dark else Light
  }

  /** `applyTheme`'s normalisation: exactly the string `light` is light, anything else dark. */
  function Normalise(theme: string): (m: Mode)
    ensures m == Light <==> theme == "light"
  {
    if theme == "light" then Light else Dark
  }

  lemma NameNormalises(m: Mode)
    ensures Normalise(Name(m)) == m
  {
  }

  /**
   * `detectInitialTheme`: a stored `light` or `dark` wins; otherwise dark
   * exactly when the system prefers a dark scheme. An unreadable store is
   * `None`.
   */
  function DetectInitial(saved: Option<string>, prefersDark: bool): (m: Mode)
    ensures saved == Some("light") ==> m == Light
    ensures saved == Some("dark") ==> m == Dark
    ensures saved != Some("light") && saved != Some("dark") ==> (m == Dark <==> prefersDark)
  {
    if saved == Some("light") then Light
    else if saved == Some("dark") then Dark
    else if prefersDark then Dark
    else Light
  }

  datatype Document = Document(dataTheme: Option<string>, ariaLabel: Option<string>, stored: Option<string>)

  const OfferDark: string := "Switch to dark mode"
  const OfferLight: string := "Switch to light mode"

  /** The mode a toggle label offers to switch to. */
  function Offered(text: string): (r: Option<Mode>)
    ensures text == OfferDark ==> r == Some(Dark)
    ensures text == OfferLight ==> r == Some(Light)
  {
    if text == OfferDark then Some(Dark)
    else if text == OfferLight then Some(Light)
    else None
  }

  /** The theme the document shows: `data-theme` equal to `light`, else dark. */
  function Current(doc: Document): (m: Mode)
    ensures m == Light <==> doc.dataTheme == Some("light")
  {
    if doc.dataTheme == Some("light") then Light else Dark
  }

  /**
   * `applyTheme`: the normalised theme is written to `data-theme`, the
   * toggle's label offers the other mode, and the normalised name is stored.
   */
  function Apply(doc: Document, theme: string, hasToggle: bool, storageWorks: bool): (r: Document)
    ensures Current(r) == Normalise(theme)
    ensures r.dataTheme == Some("light") || r.dataTheme == Some("dark")
    ensures hasToggle ==> r.ariaLabel.Some? && Offered(r.ariaLabel.value) == Some(Opposite(Current(r)))
    ensures !hasToggle ==> r.ariaLabel == doc.ariaLabel
    ensures storageWorks ==> r.stored == r.dataTheme
    ensures !storageWorks ==> r.stored == doc.stored
  {
    var next := Name(Normalise(theme));
    Document(
      Some(next),
      if hasToggle then Some(if next == "light" then OfferDark else OfferLight) else doc.ariaLabel,
      if storageWorks then Some(next) else doc.stored)
  }

  /** A theme that was applied and stored is the one the next page load starts with. */
  lemma AppliedThemeIsRestored(doc: Document, theme: string, hasToggle: bool, prefersDark: bool)
    ensures DetectInitial(Apply(doc, theme, hasToggle, true).stored, prefersDark) == Normalise(theme)
  {
    var r := Apply(doc, theme, hasToggle, true);
    assert r.stored == Some(Name(Normalise(theme)));
  }

  /** `toggleTheme`: applies the opposite of the shown theme. */
  function Toggle(doc: Document, hasToggle: bool, storageWorks: bool): (r: Document)
    ensures Current(r) == Opposite(Current(doc))
    ensures storageWorks ==> r.stored == Some(Name(Opposite(Current(doc))))
  {
    Apply(doc, if Current(doc) == Light then "dark" else "light", hasToggle, storageWorks)
  }

  /** Two toggles show the starting theme again, normalised. */
  lemma ToggleTwice(doc: Document, hasToggle: bool, storageWorks: bool)
    ensures Toggle(Toggle(doc, hasToggle, storageWorks), hasToggle, storageWorks).dataTheme
      == Some(Name(Current(doc)))
  {
    var once := Toggle(doc, hasToggle, storageWorks);
    var twice := Toggle(once, hasToggle, storageWorks);
    assert Current(twice) == Current(doc);
  }

  /** From a normalised document, two toggles restore the attribute exactly. */
  lemma ToggleTwiceNormalised(doc: Document, hasToggle: bool, storageWorks: bool)
    requires doc.dataTheme == Some("light") || doc.dataTheme == Some("dark")
    ensures Toggle(Toggle(doc, hasToggle, storageWorks), hasToggle, storageWorks).dataTheme == doc.dataTheme
  {
    ToggleTwice(doc, hasToggle, storageWorks);
  }

  datatype ChartColors = ChartColors(grid: string, tick: string)

  const LightColors: ChartColors := ChartColors("rgba(0,0,0,0.08)", "rgba(0,0,0,0.65)")
  const DarkColors: ChartColors := ChartColors("rgba(255,255,255,0.05)", "rgba(255,255,255,0.55)")

  /** `getChartColors`: the light palette exactly when `data-theme` is `light`. */
  function ChartColorsOf(doc: Document): (c: ChartColors)
    ensures c == LightColors <==> Current(doc) == Light
    ensures c == DarkColors <==> Current(doc) == Dark
  {
    if doc.dataTheme == Some("light") then LightColors else DarkColors
  }

  /** Two documents showing the same theme get the same chart colours. */
  lemma ColorsDependOnlyOnMode(a: Document, b: Document)
    requires Current(a) == Current(b)
    ensures ChartColorsOf(a) == ChartColorsOf(b)
  {
  }

  /** A toggle always changes the chart palette. */
  lemma ToggleChangesColors(doc: Document, hasToggle: bool, storageWorks: bool)
    ensures ChartColorsOf(Toggle(doc, hasToggle, storageWorks)) != ChartColorsOf(doc)
  {
    var r := Toggle(doc, hasToggle, storageWorks);
    assert Current(r) != Current(doc);
  }
}

=== FILE: time_window.dfy ===
/**
 * The aggregator's time-window buffer (`TimeWindowBuffer`): per key, the
 * samples added so far, oldest first, with expired samples evicted from the
 * front after every `add`.
 *
 * The wall clock read during eviction is a parameter (`now`, in seconds).
 */
module TimeWindow {

  /** One retained point, `(timestamp, value)`; the timestamp is in seconds. */
  datatype Sample = Sample(ts: real, value: real)

  /** The window length a buffer gets when none is given. */
  const DefaultWindowSeconds: real := 5.0

  /** `window` seconds of retention and, per key, the retained samples in insertion order. */
  datatype Buffer<K> = Buffer(window: real, series: map<K, seq<Sample>>)

  function NewBuffer<K(!new)>(window: real): (b: Buffer<K>)
    ensures b.window == window && b.series == map[]
  {
    Buffer(window, map[])
  }

  /** A sample is evicted when its age at `now` exceeds the window. */
  predicate Expired(now: real, window: real, s: Sample) {
    now - s.ts > window
  }

  /** `_evict_old`: pops the front sample while it is expired. */
  function Evict(samples: seq<Sample>, now: real, window: real): (r: seq<Sample>)
    ensures |r| <= |samples| && r == samples[|samples| - |r|..]
    ensures |r| > 0 ==> !Expired(now, window, r[0])
    ensures forall i :: 0 <= i < |samples| - |r| ==> Expired(now, window, samples[i])
    decreases |samples|
  {
    if |samples| > 0 && Expired(now, window, samples[0]) then Evict(samples[1..], now, window)
    else samples
  }

  /** `get`: the key's retained samples; a key never added has none. */
  function Get<K(!new)>(b: Buffer<K>, key: K): seq<Sample> {
    if key in b.series then b.series[key] else []
  }

  /** `add`: appends `(ts, value)` to the key's samples, then evicts against `now`. */
  function Add<K(!new)>(b: Buffer<K>, key: K, ts: real, value: real, now: real): (r: Buffer<K>)
    ensures r.window == b.window
    ensures key in r.series
    ensures forall k :: k != key ==> Get(r, k) == Get(b, k)
    ensures var before := Get(b, key) + [Sample(ts, value)];
            var after := Get(r, key);
            |after| <= |before| && after == before[|before| - |after|..]
    ensures |Get(r, key)| > 0 ==> !Expired(now, b.window, Get(r, key)[0])
  {
    Buffer(b.window, b.series[key := Evict(Get(b, key) + [Sample(ts, value)], now, b.window)])
  }

  // ---------------------------------------------------------------------------
  // Properties of eviction

  /**
   * Eviction is determined by its contract: the only suffix of `samples` whose
   * dropped prefix is entirely expired and whose front is not expired.
   */
  lemma {:induction false} EvictUnique(samples: seq<Sample>, now: real, window: real, k: nat)
    requires k <= |samples|
    requires forall i :: 0 <= i < k ==> Expired(now, window, samples[i])
    requires k < |samples| ==> !Expired(now, window, samples[k])
    ensures Evict(samples, now, window) == samples[k..]
    decreases k
  {
    if k > 0 {
      EvictUnique(samples[1..], now, window, k - 1);
      assert samples[1..][k - 1..] == samples[k..];
    }
  }

  /** A sample added fresh (not expired at `now`) is always retained, as the newest one. */
  lemma AddKeepsFreshSample<K(!new)>(b: Buffer<K>, key: K, ts: real, value: real, now: real)
    requires !Expired(now, b.window, Sample(ts, value))
    ensures var after := Get(Add(b, key, ts, value, now), key);
            |after| > 0 && after[|after| - 1] == Sample(ts, value)
  {
    var before := Get(b, key) + [Sample(ts, value)];
    var after := Get(Add(b, key, ts, value, now), key);
    assert !Expired(now, b.window, before[|before| - 1]);
    assert |before| - |after| <= |before| - 1;
    assert after[|after| - 1] == before[|before| - 1];
  }

  /** When the oldest retained sample is still fresh, `add` evicts nothing. */
  lemma AddWithoutEviction<K(!new)>(b: Buffer<K>, key: K, ts: real, value: real, now: real)
    requires var before := Get(b, key) + [Sample(ts, value)];
             !Expired(now, b.window, before[0])
    ensures Get(Add(b, key, ts, value, now), key) == Get(b, key) + [Sample(ts, value)]
  {
    EvictUnique(Get(b, key) + [Sample(ts, value)], now, b.window, 0);
  }

  /**
   * Timestamps are not required to be monotonic, so an expired sample can
   * survive behind a fresh front sample: the invariant is about the front only.
   */
  lemma StaleSampleCanSurvive()
    ensures var s := Evict([Sample(10.0, 1.0), Sample(0.0, 2.0)], 12.0, 5.0);
            |s| == 2 && Expired(12.0, 5.0, s[1])
  {
  }

  // ---------------------------------------------------------------------------
  // Window correctness for in-order timestamps

  /** The samples of `s` that are not expired at `now`, in order. */
  function Retained(s: seq<Sample>, now: real, window: real): (r: seq<Sample>)
    ensures |r| <= |s|
    decreases |s|
  {
    if |s| == 0 then []
    else (if Expired(now, window, s[0]) then [] else [s[0]]) + Retained(s[1..], now, window)
  }

  predicate SortedByTs(s: seq<Sample>) {
    forall i, j :: 0 <= i < j < |s| ==> s[i].ts <= s[j].ts
  }

  lemma {:induction false} RetainedAllFresh(s: seq<Sample>, now: real, window: real)
    requires forall i :: 0 <= i < |s| ==> !Expired(now, window, s[i])
    ensures Retained(s, now, window) == s
    decreases |s|
  {
    if |s| > 0 {
      RetainedAllFresh(s[1..], now, window);
    }
  }

  /** With in-order timestamps, eviction keeps exactly the samples that are not expired. */
  lemma {:induction false} EvictSortedIsRetained(s: seq<Sample>, now: real, window: real)
    requires SortedByTs(s)
    ensures Evict(s, now, window) == Retained(s, now, window)
    decreases |s|
  {
    if |s| > 0 {
      if Expired(now, window, s[0]) {
        EvictSortedIsRetained(s[1..], now, window);
      } else {
        RetainedAllFresh(s, now, window);
      }
    }
  }

  lemma {:induction false} RetainedAppend(a: seq<Sample>, b: seq<Sample>, now: real, window: real)
    ensures Retained(a + b, now, window) == Retained(a, now, window) + Retained(b, now, window)
    decreases |a|
  {
    if |a| > 0 {
      assert (a + b)[1..] == a[1..] + b;
      RetainedAppend(a[1..], b, now, window);
    } else {
      assert a + b == b;
    }
  }

  /** Filtering at an earlier time and then at a later one is filtering at the later one. */
  lemma {:induction false} RetainedTwice(s: seq<Sample>, t1: real, t2: real, window: real)
    requires t1 <= t2
    ensures Retained(Retained(s, t1, window), t2, window) == Retained(s, t2, window)
    decreases |s|
  {
    if |s| > 0 {
      var head := if Expired(t1, window, s[0]) then [] else [s[0]];
      RetainedAppend(head, Retained(s[1..], t1, window), t2, window);
      RetainedTwice(s[1..], t1, t2, window);
    }
  }

  lemma SortedRetained(s: seq<Sample>, now: real, window: real)
    requires SortedByTs(s)
    ensures SortedByTs(Retained(s, now, window))
  {
    RetainedIsSubsequence(s, now, window);
  }

  /** Every retained sample comes from a later-or-equal position of the input. */
  lemma {:induction false} RetainedIsSubsequence(s: seq<Sample>, now: real, window: real)
    requires SortedByTs(s)
    ensures SortedByTs(Retained(s, now, window))
    ensures forall x :: x in Retained(s, now, window) ==> x in s && (|s| > 0 ==> s[0].ts <= x.ts)
    decreases |s|
  {
    if |s| > 0 {
      RetainedIsSubsequence(s[1..], now, window);
      var r := Retained(s, now, window);
      var tail := Retained(s[1..], now, window);
      forall x | x in tail ensures s[0].ts <= x.ts {
        var i :| 0 <= i < |s[1..]| && s[1..][i] == x;
        assert s[i + 1] == x;
      }
    }
  }

  /** One arrival at the buffer: a sample and the wall clock when it is added. */
  datatype Arrival = Arrival(sample: Sample, now: real)

  /** Adds every arrival to `key`, in order. */
  function AddEach<K(!new)>(b: Buffer<K>, key: K, arrivals: seq<Arrival>): (r: Buffer<K>)
    ensures r.window == b.window
    ensures forall k :: k != key ==> Get(r, k) == Get(b, k)
    decreases |arrivals|
  {
    if |arrivals| == 0 then b
    else
      var a := arrivals[|arrivals| - 1];
      Add(AddEach(b, key, arrivals[..|arrivals| - 1]), key, a.sample.ts, a.sample.value, a.now)
  }

  function SamplesOf(arrivals: seq<Arrival>): (s: seq<Sample>)
    ensures |s| == |arrivals| && forall i :: 0 <= i < |s| ==> s[i] == arrivals[i].sample
  {
    seq(|arrivals|, i requires 0 <= i < |arrivals| => arrivals[i].sample)
  }

  /** Timestamps and clock readings both non-decreasing along the arrivals. */
  predicate InOrder(arrivals: seq<Arrival>) {
    forall i, j :: 0 <= i < j < |arrivals| ==>
      arrivals[i].sample.ts <= arrivals[j].sample.ts && arrivals[i].now <= arrivals[j].now
  }

  lemma SamplesOfInOrder(arrivals: seq<Arrival>)
    requires InOrder(arrivals)
    ensures SortedByTs(SamplesOf(arrivals))
  {
  }

  /** One add of a later sample after an earlier filtering equals filtering everything later. */
  lemma StepRetained(s: seq<Sample>, x: Sample, t1: real, t2: real, w: real)
    requires SortedByTs(s + [x])
    requires t1 <= t2
    ensures Evict(Retained(s, t1, w) + [x], t2, w) == Retained(s + [x], t2, w)
  {
    assert SortedByTs(s) by {
      forall i, j | 0 <= i < j < |s| ensures s[i].ts <= s[j].ts {
        assert (s + [x])[i] == s[i] && (s + [x])[j] == s[j];
      }
    }
    var r := Retained(s, t1, w);
    RetainedIsSubsequence(s, t1, w);
    assert forall y :: y in s ==> y.ts <= x.ts by {
      forall y | y in s ensures y.ts <= x.ts {
        var i :| 0 <= i < |s| && s[i] == y;
        assert (s + [x])[i] == y && (s + [x])[|s|] == x;
      }
    }
    assert SortedByTs(r + [x]) by {
      forall i, j | 0 <= i < j < |r + [x]| ensures (r + [x])[i].ts <= (r + [x])[j].ts {
        if j == |r| {
          assert r[i] in r;
        } else {
          assert (r + [x])[i] == r[i] && (r + [x])[j] == r[j];
        }
      }
    }
    EvictSortedIsRetained(r + [x], t2, w);
    RetainedAppend(r, [x], t2, w);
    RetainedTwice(s, t1, t2, w);
    RetainedAppend(s, [x], t2, w);
  }

  /**
   * Window correctness: when one key receives samples with non-decreasing
   * timestamps at non-decreasing clock readings, starting from an empty key,
   * `get` returns exactly the added samples not expired at the last add, in
   * insertion order.
   */
  lemma {:induction false} WindowCorrectness<K(!new)>(b: Buffer<K>, key: K, arrivals: seq<Arrival>)
    requires Get(b, key) == []
    requires |arrivals| > 0 && InOrder(arrivals)
    ensures Get(AddEach(b, key, arrivals), key)
            == Retained(SamplesOf(arrivals), arrivals[|arrivals| - 1].now, b.window)
    decreases |arrivals|
  {
    var n := |arrivals|;
    var init := arrivals[..n - 1];
    var last := arrivals[n - 1];
    assert SamplesOf(arrivals) == SamplesOf(init) + [last.sample];
    SamplesOfInOrder(arrivals);
    if n == 1 {
      EvictSortedIsRetained([last.sample], last.now, b.window);
      RetainedAllFresh([], last.now, b.window);
      assert SamplesOf(init) == [];
    } else {
      assert InOrder(init);
      WindowCorrectness(b, key, init);
      StepRetained(SamplesOf(init), last.sample, init[n - 2].now, last.now, b.window);
    }
  }
}

=== FILE: vital_consumer.dfy ===
/**
 * The vital consumer (`VitalConsumer.consume`): files one incoming vital into
 * the time-window buffer under `(device_id, metric)` and aggregates that key's
 * window. As written it only prints the aggregate and returns nothing;
 * `ConsumeAggregate` is the variant that hands the aggregate back.
 */
module VitalConsumer {
  import opened Wrappers
  import opened TimeWindow
  import opened VitalProcessor

  /** A `Vital` message as received over gRPC. */
  datatype Vital = Vital(
    deviceId: string,
    metric: string,
    value: real,
    unit: string,
    timestamp: int,
    waveform: seq<real>,
    waveformFrequencyHz: real)

  /** Buffers are keyed by device and metric. */
  type Key = (string, string)

  datatype Consumer = Consumer(buffer: Buffer<Key>)

  function NewConsumer(window: real): (c: Consumer)
    ensures c.buffer.window == window && forall k :: Get(c.buffer, k) == []
  {
    Consumer(NewBuffer(window))
  }

  /** The consumer the aggregator creates: a five-second window. */
  function DefaultConsumer(): (c: Consumer)
    ensures c.buffer.window == 5.0
  {
    NewConsumer(DefaultWindowSeconds)
  }

  function KeyOf(v: Vital): Key {
    (v.deviceId, v.metric)
  }

  /** Vital timestamps are in milliseconds; the buffer works in seconds. */
  function TimestampSeconds(ms: int): (s: real)
    ensures s * 1000.0 == ms as real
  {
    (ms as real) / 1000.0
  }

  /** One call's effect: the next consumer state, what it printed and what it returned. */
  datatype Consumed = Consumed(next: Consumer, printed: Option<Aggregate>, returned: Option<Aggregate>)

  /** The buffer after filing `v` at wall-clock time `now` (seconds). */
  function Filed(c: Consumer, v: Vital, now: real): (b: Buffer<Key>)
    ensures b.window == c.buffer.window
    ensures forall k :: k != KeyOf(v) ==> Get(b, k) == Get(c.buffer, k)
  {
    Add(c.buffer, KeyOf(v), TimestampSeconds(v.timestamp), v.value, now)
  }

  /** `consume` as written: adds, aggregates, prints a non-empty aggregate, returns `None`. */
  function Consume(c: Consumer, v: Vital, now: real): (r: Consumed)
    ensures r.next.buffer == Filed(c, v, now)
    ensures r.printed == Process(v.deviceId, v.metric, Get(r.next.buffer, KeyOf(v)))
    ensures r.returned.None?
  {
    var next := Consumer(Filed(c, v, now));
    Consumed(next, Process(v.deviceId, v.metric, Get(next.buffer, KeyOf(v))), None)
  }

  /** The consumer that returns the aggregate it computes. */
  function ConsumeAggregate(c: Consumer, v: Vital, now: real): (r: (Consumer, Option<Aggregate>))
    ensures r.0 == Consume(c, v, now).next
    ensures r.1 == Consume(c, v, now).printed
  {
    var consumed := Consume(c, v, now);
    (consumed.next, consumed.printed)
  }

  /**
   * A vital that is not yet older than the window always yields an aggregate
   * for its own device and metric; a non-continuous metric reports exactly
   * the vital's value.
   */
  lemma FreshVitalIsAggregated(c: Consumer, v: Vital, now: real)
    requires now - TimestampSeconds(v.timestamp) <= c.buffer.window
    ensures var r := Consume(c, v, now).printed;
            r.Some? && r.value.deviceId == v.deviceId && r.value.metric == v.metric
            && (r.value.Latest? ==> r.value.value == v.value)
            && (r.value.Stats? ==> r.value.min <= v.value <= r.value.max)
  {
    AddKeepsFreshSample(c.buffer, KeyOf(v), TimestampSeconds(v.timestamp), v.value, now);
    ProcessDescribesLast(v.deviceId, v.metric, Get(Filed(c, v, now), KeyOf(v)));
  }

  /** While the key's oldest sample is fresh, consuming appends the vital's sample to its window. */
  lemma ConsumeWithoutEviction(c: Consumer, v: Vital, now: real)
    requires var before := Get(c.buffer, KeyOf(v)) + [Sample(TimestampSeconds(v.timestamp), v.value)];
             !Expired(now, c.buffer.window, before[0])
    ensures Get(Consume(c, v, now).next.buffer, KeyOf(v))
            == Get(c.buffer, KeyOf(v)) + [Sample(TimestampSeconds(v.timestamp), v.value)]
  {
    AddWithoutEviction(c.buffer, KeyOf(v), TimestampSeconds(v.timestamp), v.value, now);
  }

  /** Vitals for different keys never influence each other's aggregates. */
  lemma ConsumeIsolatesKeys(c: Consumer, v: Vital, now: real, k: Key)
    requires k != KeyOf(v)
    ensures Get(Consume(c, v, now).next.buffer, k) == Get(c.buffer, k)
  {
  }

  /** As written, the caller never receives an aggregate, even for a fresh vital. */
  lemma ConsumeReturnsNothing(c: Consumer, v: Vital, now: real)
    requires now - TimestampSeconds(v.timestamp) <= c.buffer.window
    ensures Consume(c, v, now).printed.Some?
    ensures Consume(c, v, now).returned.None?
  {
    FreshVitalIsAggregated(c, v, now);
  }
}

=== FILE: vital_processor.dfy ===
/**
 * The vital-sign processor (`VitalProcessor.process`): turns the samples in a
 * key's window into one aggregate. Continuous metrics (`HR`, `SPO2`) get the
 * mean, minimum and maximum; every other metric reports its latest value.
 */
module VitalProcessor {
  import opened Wrappers
  import opened TimeWindow

  /** The dictionary `process` returns, by shape. */
  datatype Aggregate =
    | Stats(deviceId: string, metric: string, avg: real, min: real, max: real)
    | Latest(deviceId: string, metric: string, value: real)

  /** The metrics aggregated statistically rather than by latest value. */
  predicate IsContinuous(metric: string) {
    metric == "HR" || metric == "SPO2"
  }

  /** The values of the samples, timestamps dropped, in order. */
  function Values(samples: seq<Sample>): (vs: seq<real>)
    ensures |vs| == |samples|
    ensures forall i :: 0 <= i < |vs| ==> vs[i] == samples[i].value
  {
    seq(|samples|, i requires 0 <= i < |samples| => samples[i].value)
  }

  function Sum(xs: seq<real>): real
    decreases |xs|
  {
    if |xs| == 0 then 0.0 else xs[0] + Sum(xs[1..])
  }

  /** `statistics.mean`. */
  function Mean(xs: seq<real>): real
    requires |xs| > 0
  {
    Sum(xs) / (|xs| as real)
  }

  /** `min`: the least element, which is one of the elements. */
  function Min(xs: seq<real>): (m: real)
    requires |xs| > 0
    ensures m in xs
    ensures forall i :: 0 <= i < |xs| ==> m <= xs[i]
    decreases |xs|
  {
    if |xs| == 1 then xs[0]
    else
      var rest := Min(xs[1..]);
      if xs[0] <= rest then xs[0] else rest
  }

  /** `max`: the greatest element, which is one of the elements. */
  function Max(xs: seq<real>): (m: real)
    requires |xs| > 0
    ensures m in xs
    ensures forall i :: 0 <= i < |xs| ==> xs[i] <= m
    decreases |xs|
  {
    if |xs| == 1 then xs[0]
    else
      var rest := Max(xs[1..]);
      if xs[0] >= rest then xs[0] else rest
  }

  /** A sum of `n` values between `lo` and `hi` lies between `n * lo` and `n * hi`. */
  lemma {:induction false} SumBounds(xs: seq<real>, lo: real, hi: real)
    requires forall i :: 0 <= i < |xs| ==> lo <= xs[i] <= hi
    ensures (|xs| as real) * lo <= Sum(xs) <= (|xs| as real) * hi
    decreases |xs|
  {
    if |xs| > 0 {
      SumBounds(xs[1..], lo, hi);
    }
  }

  /** The mean lies between the minimum and the maximum. */
  lemma MeanBetweenMinAndMax(xs: seq<real>)
    requires |xs| > 0
    ensures Min(xs) <= Mean(xs) <= Max(xs)
  {
    MeanWithinBounds(xs, Min(xs), Max(xs));
  }

  /** Every bound on the values bounds their mean too. */
  lemma MeanWithinBounds(xs: seq<real>, lo: real, hi: real)
    requires |xs| > 0
    requires forall i :: 0 <= i < |xs| ==> lo <= xs[i] <= hi
    ensures lo <= Mean(xs) <= hi
  {
    SumBounds(xs, lo, hi);
    QuotientBetween(Sum(xs), |xs|, lo, hi);
  }

  lemma QuotientBetween(s: real, n: nat, lo: real, hi: real)
    requires n > 0 && (n as real) * lo <= s <= (n as real) * hi
    ensures lo <= s / (n as real) <= hi
  {
  }

  /** `process`: no samples, no aggregate; otherwise the metric's aggregate over the values. */
  function Process(deviceId: string, metric: string, samples: seq<Sample>): (r: Option<Aggregate>)
    ensures r.None? <==> |samples| == 0
    ensures r.Some? ==> r.value.deviceId == deviceId && r.value.metric == metric
    ensures r.Some? ==> (r.value.Stats? <==> IsContinuous(metric))
    ensures r.Some? && r.value.Stats? ==>
              r.value.min <= r.value.avg <= r.value.max
              && (exists i :: 0 <= i < |samples| && samples[i].value == r.value.min)
              && (exists i :: 0 <= i < |samples| && samples[i].value == r.value.max)
              && (forall i :: 0 <= i < |samples| ==> r.value.min <= samples[i].value <= r.value.max)
    ensures r.Some? && r.value.Stats? ==> r.value.min == Min(Values(samples)) && r.value.max == Max(Values(samples))
    ensures r.Some? && r.value.Latest? ==> r.value.value == samples[|samples| - 1].value
  {
    if |samples| == 0 then None
    else
      var values := Values(samples);
      if IsContinuous(metric) then
        MeanBetweenMinAndMax(values);
        Some(Stats(deviceId, metric, Mean(values), Min(values), Max(values)))
      else
        Some(Latest(deviceId, metric, values[|values| - 1]))
  }

  /**
   * The average of a statistics aggregate is the arithmetic mean of the
   * window's values, as `statistics.mean` computes it. Kept apart from
   * `Process`'s contract so that callers do not carry the division.
   */
  lemma ProcessAverageIsMean(deviceId: string, metric: string, samples: seq<Sample>)
    ensures var r := Process(deviceId, metric, samples);
            r.Some? && r.value.Stats? ==> r.value.avg == Mean(Values(samples))
  {
  }

  /**
   * The aggregate of a non-empty window speaks for its newest sample: the
   * latest value is that sample's, and statistics range over it.
   */
  lemma ProcessDescribesLast(deviceId: string, metric: string, samples: seq<Sample>)
    requires |samples| > 0
    ensures var r := Process(deviceId, metric, samples);
            r.Some? && r.value.deviceId == deviceId && r.value.metric == metric
            && (r.value.Latest? ==> r.value.value == samples[|samples| - 1].value)
            && (r.value.Stats? ==> r.value.min <= samples[|samples| - 1].value <= r.value.max)
  {
    var vs := Values(samples);
    assert vs[|vs| - 1] == samples[|samples| - 1].value;
    assert Min(vs) <= vs[|vs| - 1] <= Max(vs);
  }

  /** The result depends on the sample values only, never on their timestamps. */
  lemma ProcessIgnoresTimestamps(deviceId: string, metric: string, a: seq<Sample>, b: seq<Sample>)
    requires Values(a) == Values(b)
    ensures Process(deviceId, metric, a) == Process(deviceId, metric, b)
  {
    assert |a| == |Values(a)| == |Values(b)| == |b|;
  }

  /** The mean times the number of values is their total. */
  lemma MeanTimesCountIsTotal(xs: seq<real>)
    requires |xs| > 0
    ensures Mean(xs) * (|xs| as real) == Sum(xs)
  {
    QuotientTimesDivisor(Sum(xs), |xs|);
  }

  lemma QuotientTimesDivisor(s: real, n: nat)
    requires n > 0
    ensures (s / (n as real)) * (n as real) == s
  {
  }

  /** A sum of `n` copies of `c` is `n * c`. */
  lemma {:induction false} SumOfConstant(xs: seq<real>, c: real)
    requires forall i :: 0 <= i < |xs| ==> xs[i] == c
    ensures Sum(xs) == (|xs| as real) * c
    decreases |xs|
  {
    if |xs| > 0 {
      SumOfConstant(xs[1..], c);
    }
  }

  /** A window of equal readings averages to that reading, which is also its minimum and maximum. */
  lemma ConstantWindow(deviceId: string, metric: string, samples: seq<Sample>, c: real)
    requires IsContinuous(metric) && |samples| > 0
    requires forall i :: 0 <= i < |samples| ==> samples[i].value == c
    ensures Process(deviceId, metric, samples) == Some(Stats(deviceId, metric, c, c, c))
  {
    SumOfConstant(Values(samples), c);
  }

  /** Three heart-rate readings 70, 72, 68 average to 70 with range 68..72. */
  lemma HeartRateExample()
    ensures Process("D1", "HR", [Sample(1.0, 70.0), Sample(2.0, 72.0), Sample(3.0, 68.0)])
            == Some(Stats("D1", "HR", 70.0, 68.0, 72.0))
  {
    var vs := Values([Sample(1.0, 70.0), Sample(2.0, 72.0), Sample(3.0, 68.0)]);
    assert vs == [70.0, 72.0, 68.0];
    assert vs[1..] == [72.0, 68.0] && vs[1..][1..] == [68.0];
    assert Sum(vs) == 210.0;
  }

  /** Heart-rate readings 65, 70, 75 average to 70 with range 65..75. */
  lemma RisingHeartRateExample()
    ensures Process("D1", "HR", [Sample(1.0, 65.0), Sample(1.5, 70.0), Sample(2.0, 75.0)])
            == Some(Stats("D1", "HR", 70.0, 65.0, 75.0))
  {
    var vs := Values([Sample(1.0, 65.0), Sample(1.5, 70.0), Sample(2.0, 75.0)]);
    assert vs == [65.0, 70.0, 75.0];
    assert vs[1..] == [70.0, 75.0] && vs[1..][1..] == [75.0];
    assert Sum(vs) == 210.0;
  }

  /** A non-continuous metric reports the last of 1, 5, 3. */
  lemma LatestValueExample()
    ensures Process("D1", "RR", [Sample(1.0, 1.0), Sample(2.0, 5.0), Sample(3.0, 3.0)])
            == Some(Latest("D1", "RR", 3.0))
  {
  }
}

=== FILE: wrappers.dfy ===
/** Failure-carrying wrappers shared by every module of the model. */
module Wrappers {

  /** An optional value: Python's `None`, JavaScript's `null`/`undefined`. */
  datatype Option<+T> = None | Some(value: T) {

    /** The wrapped value, or `default` when there is none. */
    function GetOr(default: T): T {
      match this
      case Some(v) => v
      case None => default
    }
  }

  /** Either a value or the error an operation raised instead. */
  datatype Result<+R, +E> = Ok(value: R) | Err(error: E)
}
